=== FILE: README.md ===
# A drone network with source routing, and the servers and clients on it

This project is a Dafny model of a simulated drone network and the applications that run on top of it.

- **Drones** relay packets along a source route written into each packet's header.
- **Clients and servers** sit at the edges of the network. Each keeps a local view of the topology, which it learns by flood discovery. It finds routes in that view by breadth-first search.
- **Messages** are cut into 128-byte fragments. Each fragment is acknowledged hop by hop, and a fragment that cannot be delivered comes back as a NACK that the sender recovers from.
- **Applications** on the edges: chat servers and clients, a web browser with a file cache, and text, media and combined content servers.

The model is functional:

- Every entity is an immutable datatype.
- Every operation is a function from the old state to the new state.
- What an operation sends is recorded in an outbox, and what it reports to the controller in an event log.
- Hash maps are association lists, related to Dafny maps by lemmas.

The modules follow the source:

| area | modules |
|---|---|
| topology and path search | `Topology`, `PathSearch`, `NetworkVariant` |
| routing handler (and its second copy) | `SentBuffer`, `Routing`, `RoutingMessages`, `ViewMerge`, `RoutingVariant` |
| packet dispatch | `Processor` |
| relay drone | `Relay` |
| fragment helpers | `ServerAssembler` |
| configuration check | `ConfigValidator` |
| value types | `ValueTypes`, `Decimal` |
| chat | `ChatTypes`, `ChatServerApp`, `CommunicationServerApp`, `ChatClientApp`, `SimpleChatClient` |
| web | `WebBrowserApp`, `MediaServerApp`, `WebExchange` |
| text and content servers | `ServerMessages`, `TextStore`, `TextServerApp`, `ContentMedia`, `ContentServer` |
| shared helpers | `Wrappers`, `Seqs`, `Assoc`, `Packets`, `AppCommon` |

Third-party code is passed in as arguments:

- JSON and bincode encoding;
- uuid text conversion;
- the drone's random drop decision;
- the fragment reassembler's answer.

Whether a channel send succeeds is part of the state. Each neighbour carries a flag, and `controllerUp` says whether the controller is reachable.

## Model

| member | source | states |
|---|---|---|
| Topology.NewNetwork | common/src/network.rs:94-97 | a new view holds the root node and nothing else |
| Topology.FindNode | common/src/network.rs:102 | the lookup answers the index of the first node carrying the id, and fails exactly when no node carries it |
| Topology.FindNodeIsFirst | common/src/network.rs:102 | the lookup lands on node `i` exactly when no earlier node shares its id |
| Topology.FindNodeUnique | common/src/network.rs:102 | when ids are unique every node is found at its own index |
| Topology.FindNodeSameIds | common/src/network.rs:102 | the lookup depends on the ids alone, not on kinds or adjacency lists |
| Topology.LinkBack | common/src/network.rs:102-108 | one iteration of the `add_node` loop: only the first node with id `adj`, and only when one side is a drone, records `adj`; ids and kinds never change |
| Topology.LinkBackAll | common/src/network.rs:101-110 | over all the new node's adjacents, each existing node gains copies of its own id, one per time it is the first node named, and nothing else |
| Topology.AddNode | common/src/network.rs:100-113 | the new node is appended last; existing nodes keep id and kind and only gain copies of their own id |
| Topology.AddNodeRecordsOwnId | common/src/network.rs:102-108 | every entry `add_node` appends to a node is that node's own id (not the new node's), on a first node the new node names, when one side is a drone |
| Topology.StripAll | common/src/network.rs:115-120 | each adjacency list loses the first occurrence of the removed id, if any |
| Topology.RemoveNode | common/src/network.rs:115-124 | every list loses one occurrence of the id; the first node with the id is deleted, the others keep their order; an absent id only strips the lists |
| Topology.RemoveNodeDropsOneOccurrence | common/src/network.rs:74-79 | each adjacency list holds one occurrence of the removed id fewer, or still none |
| Topology.RemoveNodeShrinks | common/src/network.rs:115-124 | `remove_node` never lengthens the adjacency lists, and shortens them when the id is a neighbour of the local node |
| Topology.AddNodeExtends | common/src/network.rs:100-113 | `add_node` keeps every node at its place with its id and kind, its old list a prefix of the new |
| Topology.UpdateNodeExtends | common/src/network.rs:129-143 | a successful `update_node` keeps every node at its place with its id and kind, its old list a prefix of the new |
| Topology.AddMissing | common/src/network.rs:131-135 | the old adjacency list stays a prefix and the ids afterwards are exactly the union with the given ones |
| Topology.AddMissingFresh | common/src/network.rs:131-135 | only ids the list lacked are appended, each once, so a list without repetitions keeps none |
| Topology.UpdateNode | common/src/network.rs:129-143 | `NodeNotFound(id)` exactly when no node has the id; otherwise only the first such node changes, gaining the missing adjacents |
| Topology.ChangeNodeType | common/src/network.rs:145-149 | only the first node with the id is retyped; ids, lists and other kinds are unchanged; an absent id changes nothing |
| Topology.IdsOfKind | common/src/network.rs:190-197 | the ids collected are exactly the ids of the nodes of that kind |
| Topology.NonEmpty | common/src/network.rs:199-203 | an empty list becomes `None`, any other list is returned as it is |
| Topology.GetServers | common/src/network.rs:189-204 | `None` exactly when no node is a server; otherwise exactly the server ids |
| Topology.GetClients | common/src/network.rs:208-224 | `None` exactly when no node is a client; otherwise exactly the client ids |
| PathSearch.Expand | common/src/network.rs:176-182 | the neighbour loop marks every adjacent visited, and leaves the queue alone when it finds nothing new |
| PathSearch.ExpandQueue | common/src/network.rs:176-182 | the old queue stays in front; the ids enqueued are exactly the unvisited adjacents, each once |
| PathSearch.ExpandParents | common/src/network.rs:176-182 | every newly visited adjacent gets the expanded node as parent; older parents are kept |
| PathSearch.FindPath | common/src/network.rs:154-186 | a route is returned exactly when the destination is reachable from the local node, and it is a walk from the local node with the fewest hops; the local node itself gets the one-node route |
| PathSearch.FindPathFirstHop | common/src/network.rs:154-186 | a route of two or more nodes starts at the local node and continues with one of its neighbours |
| PathSearch.AdjAfterRemove | common/src/network.rs:115-124 | after `remove_node(x)` each node's adjacents are its old ones less one `x`, and `x` has none |
| PathSearch.RemoveNodeWalks | common/src/network.rs:115-124 | every walk of the shrunk view not starting at `x` is a walk of the old view that avoids `x` |
| PathSearch.RemoveNodeCutsPaths | common/src/network.rs:379-396 | the dynamic-update test: when every walk to the destination passes through `x`, `find_path` fails after `remove_node(x)` |
| PathSearch.BfsCorrect | common/src/network.rs:163-185 | from any state satisfying the search invariant, the loop answers exactly when the destination is reachable, with a shortest walk |
| PathSearch.BfsExhausted | common/src/network.rs:163-185 | an empty queue under the invariant means the destination is unreachable |
| PathSearch.BfsFound | common/src/network.rs:164-173 | when the destination is dequeued, the parent chain reversed is a shortest walk from the local node to it |
| PathSearch.ExpandKeepsInv | common/src/network.rs:175-183 | expanding the front node keeps the search invariant: parents, queue levels and closed-set facts |
| PathSearch.ChainPath | common/src/network.rs:165-171 | following parents from a visited node yields a walk from the root of exactly its level plus one nodes |
| SentBuffer.Insert | common/src/routing_handler.rs:27-34 | the packet is appended, unacknowledged, to its `(session, node)` list, a missing list is started, and every other list and the pending queue are unchanged |
| SentBuffer.MarkAsReceived | common/src/routing_handler.rs:36-49 | the entry becomes acknowledged; a list then fully acknowledged is dropped; an unknown key changes nothing; other lists are unchanged |
| SentBuffer.GetFragmentById | common/src/routing_handler.rs:51-66 | a packet is returned exactly when its key and index exist and it is not yet acknowledged, and it is the stored packet |
| SentBuffer.AddPending | common/src/routing_handler.rs:68-70 | the packet joins the end of the pending queue |
| SentBuffer.Drain | common/src/routing_handler.rs:72-75 | the whole pending queue is handed out in order and left empty |
| SentBuffer.InsertThenGet | common/src/routing_handler.rs:27-66 | a packet just recorded is found at the next index of its list |
| SentBuffer.MarkThenGet | common/src/routing_handler.rs:36-66 | once acknowledged, a fragment is no longer handed out for resending |
| SentBuffer.MarkKeepsOthers | common/src/routing_handler.rs:36-66 | acknowledging one `(session, node)` list leaves the lookups of every other list alone |
| SentBuffer.PendingFifo | common/src/routing_handler.rs:68-75 | pending packets come out first in, first out, and the queue is then empty |
| Routing.NewHandler | common/src/routing_handler.rs:91-107 | a new handler's view holds only the local node, with no adjacents; counters are zero, nothing is seen, buffered or sent |
| Routing.RemoveNeighbor | common/src/routing_handler.rs:149-153 | the channel goes, the other channels stay, and the view loses the node as `remove_node` does; nothing else changes |
| Routing.AddNeighbor | common/src/routing_handler.rs:156-159 | the channel is stored (replacing any old one) and only the view changes otherwise; a view without the local node is left alone |
| Routing.AddNeighborAgrees | common/src/routing_handler.rs:156-159 | with the local node at the head of the view, a new neighbour is then listed among its adjacents |
| Routing.AddThenRemoveNeighbor | common/src/routing_handler.rs:469-492 | adding a fresh neighbour and removing it leaves neither a channel nor an adjacent of the local node behind |
| Routing.Send | common/src/routing_handler.rs:112-118 | a dead channel is `SendError` with nothing sent; a live one sends the packet, and the call succeeds exactly when the controller hears of it |
| Routing.SendToFirstHop | common/src/routing_handler.rs:302-314 | a route under two hops sends nothing; a second hop that is not a neighbour is `NodeIsNotANeighbor`; a successful send goes to the second hop and is buffered under the session and own id |
| Routing.TryFindPath | common/src/routing_handler.rs:316-325 | the own id gets the empty route; otherwise a route exists exactly when the destination is reachable, it starts at hop index 1 and has the fewest hops, else `PathNotFound` |
| Routing.TryFindPathAnchored | common/src/routing_handler.rs:316-325 | a route found starts at an adjacent of the local node |
| Routing.WithStatus | common/src/routing_handler.rs:140-144 | the ids kept are exactly those whose channel has the status asked for, in the same order |
| Routing.NeighborsWith | common/src/routing_handler.rs:140-144 | exactly the neighbours with the given channel status, in ascending id order |
| Routing.DropNeighbors | common/src/routing_handler.rs:140-153 | exactly the listed neighbours go; the channels of the others are unchanged |
| Routing.FloodAll | common/src/routing_handler.rs:140-144 | every working neighbour gets the flood request, every broken one is dropped, and with no broken channel the view and neighbours are unchanged |
| Routing.StartFlood | common/src/routing_handler.rs:126-146 | both counters advance; without the controller the call fails with nothing else done; otherwise the controller hears `FloodStarted` and every live neighbour gets a request with an empty route |
| Routing.AfterLoop | common/src/routing_handler.rs:368-372 | `NoNeighborAssigned` exactly when no neighbour is left |
| Routing.Reroute | common/src/routing_handler.rs:348-362 | after a failed first hop, a further round of the corrected loop either removed an adjacent of the local node or found an anchored route, which is what ends the loop; the id, the controller and the flood memory are kept and neighbours are only dropped |
| Routing.Round | common/src/routing_handler.rs:343-366 | one round keeps the id, the controller and the flood memory and never adds or revives a neighbour; each further round of the corrected loop makes the termination measure drop |
| Routing.RoundOutcome | common/src/routing_handler.rs:343-373 | corrected loop (Finding 1): a round either goes on with only the neighbours, the view and the route changed, or ends as `try_send` documents: delivered, queued or unsent with a neighbour left, `NoNeighborAssigned` with none, `ControllerDisconnected` only without the controller, or the panic of a search |
| Routing.RerouteOutcome | common/src/routing_handler.rs:348-362 | corrected loop (Finding 1): the retry after a failed first hop either goes on with only the neighbours, the view and the route changed, or ends as `try_send` documents |
| Routing.FirstHopSent | common/src/routing_handler.rs:344-347 | a successful send to the first hop delivered the packet once to a live hop, reported and buffered, or sent nothing when the route had no first hop |
| Routing.FirstHopFails | common/src/routing_handler.rs:363-364 | a send to the first hop failing other than on a bad hop fails because the controller is lost |
| Routing.RoundWithoutNeighbors | common/src/routing_handler.rs:343-370 | a round without neighbours ends at once with `NoNeighborAssigned` and the handler unchanged |
| Routing.FloodQueues | common/src/routing_handler.rs:354-358 | a flood started after only links changed, with the packet then queued, leaves the packet queued and the flood reported, or `NoNeighborAssigned` when no neighbour is left |
| Routing.OutcomeCarries | common/src/routing_handler.rs:343-366 | rounds change only neighbours, view and route, so the outcome of a later round is an outcome of the whole call |
| Routing.SendLoop | common/src/routing_handler.rs:343-373 | the corrected loop of Finding 1 terminates, ends with the outcome `try_send` documents, and never adds or revives a neighbour |
| Routing.TrySend | common/src/routing_handler.rs:335-373 | corrected `try_send` loop (Finding 1): a packet without hops is `NoDestination`; success means the packet, possibly rerouted, went once to a live first hop, reported and buffered, or was queued for the answer of a flood, or had no first hop to go to; `NoNeighborAssigned` only when no neighbour is left, and at once without neighbours; `ControllerDisconnected` only without the controller, and with it the only other failure is the search panicking on an empty view; no neighbour is added or revived |
| Routing.TrySendDirect | common/src/routing_handler.rs:335-373 | with a working first hop and a listening controller, the packet is sent once to that hop, reported, and buffered |
| Routing.TrySendToSelf | common/src/routing_handler.rs:302-314 | a route that is only the local node is accepted with nothing sent |
| Routing.TrySendEach | common/src/routing_handler.rs:170-172 | corrected `try_send` loop (Finding 1): the packets are sent in turn, stopping at the first error; none means success |
| Routing.TrySendEachDirect | common/src/routing_handler.rs:170-172 | when every first hop works, every packet goes to its first hop, in order, and neighbours and view are unchanged |
| Routing.SendLoopAsWritten | common/src/routing_handler.rs:343-366 | the loop as written, bounded by rounds of fuel: no fuel is no answer, and the handler keeps its id |
| Routing.TrySendAsWritten | common/src/routing_handler.rs:335-373 | `try_send` as written: no hops is `NoDestination`, otherwise the as-written loop towards the last hop |
| Routing.NoAdjacentsReachesOnlyItself | common/src/network.rs:154-186 | a local node without adjacents reaches nothing but itself |
| Routing.StuckRemoveIsNoop | common/src/routing_handler.rs:351 | in a stuck state, removing the route's first hop changes nothing |
| Routing.StuckNoRoute | common/src/routing_handler.rs:353-355 | in a stuck state no route to the destination is found |
| Routing.StuckRequeued | common/src/routing_handler.rs:355-358 | a flood from a stuck state succeeds, queues the packet once more, and leaves the state stuck |
| Routing.StuckRound | common/src/routing_handler.rs:343-366 | one round from a stuck state queues the packet and starts a flood; the source then loops again from a stuck state, the corrected loop returns |
| Routing.StuckAgain | common/src/routing_handler.rs:343-366 | a round of the as-written loop from a stuck state leads to another stuck state |
| Routing.StuckForever | common/src/routing_handler.rs:343-366 | from a stuck state the as-written loop does not end within any number of rounds |
| Routing.StuckQueues | common/src/routing_handler.rs:355-358 | from a stuck state the corrected loop returns success at once, the packet queued |
| Routing.DeadHopRemoval | common/src/routing_handler.rs:149-153 | in the example (client 1, dead neighbour 3, live neighbour 2), dropping 3 yields a stuck state, and dropping it again changes nothing |
| Routing.DeadHopFirstRound | common/src/routing_handler.rs:344-351 | the first round of the example's send fails on 3 and leads to the stuck state |
| Routing.DeadHopNeverReturns | common/src/routing_handler.rs:335-373 | the as-written `try_send` of the example packet never returns |
| Routing.DeadHopQueues | common/src/routing_handler.rs:335-373 | the corrected `try_send` of the example packet returns success, the packet queued and neighbour 3 gone |
| RoutingMessages.HandleFloodResponse | common/src/routing_handler.rs:164-175 | corrected `try_send` loop (Finding 1): a response to another flood is ignored; a response to the current flood merges its trace into the view and, with nothing queued, changes nothing else; identity, controller link and seen floods are kept |
| RoutingMessages.FloodResponseResends | common/src/routing_handler.rs:164-175 | with the controller up and every queued packet's first hop live, a current flood response empties the send queue by delivering every queued packet, and the view takes in the trace |
| RoutingMessages.FloodResponseAddsTrace | common/src/routing_handler.rs:164-201 | after a current flood response every node of its trace is in the view |
| RoutingMessages.PreviousHop | common/src/routing_handler.rs:213-216 | the previous hop is the last node of the trace, or the initiator when the trace is empty |
| RoutingMessages.TraceReturn | common/src/routing_handler.rs:226-243 | the way back is the trace reversed, ending at the initiator, which is appended only when the trace does not already start there |
| RoutingMessages.ReplyRoute | common/src/routing_handler.rs:226-243 | the reply takes a shortest path through the view to the initiator when one exists, else the reversed trace; the hop index starts at 1 |
| RoutingMessages.Except | common/src/routing_handler.rs:257-266 | the neighbours to forward to are exactly those other than the previous hop |
| RoutingMessages.ForwardFlood | common/src/routing_handler.rs:257-266 | forwarding succeeds iff every channel but the previous hop's is open, in which case one copy goes to each such neighbour; a closed channel is a send error; only the outbox changes |
| RoutingMessages.Recorded | common/src/routing_handler.rs:218-224 | recording a request marks the flood as seen and keeps the local node in the view; nothing else changes |
| RoutingMessages.HandleFloodRequest | common/src/routing_handler.rs:208-267 | corrected `try_send` loop (Finding 1): the flood is marked as seen; a seen flood or a lone neighbour is answered with a flood response along the reply route, any other request is forwarded to all neighbours but the previous hop |
| RoutingMessages.FloodRequestForwards | common/src/routing_handler.rs:224-266 | with all channels open a request that is not answered is sent to every neighbour but the previous hop |
| RoutingMessages.ForwardReachesAllButPrevious | common/src/routing_handler.rs:257-266 | the forwarded copies reach each neighbour other than the previous hop, and no other node |
| RoutingMessages.TraceReturnStart | common/src/routing_handler.rs:226-243 | the way back starts at the last node the request passed |
| RoutingMessages.ReplyRouteEnds | common/src/routing_handler.rs:226-254 | a flood response's route starts at the responding node and ends at the flood's initiator |
| RoutingMessages.HandleAck | common/src/routing_handler.rs:416-419 | an acknowledged fragment is marked as received; an acknowledgement the buffer cannot match panics |
| RoutingMessages.AckFromPeerKeepsFragment | common/src/routing_handler.rs:416-419 | an acknowledgement from a peer leaves the node's own copy of that fragment in place |
| RoutingMessages.RetrySend | common/src/routing_handler.rs:425-438 | corrected `try_send` loop (Finding 1): a fragment the buffer does not hold is skipped; a held one is sent again through `try_send`; identity, controller link, seen floods and channels are kept |
| RoutingMessages.RetryUnknownSession | common/src/routing_handler.rs:425-438 | a retry for a session never sent does nothing and succeeds |
| RoutingMessages.NackRepair | common/src/routing_handler.rs:277-292 | a routing error drops the failed neighbour and starts a new flood; a drop does nothing; a drone destination is retyped as a drone; an unexpected recipient panics |
| RoutingMessages.HandleNack | common/src/routing_handler.rs:273-297 | corrected `try_send` loop (Finding 1): after the repair succeeds the fragment is sent again; a failed repair is returned; after a routing error the failed neighbour is gone; an unexpected recipient panics |
| RoutingMessages.NackWithoutController | common/src/routing_handler.rs:273-297 | a routing error on a client without a controller removes the neighbour and fails with the controller disconnected |
| RoutingMessages.SendAck | common/src/routing_handler.rs:444-453 | corrected `try_send` loop (Finding 1): an empty route is `NoDestination`; otherwise the acknowledgement ends as `try_send` documents, and with the controller up and a working first hop it is sent once to that hop, reported, and buffered under the session |
| RoutingMessages.Pad | common/src/routing_handler.rs:394-396 | a chunk is padded with zero bytes to the fragment size, keeping its content as the prefix |
| RoutingMessages.MessagePackets | common/src/routing_handler.rs:393-410 | each chunk becomes the fragment with its index, the chunk count and the padded chunk, all on one route and session |
| RoutingMessages.SendMessage | common/src/routing_handler.rs:378-414 | corrected `try_send` loop (Finding 1): a new session id is taken when none is given, even when no path is found; without a path the path error is returned, otherwise every fragment goes through `try_send` in order |
| RoutingMessages.FragmentsShape | common/src/routing_handler.rs:384-410 | an empty message has no fragments; otherwise the fragment count is the message length divided by the fragment size, rounded up, and each fragment carries its index, the total and a full-size payload |
| RoutingMessages.Padded | common/src/routing_handler.rs:393-398 | padding each chunk keeps the count and pads every chunk |
| RoutingMessages.FragmentsRoundTrip | common/src/routing_handler.rs:384-410 | joining the fragments' payloads in order gives back the message followed only by padding |
| RoutingMessages.PaddedPrefix | common/src/routing_handler.rs:384-410 | when all chunks but the last are full, the padded chunks joined start with the chunks joined |
| RoutingMessages.SendMessageToNeighbor | common/src/routing_handler.rs:378-414 | a message to a live neighbour goes out as its fragments on the direct two-hop route |
| RoutingMessages.DirectRoute | common/src/routing_handler.rs:316-325 | the path to an adjacent node is the two-hop route to it, hop index 1 |
| RoutingMessages.ClientWithNeighborShape | common/src/routing_handler.rs:537-549 | the test client has the local node with neighbour 2, an open channel, a controller and no traffic |
| RoutingMessages.SingleFragment | common/src/routing_handler.rs:384-410 | a message no longer than one fragment is sent as a single padded fragment 0 of 1 |
| RoutingMessages.ShortMessageExample | common/src/routing_handler.rs:535-549 | a short message from the test client goes to neighbour 2 as one fragment in session 1 |
| RoutingMessages.MessageWithoutPath | common/src/routing_handler.rs:378-414 | with the only neighbour's channel closed and no path, sending fails with path-not-found after taking a session id |
| ViewMerge.TraceNeighbors | common/src/routing_handler.rs:179-190 | a trace entry's adjacents are exactly its predecessor and its successor in the trace, where they exist |
| ViewMerge.MergeEntry | common/src/routing_handler.rs:192-199 | merging one entry keeps every existing node's id, kind and list prefix; afterwards the entry's node is present and lists all its trace neighbours; a node the view lacked is appended with exactly those adjacents |
| ViewMerge.MergeUpdated | common/src/routing_handler.rs:192-196 | a successful `update_node` of an entry extends the view and lists all the entry's trace neighbours |
| ViewMerge.MergeAdded | common/src/routing_handler.rs:197-198 | an entry the view lacks is added with exactly its trace neighbours, extending the view |
| ViewMerge.MergeFrom | common/src/routing_handler.rs:178-200 | the merge loop from any entry on extends the view, makes every later entry present and linked to its trace neighbours, and adds only nodes taken from the trace |
| ViewMerge.UpdateNetworkView | common/src/routing_handler.rs:177-201 | the merged view extends the old one, holds every node of the trace, links consecutive trace nodes both ways, and its new nodes come from the trace |
| ViewMerge.TraceIsWalk | common/src/routing_handler.rs:177-201 | after the merge the trace is a walk through the view, forwards and backwards |
| ViewMerge.ReverseWalk | common/src/routing_handler.rs:177-201 | a sequence whose each node is listed by its successor is, reversed, a walk through the view |
| ViewMerge.TraceReachable | common/src/routing_handler.rs:177-201 | when the trace starts at the view's local node, every trace node is found by the path search afterwards, by a path no longer than its trace prefix |
| ViewMerge.ExampleMerge | common/src/routing_handler.rs:177-201 | merging the trace client 1, drones 3 and 4, server 2 into a one-node view gives the view with each link and the drone back-links `add_node` appends |
| ViewMerge.ExampleRoute | common/src/network.rs:154-187 | in that merged view the path search from 1 to server 2 answers 1, 3, 4, 2 |
| ViewMerge.ExampleOnlyRoute | common/src/network.rs:154-187 | 1, 3, 4, 2 is the only loop-free walk of at most four nodes from 1 to 2 in that view |
| NetworkVariant.Accepted | common-main/src/network.rs:68-79 | the adjacents accepted before the loop stops are a prefix; each one names no node or a drone, and the one that stops it names a node that is not a drone |
| NetworkVariant.LinkDronesEffect | common-main/src/network.rs:68-79 | the loop succeeds iff every adjacent is accepted; before it stops, each first-found drone gains its own id once per accepted adjacent naming it, and no other list changes |
| NetworkVariant.AddNode | common-main/src/network.rs:68-83 | on an adjacent naming a non-drone the node is refused with `TopologyError` and not appended; otherwise it is appended last; ids and kinds of existing nodes are kept |
| NetworkVariant.AddNodeOutcome | common-main/src/network.rs:68-83 | success exactly when every adjacent names no node or a drone; the links made before a refusal stay in place |
| NetworkVariant.RemoveNode | common-main/src/network.rs:86-99 | an absent id is `NodeNotFound` with the view unchanged; otherwise one node goes, and with unique ids the id is no longer present |
| NetworkVariant.UpdateNode | common-main/src/network.rs:101-116 | `NodeNotFound` exactly when no node has the id; otherwise only the first such node changes, and its list gains exactly the missing adjacents |
| NetworkVariant.FindPath | common-main/src/network.rs:118-150 | `PathNotFound` exactly when the destination cannot be reached from the first node; otherwise a shortest path from it |
| RoutingVariant.FirstHopSend | common-main/src/routing_handler.rs:277-287 | a packet with at most one hop is taken as sent; a first hop that is not a neighbour is `NodeIsNotANeighbor`; a closed channel is a send error that changes nothing; a live first hop receives the packet; nothing is buffered |
| RoutingVariant.FindRoute | common-main/src/routing_handler.rs:309-315 | the route is found exactly when the destination is reachable, as a shortest path with hop index 1; otherwise `PathNotFound` for it |
| RoutingVariant.VariantLoop | common-main/src/routing_handler.rs:300-325 | the retry loop ends sending the packet once, or with no neighbours left and `NoNeighborAssigned`; it only ever removes channels and never floods or buffers |
| RoutingVariant.VariantTrySend | common-main/src/routing_handler.rs:293-331 | an empty route is `NoDestination`; otherwise the loop's outcome: at most one copy sent, channels only removed, buffer, counters and seen floods untouched |
| RoutingVariant.NoNeighborsRefused | common-main/src/routing_handler.rs:300-327 | with no neighbours the packet is refused with `NoNeighborAssigned` |
| RoutingVariant.NotNeighborReturned | common-main/src/routing_handler.rs:281-321 | a first hop that is not a neighbour is returned as `NodeIsNotANeighbor` at once, without rerouting |
| RoutingVariant.BrokenHopRerouted | common-main/src/routing_handler.rs:305-318 | a closed first hop is removed and the packet rerouted over the remaining view, or the search's error is returned |
| RoutingVariant.VariantSendsOnce | common-main/src/routing_handler.rs:293-331 | with a live first hop and the controller up the packet is sent once and reported |
| RoutingVariant.VariantFloodResponse | common-main/src/routing_handler.rs:146-150 | a response to another flood changes nothing; the current one only merges the trace into the view, never resending |
| RoutingVariant.FloodResponseExample | common-main/src/routing_handler.rs:482-497 | the response with trace drone 2, client 3 adds both nodes to the view and sends nothing |
| RoutingVariant.VariantFloodRequest | common-main/src/routing_handler.rs:183-242 | as in the first copy, but answering goes through the variant send, and forwarding succeeds iff every channel but the previous hop's is open |
| RoutingVariant.VariantRetry | common-main/src/routing_handler.rs:390-404 | a fragment the buffer does not hold is skipped; a held one is sent again through the variant send; the buffer is untouched |
| RoutingVariant.VariantNack | common-main/src/routing_handler.rs:248-270 | the same repair as the first copy, then a retry through the variant send; after a routing error the failed neighbour is gone; a drop or drone report starts no flood |
| RoutingVariant.DroppedResends | common-main/src/routing_handler.rs:248-270 | after a drop, a held fragment with a live first hop is sent again once |
| RoutingVariant.VariantSendAck | common-main/src/routing_handler.rs:409-418 | an empty route is `NoDestination`; a sent acknowledgement is sent at most once; nothing is buffered |
| RoutingVariant.InsertAll | common-main/src/routing_handler.rs:26-33 | inserting packets one by one never touches the queue of packets waiting for a route |
| RoutingVariant.Unacked | common-main/src/routing_handler.rs:26-33 | each inserted packet is recorded as not yet acknowledged, in order |
| RoutingVariant.InsertAllSession | common-main/src/routing_handler.rs:26-33 | the fragments of one session are appended, unacknowledged and in order, under that session and sender, and no other key is touched |
| RoutingVariant.SendFragments | common-main/src/routing_handler.rs:352-371 | each fragment is sent and then buffered under the local node; when all go out the buffer holds all of them; identity and counters are kept |
| RoutingVariant.VariantSendMessage | common-main/src/routing_handler.rs:333-374 | a session id is taken when none is given; an unreachable destination is `PathNotFound` with nothing else changed; on success the route is a shortest path and every fragment is buffered |
| RoutingVariant.SentMessageBuffered | common-main/src/routing_handler.rs:352-371 | after a successful send of a non-empty message its session holds exactly its fragments, unacknowledged, in order |
| RoutingVariant.VariantShortMessage | common-main/src/routing_handler.rs:499-513 | a short message to neighbour 2 goes out as one fragment and is buffered under the local node |
| RoutingVariant.VariantAckFromPeer | common-main/src/routing_handler.rs:515-533 | the test's acknowledgement from node 2 matches nothing, because the fragment was buffered under the sender's own id; the fragment stays pending |
| Processor.ReverseRoute | common/src/packet_processor.rs:23-24 | the acknowledgement route is the fragment's route reversed, with the hop index at 1 |
| Processor.ReverseRouteTwice | common/src/packet_processor.rs:23-24 | reversing a route twice gives back its hops |
| Processor.Discarded | common/src/packet_processor.rs:43-45 | the flood response's outcome is discarded, so only a panic escapes |
| Processor.HandlePacket | common/src/packet_processor.rs:18-48 | corrected `try_send` loop (Finding 1): a fragment is acknowledged first, and a failed acknowledgement ends the handling; an assembled message is delivered with its sender and session; ACK, NACK and flood packets go to the handler with the route's first hop as source |
| Processor.FragmentAckedFirst | common/src/packet_processor.rs:21-25 | with the previous hop live, a fragment's acknowledgement goes back to it along the reversed route |
| Processor.UnroutedFragmentRefused | common/src/packet_processor.rs:21-25 | a fragment with an empty route is refused with `NoDestination` and nothing changes |
| Processor.AckLooksUpPeer | common/src/packet_processor.rs:34-36 | an acknowledgement is matched against the buffer under its sender, so the local node's own copy of the fragment stays |
| Relay.Shortcut | Drone/src/drone/rust_do_it.rs:160-163 | a shortcut only reports the packet to the controller |
| Relay.Forward | Drone/src/drone/rust_do_it.rs:417-447 | a working channel gets the packet and the controller hears it was sent; on a failed send a fragment is reported dropped and anything else shortcut; nothing else changes |
| Relay.Retraced | Drone/src/drone/rust_do_it.rs:285-306 | routing errors and drops retrace the hops before the index; an unexpected recipient retraces through the index with its last hop replaced by the drone; a drone destination retraces through the index; `None` where the source's `unwrap` of the sub-route would fail |
| Relay.GenerateNack | Drone/src/drone/rust_do_it.rs:254-328 | a one-hop route sends the NACK to the controller; otherwise it goes back along the reversed retraced route, panicking when that route has no next hop, and is shortcut when the next hop is not a neighbour; short of a panic it only adds a message or controller event |
| Relay.CheckPacket | Drone/src/drone/rust_do_it.rs:115-200 | the route check, short of a panic, only adds messages and at least one controller event; identity, channels, drop rate and flood memory stay |
| Relay.Advanced | Drone/src/drone/rust_do_it.rs:149-150 | advancing keeps route, session and body and raises the hop index by one |
| Relay.ForwardsToNextHop | Drone/src/drone/rust_do_it.rs:115-200 | a packet at this drone whose next hop is a live neighbour, and that is not a dropped fragment, is forwarded with the index advanced and reported sent |
| Relay.NackRetracesRoute | Drone/src/drone/rust_do_it.rs:137-195 | a fragment or flood request with no next hop, an unknown next hop or a drop is answered back to the previous hop along the travelled route reversed |
| Relay.NackToPrevious | Drone/src/drone/rust_do_it.rs:308-326 | a NACK whose retraced route has a live next hop is sent to it and reported |
| Relay.MisroutedAnswered | Drone/src/drone/rust_do_it.rs:129-135 | a packet whose current hop is another node is answered with `UnexpectedRecipient(self)` along the drone followed by the travelled route reversed |
| Relay.OneHopNackShortcut | Drone/src/drone/rust_do_it.rs:272-283 | a NACK for a one-hop route always goes to the controller |
| Relay.UnroutableControlShortcut | Drone/src/drone/rust_do_it.rs:153-164 | an ACK, NACK or flood response whose next hop is not a neighbour goes to the controller, index advanced |
| Relay.GenerateFloodResponse | Drone/src/drone/rust_do_it.rs:330-380 | the response travels the trace back to the initiator; a route without a next hop gets a `DestinationIsDrone` NACK, and a next hop that is not a neighbour makes it a shortcut |
| Relay.FloodOut | Drone/src/drone/rust_do_it.rs:240-251 | every neighbour but the previous hop yields one controller event; only outbox and events change |
| Relay.FloodOutSends | Drone/src/drone/rust_do_it.rs:240-251 | the copies go exactly to the live neighbours other than the previous hop, in order |
| Relay.Live | Drone/src/drone/rust_do_it.rs:242-245 | exactly the ids whose channel works |
| Relay.LiveSameNeighbors | Drone/src/drone/rust_do_it.rs:242-245 | which ids are live depends on the channels alone |
| Relay.HandleFloodRequest | Drone/src/drone/rust_do_it.rs:203-252 | the drone appends itself to the trace and records the flood; a seen flood or a lone neighbour is answered with a flood response, any other request is forwarded to all neighbours but the previous hop |
| Relay.HandlePacket | Drone/src/drone/rust_do_it.rs:62-78 | flood requests go to flood handling and every other packet to the route check |
| Relay.FloodReachesOthers | Drone/src/drone/rust_do_it.rs:227-251 | a new flood reaches exactly the live neighbours other than the previous hop |
| Relay.RepeatedFloodAnswered | Drone/src/drone/rust_do_it.rs:225-230 | a flood seen before is answered and not forwarded |
| Relay.HandleCommand | Drone/src/drone/rust_do_it.rs:14-59 | `AddSender` inserts or replaces the channel; `RemoveSender` removes it and ignores an absent one; a drop rate outside [0, 1] is ignored; `Crash` drains the queued packets in crash mode, as the source does when `asWritten` and with the corrected crash handling of Finding 2 otherwise |
| Relay.HandleCrashPacketAsWritten | Drone/src/drone/rust_do_it.rs:81-113 | as written, a fragment or flood request is answered on the route as received, so a packet one hop from its source leaves a retraced route too short to send on and the drone panics; other packets are checked as usual |
| Relay.CrashOnDirectFragmentPanics | Drone/src/drone/rust_do_it.rs:81-93 | as written, a fragment received straight from its source during a crash makes the drone panic |
| Relay.CrashPanicExample | Drone/src/drone/rust_do_it.rs:81-93 | as written, drone 11 crashing with the fragment from 1 on route 1, 11, 12, 21 queued panics |
| Relay.HandleCrashPacket | Drone/src/drone/rust_do_it.rs:81-113 | corrected: packets other than fragments and flood requests are checked as usual |
| Relay.CrashPacket | Drone/src/drone/rust_do_it.rs:81-113 | one queued packet at a crash, as written or corrected, either panics or only adds messages and at least one controller event |
| Relay.CrashAll | Drone/src/drone/rust_do_it.rs:40-45 | the queued packets are handled in order; a panic on the first ends the crash; otherwise every packet adds at least one controller event and nothing but messages and events changes |
| Relay.CrashCommandExample | Drone/src/drone/rust_do_it.rs:40-93 | drone 11 told to crash with the fragment from 1 on route 1, 11, 12, 21 queued panics as written, and keeps running with the corrected handling |
| Relay.CrashRefusesToPrevious | Drone/src/drone/rust_do_it.rs:81-93 | corrected: a fragment at a crashing drone is answered with `ErrorInRouting(self)` back to the previous hop, which is live |
| Relay.CrashOnFloodRequestPanics | Drone/src/drone/rust_do_it.rs:95-101 | a flood request queued at a crash has an empty route, so its NACK cannot be routed and the drone panics |
| Relay.AddSenderThenForward | Drone/src/drone/rust_do_it.rs:148-197 | after `AddSender` for the next hop a packet is forwarded to it |
| Relay.ForwardExample | Drone/src/drone/rust_do_it.rs:148-197 | drone 11 forwards the fragment on 1, 11, 12, 21 to 12 with the index at 2 |
| Relay.DropExample | Drone/src/drone/rust_do_it.rs:178-194 | a dropped fragment is reported and answered with `Dropped` along 11, 1 |
| Relay.ErrorInRoutingExample | Drone/src/drone/rust_do_it.rs:153-173 | a next hop 13 that is not a neighbour is answered with `ErrorInRouting(13)` along 11, 1 |
| Relay.UnexpectedRecipientExample | Drone/src/drone/rust_do_it.rs:129-135 | a fragment meant for 12 arriving at 11 is answered with `UnexpectedRecipient(11)` along 11, 1 |
| Relay.DestinationIsDroneExample | Drone/src/drone/rust_do_it.rs:138-147 | a fragment whose route ends at drone 12 is answered with `DestinationIsDrone` along 12, 11, 1 |
| Relay.IsolatedFloodExample | Drone/src/drone/rust_do_it.rs:227-229 | a drone with one neighbour answers a flood at once along the reversed trace |
| Decimal.NatToString | network-initializer/src/parser.rs:85-88 | an id is written as one or more decimal digits with no leading zero, one digit exactly for ids below ten |
| Decimal.DigitsOfNat | network-initializer/src/parser.rs:85-88 | the digits written for a number read back as that number |
| Decimal.NatToStringInjective | network-initializer/src/parser.rs:85-88 | different ids are written differently, so an error message names its node unambiguously |
| Decimal.ParseU8 | common/src/types.rs:49 | reading a `u8` yields at most 255, and refuses the empty text, a lone `+` and any text with a character other than a digit or `+` |
| Decimal.ParseU8OfDisplay | common/src/types.rs:32-49 | a `u8` written in decimal reads back as itself |
| ConfigValidator.DroneIds | network-initializer/src/parser.rs:40 | the drone ids, one per drone, in order |
| ConfigValidator.NodeIds | network-initializer/src/parser.rs:41-42 | the client or server ids, one per node, in order |
| ConfigValidator.AllNodes | network-initializer/src/parser.rs:159-165 | the node map's entries are the drones, clients and servers together |
| ConfigValidator.FirstIndex | network-initializer/src/parser.rs:76-157 | `find` answers the first element passing the test, or none when none does |
| ConfigValidator.IdError | network-initializer/src/parser.rs:40-74 | no error exactly when the three kinds share no id and no kind repeats one; a shared id is reported first, then duplicates among drones, clients, servers, each with the source's message |
| ConfigValidator.PdrError | network-initializer/src/parser.rs:76-78 | `InvalidPdrValue` exactly when some drop rate lies outside [0, 1] |
| ConfigValidator.SelfLinkError | network-initializer/src/parser.rs:80-111 | an `InvalidNodeConnection` exactly when some drone, client or server lists its own id |
| ConfigValidator.FirstEndpointLink | network-initializer/src/parser.rs:113-125 | the first node linking to a client or a server, if any |
| ConfigValidator.ClientError | network-initializer/src/parser.rs:113-136 | no error exactly when no client links to a client or server and each has one or two links |
| ConfigValidator.ServerError | network-initializer/src/parser.rs:138-157 | no error exactly when no server links to a client or server and each has at least two links |
| ConfigValidator.ValidateConfig | network-initializer/src/parser.rs:39-178 | accepted exactly when every check passes; `InvalidPdrValue` exactly when the id checks pass and a rate is out of range; `UnidirectedConnection` exactly when all earlier checks pass and some link to a configured node is not returned |
| ConfigValidator.DisjointCard | network-initializer/src/parser.rs:44-52 | the union of three id sets is as large as their sizes together exactly when they are pairwise disjoint |
| ConfigValidator.SetChecks | network-initializer/src/parser.rs:44-74 | the size comparisons of the source decide exactly disjointness of kinds and absence of duplicates within each kind |
| ConfigValidator.SharedIdRejected | network-initializer/src/parser.rs:52-56 | an id shared between kinds is reported as `DuplicateNodeId` before any other check |
| ConfigValidator.SelfLinkedDroneNamed | network-initializer/src/parser.rs:80-89 | the first drone linked to itself is named in the error |
| ConfigValidator.ClientToEndpointNamed | network-initializer/src/parser.rs:113-125 | the first client linking to a client or server is named in the error |
| ConfigValidator.ClientDegreeNamed | network-initializer/src/parser.rs:127-136 | the first client without one or two links is named in the error |
| ConfigValidator.ServerDegreeNamed | network-initializer/src/parser.rs:152-157 | the first server with fewer than two links is named in the error |
| ConfigValidator.SelfLinkExample | network-initializer/src/parser.rs:80-89 | drone 3 linked to itself is refused as "Drone 3 cannot be connected to itself" |
| ConfigValidator.UnknownLinkAccepted | network-initializer/src/parser.rs:167-175 | a link to an id that is not configured passes the symmetry check |
| ServerAssembler.CreateFragmentPacket | text-server-main/src/assembler.rs:16-39 | the packet carries the route, session, index and total; its length is the data length capped at 128, and the first `length` bytes of the zeroed 128-byte array are the data's |
| ServerAssembler.Slices | text-server-main/src/assembler.rs:56-66 | each piece contributes its first `length` bytes |
| ServerAssembler.PrepareMessage | text-server-main/src/assembler.rs:42-73 | a serialization failure is a `SerializationError` with its text; otherwise one packet per piece, in order, on the route with hop index 1, unless a piece's length exceeds its data, where the source panics |
| ServerAssembler.PayloadsAreSlices | text-server-main/src/assembler.rs:56-70 | each prepared packet's payload is its piece's slice |
| ServerAssembler.PrepareRoundTrip | text-server-main/src/assembler.rs:42-73 | when the pieces' slices join to the serialized message, the packets' payloads join to it too |
| ServerAssembler.Payloads | text-server-main/src/assembler.rs:56-70 | the payload of every packet, in order |
| ServerAssembler.ValidateFragment | text-server-main/src/assembler.rs:82-97 | valid exactly when the index is below the total and the length at most 128; the index error comes first, each message naming the values |
| ServerAssembler.CreatedFragmentValid | text-server-main/src/assembler.rs:82-97 | a fragment built by `create_fragment_packet` is valid exactly when its index is below its total |
| ValueTypes.ShowReference | common/src/types.rs:32-36 | the text of a reference has its first `/` right after the location's digits, and those digits read back as the location |
| ValueTypes.ParseReference | common/src/types.rs:38-51 | as written: text without `/` is refused; a parsed reference's uuid is what the uuid parser makes of the text from the `/` on, separator included |
| ValueTypes.ReferenceTextKeepsSlash | common/src/types.rs:32-51 | as written, reading back a reference's own text hands the uuid parser `/` followed by the uuid's text |
| ValueTypes.ReferenceNeverRoundTrips | common/src/types.rs:32-51 | as written, with a uuid parser that refuses a leading `/`, no reference can be read back from its own text |
| ValueTypes.ParseReferenceCorrected | common/src/types.rs:38-51 | corrected: the location is the `u8` before the first `/` and the uuid is parsed from the text after it |
| ValueTypes.ReferenceRoundTrip | common/src/types.rs:32-51 | corrected: every reference is read back from its own text when the uuid parser reads back its own output |
| ValueTypes.GetMediaIds | common/src/types.rs:79-84 | the uuids of the media references, one per reference, in order |
| ValueTypes.GetSize | common/src/types.rs:125-128 | a media file's size is the number of bytes its chunks hold |
| ValueTypes.FromU8 | common/src/types.rs:104-113 | the media file keeps id and title; its chunks join to the data, each non-empty and at most 1024 bytes, all but the last full |
| ValueTypes.SizeIsFlatLength | common/src/types.rs:125-128 | the sum of the chunk lengths is the length of the joined chunks |
| ValueTypes.FromU8Size | common/src/types.rs:104-128 | a file made from bytes has as its size the byte count, in as many chunks as the count divided by 1024, rounded up |
| ValueTypes.FiveThousandBytes | common-main/src/file_conversion.rs:84-97 | 5000 bytes make five chunks and a size of 5000 |
| ValueTypes.SixByteMedia | server/src/media_server.rs:314-326 | two three-byte chunks have size 6 |
| ValueTypes.NewFile | common/src/types.rs:139-149 | a file takes the id of its text file and keeps the text file and media files |
| ValueTypes.GetFileId | common/src/types.rs:167-177 | an id exactly for file and media queries, the one they carry |
| AppCommon.ApplyNodeCommand | server/src/communication_server.rs:132-137 | `AddSender` stores the channel and `RemoveSender` drops it, and the node keeps running; `Shutdown` changes nothing and stops it; nothing is sent |
| ChatServerApp.NewServer | server/src/communication_server.rs:22-33 | a new chat server has no registered clients and has sent and reported nothing; its controller flag is the router's |
| ChatServerApp.HandleMsg | server/src/communication_server.rs:57-128 | a payload that does not decode changes nothing; every decoded request gets exactly one message in its session: the server type, a registration success, the client list, or a wrong-id error to the sender, or the text stamped with the sender to a registered recipient; only a registration adds to the registered set, and it adds the id it names |
| ChatServerApp.HandleMsgKeepsValid | server/src/communication_server.rs:77-78 | the registered clients stay a set: no id is listed twice |
| ChatServerApp.RegistrationIdempotent | server/src/communication_server.rs:77-78 | registering an id a second time leaves the registered set as it was |
| ChatServerApp.RegisteredIsReachable | server/src/communication_server.rs:77-124 | after an id registers, a message for it is delivered to it, stamped with the sender |
| ChatServerApp.TwoRegistrations | server/src/communication_server.rs:168-181 | after clients 10 and 11 register, exactly those two are registered |
| ChatServerApp.HandleCommand | server/src/communication_server.rs:130-149 | node commands act on the routing handler and only `Shutdown` stops; the registered-clients query is reported to the controller and stops the server only when the controller cannot be reached; registrations and outgoing messages are untouched |
| CommunicationServerApp.NewCommServer | chat-server-main/src/lib.rs:46-54 | a new server has no clients, no names, no history and has sent nothing |
| CommunicationServerApp.ClientNames | chat-server-main/src/lib.rs:193-201 | one name per registered client, in map order |
| CommunicationServerApp.GetClientList | chat-server-main/src/lib.rs:193-201 | the client list holds the name of every registered client, one per client |
| CommunicationServerApp.RegisterClientAsWritten | chat-server-main/src/lib.rs:157-190 | as written: a taken name is refused with `ErrorWrongClientId` and nothing changes; otherwise the id is mapped to the client and the name to the id, and the reply is the new client list |
| CommunicationServerApp.StaleNameAsWritten | chat-server-main/src/lib.rs:157-190 | as written, a registered client re-registering under a new name leaves its old name mapped to it, so the name map no longer matches the client map |
| CommunicationServerApp.RegisterMapsCoherent | chat-server-main/src/lib.rs:157-190 | corrected: dropping the client's previous name while adding the new one keeps the two maps each other's inverse |
| CommunicationServerApp.RegisterClient | chat-server-main/src/lib.rs:157-190 | corrected: as written, except that a re-registering client's previous name is released |
| CommunicationServerApp.RegisterKeepsCoherent | chat-server-main/src/lib.rs:157-190 | corrected: registration keeps every name mapped to the client carrying it and every client's name mapped to it |
| CommunicationServerApp.Register | chat-server-main/src/lib.rs:157-190 | a taken name is refused with nothing changed; otherwise the client is recorded under its id with the new name; history and sends are untouched |
| CommunicationServerApp.RegisteredIsFound | chat-server-main/src/lib.rs:157-190 | after a successful registration the client is found by its name and its name is in the reply |
| CommunicationServerApp.GetClientByName | chat-server-main/src/lib.rs:366-375 | an unknown name finds nothing; otherwise the client stored under the id the name maps to |
| CommunicationServerApp.RemoveClient | chat-server-main/src/lib.rs:339-357 | true exactly when the id was registered, in which case both the client and its name are removed; otherwise nothing changes |
| CommunicationServerApp.RemoveKeepsCoherent | chat-server-main/src/lib.rs:339-357 | removal keeps the two maps coherent, and the removed client's name no longer finds anything |
| CommunicationServerApp.Record | chat-server-main/src/lib.rs:252-260 | the message is appended last; a full history of 1000 loses its oldest entry, so the history never exceeds 1000 |
| CommunicationServerApp.GetMessageHistory | chat-server-main/src/lib.rs:323-336 | without a limit the whole history; with one, its last `limit` entries, or all when fewer |
| CommunicationServerApp.SenderName | chat-server-main/src/lib.rs:226-228 | an unregistered sender is named `Client_` followed by its id |
| CommunicationServerApp.ForwardMessage | chat-server-main/src/lib.rs:204-280 | an unknown target name is answered `ErrorWrongClientId`; otherwise the message is recorded and forwarded as `MessageFrom` with the sender's name, and a failed forward is answered `ErrorWrongClientId` to the sender; registrations are untouched |
| CommunicationServerApp.ForwardIsLatest | chat-server-main/src/lib.rs:242-260 | after forwarding to a known name, the history with limit 1 is exactly that message |
| CommunicationServerApp.ProcessClientMessage | chat-server-main/src/lib.rs:121-154 | an undecodable payload is an error; server type, registration and client list are answered to the sender; a message is forwarded; file and media requests are unsupported; a registration runs the source's `register_client` when `asWritten`, the corrected one of Finding 3 otherwise |
| CommunicationServerApp.ProcessKeepsInvariant | chat-server-main/src/lib.rs:121-280 | every request keeps the history at most 1000 entries; with the corrected registration of Finding 3 every request also keeps the registry coherent |
| CommunicationServerApp.ProcessReRegistrationAsWritten | chat-server-main/src/lib.rs:121-190 | as written, a registered client registering again under a fresh name leaves its old name leading to it and the registry incoherent, whether or not the answer is delivered |
| CommunicationServerApp.HistoryWindow | chat-server-main/src/lib.rs:252-260 | the history after a forward is the old one plus the message, or, when it held 1000, the old one without its first entry plus the message |
| ChatClientApp.NewChatClient | client/src/chat_client.rs:28-50 | a new client knows no servers or clients, has no history, queue, sends or events; its controller flag is the router's |
| ChatClientApp.AddList | client/src/chat_client.rs:56-66 | a new server's list is stored as given; a known server's list gains the ids it lacked |
| ChatClientApp.AddListKnownServer | client/src/chat_client.rs:56-66 | a known server's list keeps its entries first, gains exactly the new ids, and stays free of repeats |
| ChatClientApp.AllRegistered | client/src/chat_client.rs:68-76 | each id any server lists, once |
| ChatClientApp.RegisteredIsUnion | client/src/chat_client.rs:68-76 | an id is registered exactly when some server lists it |
| ChatClientApp.FindDestination | client/src/chat_client.rs:86-93 | a server is found exactly when some server lists the recipient, and the one found lists it |
| ChatClientApp.DestinationIffRegistered | client/src/chat_client.rs:68-93 | a recipient has a destination exactly when it is among the registered clients |
| ChatClientApp.InsertMessage | client/src/chat_client.rs:78-84 | the message is appended to its key's conversation, which is created when missing; other conversations stay |
| ChatClientApp.InsertTwice | client/src/chat_client.rs:78-84 | two insertions under one key append both in order and leave every other conversation alone |
| ChatClientApp.ToEach | client/src/chat_client.rs:112-114 | the request goes once to every known server |
| ChatClientApp.Broadcast | client/src/chat_client.rs:106-116 | with no server known the request is queued; otherwise it is sent to every server and nothing queued |
| ChatClientApp.HandleSendMessage | client/src/chat_client.rs:118-145 | a recipient some server lists gets `MessageFor` through that server and the message joins its conversation unless the controller is unreachable, which stops the client; an unknown recipient's request is queued and a client-list query broadcast |
| ChatClientApp.ReplayOne | client/src/chat_client.rs:175-186 | only queued client-list queries and messages are replayed; other requests are dropped |
| ChatClientApp.Replay | client/src/chat_client.rs:175-187 | replaying never changes identity, servers or registrations |
| ChatClientApp.TrySendPending | client/src/chat_client.rs:169-188 | draining the queue never changes identity, servers or registrations |
| ChatClientApp.ReplayDropsOthers | client/src/chat_client.rs:175-187 | a queue of other requests replays to nothing |
| ChatClientApp.PendingReplaysNewestFirst | client/src/chat_client.rs:169-188 | the queue is drained and replayed newest first |
| ChatClientApp.HandleGetClientsList | client/src/chat_client.rs:153-167 | with no lists yet a client-list query is broadcast; otherwise the registered ids go to the controller, and an unreachable controller stops the client |
| ChatClientApp.HandleCommand | client/src/chat_client.rs:223-247 | the history goes to the controller, stopping when it is unreachable; the list and send commands are handled as above; node commands act on the routing handler |
| ChatClientApp.CommandSequence | client/src/chat_client.rs:373-394 | without a reachable controller the list request is queued and the client continues, then the history request and a send to 10 through server 2 stop it |
| ChatClientApp.HandleMsg | client/src/chat_client.rs:249-303 | every message is first reported to the controller as received; then a chat server's type reply records it and replays the queue; a client list is merged, reported and the queue replayed; a message is stored under its sender as addressed to this client; errors and confirmations are only reported; an undecodable payload changes nothing else |
| ChatClientApp.ServerReplyRecordsServer | client/src/chat_client.rs:258-263 | a chat server's type reply records it as a server |
| ChatClientApp.ClientListRecorded | client/src/chat_client.rs:264-273 | a first list from a server is stored as given and its ids become registered |
| ChatClientApp.MessageStored | client/src/chat_client.rs:274-283 | a message from 20 is the single entry of conversation 20, from 20 to this client |
| SimpleChatClient.HandleCommand | client-main/src/chat_client.rs:84-131 | history and registered ids go to the controller; a send goes to the recipient itself and is recorded after the controller hears of it; a chat command stops the client exactly when the controller is unreachable; node commands act on the routing handler |
| SimpleChatClient.HandleMsg | client-main/src/chat_client.rs:134-156 | the unfinished wrong-id branch panics and nothing else does; a chat server's reply adds it to the servers; a list adds its ids to the one registered set; a message joins its sender's conversation; nothing is sent |
| SimpleChatClient.HandleMsgKeepsValid | client-main/src/chat_client.rs:137-146 | servers and registered ids stay free of repeats |
| SimpleChatClient.ClientListIdempotent | client-main/src/chat_client.rs:142-146 | the same list received twice registers nothing new |
| SimpleChatClient.OnlyChatServersRecorded | client-main/src/chat_client.rs:137-141 | a type reply from any other kind of server changes nothing |
| WebBrowserApp.NewWebBrowser | client/src/web_browser.rs:33-54 | a new browser knows no text servers, caches nothing, has nothing pending and has sent nothing; its controller flag is the router's |
| WebBrowserApp.SetFilesList | client/src/web_browser.rs:64-68 | a server's list is stored only when the server has no entry; an existing entry is kept |
| WebBrowserApp.LocateFile | client/src/web_browser.rs:118-125 | a server is found exactly when some known server's list holds the uuid's text, and the one found does |
| WebBrowserApp.ForwardRequest | client/src/web_browser.rs:151-170 | a request without a file id succeeds unsent; an unparsable id is `UuidParseError`; an id no server lists is `NoLocationError`; otherwise the request goes, without a session, to a server listing it; a failure changes nothing |
| WebBrowserApp.ForwardReachesHolder | client/src/web_browser.rs:151-170 | a forwarded file query reaches a server whose recorded list holds the requested id |
| WebBrowserApp.FindTextFile | client/src/web_browser.rs:74-77 | the first cached text file with the id, or none exactly when no cached text file has it |
| WebBrowserApp.CachedFile | client/src/web_browser.rs:111-116 | a file is found exactly when a cached text file has the id, and it is that text file with its cached media |
| WebBrowserApp.AllFiles | client/src/web_browser.rs:103-109 | one complete file per cache entry, its text file with its media |
| WebBrowserApp.ReferencingFile | client/src/web_browser.rs:79-84 | a cached text file referencing the media id, or none exactly when none references it |
| WebBrowserApp.FindMedia | client/src/web_browser.rs:244-246 | a media file of the list with the id, or none exactly when the list has none |
| WebBrowserApp.CachedMedia | client/src/web_browser.rs:242-248 | a cached media file with the id, or none exactly when no cache entry holds one |
| WebBrowserApp.MediaQueries | client/src/web_browser.rs:128-137 | one media query per reference, sent to the reference's location with the response's session |
| WebBrowserApp.ManageTextFile | client/src/web_browser.rs:127-143 | the text file is cached with no media, each reference's media is queried at its location, and a file without references is reported complete |
| WebBrowserApp.ManageMediaFile | client/src/web_browser.rs:86-101 | media no cached file references are reported as such; otherwise they join the referencing file's media, and the file is reported complete once it holds as many media as references |
| WebBrowserApp.OnlyReferrerFound | client/src/web_browser.rs:79-84 | the only cached file referencing a media id is the one found for it |
| WebBrowserApp.TextThenMediaCompletes | client/src/web_browser.rs:86-143 | a text file with one reference, then that media, makes the complete file the controller is sent |
| WebBrowserApp.StillOnlyReferrer | client/src/web_browser.rs:142 | caching a text file keeps it the only one referencing a media id |
| WebBrowserApp.FirstMediaCompletes | client/src/web_browser.rs:425-448 | a cached file with one reference and no media is completed by that media and reported |
| WebBrowserApp.TextWithoutMediaIsReady | client/src/web_browser.rs:138-142 | a text file without references sends no queries and is reported complete at once |
| WebBrowserApp.Broadcast | client/src/web_browser.rs:177-185 | without a known server list nothing is sent; otherwise every server gets a server-type query |
| WebBrowserApp.TypeQueries | client/src/web_browser.rs:178-183 | one server-type query per server, in order, without a session |
| WebBrowserApp.FetchUncached | client/src/web_browser.rs:191-206 | a file no server is known to list makes the browser broadcast and keep the query pending; otherwise the query is forwarded |
| WebBrowserApp.FetchUncachedQueuesOrSends | client/src/web_browser.rs:187-235 | fetching never touches cache, servers or events; an unlocated query is pending after a broadcast, a located one is sent and nothing is pending |
| WebBrowserApp.HandleGetFile | client/src/web_browser.rs:187-208 | a cached file is reported, stopping only if the controller is gone; otherwise it is fetched and the browser continues |
| WebBrowserApp.HandleGetTextFile | client/src/web_browser.rs:215-235 | a cached text file is reported, stopping only if the controller is gone; otherwise it is fetched |
| WebBrowserApp.HandleGetMediaFiles | client/src/web_browser.rs:237-240 | every cached media file, once each, goes to the controller; the browser stops exactly when the controller is gone |
| WebBrowserApp.HandleGetMediaFile | client/src/web_browser.rs:242-256 | cached media are reported; otherwise a media query goes to the given location and the browser continues |
| WebBrowserApp.HandleCommand | client/src/web_browser.rs:274-307 | the six queries are answered as above; the add and remove commands panic; node commands act on the routing handler, and shutdown stops |
| WebBrowserApp.QueriesStopWithoutController | client/src/web_browser.rs:451-472 | with the controller gone, each of the five queries on a cached file asks to stop |
| WebBrowserApp.RetryPending | client/src/web_browser.rs:319-328 | a pending request is forwarded again and stays pending only while still without a location |
| WebBrowserApp.HandleMsg | client/src/web_browser.rs:309-357 | as written: a text server's reply stores an empty list and sends nothing; a list is stored for an unknown server and the pending request retried; text and media files are managed; a missing file is reported; anything undecodable is ignored |
| WebBrowserApp.ManageTextKeepsValid | client/src/web_browser.rs:127-143 | caching a text file keeps the cache's keys unique |
| WebBrowserApp.ManageMediaKeepsValid | client/src/web_browser.rs:86-101 | adding media keeps the cache's keys unique |
| WebBrowserApp.ListKeepsValid | client/src/web_browser.rs:318-328 | storing a list and retrying keeps the keys unique |
| WebBrowserApp.HandleMsgKeepsValid | client/src/web_browser.rs:309-357 | every message keeps both maps' keys unique |
| WebBrowserApp.AnnouncedServerListIgnored | client/src/web_browser.rs:312-320 | as written, an announced text server is sent no list query, and a list it sends anyway is dropped, leaving it an empty list |
| WebBrowserApp.ListFromUnknownServerStored | client/src/web_browser.rs:385-400 | a list from a server not yet known is stored as sent |
| WebBrowserApp.PendingSentWhenListed | client/src/web_browser.rs:318-328 | a pending query is sent and cleared once a new list holds its file, and stays pending while no list does |
| WebBrowserApp.HandleMsgCorrected | client/src/web_browser.rs:309-357 | corrected: the announcement sends the server a list query and its list replaces the placeholder; every other message is handled as written |
| WebBrowserApp.AnnouncedServerListKept | client/src/web_browser.rs:312-320 | corrected: an announced server is asked for its files and keeps the list it returns |
| MediaServerApp.NewMediaServer | server/src/media_server.rs:23-40 | a new media server stores nothing and has sent and reported nothing; its controller flag is the router's |
| MediaServerApp.AddMedia | server/src/media_server.rs:46-48 | the file is stored under its own id, replacing any file with that id |
| MediaServerApp.RemoveMedia | server/src/media_server.rs:50-52 | the id is no longer stored, and the file it held, if any, is returned |
| MediaServerApp.StoreUpdatesKeepValid | server/src/media_server.rs:46-52 | adding and removing keep every file stored once, under its own id |
| MediaServerApp.AddKeepsValid | server/src/media_server.rs:46-48 | adding keeps every file stored once, under its own id |
| MediaServerApp.RemoveKeepsValid | server/src/media_server.rs:50-52 | removing keeps every file stored once, under its own id |
| MediaServerApp.PutMatches | server/src/media_server.rs:46-48 | inserting a file under its id keeps every key equal to its file's id |
| MediaServerApp.RemoveMatches | server/src/media_server.rs:50-52 | removing a key keeps every remaining key equal to its file's id |
| MediaServerApp.AddThenGetThenRemove | server/src/media_server.rs:42-52 | an added file is found, removing it returns it, and then it is gone |
| MediaServerApp.RemovedCarriesItsId | server/src/media_server.rs:50-52 | a removed file carries the id it was removed under |
| MediaServerApp.MediaList | server/src/media_server.rs:58-65 | one `<uuid>:<title>` line per stored file |
| MediaServerApp.ListAfterAdd | server/src/media_server.rs:278-293 | after an addition the list is not empty and holds the added file's line |
| MediaServerApp.HandleMsg | server/src/media_server.rs:83-153 | every message is reported received; exactly a server-type query or a media query gets one reply, to the sender with its session: the type `MediaServer`, the stored file, `ErrorFileNotFound`, or `BadUuid` for text that is not a uuid; the store never changes |
| MediaServerApp.StoredMediaServed | server/src/media_server.rs:103-124 | a query for a stored file's id text is answered with that file's JSON |
| MediaServerApp.HandleCommand | server/src/media_server.rs:155-258 | shutdown stops and sender commands update the handler; listing, lookup, adding and removal report to the controller and stop only when it is gone; a lookup of an unknown id reports nothing; a failed conversion is reported as an operation error; other commands are ignored; nothing is sent on the network |
| MediaServerApp.HandleCommandKeepsValid | server/src/media_server.rs:155-258 | every command keeps each file stored once under its own id |
| MediaServerApp.AddAndRetrieve | server/src/media_server.rs:295-314 | a file added to a new server is found with its title |
| WebExchange.MediaFetchCompletesFile | client/src/web_browser.rs:86-143 | a text file with one reference, queried from a media server that stores the media, ends with the browser reporting the complete file |
| TextStore.AddFile | text-server-main/src/text_server.rs:243-247 | the file is stored under its id, replacing any file with that id |
| TextStore.GetFile | text-server-main/src/text_server.rs:237-241 | the file stored under the id, or none when nothing is |
| TextStore.GetFileIds | text-server-main/src/text_server.rs:231-235 | exactly the stored ids, each once |
| TextStore.AddThenGet | text-server-main/src/text_server.rs:231-247 | adding keeps each file stored once under its own id; the added file is then found, and the ids gain exactly its id |
| TextStore.PutMatchesIds | text-server-main/src/text_server.rs:243-247 | storing a file under its id keeps every key equal to its file's id |
| TextServerApp.HandleClientMessage | text-server-main/src/text_server.rs:88-122 | the server type is `TextServer`; the list holds exactly the stored ids; a stored file is sent encoded with its byte count, and an encoding failure is the only error; an id not stored is `ErrorRequestedNotFound`; anything else is `ErrorUnsupportedRequest` |
| TextServerApp.AddedFileServed | text-server-main/src/text_server.rs:104-114 | a file just added is served with its encoding whenever the encoder accepts it |
| TextServerApp.ListedIdsAreFound | text-server-main/src/text_server.rs:98-114 | no id the list announces is refused as missing |
| ContentMedia.AddMedia | content-server-main/src/media_handler.rs:329-333 | the media file is stored under its id, replacing any with that id |
| ContentMedia.GetMedia | content-server-main/src/media_handler.rs:323-327 | the media file stored under the id, or none when nothing is |
| ContentMedia.GetMediaIds | content-server-main/src/media_handler.rs:317-321 | exactly the stored ids, each once |
| ContentMedia.AddThenGet | content-server-main/src/media_handler.rs:317-333 | adding keeps ids unique; the added file is found, and the ids gain exactly its id |
| ContentMedia.HandleMessage | content-server-main/src/media_handler.rs:90-113 | only the server-type and media requests are answered: `MediaServer`, the stored bytes, or `ErrorRequestedNotFound`; the handler never fails |
| ContentMedia.ListedMediaServed | content-server-main/src/media_handler.rs:100-106 | a media file just added is served with its content |
| ContentMedia.Names | content-server-main/src/media_handler.rs:342-348 | each file's kind name, in order |
| ContentMedia.Sizes | content-server-main/src/media_handler.rs:338-339 | each file's declared size, in order |
| ContentMedia.GetStats | content-server-main/src/media_handler.rs:335-357 | one file per entry; sizes summed; per kind name the number of files of that kind, an entry only for kinds present, adding up to the file count |
| ContentMedia.SumPut | content-server-main/src/media_handler.rs:349 | replacing a count changes the total by the difference |
| ContentMedia.TallySum | content-server-main/src/media_handler.rs:342-350 | counting a run of files adds its length to the total |
| ContentMedia.TallyCount | content-server-main/src/media_handler.rs:342-350 | counting adds, per name, the number of files of that kind |
| ContentMedia.TallyKeys | content-server-main/src/media_handler.rs:342-350 | a name has an entry exactly when it had one or some counted file has that kind |
| ContentMedia.TallyUnique | content-server-main/src/media_handler.rs:342-350 | counting keeps one entry per name |
| ContentMedia.StatsAfterAdd | content-server-main/src/media_handler.rs:329-357 | adding a new file raises the file count by one, the size by its size, and its kind's count by one, leaving other kinds alone |
| ContentMedia.AppendOne | content-server-main/src/media_handler.rs:338-350 | one more file adds its size to the sum and one to its kind's count |
| ContentMedia.Ascii | content-server-main/src/media_handler.rs:194-236 | an ASCII literal's bytes are its character codes |
| ContentMedia.MockData | content-server-main/src/media_handler.rs:194-203 | exactly `size` bytes, the header first (cut short if need be) and the padding repeated after it |
| ContentMedia.MockImage | content-server-main/src/media_handler.rs:194-203 | `size` bytes of the PNG header, the title, then pixel padding |
| ContentMedia.MockVideo | content-server-main/src/media_handler.rs:207-216 | `size` bytes of the MP4 header, the title, then frame padding |
| ContentMedia.MockSvg | content-server-main/src/media_handler.rs:220-239 | `size` bytes of the SVG document holding the title, then rectangle padding |
| ContentMedia.PaddingFollowsHeader | content-server-main/src/media_handler.rs:198-201 | the first copy of the padding starts right after the header |
| ContentMedia.PaddingPeriodic | content-server-main/src/media_handler.rs:198-201 | the padding repeats with its own length as period |
| ContentServer.TextHandlerMessage | content-server-main/src/text_handler.rs:46-76 | the server type is `TextServer`; the list holds exactly the stored ids; a stored file is sent encoded, an encoding failure being the only error; an absent id is `ErrorRequestedNotFound`; any other message is left to another handler |
| ContentServer.TextHandlersAgree | content-server-main/src/text_handler.rs:46-76 | the content server's text handler answers every text request as the text server does |
| ContentServer.NewContentServer | content-server-main/src/content_server.rs:43-61 | a text handler exists exactly in text-only and combined modes, a media handler exactly in media-only and combined modes |
| ContentServer.HandleClientMessage | content-server-main/src/content_server.rs:104-163 | the type is `MediaServer` in media-only mode, else `TextServer`; other requests go to the text then the media handler as the mode allows; a text error passes through; unanswered requests are `ErrorUnsupportedRequest` |
| ContentServer.HandlersDisjoint | content-server-main/src/content_server.rs:142-155 | apart from the server type, no request is answered by both handlers, so their order in combined mode decides nothing |
| ContentServer.NewAsksByMode | content-server-main/src/content_server.rs:43-61 | a new server consults text unless media-only, and media unless text-only |
| ContentServer.GetServerFileIds | content-server-main/src/content_server.rs:165-172 | ids exactly when a text handler exists, and then exactly its stored ids |
| ContentServer.GetServerFile | content-server-main/src/content_server.rs:174-181 | a file exactly when a text handler exists and stores the id |
| ContentServer.GetServerMediaIds | content-server-main/src/content_server.rs:183-190 | ids exactly when a media handler exists, and then exactly its stored ids |
| ContentServer.GetServerMedia | content-server-main/src/content_server.rs:192-199 | media exactly when a media handler exists and stores the id |
| ContentServer.GetMediaStats | content-server-main/src/content_server.rs:201-208 | statistics exactly when a media handler exists, counting its files |
| ContentServer.AddTextFile | content-server-main/src/content_server.rs:210-218 | a configuration error exactly when there is no text handler; otherwise the file is stored and nothing else changes |
| ContentServer.AddMediaFile | content-server-main/src/content_server.rs:220-228 | a configuration error exactly when there is no media handler; otherwise the file is stored and nothing else changes |
| ContentServer.AddedTextServed | content-server-main/src/content_server.rs:104-218 | a text file added to a server consulting text is found and served |
| ContentServer.AddedMediaServed | content-server-main/src/content_server.rs:104-228 | a media file added to a server consulting media is found and served |
| ContentServer.ModeLimitsService | content-server-main/src/content_server.rs:125-160 | a text-only server never serves media, a media-only one never serves text files or lists |

## Left out

- common/src/assembler.rs is not part of this model: it indexes out of bounds on every new session. `Processor` takes its answer as the input `assembled`.
- Threads, channels, async runtimes and run loops are not modelled. This covers the endpoints' and drones' `run` loops, `Network::discover` of common-main, the tokio locks of the content and text servers, and client-main's and common-main's async plumbing. Each handler is modelled as one call on one input.
- A send over a channel is a flag per neighbour saying whether it succeeds. A send to the controller is the flag `controllerUp` of the endpoints. Where an endpoint ignores the result of a controller send, the event is recorded only while the controller is reachable. The drone has no such flag and records every controller event, since it ignores every such result.
- The drone's random drop decision is the input `dropped`. Packet drop rates are `real`s, and only their range check is modelled.
- Timestamps, `current_timestamp`, `get_stats` and last activity in chat-server-main/src/lib.rs are wall-clock values and are left out. A history entry is sender, target and text.
- `is_client_registered` and `get_registered_clients` in chat-server-main/src/lib.rs are plain map lookups; `ToMap` and `Keys` state them directly.
- The `Display` impls of the error enums and the log lines are text for people and are left out.
- TOML reading in network-initializer/src/parser.rs is file I/O; configuration validation starts from the parsed lists.
- network-initializer/src/errors.rs is not part of this model; the error kinds are a datatype.
- serde_json, bincode and the uuid crate are arguments: `Json`, the `encode` functions, and `UuidText`. Statements that need them to round-trip say so in their `requires`. A plain response enum is taken to encode without failure.
- `SourceRoutingHeader::reverse` is taken to reverse the hops and reset the hop index to 1. `without_loops` is the identity on the repetition-free paths the search returns.
- Hash map and hash set iteration order is insertion order in the association lists and id sequences. The source's `HashMap` and `HashSet` promise no order, so the order fixed below is one of those the source may produce. These members state their result index by index in that order:
  - `CommunicationServerApp.ClientNames`, `CommunicationServerApp.GetClientList`: the values of the clients map;
  - `MediaServerApp.MediaList`, and the `GetMediaFiles` report of `MediaServerApp.HandleCommand`: the values of the stored media;
  - `WebBrowserApp.AllFiles`, and the `GetTextFiles` answer of `WebBrowserApp.HandleCommand`: the cached files;
  - the client list of `ChatServerApp.HandleMsg`: the registered-clients set;
  - `ChatClientApp.ToEach`, `ChatClientApp.Broadcast`: the servers set;
  - `WebBrowserApp.Broadcast`, `WebBrowserApp.TypeQueries`: the text servers map's keys;
  - `WebBrowserApp.LocateFile`, `WebBrowserApp.FindTextFile`, `WebBrowserApp.ReferencingFile`, `WebBrowserApp.CachedMedia`, `ChatClientApp.FindDestination`: these take the first match in that order, which matters only when several entries match;
  - the `GetRegisteredClients` report of `SimpleChatClient.HandleCommand`: the registered set.
- A neighbour map keyed by node id is walked in ascending id order (`SortedIds`), not insertion order. The source walks it in hash order, and ascending order is one of the orders it may produce. The members whose order rests on this walk are:
  - `Routing.NeighborsWith`, `Routing.FloodAll` and `Routing.StartFlood`;
  - `RoutingMessages.ForwardFlood` and `RoutingMessages.HandleFloodRequest`;
  - `RoutingVariant.VariantFloodRequest`;
  - `Relay.FloodOut`, `Relay.FloodOutSends` and `Relay.HandleFloodRequest`.
  
  `RoutingMessages.ForwardReachesAllButPrevious` and `Relay.FloodReachesOthers` state the set of destinations, which holds for every order.
- An endpoint's `controllerUp` and its router's `controllerUp` stand for clones of one controller channel. The constructors copy the router's flag, and node commands and the routing calls keep both. Records built directly, without a constructor, may still set the two apart.
- `discover_servers` in client/src/chat_client.rs is never called and is left out.
- server/src/text_server.rs is not part of this model: every request but the server type reaches `todo!()`.
- The `ClientMessage`, `ServerResponse` and `ServerType` of chat-server-main, content-server-main and text-server-main come from a version of the shared crate whose source is not part of this model. `ServerMessages` rebuilds them from the variants those servers use.
- Application messages are recorded as sent, with their destination and session. Their fragmentation and routing are modelled once, in `Routing` and `RoutingMessages`.
- media-server-main is not part of this model: of it only the library file that names its modules is available.
- The sample files and media each content and text server is seeded with are demonstration data. `create_rust_code_example` and `create_mock_config_archive` return fixed text and are left out.
- Titles reach the mock media generators as bytes, because UTF-8 encoding is not modelled.
- The controller notifications of server/src/communication_server.rs whose send result is ignored (`MessageReceived`, `MessageSent`, `ServerTypeQueried`, `ClientRegistered`, `ClientListQueried`) are not recorded; only the `GetRegisteredClients` report is.
- SentBuffer.MarkAsReceived: requires the index to be in range for a known key, because `mark_as_received` indexes unchecked. `RoutingMessages` turns a failing index into the panic result of `handle_ack`.
- Routing.TrySend: runs the corrected loop of Finding 1. On the input of that finding the source's loop never returns, while the model returns success with the packet queued. `Routing.TrySendAsWritten` keeps the source's loop.
- Routing.TrySendEach: sends each packet through the corrected `try_send`, so it returns where the source can loop forever.
- RoutingMessages.HandleFloodResponse: resends the queued packets through the corrected `try_send`, so it returns where the source can loop forever.
- RoutingMessages.HandleFloodRequest: answers through the corrected `try_send`, so it returns where the source can loop forever.
- RoutingMessages.RetrySend: resends through the corrected `try_send`, so it returns where the source can loop forever.
- RoutingMessages.HandleNack: retries through the corrected `try_send`, so it returns where the source can loop forever.
- RoutingMessages.SendAck: sends through the corrected `try_send`, so it returns where the source can loop forever.
- RoutingMessages.SendMessage: sends every fragment through the corrected `try_send`, so it returns where the source can loop forever.
- Processor.HandlePacket: its acknowledgement, flood and NACK paths run the corrected `try_send`, so it returns where the source can loop forever.
- ValueTypes.ParseReference: `split_at` takes a byte offset, but the source gives it the character position of the `/`. With a non-ASCII character before the `/`, the source panics when that offset falls inside a character, and otherwise refuses the location, which then holds a non-digit. The model refuses both, because UTF-8 byte lengths are not modelled.
- common-main/src/routing_handler.rs calls `Network` methods that common-main/src/network.rs does not define. `RoutingVariant` runs it on the topology of common/src/network.rs.
- The float range handling of the simulation controller, its UI, the network initializer's wiring and every `main.rs` are outside the modelled core.

## Findings

The findings are numbered by their row, 1 to 5; the rows above refer to them as Finding 1 to Finding 5.

| source | as written | input that shows it | evidently intended | confidence | as-written member | corrected member |
|---|---|---|---|---|---|---|
| common/src/routing_handler.rs:335-373 | when no route exists, `try_send` starts a flood, queues the packet and loops again with the same dead first hop | client 1 whose only route to 3 went through neighbour 3, whose channel has died (neighbour 2 still works): the first send fails, 3 is removed, and every later round gets `NodeIsNotANeighbor(3)`, floods and queues the packet again, forever | return once the packet is queued for the flood's answer | not executed | Routing.DeadHopNeverReturns | Routing.DeadHopQueues |
| Drone/src/drone/rust_do_it.rs:81-113 | a crashing drone builds its `ErrorInRouting` NACK on the header it received, before advancing the hop index | drone 11 crashing with fragment route `[1, 11, 12]` at hop index 1 queued: the retraced route is `[1]`, and `current_hop().unwrap()` panics | build the NACK on the advanced header, as the normal path does, so it returns to the previous hop | not executed | Relay.CrashPanicExample | Relay.CrashRefusesToPrevious |
| chat-server-main/src/lib.rs:157-190 | a registered client registering under a new name keeps its old name mapped to it | client 5 registered as "a" registers as "b": "a" still leads to 5, whose record now says "b" | release the old name when the client takes a new one | not executed | CommunicationServerApp.StaleNameAsWritten | CommunicationServerApp.RegisterKeepsCoherent |
| common/src/types.rs:38-51 | `from_str` splits at the first `/`, and the `/` stays at the head of the id part | the reference with location 3 displays as `3/<uuid>`; the uuid parser receives `/<uuid>` and refuses it, so no reference reads back | skip the `/` before parsing the uuid | not executed | ValueTypes.ReferenceNeverRoundTrips | ValueTypes.ReferenceRoundTrip |
| client/src/web_browser.rs:312-320 | a text server's type reply stores an empty file list and calls `forward_request` with the list query, which has no file id and so is never sent; a list arriving later is dropped because the server already has an entry | text server 5 answers the browser's broadcast: the browser sends 5 nothing, and a list from 5 would leave its entry empty | send the list query to the server, and let its list replace the placeholder | not executed | WebBrowserApp.AnnouncedServerListIgnored | WebBrowserApp.AnnouncedServerListKept |

=== FILE: app_common.dfy ===
/**
 * What every application node shares: the controller's node commands,
 * which act on the node's routing handler, and the record of an outgoing
 * application message.
 *
 * An application hands a serialized value to `RoutingHandler::send_message`
 * (modelled in routing.dfy); the application modules record the value
 * itself, its destination and the session it is sent with, and leave the
 * fragmentation and routing to that model.
 */
module AppCommon {

  import opened Wrappers
  import opened Packets
  import opened Routing

  /** An application message handed to the routing handler: destination, value, session. */
  datatype Outgoing<T> = Outgoing(to: NodeId, payload: T, session: Option<nat>)

  /** `NodeCommand`; `live` says whether the new channel accepts sends. */
  datatype NodeCommand = AddSender(node: NodeId, live: bool) | RemoveSender(node: NodeId) | Shutdown

  /**
   * A node command on the routing handler: `AddSender` and `RemoveSender`
   * update the neighbours and the node keeps running; `Shutdown` changes
   * nothing and stops it.
   */
  function ApplyNodeCommand(h: Handler, c: NodeCommand): (r: (Handler, bool))
    ensures r.1 <==> c.Shutdown?
    ensures c.Shutdown? ==> r.0 == h
    ensures c.AddSender? ==> r.0.neighbors == h.neighbors[c.node := c.live]
    ensures c.RemoveSender? ==> r.0.neighbors == h.neighbors - {c.node}
    ensures r.0.outbox == h.outbox && r.0.events == h.events
    ensures r.0.id == h.id && r.0.controllerUp == h.controllerUp
  {
    match c
      case AddSender(n, live) => (AddNeighbor(h, n, live), false)
      case RemoveSender(n) => (RemoveNeighbor(h, n), false)
      case Shutdown => (h, true)
  }
}

=== FILE: assoc.dfy ===
/**
 * Rust's `HashMap` as a list of entries. Iteration order is unspecified in
 * Rust; here it is insertion order, with `insert` of an existing key
 * replacing the value in place. `ToMap` gives the mathematical map a list
 * stands for, and the lemmas at the end show that `Put` and `Remove` act on
 * it exactly as `HashMap::insert` and `HashMap::remove` do.
 */
module Assoc {

  import opened Wrappers
  import opened Seqs

  function Keys<K, V>(a: seq<(K, V)>): (r: seq<K>)
    ensures |r| == |a|
    ensures forall i :: 0 <= i < |a| ==> r[i] == a[i].0
  {
    if a == [] then [] else [a[0].0] + Keys(a[1..])
  }

  function Values<K, V>(a: seq<(K, V)>): (r: seq<V>)
    ensures |r| == |a|
    ensures forall i :: 0 <= i < |a| ==> r[i] == a[i].1
  {
    if a == [] then [] else [a[0].1] + Values(a[1..])
  }

  /** Every key occurs once, as in a `HashMap`. */
  predicate Unique<K(==), V>(a: seq<(K, V)>) {
    NoDup(Keys(a))
  }

  /** `HashMap::get`: the value of the first entry with key `k`. */
  function Get<K(==), V>(a: seq<(K, V)>, k: K): (r: Option<V>)
    ensures r.None? <==> k !in Keys(a)
    ensures r.Some? ==> exists i :: 0 <= i < |a| && a[i] == (k, r.value)
  {
    match IndexOf(Keys(a), k)
      case None => None
      case Some(i) => Some(a[i].1)
  }

  /** `HashMap::insert`: replace the value of an existing key in place, or append a new entry. */
  function Put<K(==), V>(a: seq<(K, V)>, k: K, v: V): (r: seq<(K, V)>)
    ensures k in Keys(a) ==> |r| == |a|
    ensures k !in Keys(a) ==> r == a + [(k, v)]
    decreases |a|
  {
    if a == [] then [(k, v)]
    else
      assert Keys(a) == [a[0].0] + Keys(a[1..]);
      if a[0].0 == k then
        [(k, v)] + a[1..]
      else
        var rest := Put(a[1..], k, v);
        assert k !in Keys(a) ==> [a[0]] + rest == a + [(k, v)] by {
          assert a == [a[0]] + a[1..];
        }
        [a[0]] + rest
  }

  /** `HashMap::remove`: drop the entries with key `k`. */
  function Remove<K(==), V>(a: seq<(K, V)>, k: K): (r: seq<(K, V)>)
    ensures |r| <= |a|
    decreases |a|
  {
    if a == [] then []
    else
      var rest := Remove(a[1..], k);
      if a[0].0 == k then rest else [a[0]] + rest
  }

  /** The key of the first entry whose list holds `x`, or none when no list does. */
  function FirstHolder<K, T(==)>(a: seq<(K, seq<T>)>, x: T): (r: Option<K>)
    ensures r.None? <==> forall i :: 0 <= i < |a| ==> x !in a[i].1
    ensures r.Some? ==> exists i :: 0 <= i < |a| && a[i].0 == r.value && x in a[i].1
    decreases |a|
  {
    if a == [] then None
    else if x in a[0].1 then Some(a[0].0)
    else
      var r := FirstHolder(a[1..], x);
      assert forall i :: 1 <= i < |a| ==> a[i] == a[1..][i - 1];
      r
  }

  /** The map a list stands for; the first entry of a key wins, as in `Get`. */
  function ToMap<K(==), V>(a: seq<(K, V)>): map<K, V>
    decreases |a|
  {
    if a == [] then map[] else ToMap(a[1..])[a[0].0 := a[0].1]
  }

  /** Some entry of a list carries the value the map gives its key. */
  lemma {:induction false} MapEntryIsFirst<K, V>(a: seq<(K, V)>, k: K)
    requires k in ToMap(a)
    ensures exists i :: 0 <= i < |a| && a[i] == (k, ToMap(a)[k])
    decreases |a|
  {
    if a[0].0 != k {
      MapEntryIsFirst(a[1..], k);
      var i :| 0 <= i < |a[1..]| && a[1..][i] == (k, ToMap(a[1..])[k]);
      assert a[i + 1] == (k, ToMap(a)[k]);
    } else {
      assert a[0] == (k, ToMap(a)[k]);
    }
  }

  /** With unique keys, every entry is the mapping of its key. */
  lemma {:induction false} UniqueEntryIsMapping<K, V>(a: seq<(K, V)>, i: nat)
    requires Unique(a) && i < |a|
    ensures a[i].0 in ToMap(a) && ToMap(a)[a[i].0] == a[i].1
    decreases |a|
  {
    if i > 0 {
      assert Keys(a) == [a[0].0] + Keys(a[1..]);
      NoDupCons(a[0].0, Keys(a[1..]));
      assert a[i] == a[1..][i - 1];
      UniqueEntryIsMapping(a[1..], i - 1);
      assert a[i].0 != a[0].0 by {
        assert Keys(a)[i] == a[i].0;
      }
    }
  }

  /** `Get` reads the map the list stands for. */
  lemma {:induction false} GetIsLookup<K, V>(a: seq<(K, V)>, k: K)
    ensures k in ToMap(a) <==> k in Keys(a)
    ensures Get(a, k) == if k in ToMap(a) then Some(ToMap(a)[k]) else None
    decreases |a|
  {
    if a != [] {
      GetIsLookup(a[1..], k);
      assert Keys(a) == [a[0].0] + Keys(a[1..]);
      if a[0].0 != k {
        var i := IndexOf(Keys(a[1..]), k);
        assert IndexOf(Keys(a), k) == if i.None? then None else Some(i.value + 1);
      }
    }
  }

  /** `Put` is `HashMap::insert` on the map the list stands for. */
  lemma {:induction false} PutIsInsert<K, V>(a: seq<(K, V)>, k: K, v: V)
    ensures ToMap(Put(a, k, v)) == ToMap(a)[k := v]
    decreases |a|
  {
    if a != [] {
      var r := Put(a, k, v);
      var m := ToMap(a[1..]);
      assert ToMap(a) == m[a[0].0 := a[0].1];
      if a[0].0 != k {
        PutIsInsert(a[1..], k, v);
        assert r[1..] == Put(a[1..], k, v);
        assert ToMap(r) == m[k := v][a[0].0 := a[0].1];
        MapUpdatesCommute(m, k, v, a[0].0, a[0].1);
      } else {
        assert r[1..] == a[1..];
        assert ToMap(r) == m[k := v];
      }
    }
  }

  /** `Remove` is `HashMap::remove` on the map the list stands for. */
  lemma {:induction false} RemoveIsDelete<K, V>(a: seq<(K, V)>, k: K)
    ensures ToMap(Remove(a, k)) == ToMap(a) - {k}
    decreases |a|
  {
    if a != [] {
      RemoveIsDelete(a[1..], k);
      if a[0].0 != k {
        assert Remove(a, k)[1..] == Remove(a[1..], k);
      }
    }
  }

  lemma MapUpdatesCommute<K, V>(m: map<K, V>, k1: K, v1: V, k2: K, v2: V)
    requires k1 != k2
    ensures m[k1 := v1][k2 := v2] == m[k2 := v2][k1 := v1]
  {
  }

  /** After `Put`, the key reads the new value and every other key reads as before. */
  lemma PutGet<K, V>(a: seq<(K, V)>, k: K, v: V, j: K)
    ensures Get(Put(a, k, v), j) == if j == k then Some(v) else Get(a, j)
  {
    PutIsInsert(a, k, v);
    GetIsLookup(Put(a, k, v), j);
    GetIsLookup(a, j);
  }

  /** `Put` adds its key to the keys and keeps the others. */
  lemma PutKeys<K, V>(a: seq<(K, V)>, k: K, v: V, x: K)
    ensures x in Keys(Put(a, k, v)) <==> x == k || x in Keys(a)
  {
    PutIsInsert(a, k, v);
    GetIsLookup(Put(a, k, v), x);
    GetIsLookup(a, x);
  }

  /** After `Remove`, the key is gone and every other key reads as before. */
  lemma RemoveGet<K, V>(a: seq<(K, V)>, k: K, j: K)
    ensures Get(Remove(a, k), j) == if j == k then None else Get(a, j)
  {
    RemoveIsDelete(a, k);
    GetIsLookup(Remove(a, k), j);
    GetIsLookup(a, j);
  }

  lemma NoDupCons<T>(x: T, s: seq<T>)
    ensures NoDup([x] + s) <==> x !in s && NoDup(s)
  {
    var t := [x] + s;
    if x !in s && NoDup(s) {
      forall i, j | 0 <= i < j < |t| ensures t[i] != t[j] {
        if i > 0 {
          assert t[i] == s[i - 1] && t[j] == s[j - 1];
        } else {
          assert t[j] == s[j - 1];
        }
      }
    }
    if NoDup(t) {
      forall i, j | 0 <= i < j < |s| ensures s[i] != s[j] {
        assert s[i] == t[i + 1] && s[j] == t[j + 1];
      }
      forall i | 0 <= i < |s| ensures s[i] != x {
        assert t[i + 1] == s[i] && t[0] == x;
      }
    }
  }

  /** Both updates keep every key unique. */
  lemma {:induction false} UpdatesKeepUnique<K, V>(a: seq<(K, V)>, k: K, v: V)
    requires Unique(a)
    ensures Unique(Put(a, k, v)) && Unique(Remove(a, k))
    decreases |a|
  {
    if a != [] {
      var x := a[0].0;
      assert Keys(a) == [x] + Keys(a[1..]);
      NoDupCons(x, Keys(a[1..]));
      UpdatesKeepUnique(a[1..], k, v);
      GetIsLookup(a[1..], x);
      if x == k {
        assert Keys(Put(a, k, v)) == [k] + Keys(a[1..]);
        NoDupCons(k, Keys(a[1..]));
      } else {
        var put := Put(a[1..], k, v);
        assert Keys(Put(a, k, v)) == [x] + Keys(put);
        PutIsInsert(a[1..], k, v);
        GetIsLookup(put, x);
        NoDupCons(x, Keys(put));
        var rem := Remove(a[1..], k);
        assert Keys(Remove(a, k)) == [x] + Keys(rem);
        RemoveIsDelete(a[1..], k);
        GetIsLookup(rem, x);
        NoDupCons(x, Keys(rem));
      }
    }
  }
}

=== FILE: buffer.dfy ===
/**
 * The routing handler's record of sent fragments (`Buffer` in
 * common/src/routing_handler.rs): for each `(session, node)` key, the packets
 * sent so far, each with a flag saying whether it has been acknowledged; plus
 * the queue of packets waiting for a route.
 */
module SentBuffer {

  import opened Wrappers
  import opened Packets

  type Key = (nat, NodeId)

  datatype Buffer = Buffer(received: map<Key, seq<(bool, Packet)>>, toSend: seq<Packet>)

  /** `Buffer::new()`. */
  const EmptyBuffer: Buffer := Buffer(map[], [])

  /** Every flag of a list is set. */
  predicate AllAcked(l: seq<(bool, Packet)>) {
    forall k :: 0 <= k < |l| ==> l[k].0
  }

  /** `insert`: the packet joins its key's list, unacknowledged; a missing key starts a new list. */
  function Insert(b: Buffer, p: Packet, session: nat, from: NodeId): (r: Buffer)
    ensures (session, from) in r.received
    ensures r.received[(session, from)] ==
      (if (session, from) in b.received then b.received[(session, from)] else []) + [(false, p)]
    ensures forall k :: k != (session, from) ==> (k in r.received <==> k in b.received)
    ensures forall k :: k != (session, from) && k in b.received ==> r.received[k] == b.received[k]
    ensures r.toSend == b.toSend
  {
    var key := (session, from);
    if key in b.received then b.(received := b.received[key := b.received[key] + [(false, p)]])
    else b.(received := b.received[key := [(false, p)]])
  }

  /** What `mark_as_received` needs: the index it writes exists in the list of a known key. */
  predicate CanMark(b: Buffer, session: nat, index: nat, from: NodeId) {
    (session, from) in b.received ==> index < |b.received[(session, from)]|
  }

  /**
   * `mark_as_received`: the entry at `index` becomes acknowledged, and a list
   * that is then fully acknowledged is dropped; an unknown key changes nothing.
   */
  function MarkAsReceived(b: Buffer, session: nat, index: nat, from: NodeId): (r: Buffer)
    requires CanMark(b, session, index, from)
    ensures (session, from) !in b.received ==> r == b
    ensures (session, from) in b.received ==>
      var l := b.received[(session, from)];
      var l' := l[index := (true, l[index].1)];
      && (AllAcked(l') ==> (session, from) !in r.received)
      && (!AllAcked(l') ==> (session, from) in r.received && r.received[(session, from)] == l')
    ensures forall k :: k != (session, from) ==> (k in r.received <==> k in b.received)
    ensures forall k :: k != (session, from) && k in b.received ==> r.received[k] == b.received[k]
    ensures r.toSend == b.toSend
  {
    var key := (session, from);
    if key in b.received then
      var l := b.received[key];
      var l' := l[index := (true, l[index].1)];
      if AllAcked(l') then b.(received := b.received - {key})
      else b.(received := b.received[key := l'])
    else b
  }

  /**
   * `get_fragment_by_id`: the packet stored at `index` for the key, provided
   * it exists and has not been acknowledged.
   */
  function GetFragmentById(b: Buffer, session: nat, index: nat, from: NodeId): (r: Option<Packet>)
    ensures r.Some? <==>
      (session, from) in b.received && index < |b.received[(session, from)]| && !b.received[(session, from)][index].0
    ensures r.Some? ==> r.value == b.received[(session, from)][index].1
  {
    var key := (session, from);
    if key in b.received && index < |b.received[key]| && !b.received[key][index].0
    then Some(b.received[key][index].1)
    else None
  }

  /** `add_pending_packet`: queued at the back. */
  function AddPending(b: Buffer, p: Packet): (r: Buffer)
    ensures r.toSend == b.toSend + [p] && r.received == b.received
  {
    b.(toSend := b.toSend + [p])
  }

  /** `get_packets_to_send`: the queue in insertion order, and the buffer with an empty queue. */
  function Drain(b: Buffer): (r: (seq<Packet>, Buffer))
    ensures r.0 == b.toSend && r.1.toSend == [] && r.1.received == b.received
  {
    (b.toSend, b.(toSend := []))
  }

  /** A packet inserted under a key can be fetched back at the position it took. */
  lemma InsertThenGet(b: Buffer, p: Packet, session: nat, from: NodeId)
    ensures var n := if (session, from) in b.received then |b.received[(session, from)]| else 0;
      GetFragmentById(Insert(b, p, session, from), session, n, from) == Some(p)
  {
  }

  /** Once acknowledged, a fragment can no longer be fetched for a retry. */
  lemma MarkThenGet(b: Buffer, session: nat, index: nat, from: NodeId)
    requires CanMark(b, session, index, from)
    ensures GetFragmentById(MarkAsReceived(b, session, index, from), session, index, from).None?
  {
  }

  /** Acknowledging under one key never affects retries under another. */
  lemma MarkKeepsOthers(b: Buffer, session: nat, index: nat, from: NodeId, s2: nat, i2: nat, f2: NodeId)
    requires CanMark(b, session, index, from) && (s2, f2) != (session, from)
    ensures GetFragmentById(MarkAsReceived(b, session, index, from), s2, i2, f2) == GetFragmentById(b, s2, i2, f2)
  {
  }

  /** Queued packets come back out in the order they were queued. */
  lemma PendingFifo(b: Buffer, p: Packet, q: Packet)
    ensures Drain(AddPending(AddPending(b, p), q)).0 == b.toSend + [p, q]
    ensures Drain(AddPending(AddPending(b, p), q)).1.toSend == []
  {
  }
}

=== FILE: chat_client_app.dfy ===
/**
 * The chat client of client/src/chat_client.rs: it learns chat servers
 * from their server-type replies and the clients registered at each from
 * client lists, sends messages through the server that lists the
 * recipient, queues requests it cannot send yet, and keeps the history of
 * each conversation.
 *
 * Its `HashMap`s are association lists (assoc.dfy) and its `HashSet` of
 * servers a list without repetitions, so "each server" is list order. A
 * payload that does not decode as a `ChatResponse` arrives as `None`. A
 * controller event is recorded only while the controller is reachable;
 * `PacketReceived` stands for the `NodeEvent::MessageReceived` sent for
 * every incoming message.
 */
module ChatClientApp {

  import opened Wrappers
  import opened Seqs
  import opened Packets
  import opened Topology
  import opened Routing
  import opened Assoc
  import opened AppCommon
  import opened ChatTypes
  import ValueTypes

  datatype ClientEvent =
    | MessageSent(to: NodeId)
    | RegisteredClients(ids: seq<NodeId>)
    | ChatHistory(history: seq<(NodeId, seq<Message>)>)
    | MessageReceived(message: Message)
    | ErrorClientNotFound(location: NodeId, notFound: NodeId)
    | RegistrationSucceeded(to: NodeId)
    | PacketReceived(from: NodeId)

  datatype ChatClient = ChatClient(
    id: NodeId,
    router: Handler,
    registered: seq<(NodeId, seq<NodeId>)>,
    pending: seq<ChatRequest>,
    servers: seq<NodeId>,
    history: seq<(NodeId, seq<Message>)>,
    // a clone of the controller channel the router holds: the same flag as router.controllerUp
    controllerUp: bool,
    outbox: seq<Outgoing<ChatRequest>>,
    events: seq<ClientEvent>)

  /** `ChatClient::new`: nothing known, queued or sent. */
  function NewChatClient(id: NodeId, router: Handler): (c: ChatClient)
    ensures c.registered == [] && c.pending == [] && c.servers == [] && c.history == []
    ensures c.outbox == [] && c.events == []
    ensures c.controllerUp == c.router.controllerUp
  {
    ChatClient(id, router, [], [], [], [], router.controllerUp, [], [])
  }

  function Notify(c: ChatClient, e: ClientEvent): ChatClient {
    if c.controllerUp then c.(events := c.events + [e]) else c
  }

  // ------------------------------------------------------------- registry

  /** The list stored for a server, or none. */
  function ListOf(reg: seq<(NodeId, seq<NodeId>)>, server: NodeId): seq<NodeId> {
    if server in ToMap(reg) then ToMap(reg)[server] else []
  }

  /**
   * `add_list_of_registerd_clients`: a server seen for the first time gets
   * the list as it is; a known server's list gains the ids it lacks, at
   * the end. Other servers' lists do not change.
   */
  function AddList(reg: seq<(NodeId, seq<NodeId>)>, server: NodeId, l: seq<NodeId>): (r: seq<(NodeId, seq<NodeId>)>)
    ensures server !in ToMap(reg) ==> ToMap(r) == ToMap(reg)[server := l]
    ensures server in ToMap(reg) ==> ToMap(r) == ToMap(reg)[server := AddMissing(ToMap(reg)[server], l)]
  {
    GetIsLookup(reg, server);
    match Get(reg, server)
      case Some(list) =>
        PutIsInsert(reg, server, AddMissing(list, l));
        Put(reg, server, AddMissing(list, l))
      case None =>
        PutIsInsert(reg, server, l);
        Put(reg, server, l)
  }

  /** A known server's list keeps its entries in order and gains exactly the new ids, once each. */
  lemma AddListKnownServer(reg: seq<(NodeId, seq<NodeId>)>, server: NodeId, l: seq<NodeId>)
    requires server in ToMap(reg)
    ensures var old0 := ToMap(reg)[server];
      var now := ToMap(AddList(reg, server, l))[server];
      && now[..|old0|] == old0
      && Elems(now) == Elems(old0) + Elems(l)
      && (NoDup(old0) ==> NoDup(now))
  {
    AddMissingFresh(ToMap(reg)[server], l);
  }

  /** `get_registered_clients`: every id some server lists, each once, in order of first appearance. */
  function AllRegistered(reg: seq<(NodeId, seq<NodeId>)>): (r: seq<NodeId>)
    ensures NoDup(r)
    ensures Elems(r) == Elems(Flatten(Values(reg)))
  {
    AddMissingFresh([], Flatten(Values(reg)));
    AddMissing([], Flatten(Values(reg)))
  }

  /** `get_registered_clients` (`AllRegistered`) is the union of the servers' lists: an id is in it iff some server lists it. */
  lemma RegisteredIsUnion(reg: seq<(NodeId, seq<NodeId>)>, x: NodeId)
    ensures x in AllRegistered(reg) <==> exists i :: 0 <= i < |reg| && x in reg[i].1
  {
    var vs := Values(reg);
    InFlatten(vs, x);
    assert x in AllRegistered(reg) <==> x in Elems(Flatten(vs));
    if x in Flatten(vs) {
      var i :| 0 <= i < |vs| && x in vs[i];
      assert x in reg[i].1;
    }
    if exists i :: 0 <= i < |reg| && x in reg[i].1 {
      var i :| 0 <= i < |reg| && x in reg[i].1;
      assert x in vs[i];
    }
  }

  /**
   * `find_destination_by_client_id`: the first server whose list holds the
   * id, or none when no list does.
   */
  function FindDestination(reg: seq<(NodeId, seq<NodeId>)>, to: NodeId): (r: Option<NodeId>)
    ensures r.None? <==> forall i :: 0 <= i < |reg| ==> to !in reg[i].1
    ensures r.Some? ==> exists i :: 0 <= i < |reg| && reg[i].0 == r.value && to in reg[i].1
  {
    FirstHolder(reg, to)
  }

  /** A destination exists exactly for the ids the registered-clients union holds. */
  lemma DestinationIffRegistered(reg: seq<(NodeId, seq<NodeId>)>, to: NodeId)
    ensures FindDestination(reg, to).Some? <==> to in AllRegistered(reg)
  {
    RegisteredIsUnion(reg, to);
  }

  // -------------------------------------------------------------- history

  /** The conversation stored under a key, or none. */
  function ChatOf(hist: seq<(NodeId, seq<Message>)>, key: NodeId): seq<Message> {
    if key in ToMap(hist) then ToMap(hist)[key] else []
  }

  /** `insert_message`: the message is appended to the conversation under `key`, started if need be. */
  function InsertMessage(hist: seq<(NodeId, seq<Message>)>, key: NodeId, m: Message): (r: seq<(NodeId, seq<Message>)>)
    ensures ToMap(r) == ToMap(hist)[key := ChatOf(hist, key) + [m]]
  {
    GetIsLookup(hist, key);
    match Get(hist, key)
      case Some(chat) =>
        PutIsInsert(hist, key, chat + [m]);
        Put(hist, key, chat + [m])
      case None =>
        PutIsInsert(hist, key, [m]);
        assert ChatOf(hist, key) + [m] == [m];
        Put(hist, key, [m])
  }

  /** Inserting twice under one key leaves both messages last, in order, and other keys alone. */
  lemma InsertTwice(hist: seq<(NodeId, seq<Message>)>, key: NodeId, m1: Message, m2: Message, other: NodeId)
    requires other != key
    ensures ChatOf(InsertMessage(InsertMessage(hist, key, m1), key, m2), key) == ChatOf(hist, key) + [m1, m2]
    ensures ChatOf(InsertMessage(InsertMessage(hist, key, m1), key, m2), other) == ChatOf(hist, other)
  {
  }

  // -------------------------------------------------------------- sending

  /** One request to each server, in list order. */
  function ToEach(servers: seq<NodeId>, req: ChatRequest): (r: seq<Outgoing<ChatRequest>>)
    ensures |r| == |servers|
    ensures forall i :: 0 <= i < |servers| ==> r[i] == Outgoing(servers[i], req, None)
  {
    seq(|servers|, i requires 0 <= i < |servers| => Outgoing(servers[i], req, None))
  }

  /** `broadcast`: with no known chat server the request is queued; otherwise it goes to every server. */
  function Broadcast(c: ChatClient, req: ChatRequest): (r: ChatClient)
    ensures c.servers == [] ==> r == c.(pending := c.pending + [req])
    ensures c.servers != [] ==> r == c.(outbox := c.outbox + ToEach(c.servers, req))
  {
    if c.servers == [] then c.(pending := c.pending + [req])
    else c.(outbox := c.outbox + ToEach(c.servers, req))
  }

  /**
   * `handle_send_message`: when a server lists the recipient, `MessageFor`
   * goes to that server and the message joins the recipient's history
   * after the controller has heard of it; an unreachable controller stops
   * the client before the history is written. For an unknown recipient the
   * request is queued and a client-list query is broadcast.
   */
  function HandleSendMessage(c: ChatClient, m: Message): (r: (ChatClient, bool))
    ensures r.0.id == c.id && r.0.router == c.router && r.0.controllerUp == c.controllerUp
    ensures r.0.registered == c.registered && r.0.servers == c.servers && c.events <= r.0.events
    ensures var dest := FindDestination(c.registered, m.to);
      && (dest.Some? ==>
        && r.0.outbox == c.outbox + [Outgoing(dest.value, MessageFor(m.to, m.text), None)]
        && r.0.pending == c.pending
        && (r.1 <==> !c.controllerUp)
        && (c.controllerUp ==> ToMap(r.0.history) == ToMap(c.history)[m.to := ChatOf(c.history, m.to) + [m]])
        && (!c.controllerUp ==> r.0.history == c.history))
      && (dest.None? ==>
        && !r.1
        && r.0.history == c.history
        && r.0 == Broadcast(c.(pending := c.pending + [MessageFor(m.to, m.text)]), ClientListQuery))
  {
    var req := MessageFor(m.to, m.text);
    match FindDestination(c.registered, m.to)
      case Some(dest) =>
        var sent := c.(outbox := c.outbox + [Outgoing(dest, req, None)]);
        if !c.controllerUp then (sent, true)
        else (Notify(sent, MessageSent(m.to)).(history := InsertMessage(c.history, m.to, m)), false)
      case None =>
        (Broadcast(c.(pending := c.pending + [req]), ClientListQuery), false)
  }

  /** Replays one drained request: a list query is broadcast, a message sent, anything else dropped. */
  function ReplayOne(c: ChatClient, req: ChatRequest): (r: ChatClient)
    ensures r.id == c.id && r.router == c.router && r.controllerUp == c.controllerUp
    ensures r.registered == c.registered && r.servers == c.servers && c.events <= r.events
    ensures !req.ClientListQuery? && !req.MessageFor? ==> r == c
  {
    match req
      case ClientListQuery => Broadcast(c, ClientListQuery)
      case MessageFor(to, text) => HandleSendMessage(c, Message(c.id, to, text)).0
      case _ => c
  }

  /** Replays drained requests in the given order. */
  function Replay(c: ChatClient, reqs: seq<ChatRequest>): (r: ChatClient)
    ensures r.id == c.id && r.router == c.router && r.controllerUp == c.controllerUp
    ensures r.registered == c.registered && r.servers == c.servers && c.events <= r.events
    decreases |reqs|
  {
    if reqs == [] then c else Replay(ReplayOne(c, reqs[0]), reqs[1..])
  }

  /**
   * `try_send_pending_requests`: the queue is emptied and its requests
   * replayed newest first.
   */
  function TrySendPending(c: ChatClient): (r: ChatClient)
    ensures r.id == c.id && r.router == c.router && r.controllerUp == c.controllerUp
    ensures r.registered == c.registered && r.servers == c.servers && c.events <= r.events
  {
    Replay(c.(pending := []), Reverse(c.pending))
  }

  /** Only list queries and messages survive a replay; a queue of other requests just empties. */
  lemma {:induction false} ReplayDropsOthers(c: ChatClient, reqs: seq<ChatRequest>)
    requires forall i :: 0 <= i < |reqs| ==> !reqs[i].ClientListQuery? && !reqs[i].MessageFor?
    ensures Replay(c, reqs) == c
    decreases |reqs|
  {
    if reqs != [] {
      ReplayDropsOthers(c, reqs[1..]);
    }
  }

  /**
   * With a server listing both recipients, two queued messages are sent
   * in the reverse of the order they were queued.
   */
  lemma PendingReplaysNewestFirst(c: ChatClient, a: NodeId, b: NodeId, ta: string, tb: string)
    requires c.servers != [] && c.controllerUp
    requires FindDestination(c.registered, a).Some? && FindDestination(c.registered, b).Some?
    requires c.pending == [MessageFor(a, ta), MessageFor(b, tb)]
    ensures var r := TrySendPending(c);
      && r.pending == []
      && r.outbox == c.outbox + [Outgoing(FindDestination(c.registered, b).value, MessageFor(b, tb), None),
                                 Outgoing(FindDestination(c.registered, a).value, MessageFor(a, ta), None)]
  {
    var reqs := [MessageFor(b, tb), MessageFor(a, ta)];
    assert Reverse(c.pending) == reqs;
    var c0 := c.(pending := []);
    var c1 := ReplayOne(c0, reqs[0]);
    var c2 := ReplayOne(c1, reqs[1]);
    assert c1.outbox == c.outbox + [Outgoing(FindDestination(c.registered, b).value, MessageFor(b, tb), None)];
    assert c1.pending == [];
    assert c2.outbox == c1.outbox + [Outgoing(FindDestination(c.registered, a).value, MessageFor(a, ta), None)];
    assert reqs[1..][1..] == [];
    assert Replay(c0, reqs) == Replay(c1, reqs[1..]);
    assert Replay(c1, reqs[1..]) == Replay(c2, reqs[1..][1..]);
  }

  // ------------------------------------------------------------- commands

  /**
   * `handle_get_clients_list`: with no list yet a client-list query is
   * broadcast; otherwise the union of the lists goes to the controller,
   * and an unreachable controller stops the client.
   */
  function HandleGetClientsList(c: ChatClient): (r: (ChatClient, bool))
    ensures c.registered == [] ==> r == (Broadcast(c, ClientListQuery), false)
    ensures c.registered != [] ==>
      && (r.1 <==> !c.controllerUp)
      && r.0 == Notify(c, RegisteredClients(AllRegistered(c.registered)))
  {
    if c.registered == [] then (Broadcast(c, ClientListQuery), false)
    else (Notify(c, RegisteredClients(AllRegistered(c.registered))), !c.controllerUp)
  }

  datatype Command = NodeCmd(node: NodeCommand) | ChatCmd(chat: ChatCommand)

  /**
   * `handle_command`: the chat commands report the history, report or ask
   * for the registered clients, or send a message; the node commands act
   * on the routing handler, `Shutdown` stopping the client.
   */
  function HandleCommand(c: ChatClient, cmd: Command): (r: (ChatClient, bool))
    ensures cmd == ChatCmd(GetChatsHistory) ==> r == (Notify(c, ChatHistory(c.history)), !c.controllerUp)
    ensures cmd == ChatCmd(GetRegisteredClients) ==> r == HandleGetClientsList(c)
    ensures cmd.ChatCmd? && cmd.chat.SendMessage? ==> r == HandleSendMessage(c, cmd.chat.message)
    ensures cmd.NodeCmd? ==> r == (c.(router := ApplyNodeCommand(c.router, cmd.node).0), cmd.node.Shutdown?)
  {
    match cmd
      case ChatCmd(GetChatsHistory) => (Notify(c, ChatHistory(c.history)), !c.controllerUp)
      case ChatCmd(GetRegisteredClients) => HandleGetClientsList(c)
      case ChatCmd(SendMessage(m)) => HandleSendMessage(c, m)
      case NodeCmd(n) =>
        var (h, stop) := ApplyNodeCommand(c.router, n);
        (c.(router := h), stop)
  }

  /**
   * The command sequence of the client's own test, with the controller
   * unreachable: asking for the clients with no list queues the query and
   * continues; after a list `[10, 11]` from server 2, asking for the
   * history stops, and so does sending a message to 10 (which is sent
   * through server 2 first).
   */
  lemma CommandSequence(router: Handler)
    ensures var c0 := NewChatClient(1, router.(controllerUp := false));
      var (c1, stop1) := HandleCommand(c0, ChatCmd(GetRegisteredClients));
      var c2 := c1.(registered := [(2, [10, 11])]);
      var (c3, stop3) := HandleCommand(c2, ChatCmd(GetChatsHistory));
      var (c4, stop4) := HandleCommand(c3, ChatCmd(SendMessage(Message(1, 10, "Outgoing message"))));
      && !stop1 && c1.pending == [ClientListQuery]
      && stop3 && stop4
      && c4.outbox == [Outgoing(2, MessageFor(10, "Outgoing message"), None)]
  {
  }

  // ------------------------------------------------------------- messages

  /**
   * `handle_msg`: every message is first reported as received. Then a chat
   * server's server-type reply records the server and replays the queue; a
   * client list is merged into the server's list, reported, and the queue
   * replayed; a message is recorded under its sender as addressed to this
   * client; an error or a registration confirmation is only reported.
   */
  function HandleMsg(c: ChatClient, msg: Option<ChatResponse>, from: NodeId): (r: ChatClient)
    ensures r.id == c.id && r.router == c.router
    ensures c.controllerUp ==> |r.events| > |c.events| && r.events[|c.events|] == PacketReceived(from)
    ensures msg.None? ==> r == Notify(c, PacketReceived(from))
    ensures msg == Some(ServerTypeReply(ValueTypes.ChatServer)) ==>
      r == TrySendPending(Notify(c, PacketReceived(from)).(servers := AddMissing(c.servers, [from])))
    ensures msg.Some? && msg.value.ServerTypeReply? && msg.value.serverType != ValueTypes.ChatServer ==>
      r == Notify(c, PacketReceived(from))
    ensures msg.Some? && msg.value.ClientList? ==>
      var merged := Notify(c, PacketReceived(from)).(registered := AddList(c.registered, from, msg.value.ids));
      r == TrySendPending(Notify(merged, RegisteredClients(AllRegistered(merged.registered))))
    ensures msg.Some? && msg.value.MessageFrom? ==>
      var m := Message(msg.value.clientId, c.id, msg.value.message);
      && r.registered == c.registered && r.pending == c.pending && r.outbox == c.outbox
      && ToMap(r.history) == ToMap(c.history)[msg.value.clientId := ChatOf(c.history, msg.value.clientId) + [m]]
    ensures msg.Some? && (msg.value.ErrorWrongClientId? || msg.value.RegistrationSuccess?) ==>
      r.history == c.history && r.registered == c.registered && r.outbox == c.outbox && r.pending == c.pending
  {
    var c0 := Notify(c, PacketReceived(from));
    match msg
      case None => c0
      case Some(ServerTypeReply(t)) =>
        if t == ValueTypes.ChatServer then TrySendPending(c0.(servers := AddMissing(c.servers, [from]))) else c0
      case Some(ClientList(ids)) =>
        var merged := c0.(registered := AddList(c.registered, from, ids));
        TrySendPending(Notify(merged, RegisteredClients(AllRegistered(merged.registered))))
      case Some(MessageFrom(id, text)) =>
        var m := Message(id, c.id, text);
        Notify(c0, MessageReceived(m)).(history := InsertMessage(c.history, id, m))
      case Some(ErrorWrongClientId(w)) => Notify(c0, ErrorClientNotFound(from, w))
      case Some(RegistrationSuccess) => Notify(c0, RegistrationSucceeded(from))
  }

  /** A chat server's server-type reply makes it a known server. */
  lemma ServerReplyRecordsServer(c: ChatClient, from: NodeId)
    ensures from in HandleMsg(c, Some(ServerTypeReply(ValueTypes.ChatServer)), from).servers
  {
    assert from in Elems(AddMissing(c.servers, [from]));
  }

  /** A first client list from a server is stored for it as sent, and its ids become registered. */
  lemma ClientListRecorded(c: ChatClient, from: NodeId, ids: seq<NodeId>, x: NodeId)
    requires from !in ToMap(c.registered)
    ensures var r := HandleMsg(c, Some(ClientList(ids)), from);
      ToMap(r.registered)[from] == ids && (x in ids ==> x in AllRegistered(r.registered))
  {
    var r := HandleMsg(c, Some(ClientList(ids)), from);
    var reg := r.registered;
    if x in ids {
      MapEntryIsFirst(reg, from);
      RegisteredIsUnion(reg, x);
    }
  }

  /** A message from client 20 starts its conversation: from 20, to this client, with the text. */
  lemma MessageStored(c: ChatClient, text: string)
    requires c.history == []
    ensures ChatOf(HandleMsg(c, Some(MessageFrom(20, text)), 5).history, 20) == [Message(20, c.id, text)]
  {
  }
}

=== FILE: chat_server_app.dfy ===
/**
 * The chat server of server/src/communication_server.rs: a set of
 * registered client ids, a reply to each decoded request, and the
 * controller's commands.
 *
 * The registered `HashSet` is a list without repetitions, in the order of
 * registration. A payload that does not decode as a `ChatRequest` arrives
 * as `None`.
 */
module ChatServerApp {

  import opened Wrappers
  import opened Seqs
  import opened Packets
  import opened Topology
  import opened Routing
  import opened AppCommon
  import opened ChatTypes
  import ValueTypes

  datatype ServerState = ServerState(
    id: NodeId,
    router: Handler,
    registered: seq<NodeId>,
    // a clone of the controller channel the router holds: the same flag as router.controllerUp
    controllerUp: bool,
    outbox: seq<Outgoing<ChatResponse>>,
    reports: seq<seq<NodeId>>)

  /** Every registered id is listed once. */
  predicate Valid(s: ServerState) {
    NoDup(s.registered)
  }

  /** `ChatServer::new`: nobody is registered and nothing has been sent. */
  function NewServer(id: NodeId, router: Handler): (s: ServerState)
    ensures Valid(s) && s.registered == [] && s.outbox == [] && s.reports == []
    ensures s.controllerUp == s.router.controllerUp
  {
    ServerState(id, router, [], router.controllerUp, [], [])
  }

  function Reply(s: ServerState, to: NodeId, resp: ChatResponse, session: nat): ServerState {
    s.(outbox := s.outbox + [Outgoing(to, resp, Some(session))])
  }

  /**
   * `handle_msg`: every decoded request is answered with exactly one
   * message sent with the request's session. A server-type query, a
   * registration, a client-list query and a message for an unregistered id
   * are answered to the sender; a message for a registered id goes to that
   * id, stamped with the sender. Only a registration changes the registered
   * set, by adding the id the request names.
   */
  function HandleMsg(s: ServerState, msg: Option<ChatRequest>, from: NodeId, session: nat): (r: ServerState)
    ensures r.id == s.id && r.router == s.router && r.controllerUp == s.controllerUp && r.reports == s.reports
    ensures msg.None? ==> r == s
    ensures Elems(r.registered) == Elems(s.registered) +
      (if msg.Some? && msg.value.RegistrationToChat? then {msg.value.clientId} else {})
    ensures msg.Some? ==> |r.outbox| == |s.outbox| + 1 && r.outbox[..|s.outbox|] == s.outbox
    ensures msg == Some(ServerTypeQuery) ==>
      r.outbox[|s.outbox|] == Outgoing(from, ServerTypeReply(ValueTypes.ChatServer), Some(session))
    ensures msg.Some? && msg.value.RegistrationToChat? ==>
      r.outbox[|s.outbox|] == Outgoing(from, RegistrationSuccess, Some(session))
    ensures msg == Some(ClientListQuery) ==>
      r.outbox[|s.outbox|] == Outgoing(from, ClientList(s.registered), Some(session))
    ensures msg.Some? && msg.value.MessageFor? && msg.value.clientId !in s.registered ==>
      r.outbox[|s.outbox|] == Outgoing(from, ErrorWrongClientId(msg.value.clientId), Some(session))
    ensures msg.Some? && msg.value.MessageFor? && msg.value.clientId in s.registered ==>
      r.outbox[|s.outbox|] == Outgoing(msg.value.clientId, MessageFrom(from, msg.value.message), Some(session))
  {
    match msg
      case None => s
      case Some(ServerTypeQuery) => Reply(s, from, ServerTypeReply(ValueTypes.ChatServer), session)
      case Some(RegistrationToChat(c)) =>
        assert Elems([c]) == {c};
        Reply(s.(registered := AddMissing(s.registered, [c])), from, RegistrationSuccess, session)
      case Some(ClientListQuery) => Reply(s, from, ClientList(s.registered), session)
      case Some(MessageFor(c, m)) =>
        if c !in s.registered then Reply(s, from, ErrorWrongClientId(c), session)
        else Reply(s, c, MessageFrom(from, m), session)
  }

  /** Handling a message keeps every registered id listed once. */
  lemma HandleMsgKeepsValid(s: ServerState, msg: Option<ChatRequest>, from: NodeId, session: nat)
    requires Valid(s)
    ensures Valid(HandleMsg(s, msg, from, session))
  {
    if msg.Some? && msg.value.RegistrationToChat? {
      AddMissingFresh(s.registered, [msg.value.clientId]);
    }
  }

  /** Registering an id a second time changes nothing but the reply. */
  lemma RegistrationIdempotent(s: ServerState, c: NodeId, from: NodeId, session: nat, from2: NodeId, session2: nat)
    ensures var once := HandleMsg(s, Some(RegistrationToChat(c)), from, session);
      HandleMsg(once, Some(RegistrationToChat(c)), from2, session2).registered == once.registered
  {
    var once := HandleMsg(s, Some(RegistrationToChat(c)), from, session);
    assert c in once.registered by {
      assert c in Elems(once.registered);
    }
    assert AddMissing(once.registered, [c]) == AddMissing(once.registered, []);
  }

  /** Once an id has registered, a message for it is forwarded to it rather than refused. */
  lemma RegisteredIsReachable(s: ServerState, c: NodeId, from: NodeId, session: nat, sender: NodeId, text: string, session2: nat)
    ensures var once := HandleMsg(s, Some(RegistrationToChat(c)), from, session);
      var r := HandleMsg(once, Some(MessageFor(c, text)), sender, session2);
      r.outbox[|once.outbox|] == Outgoing(c, MessageFrom(sender, text), Some(session2))
  {
    var once := HandleMsg(s, Some(RegistrationToChat(c)), from, session);
    assert c in Elems(once.registered);
  }

  /** Two clients register; both are listed, and nothing else. */
  lemma TwoRegistrations(router: Handler)
    ensures var s := HandleMsg(HandleMsg(NewServer(1, router.(controllerUp := true)), Some(RegistrationToChat(10)), 10, 100),
                               Some(RegistrationToChat(11)), 11, 101);
      Elems(s.registered) == {10, 11} && |s.registered| == 2
  {
    var s0 := NewServer(1, router.(controllerUp := true));
    var s1 := HandleMsg(s0, Some(RegistrationToChat(10)), 10, 100);
    var s2 := HandleMsg(s1, Some(RegistrationToChat(11)), 11, 101);
    HandleMsgKeepsValid(s0, Some(RegistrationToChat(10)), 10, 100);
    HandleMsgKeepsValid(s1, Some(RegistrationToChat(11)), 11, 101);
    DistinctCard(s2.registered);
  }

  datatype Command = NodeCmd(node: NodeCommand) | ChatCmd(chat: ChatCommand)

  /**
   * `handle_command`: `Shutdown` stops the server and the sender commands
   * update the routing handler; `GetRegisteredClients` reports the
   * registered ids to the controller and stops the server only if the
   * controller cannot be reached. The other chat commands are ignored.
   */
  function HandleCommand(s: ServerState, cmd: Command): (r: (ServerState, bool))
    ensures r.0.registered == s.registered && r.0.outbox == s.outbox
    ensures r.1 <==> cmd == NodeCmd(Shutdown) || (cmd == ChatCmd(GetRegisteredClients) && !s.controllerUp)
    ensures cmd.NodeCmd? ==> r.0 == s.(router := ApplyNodeCommand(s.router, cmd.node).0)
    ensures r.0.reports == s.reports +
      (if cmd == ChatCmd(GetRegisteredClients) && s.controllerUp then [s.registered] else [])
  {
    match cmd
      case NodeCmd(c) =>
        var (h, stop) := ApplyNodeCommand(s.router, c);
        (s.(router := h), stop)
      case ChatCmd(GetRegisteredClients) =>
        if s.controllerUp then (s.(reports := s.reports + [s.registered]), false) else (s, true)
      case ChatCmd(_) => (s, false)
  }
}

=== FILE: chat_types.dfy ===
/**
 * The chat protocol's values (common/src/types.rs): requests a client sends
 * a chat server, the server's responses, chat messages and the chat
 * commands of the controller.
 */
module ChatTypes {

  import opened Packets
  import ValueTypes

  datatype ChatRequest =
    | ServerTypeQuery
    | RegistrationToChat(clientId: NodeId)
    | ClientListQuery
    | MessageFor(clientId: NodeId, message: string)

  /**
   * `ChatResponse`. The chat server and client in server/ and client/ give
   * `ErrorWrongClientId` the offending id; the enum in common/src/types.rs
   * has it bare.
   */
  datatype ChatResponse =
    | ServerTypeReply(serverType: ValueTypes.ServerType)
    | ClientList(ids: seq<NodeId>)
    | MessageFrom(clientId: NodeId, message: string)
    | ErrorWrongClientId(wrongId: NodeId)
    | RegistrationSuccess

  datatype Message = Message(from: NodeId, to: NodeId, text: string)

  datatype ChatCommand = GetChatsHistory | GetRegisteredClients | SendMessage(message: Message)
}

=== FILE: communication_server_app.dfy ===
/**
 * The communication server of chat-server-main/src/lib.rs: clients
 * register under a name, ask for the list of names and send each other
 * messages by name; the server keeps the last 1000 forwarded messages.
 *
 * The two `HashMap`s (id to client, name to id) are association lists
 * (assoc.dfy). Timestamps are left out, so a registered client is its id
 * and name and a history entry has no time. Whether a send to a node
 * succeeds is the argument `up`: the set of nodes a send reaches.
 */
module CommunicationServerApp {

  import opened Wrappers
  import opened Seqs
  import opened Packets
  import opened Decimal
  import opened Assoc
  import opened AppCommon
  import opened ServerMessages

  datatype RegisteredClient = RegisteredClient(id: NodeId, name: string)

  datatype ChatMessage = ChatMessage(fromId: NodeId, fromName: string, toId: NodeId, toName: string, message: string)

  /** The history keeps at most this many messages. */
  const HistoryLimit: nat := 1000

  datatype CommServer = CommServer(
    id: NodeId,
    clients: seq<(NodeId, RegisteredClient)>,
    names: seq<(string, NodeId)>,
    history: seq<ChatMessage>,
    outbox: seq<Outgoing<ServerResponse>>)

  datatype Failure = Undecodable | SendFailed(to: NodeId)

  datatype Outcome = Outcome(s: CommServer, result: Result<(), Failure>)

  /** `CommunicationServer::new`. */
  function NewCommServer(id: NodeId): (s: CommServer)
    ensures Coherent(s) && |s.history| <= HistoryLimit && s.clients == [] && s.outbox == []
  {
    CommServer(id, [], [], [], [])
  }

  /** `ServerBase::send_message`: the response reaches `to` if `to` is in `up`; otherwise an error. */
  function SendTo(s: CommServer, to: NodeId, resp: ServerResponse, up: set<NodeId>): Outcome {
    if to in up then Outcome(s.(outbox := s.outbox + [Outgoing(to, resp, None)]), Ok(()))
    else Outcome(s, Err(SendFailed(to)))
  }

  // --------------------------------------------------------------- registry

  /** The id-to-client map and the name-to-id map describe the same registrations. */
  predicate CoherentMaps(cm: map<NodeId, RegisteredClient>, nm: map<string, NodeId>) {
    && (forall n :: n in nm ==> nm[n] in cm && cm[nm[n]].name == n)
    && (forall i :: i in cm ==> cm[i].id == i && cm[i].name in nm && nm[cm[i].name] == i)
  }

  predicate Coherent(s: CommServer) {
    CoherentMaps(ToMap(s.clients), ToMap(s.names))
  }

  /** The names of the registered clients, in the order of the id map. */
  function ClientNames(clients: seq<(NodeId, RegisteredClient)>): (r: seq<string>)
    ensures |r| == |clients|
    ensures forall i :: 0 <= i < |r| ==> r[i] == clients[i].1.name
  {
    if clients == [] then [] else [clients[0].1.name] + ClientNames(clients[1..])
  }

  /** `get_client_list`: the name of every registered client, one entry per client. */
  function GetClientList(s: CommServer): (r: ServerResponse)
    ensures r.ClientList? && |r.names| == |s.clients|
    ensures forall i :: 0 <= i < |s.clients| ==> r.names[i] == s.clients[i].1.name
  {
    ClientList(ClientNames(s.clients))
  }

  /**
   * `register_client` as written: a taken name is refused with
   * `ErrorWrongClientId` and nothing changes; otherwise the id maps to the
   * client and the name to the id, and the reply lists every name. An id
   * that registers again under a new name keeps its old name mapped.
   */
  function RegisterClientAsWritten(s: CommServer, id: NodeId, name: string): (r: (CommServer, ServerResponse))
    ensures name in Keys(s.names) ==> r == (s, ErrorWrongClientId)
    ensures name !in Keys(s.names) ==>
      && ToMap(r.0.clients) == ToMap(s.clients)[id := RegisteredClient(id, name)]
      && ToMap(r.0.names) == ToMap(s.names)[name := id]
      && r.1 == GetClientList(r.0)
    ensures r.0.history == s.history && r.0.outbox == s.outbox
  {
    if name in Keys(s.names) then (s, ErrorWrongClientId)
    else
      PutIsInsert(s.clients, id, RegisteredClient(id, name));
      PutIsInsert(s.names, name, id);
      var t := s.(clients := Put(s.clients, id, RegisteredClient(id, name)), names := Put(s.names, name, id));
      (t, GetClientList(t))
  }

  /**
   * A registered client that registers again under a fresh name leaves its
   * old name mapped to it: the maps no longer agree, and the old name still
   * leads to the client's id.
   */
  lemma StaleNameAsWritten(s: CommServer, id: NodeId, name: string)
    requires Coherent(s) && id in ToMap(s.clients) && name !in Keys(s.names)
    ensures var t := RegisterClientAsWritten(s, id, name).0;
      !Coherent(t) && Get(t.names, ToMap(s.clients)[id].name) == Some(id)
  {
    var prev := ToMap(s.clients)[id].name;
    GetIsLookup(s.names, name);
    var t := RegisterClientAsWritten(s, id, name).0;
    GetIsLookup(t.names, prev);
    assert ToMap(t.names)[prev] == id && ToMap(t.clients)[id].name == name;
  }

  /** A registration on coherent maps, dropping the old name of a re-registering id. */
  function RegisterMaps(cm: map<NodeId, RegisteredClient>, nm: map<string, NodeId>, id: NodeId, name: string): map<string, NodeId> {
    (if id in cm then nm - {cm[id].name} else nm)[name := id]
  }

  lemma RegisterMapsCoherent(cm: map<NodeId, RegisteredClient>, nm: map<string, NodeId>, id: NodeId, name: string)
    requires CoherentMaps(cm, nm) && name !in nm
    ensures CoherentMaps(cm[id := RegisteredClient(id, name)], RegisterMaps(cm, nm, id, name))
  {
    var cm2 := cm[id := RegisteredClient(id, name)];
    var nm2 := RegisterMaps(cm, nm, id, name);
    forall n | n in nm2 ensures nm2[n] in cm2 && cm2[nm2[n]].name == n {
      if n != name {
        assert n in nm && nm2[n] == nm[n];
        assert nm[n] != id;
      }
    }
    forall i | i in cm2 ensures cm2[i].id == i && cm2[i].name in nm2 && nm2[cm2[i].name] == i {
      if i != id {
        assert cm[i].name in nm && cm[i].name != name;
        assert id in cm ==> cm[i].name != cm[id].name;
      }
    }
  }

  /**
   * `register_client`, corrected: as written, except that an id registering
   * again first gives up its previous name, so every name maps to the
   * client that holds it.
   */
  function RegisterClient(s: CommServer, id: NodeId, name: string): (r: (CommServer, ServerResponse))
    ensures name in Keys(s.names) ==> r == (s, ErrorWrongClientId)
    ensures name !in Keys(s.names) ==>
      && ToMap(r.0.clients) == ToMap(s.clients)[id := RegisteredClient(id, name)]
      && ToMap(r.0.names) == RegisterMaps(ToMap(s.clients), ToMap(s.names), id, name)
      && r.1 == GetClientList(r.0)
    ensures r.0.history == s.history && r.0.outbox == s.outbox
  {
    if name in Keys(s.names) then (s, ErrorWrongClientId)
    else
      var kept := match Get(s.clients, id)
        case None => s.names
        case Some(prev) => Remove(s.names, prev.name);
      GetIsLookup(s.clients, id);
      RemoveIsDelete(s.names, if id in ToMap(s.clients) then ToMap(s.clients)[id].name else name);
      PutIsInsert(s.clients, id, RegisteredClient(id, name));
      PutIsInsert(kept, name, id);
      var t := s.(clients := Put(s.clients, id, RegisteredClient(id, name)), names := Put(kept, name, id));
      (t, GetClientList(t))
  }

  /** The corrected registration keeps the two maps in agreement. */
  lemma RegisterKeepsCoherent(s: CommServer, id: NodeId, name: string)
    requires Coherent(s)
    ensures Coherent(RegisterClient(s, id, name).0)
  {
    if name !in Keys(s.names) {
      GetIsLookup(s.names, name);
      RegisterMapsCoherent(ToMap(s.clients), ToMap(s.names), id, name);
    }
  }

  /** After a successful registration the name finds the client, and the reply lists it. */
  lemma RegisteredIsFound(s: CommServer, id: NodeId, name: string)
    requires name !in Keys(s.names)
    ensures GetClientByName(RegisterClient(s, id, name).0, name) == Some(RegisteredClient(id, name))
    ensures name in RegisterClient(s, id, name).1.names
  {
    var t := RegisterClient(s, id, name).0;
    GetIsLookup(t.names, name);
    GetIsLookup(t.clients, id);
  }

  /** `get_client_by_name`: the client the name maps to, if the name is known and the id still registered. */
  function GetClientByName(s: CommServer, name: string): (r: Option<RegisteredClient>)
    ensures name !in Keys(s.names) ==> r.None?
    ensures r.Some? ==> Get(s.names, name).Some? && Get(s.clients, Get(s.names, name).value) == r
  {
    match Get(s.names, name)
      case None => None
      case Some(id) => Get(s.clients, id)
  }

  /**
   * `remove_client`: true exactly when the id is registered; then the id
   * and its current name are dropped and nothing else changes.
   */
  function RemoveClient(s: CommServer, id: NodeId): (r: (CommServer, bool))
    ensures r.1 <==> id in Keys(s.clients)
    ensures !r.1 ==> r.0 == s
    ensures r.1 ==>
      && id in ToMap(s.clients)
      && ToMap(r.0.clients) == ToMap(s.clients) - {id}
      && ToMap(r.0.names) == ToMap(s.names) - {ToMap(s.clients)[id].name}
    ensures r.0.history == s.history && r.0.outbox == s.outbox
  {
    GetIsLookup(s.clients, id);
    match Get(s.clients, id)
      case None => (s, false)
      case Some(c) =>
        RemoveIsDelete(s.clients, id);
        RemoveIsDelete(s.names, c.name);
        (s.(clients := Remove(s.clients, id), names := Remove(s.names, c.name)), true)
  }

  /** Removing a client keeps the maps in agreement, and its name no longer finds anyone. */
  lemma RemoveKeepsCoherent(s: CommServer, id: NodeId)
    requires Coherent(s)
    ensures Coherent(RemoveClient(s, id).0)
    ensures id in ToMap(s.clients) ==>
      GetClientByName(RemoveClient(s, id).0, ToMap(s.clients)[id].name).None?
  {
    GetIsLookup(s.clients, id);
    var r := RemoveClient(s, id).0;
    if id in Keys(s.clients) {
      var cm := ToMap(s.clients);
      var nm := ToMap(s.names);
      var cm2 := ToMap(r.clients);
      var nm2 := ToMap(r.names);
      forall n | n in nm2 ensures nm2[n] in cm2 && cm2[nm2[n]].name == n {
        assert n in nm && n != cm[id].name;
        assert nm[n] != id;
      }
      GetIsLookup(r.names, cm[id].name);
    }
  }

  // ---------------------------------------------------------------- history

  /** Appends to the history, dropping the oldest entry once there are more than 1000. */
  function Record(h: seq<ChatMessage>, m: ChatMessage): (r: seq<ChatMessage>)
    ensures |h| <= HistoryLimit ==> |r| <= HistoryLimit
    ensures |h| < HistoryLimit ==> r == h + [m]
    ensures |h| == HistoryLimit ==> r == h[1..] + [m]
    ensures |r| > 0 && r[|r| - 1] == m
  {
    var g := h + [m];
    if |g| > HistoryLimit then g[1..] else g
  }

  /**
   * `get_message_history`: with a limit, the last `limit` messages (all of
   * them if there are fewer), oldest first; without one, the whole history.
   */
  function GetMessageHistory(s: CommServer, limit: Option<nat>): (r: seq<ChatMessage>)
    ensures limit.None? ==> r == s.history
    ensures limit.Some? ==> |r| == if limit.value < |s.history| then limit.value else |s.history|
    ensures s.history == s.history[..|s.history| - |r|] + r
  {
    var start := match limit
      case Some(n) => if |s.history| > n then |s.history| - n else 0
      case None => 0;
    assert s.history == s.history[..start] + s.history[start..];
    s.history[start..]
  }

  // ------------------------------------------------------------- forwarding

  /** The name a sender is shown under: its registered name, or `Client_<id>`. */
  function SenderName(s: CommServer, from: NodeId): (r: string)
    ensures from !in Keys(s.clients) ==> r == "Client_" + NatToString(from)
  {
    match Get(s.clients, from)
      case Some(c) => c.name
      case None => "Client_" + NatToString(from)
  }

  /**
   * `forward_message`: an unknown target name gets `ErrorWrongClientId`
   * back to the sender and nothing else happens. Otherwise the message is
   * recorded in the history and forwarded to the target as `MessageFrom`
   * with the sender's name; if that send fails, the sender gets
   * `ErrorWrongClientId` instead. Only a failed send to the sender is an
   * error.
   */
  function ForwardMessage(s: CommServer, from: NodeId, target: string, message: string, up: set<NodeId>): (r: Outcome)
    ensures r.s.clients == s.clients && r.s.names == s.names
    ensures target !in Keys(s.names) ==> r == SendTo(s, from, ErrorWrongClientId, up)
    ensures target in Keys(s.names) ==>
      var to := Get(s.names, target).value;
      && r.s.history == Record(s.history, ChatMessage(from, SenderName(s, from), to, target, message))
      && (to in up ==> r.result.Ok? && r.s.outbox == s.outbox + [Outgoing(to, MessageFrom(SenderName(s, from), message), None)])
      && (to !in up ==> r.s.outbox == s.outbox + (if from in up then [Outgoing(from, ErrorWrongClientId, None)] else [])
                        && (r.result.Ok? <==> from in up))
  {
    match Get(s.names, target)
      case None => SendTo(s, from, ErrorWrongClientId, up)
      case Some(to) =>
        var fromName := SenderName(s, from);
        var t := s.(history := Record(s.history, ChatMessage(from, fromName, to, target, message)));
        if to in up then SendTo(t, to, MessageFrom(fromName, message), up)
        else SendTo(t, from, ErrorWrongClientId, up)
  }

  /** Forwarding to a known name puts the message last in the history, and a limit of one returns it. */
  lemma ForwardIsLatest(s: CommServer, from: NodeId, target: string, message: string, up: set<NodeId>)
    requires target in Keys(s.names)
    ensures var r := ForwardMessage(s, from, target, message, up);
      GetMessageHistory(r.s, Some(1)) ==
        [ChatMessage(from, SenderName(s, from), Get(s.names, target).value, target, message)]
  {
  }

  // ---------------------------------------------------------------- dispatch

  /** The registration a dispatcher runs: the source's when `asWritten`, else the corrected one. */
  function Register(s: CommServer, id: NodeId, name: string, asWritten: bool): (r: (CommServer, ServerResponse))
    ensures name in Keys(s.names) ==> r == (s, ErrorWrongClientId)
    ensures name !in Keys(s.names) ==> ToMap(r.0.clients) == ToMap(s.clients)[id := RegisteredClient(id, name)]
    ensures r.0.history == s.history && r.0.outbox == s.outbox
  {
    if asWritten then RegisterClientAsWritten(s, id, name) else RegisterClient(s, id, name)
  }

  /**
   * `process_client_message`: an undecodable payload is an error; a
   * server-type request, a registration and a client-list request are
   * answered to the sender; a message is forwarded by `ForwardMessage`;
   * any other request gets `ErrorUnsupportedRequest`. A failed send of the
   * answer is an error, and a registration made before it stays made. The
   * registration is the source's when `asWritten`, else the corrected one.
   */
  function ProcessClientMessage(s: CommServer, from: NodeId, msg: Option<ClientMessage>, up: set<NodeId>, asWritten: bool)
    : (r: Outcome)
    ensures msg.None? ==> r == Outcome(s, Err(Undecodable))
    ensures msg == Some(ServerTypeRequest) ==> r == SendTo(s, from, ServerType(CommunicationServer), up)
    ensures msg == Some(ClientListRequest) ==> r == SendTo(s, from, GetClientList(s), up)
    ensures msg.Some? && msg.value.RegistrationToChat? ==>
      var (t, resp) := Register(s, from, msg.value.name, asWritten);
      r == SendTo(t, from, resp, up)
    ensures msg.Some? && msg.value.MessageFor? ==>
      r == ForwardMessage(s, from, msg.value.target, msg.value.message, up)
    ensures msg.Some? && (msg.value.FilesListRequest? || msg.value.FileRequest? || msg.value.MediaRequest?) ==>
      r == SendTo(s, from, ErrorUnsupportedRequest, up)
  {
    match msg
      case None => Outcome(s, Err(Undecodable))
      case Some(ServerTypeRequest) => SendTo(s, from, ServerType(CommunicationServer), up)
      case Some(RegistrationToChat(name)) =>
        var (t, resp) := Register(s, from, name, asWritten);
        SendTo(t, from, resp, up)
      case Some(ClientListRequest) => SendTo(s, from, GetClientList(s), up)
      case Some(MessageFor(target, message)) => ForwardMessage(s, from, target, message, up)
      case Some(_) => SendTo(s, from, ErrorUnsupportedRequest, up)
  }

  /**
   * Every request keeps the history within 1000 entries; with the
   * corrected registration it also keeps the registry coherent.
   */
  lemma ProcessKeepsInvariant(s: CommServer, from: NodeId, msg: Option<ClientMessage>, up: set<NodeId>, asWritten: bool)
    requires |s.history| <= HistoryLimit
    ensures |ProcessClientMessage(s, from, msg, up, asWritten).s.history| <= HistoryLimit
    ensures !asWritten && Coherent(s) ==> Coherent(ProcessClientMessage(s, from, msg, up, asWritten).s)
  {
    if !asWritten && Coherent(s) && msg.Some? && msg.value.RegistrationToChat? {
      RegisterKeepsCoherent(s, from, msg.value.name);
    }
  }

  /**
   * As written, a registered client that registers again under a fresh
   * name, whether or not the answer reaches it, leaves the server with its
   * old name still leading to it and the registry no longer coherent.
   */
  lemma ProcessReRegistrationAsWritten(s: CommServer, from: NodeId, name: string, up: set<NodeId>)
    requires Coherent(s) && from in ToMap(s.clients) && name !in Keys(s.names)
    ensures var t := ProcessClientMessage(s, from, Some(RegistrationToChat(name)), up, true).s;
      !Coherent(t) && Get(t.names, ToMap(s.clients)[from].name) == Some(from)
  {
    StaleNameAsWritten(s, from, name);
  }

  /** Forwarding grows the history by one message until it holds 1000; then the oldest goes. */
  lemma HistoryWindow(s: CommServer, from: NodeId, target: string, message: string, up: set<NodeId>)
    requires target in Keys(s.names) && |s.history| <= HistoryLimit
    ensures var h := ForwardMessage(s, from, target, message, up).s.history;
      && |h| == (if |s.history| < HistoryLimit then |s.history| + 1 else HistoryLimit)
      && h[..|h| - 1] == (if |s.history| < HistoryLimit then s.history else s.history[1..])
  {
  }
}

=== FILE: config_validator.dfy ===
/**
 * The network configuration check (`Validate::validate_config` in
 * network-initializer/src/parser.rs): a fixed sequence of tests over the
 * configured drones, clients and servers; the first test that fails
 * decides the error, and a configuration passing all of them is accepted.
 *
 * Reading the TOML file is not part of this model; a drone's packet drop
 * rate is a `real`.
 */
module ConfigValidator {

  import opened Wrappers
  import opened Seqs
  import opened Packets
  import opened Decimal

  datatype DroneConf = DroneConf(id: NodeId, links: seq<NodeId>, pdr: real)

  /** A client or server entry: its id and `connected_drone_ids`. */
  datatype NodeConf = NodeConf(id: NodeId, links: seq<NodeId>)

  datatype Config = Config(drones: seq<DroneConf>, clients: seq<NodeConf>, servers: seq<NodeConf>)

  datatype ConfigError =
    | InvalidConfig(msg: string)
    | InvalidNodeConnection(msg: string)
    | DuplicateNodeId(msg: string)
    | InvalidPdrValue
    | UnidirectedConnection

  function DroneIds(ds: seq<DroneConf>): (r: seq<NodeId>)
    ensures |r| == |ds| && forall i :: 0 <= i < |ds| ==> r[i] == ds[i].id
  {
    seq(|ds|, i requires 0 <= i < |ds| => ds[i].id)
  }

  /**
   * `DroneIds` for clients and servers. It is kept apart because the two
   * record types share no field Dafny could project generically.
   */
  function NodeIds(ns: seq<NodeConf>): (r: seq<NodeId>)
    ensures |r| == |ns| && forall i :: 0 <= i < |ns| ==> r[i] == ns[i].id
  {
    seq(|ns|, i requires 0 <= i < |ns| => ns[i].id)
  }

  function DroneSet(c: Config): set<NodeId> { Elems(DroneIds(c.drones)) }
  function ClientSet(c: Config): set<NodeId> { Elems(NodeIds(c.clients)) }
  function ServerSet(c: Config): set<NodeId> { Elems(NodeIds(c.servers)) }

  /** Every configured node as (id, links), drones first: the source's `node_map` entries. */
  function AllNodes(c: Config): (r: seq<NodeConf>)
    ensures |r| == |c.drones| + |c.clients| + |c.servers|
  {
    seq(|c.drones|, i requires 0 <= i < |c.drones| => NodeConf(c.drones[i].id, c.drones[i].links)) + c.clients + c.servers
  }

  /** The first index whose entry satisfies `p` (`Iterator::find`). */
  function FirstIndex<T>(s: seq<T>, p: T -> bool): (r: Option<nat>)
    ensures r.None? <==> forall i :: 0 <= i < |s| ==> !p(s[i])
    ensures r.Some? ==> r.value < |s| && p(s[r.value]) && forall j :: 0 <= j < r.value ==> !p(s[j])
    decreases |s|
  {
    if s == [] then None
    else if p(s[0]) then Some(0)
    else
      var rest := FirstIndex(s[1..], p);
      if rest.None? then None else Some(rest.value + 1)
  }

  predicate LinksInto(n: NodeConf, ids: set<NodeId>) {
    exists x :: x in n.links && x in ids
  }

  predicate NotReciprocated(ns: seq<NodeConf>) {
    exists i, j :: 0 <= i < |ns| && 0 <= j < |ns| && ns[j].id in ns[i].links && ns[i].id !in ns[j].links
  }

  // ------------------------------------------------ the declarative rules

  /** No id is used by two kinds of node. */
  predicate KindsDisjoint(c: Config) {
    DroneSet(c) * ClientSet(c) == {} && DroneSet(c) * ServerSet(c) == {} && ClientSet(c) * ServerSet(c) == {}
  }

  /** No id is used twice within one kind. */
  predicate IdsDistinct(c: Config) {
    NoDup(DroneIds(c.drones)) && NoDup(NodeIds(c.clients)) && NoDup(NodeIds(c.servers))
  }

  predicate PdrsInRange(c: Config) {
    forall i :: 0 <= i < |c.drones| ==> 0.0 <= c.drones[i].pdr <= 1.0
  }

  predicate NoSelfLinks(c: Config) {
    && (forall i :: 0 <= i < |c.drones| ==> c.drones[i].id !in c.drones[i].links)
    && (forall i :: 0 <= i < |c.clients| ==> c.clients[i].id !in c.clients[i].links)
    && (forall i :: 0 <= i < |c.servers| ==> c.servers[i].id !in c.servers[i].links)
  }

  /** No link of these nodes reaches a client or server id (unknown ids are allowed). */
  predicate LinkOnlyDrones(c: Config, ns: seq<NodeConf>) {
    forall i, x :: 0 <= i < |ns| && x in ns[i].links ==> x !in ClientSet(c) && x !in ServerSet(c)
  }

  /** Every client has one or two links. */
  predicate ClientDegreesOk(c: Config) {
    forall i :: 0 <= i < |c.clients| ==> 1 <= |c.clients[i].links| <= 2
  }

  /** Every server has at least two links. */
  predicate ServerDegreesOk(c: Config) {
    forall i :: 0 <= i < |c.servers| ==> 2 <= |c.servers[i].links|
  }

  /** The client rules: links only to drones (or unknown ids), one or two of them. */
  predicate ClientsOk(c: Config) {
    LinkOnlyDrones(c, c.clients) && ClientDegreesOk(c)
  }

  /** The server rules: links only to drones (or unknown ids), at least two of them. */
  predicate ServersOk(c: Config) {
    LinkOnlyDrones(c, c.servers) && ServerDegreesOk(c)
  }

  /** A link to a configured node is matched by a link back. */
  predicate Symmetric(c: Config) {
    var ns := AllNodes(c);
    forall i, j :: 0 <= i < |ns| && 0 <= j < |ns| && ns[j].id in ns[i].links ==> ns[i].id in ns[j].links
  }

  predicate Valid(c: Config) {
    KindsDisjoint(c) && IdsDistinct(c) && PdrsInRange(c) && NoSelfLinks(c) && ClientsOk(c) && ServersOk(c) && Symmetric(c)
  }

  /** The id tests: shared ids across kinds, then repeats among drones, clients, servers. */
  function IdError(c: Config): (r: Option<ConfigError>)
    ensures r.None? <==> KindsDisjoint(c) && IdsDistinct(c)
    ensures r.Some? ==> r.value.InvalidConfig? || r.value.DuplicateNodeId?
    ensures !KindsDisjoint(c) ==> r == Some(DuplicateNodeId("Duplicate IDs found across drones, clients, and servers"))
    ensures KindsDisjoint(c) && !NoDup(DroneIds(c.drones)) ==> r == Some(InvalidConfig("Duplicate drone IDs found in configuration"))
    ensures KindsDisjoint(c) && NoDup(DroneIds(c.drones)) && !NoDup(NodeIds(c.clients)) ==>
      r == Some(DuplicateNodeId("Duplicate client IDs found in configuration"))
    ensures KindsDisjoint(c) && NoDup(DroneIds(c.drones)) && NoDup(NodeIds(c.clients)) && !NoDup(NodeIds(c.servers)) ==>
      r == Some(DuplicateNodeId("Duplicate server IDs found in configuration"))
  {
    SetChecks(c);
    var ds, cs, ss := DroneSet(c), ClientSet(c), ServerSet(c);
    if |ds + cs + ss| != |ds| + |cs| + |ss| then Some(DuplicateNodeId("Duplicate IDs found across drones, clients, and servers"))
    else if |ds| != |c.drones| then Some(InvalidConfig("Duplicate drone IDs found in configuration"))
    else if |cs| != |c.clients| then Some(DuplicateNodeId("Duplicate client IDs found in configuration"))
    else if |ss| != |c.servers| then Some(DuplicateNodeId("Duplicate server IDs found in configuration"))
    else None
  }

  /** The drop-rate test. */
  function PdrError(c: Config): (r: Option<ConfigError>)
    ensures r.None? <==> PdrsInRange(c)
    ensures r.Some? ==> r.value == InvalidPdrValue
  {
    if exists i :: 0 <= i < |c.drones| && (c.drones[i].pdr < 0.0 || c.drones[i].pdr > 1.0) then Some(InvalidPdrValue) else None
  }

  /** The self-link tests, drones then clients then servers, naming the first offender. */
  function SelfLinkError(c: Config): (r: Option<ConfigError>)
    ensures r.None? <==> NoSelfLinks(c)
    ensures r.Some? ==> r.value.InvalidNodeConnection?
  {
    var d := FirstIndex(c.drones, (d: DroneConf) => d.id in d.links);
    var cl := FirstIndex(c.clients, (n: NodeConf) => n.id in n.links);
    var sv := FirstIndex(c.servers, (n: NodeConf) => n.id in n.links);
    if d.Some? then Some(InvalidNodeConnection("Drone " + NatToString(c.drones[d.value].id) + " cannot be connected to itself"))
    else if cl.Some? then Some(InvalidNodeConnection("Client " + NatToString(c.clients[cl.value].id) + " cannot be connected to itself"))
    else if sv.Some? then Some(InvalidNodeConnection("Server " + NatToString(c.servers[sv.value].id) + " cannot be connected to itself"))
    else None
  }

  /** The first entry of `ns` with a link to a client or server id. */
  function FirstEndpointLink(c: Config, ns: seq<NodeConf>): (r: Option<nat>)
    ensures r.None? <==> LinkOnlyDrones(c, ns)
    ensures r.Some? ==> r.value < |ns| && LinksInto(ns[r.value], ClientSet(c) + ServerSet(c))
    ensures r.Some? ==> forall j :: 0 <= j < r.value ==> !LinksInto(ns[j], ClientSet(c) + ServerSet(c))
  {
    var ids := ClientSet(c) + ServerSet(c);
    var r := FirstIndex(ns, (n: NodeConf) => LinksInto(n, ids));
    if r.Some? then r
    else
      assert forall i, x :: 0 <= i < |ns| && x in ns[i].links ==> x !in ids by {
        forall i, x | 0 <= i < |ns| && x in ns[i].links ensures x !in ids {
          assert !LinksInto(ns[i], ids);
        }
      }
      r
  }

  /** The client tests: a link to a client or server, then the number of links. */
  function ClientError(c: Config): (r: Option<ConfigError>)
    ensures r.None? <==> ClientsOk(c)
    ensures r.Some? ==> r.value.InvalidNodeConnection? || r.value.InvalidConfig?
  {
    var bad := FirstEndpointLink(c, c.clients);
    var lonely := FirstIndex(c.clients, (n: NodeConf) => |n.links| < 1 || |n.links| > 2);
    if bad.Some? then
      Some(InvalidNodeConnection("Client " + NatToString(c.clients[bad.value].id) + " cannot have other clients  or servers in its connected_drone_ids"))
    else if lonely.Some? then
      Some(InvalidConfig("Client " + NatToString(c.clients[lonely.value].id) + " must have exactly one or two connected drones"))
    else None
  }

  /** The server tests: a link to a client or server, then fewer than two links. */
  function ServerError(c: Config): (r: Option<ConfigError>)
    ensures r.None? <==> ServersOk(c)
    ensures r.Some? ==> r.value.InvalidConfig?
  {
    var bad := FirstEndpointLink(c, c.servers);
    var lonely := FirstIndex(c.servers, (n: NodeConf) => |n.links| < 2);
    if bad.Some? then
      Some(InvalidConfig("Server " + NatToString(c.servers[bad.value].id) + " cannot have other clients or servers in its connected_drone_ids"))
    else if lonely.Some? then
      Some(InvalidConfig("Server " + NatToString(c.servers[lonely.value].id) + " must have at least two connected drones"))
    else None
  }

  /** `validate_config`: the tests in source order, the first failure wins. */
  function ValidateConfig(c: Config): (r: Result<(), ConfigError>)
    ensures r.Ok? <==> Valid(c)
    ensures r == Err(InvalidPdrValue) <==> KindsDisjoint(c) && IdsDistinct(c) && !PdrsInRange(c)
    ensures r == Err(UnidirectedConnection) <==>
      KindsDisjoint(c) && IdsDistinct(c) && PdrsInRange(c) && NoSelfLinks(c) && ClientsOk(c) && ServersOk(c) && !Symmetric(c)
  {
    var ids := IdError(c);
    var pdr := PdrError(c);
    var self := SelfLinkError(c);
    var clients := ClientError(c);
    var servers := ServerError(c);
    if ids.Some? then Err(ids.value)
    else if pdr.Some? then Err(pdr.value)
    else if self.Some? then Err(self.value)
    else if clients.Some? then Err(clients.value)
    else if servers.Some? then Err(servers.value)
    else if NotReciprocated(AllNodes(c)) then Err(UnidirectedConnection)
    else Ok(())
  }

  /** Three sets have as many elements together as apart exactly when they are pairwise disjoint. */
  lemma DisjointCard(a: set<NodeId>, b: set<NodeId>, c: set<NodeId>)
    ensures |a + b + c| == |a| + |b| + |c| <==> a * b == {} && a * c == {} && b * c == {}
  {
    assert (a + b) * c == a * c + b * c;
    if a * c != {} {
      var x :| x in a * c;
      assert x in (a + b) * c;
    }
    if b * c != {} {
      var x :| x in b * c;
      assert x in (a + b) * c;
    }
    if a * b != {} {
      var x :| x in a * b;
    }
  }

  lemma SetChecks(c: Config)
    ensures |DroneSet(c) + ClientSet(c) + ServerSet(c)| == |DroneSet(c)| + |ClientSet(c)| + |ServerSet(c)| <==> KindsDisjoint(c)
    ensures |DroneSet(c)| == |c.drones| <==> NoDup(DroneIds(c.drones))
    ensures |ClientSet(c)| == |c.clients| <==> NoDup(NodeIds(c.clients))
    ensures |ServerSet(c)| == |c.servers| <==> NoDup(NodeIds(c.servers))
  {
    DisjointCard(DroneSet(c), ClientSet(c), ServerSet(c));
    DistinctCard(DroneIds(c.drones));
    DistinctCard(NodeIds(c.clients));
    DistinctCard(NodeIds(c.servers));
  }

  /** An id used by two kinds of node is reported first, whatever else is wrong. */
  lemma SharedIdRejected(c: Config)
    requires !KindsDisjoint(c)
    ensures ValidateConfig(c) == Err(DuplicateNodeId("Duplicate IDs found across drones, clients, and servers"))
  {
  }

  /** The first drone (in configuration order) linked to itself is named in the error. */
  lemma SelfLinkedDroneNamed(c: Config, i: nat)
    requires KindsDisjoint(c) && IdsDistinct(c) && PdrsInRange(c)
    requires i < |c.drones| && c.drones[i].id in c.drones[i].links
    requires forall j :: 0 <= j < i ==> c.drones[j].id !in c.drones[j].links
    ensures ValidateConfig(c) == Err(InvalidNodeConnection("Drone " + NatToString(c.drones[i].id) + " cannot be connected to itself"))
  {
    var f := FirstIndex(c.drones, (d: DroneConf) => d.id in d.links);
    assert f == Some(i);
  }

  /**
   * Among clients with no self link, the first one linked to a client or a
   * server is named; links are checked before the number of links.
   */
  lemma ClientToEndpointNamed(c: Config, i: nat)
    requires KindsDisjoint(c) && IdsDistinct(c) && PdrsInRange(c) && NoSelfLinks(c)
    requires i < |c.clients| && LinksInto(c.clients[i], ClientSet(c) + ServerSet(c))
    requires forall j :: 0 <= j < i ==> !LinksInto(c.clients[j], ClientSet(c) + ServerSet(c))
    ensures ValidateConfig(c) == Err(InvalidNodeConnection("Client " + NatToString(c.clients[i].id)
      + " cannot have other clients  or servers in its connected_drone_ids"))
  {
    assert FirstEndpointLink(c, c.clients) == Some(i);
    ClientRuleReported(c);
  }

  /** Once the id, PDR and self-link rules hold, a broken client rule is what is reported. */
  lemma ClientRuleReported(c: Config)
    requires KindsDisjoint(c) && IdsDistinct(c) && PdrsInRange(c) && NoSelfLinks(c) && ClientError(c).Some?
    ensures ValidateConfig(c) == Err(ClientError(c).value)
  {
  }

  /** A client with no link or more than two is named, once no client links to an endpoint. */
  lemma ClientDegreeNamed(c: Config, i: nat)
    requires KindsDisjoint(c) && IdsDistinct(c) && PdrsInRange(c) && NoSelfLinks(c) && LinkOnlyDrones(c, c.clients)
    requires i < |c.clients| && !(1 <= |c.clients[i].links| <= 2)
    requires forall j :: 0 <= j < i ==> 1 <= |c.clients[j].links| <= 2
    ensures ValidateConfig(c) == Err(InvalidConfig("Client " + NatToString(c.clients[i].id) + " must have exactly one or two connected drones"))
  {
    var g := FirstIndex(c.clients, (n: NodeConf) => |n.links| < 1 || |n.links| > 2);
    assert g == Some(i);
    ClientRuleReported(c);
  }

  /** Server rules come after all client rules: a server with fewer than two links is named last. */
  lemma ServerDegreeNamed(c: Config, i: nat)
    requires KindsDisjoint(c) && IdsDistinct(c) && PdrsInRange(c) && NoSelfLinks(c) && ClientsOk(c)
    requires LinkOnlyDrones(c, c.servers)
    requires i < |c.servers| && |c.servers[i].links| < 2
    requires forall j :: 0 <= j < i ==> 2 <= |c.servers[j].links|
    ensures ValidateConfig(c) == Err(InvalidConfig("Server " + NatToString(c.servers[i].id) + " must have at least two connected drones"))
  {
    assert ClientError(c).None?;
    assert FirstEndpointLink(c, c.servers).None?;
    var h := FirstIndex(c.servers, (n: NodeConf) => |n.links| < 2);
    assert h == Some(i);
    assert ServerError(c) == Some(InvalidConfig("Server " + NatToString(c.servers[i].id) + " must have at least two connected drones"));
  }

  /** Drone 3 listing itself: the error names it as the source's test expects. */
  lemma SelfLinkExample()
    ensures ValidateConfig(Config([DroneConf(3, [1, 3], 0.0)], [], []))
      == Err(InvalidNodeConnection("Drone " + NatToString(3) + " cannot be connected to itself"))
    ensures NatToString(3) == "3"
  {
    var c := Config([DroneConf(3, [1, 3], 0.0)], [], []);
    assert DroneIds(c.drones) == [3];
    assert DroneSet(c) == {3} && ClientSet(c) == {} && ServerSet(c) == {};
    SelfLinkedDroneNamed(c, 0);
  }

  /** A link to an id that is not configured is accepted: only links between configured nodes must be mutual. */
  lemma UnknownLinkAccepted()
    ensures ValidateConfig(Config([DroneConf(1, [2, 99], 0.5), DroneConf(2, [1, 5], 0.5)], [NodeConf(5, [2])], [])) == Ok(())
  {
    UnknownLinkIds();
    UnknownLinkRules();
    UnknownLinkSymmetric();
    assert Valid(UnknownLinkConfig());
  }

  /** Drones 1 and 2, drone 1 listing the unconfigured id 99, and client 5 on drone 2. */
  function UnknownLinkConfig(): Config {
    Config([DroneConf(1, [2, 99], 0.5), DroneConf(2, [1, 5], 0.5)], [NodeConf(5, [2])], [])
  }

  lemma UnknownLinkIds()
    ensures var c := UnknownLinkConfig();
      DroneSet(c) == {1, 2} && ClientSet(c) == {5} && ServerSet(c) == {} && KindsDisjoint(c) && IdsDistinct(c)
  {
    var c := UnknownLinkConfig();
    assert DroneIds(c.drones) == [1, 2];
    assert NodeIds(c.clients) == [5];
    assert NodeIds(c.servers) == [];
  }

  lemma UnknownLinkRules()
    ensures var c := UnknownLinkConfig();
      PdrsInRange(c) && NoSelfLinks(c) && ClientsOk(c) && ServersOk(c)
  {
    UnknownLinkIds();
  }

  lemma UnknownLinkSymmetric()
    ensures Symmetric(UnknownLinkConfig())
  {
    var c := UnknownLinkConfig();
    assert AllNodes(c) == [NodeConf(1, [2, 99]), NodeConf(2, [1, 5]), NodeConf(5, [2])];
  }
}

=== FILE: content_media.dfy ===
/**
 * The media handler of content-server-main/src/media_handler.rs: a store of
 * media files keyed by id, the replies it gives to client messages, its
 * statistics, and the generators of its mock media content.
 *
 * The store starts from whatever it is given: the sample media it is seeded
 * with on creation are demonstration data. Titles reach the generators as
 * their UTF-8 bytes, since the encoding itself is not modelled.
 */
module ContentMedia {

  import opened Wrappers
  import opened Seqs
  import opened Packets
  import opened Assoc
  import opened ServerMessages

  datatype ImageFormat = Png | Jpg | Svg
  datatype VideoFormat = Mp4 | Webm
  datatype AudioFormat = Mp3 | Wav
  datatype DocumentFormat = Pdf | Txt | Zip | RustCode

  datatype MediaKind =
    | Image(image: ImageFormat)
    | Video(video: VideoFormat)
    | Audio(audio: AudioFormat)
    | Document(document: DocumentFormat)

  /** `MediaFile`: `size` is the declared size, kept apart from the content. */
  datatype StoredMedia = StoredMedia(
    id: string,
    name: string,
    kind: MediaKind,
    size: nat,
    content: seq<Byte>,
    description: string)

  type Library = seq<(string, StoredMedia)>

  // ------------------------------------------------------------------ store

  /** `add_media`: the file is stored under its id, replacing any file with that id. */
  function AddMedia(lib: Library, m: StoredMedia): (r: Library)
    ensures ToMap(r) == ToMap(lib)[m.id := m]
  {
    PutIsInsert(lib, m.id, m);
    Put(lib, m.id, m)
  }

  /** `get_media`: the file stored under `id`, if any. */
  function GetMedia(lib: Library, id: string): (r: Option<StoredMedia>)
    ensures r == if id in ToMap(lib) then Some(ToMap(lib)[id]) else None
  {
    GetIsLookup(lib, id);
    Get(lib, id)
  }

  /** `get_media_ids`: the stored ids. */
  function GetMediaIds(lib: Library): (r: seq<string>)
    ensures Unique(lib) ==> NoDup(r)
    ensures forall id :: id in r <==> id in ToMap(lib)
  {
    forall id ensures id in Keys(lib) <==> id in ToMap(lib) {
      GetIsLookup(lib, id);
    }
    Keys(lib)
  }

  /** A file just added is the one `get_media` returns, and the ids gain exactly its id. */
  lemma AddThenGet(lib: Library, m: StoredMedia)
    requires Unique(lib)
    ensures Unique(AddMedia(lib, m))
    ensures GetMedia(AddMedia(lib, m), m.id) == Some(m)
    ensures forall id :: id in GetMediaIds(AddMedia(lib, m)) <==> id == m.id || id in GetMediaIds(lib)
  {
    UpdatesKeepUnique(lib, m.id, m);
  }

  // --------------------------------------------------------------- requests

  /**
   * `handle_message`: the server type is `MediaServer`; a stored media file
   * is sent as exactly its stored bytes, an absent one is
   * `ErrorRequestedNotFound`; any other message is left to another handler.
   * The handler never fails.
   */
  function HandleMessage(lib: Library, msg: ClientMessage): (r: Option<ServerResponse>)
    ensures r.Some? <==> msg.ServerTypeRequest? || msg.MediaRequest?
    ensures msg.ServerTypeRequest? ==> r == Some(ServerType(MediaServer))
    ensures msg.MediaRequest? && msg.mediaId in ToMap(lib) ==> r == Some(Media(ToMap(lib)[msg.mediaId].content))
    ensures msg.MediaRequest? && msg.mediaId !in ToMap(lib) ==> r == Some(ErrorRequestedNotFound)
  {
    match msg
      case ServerTypeRequest => Some(ServerType(MediaServer))
      case MediaRequest(id) => (
        match GetMedia(lib, id)
          case Some(m) => Some(Media(m.content))
          case None => Some(ErrorRequestedNotFound))
      case _ => None
  }

  /** Every id the handler lists is served with the content stored under it. */
  lemma ListedMediaServed(lib: Library, m: StoredMedia)
    requires Unique(lib)
    ensures HandleMessage(AddMedia(lib, m), MediaRequest(m.id)) == Some(Media(m.content))
  {
  }

  // ------------------------------------------------------------- statistics

  /** `MediaStats`: the counts are keyed by kind name. */
  datatype MediaStats = MediaStats(totalFiles: nat, totalSize: nat, typeCounts: seq<(string, nat)>)

  /** The kind name `get_stats` counts a file under. */
  function KindName(k: MediaKind): string {
    match k
      case Image(_) => "Image"
      case Video(_) => "Video"
      case Audio(_) => "Audio"
      case Document(_) => "Document"
  }

  function Names(ms: seq<StoredMedia>): (r: seq<string>)
    ensures |r| == |ms|
    ensures forall i :: 0 <= i < |ms| ==> r[i] == KindName(ms[i].kind)
  {
    if ms == [] then [] else [KindName(ms[0].kind)] + Names(ms[1..])
  }

  function Sizes(ms: seq<StoredMedia>): (r: seq<nat>)
    ensures |r| == |ms|
    ensures forall i :: 0 <= i < |ms| ==> r[i] == ms[i].size
  {
    if ms == [] then [] else [ms[0].size] + Sizes(ms[1..])
  }

  /** The count a table holds for `n`; a missing entry counts as zero. */
  function CountOf(counts: seq<(string, nat)>, n: string): nat {
    if n in ToMap(counts) then ToMap(counts)[n] else 0
  }

  /** `*entry(n).or_insert(0) += 1` */
  function Bump(counts: seq<(string, nat)>, n: string): seq<(string, nat)> {
    Put<string, nat>(counts, n, CountOf(counts, n) + 1)
  }

  /** The counting loop of `get_stats`, over the files in iteration order. */
  function Tally(counts: seq<(string, nat)>, ms: seq<StoredMedia>): seq<(string, nat)>
    decreases |ms|
  {
    if ms == [] then counts else Tally(Bump(counts, KindName(ms[0].kind)), ms[1..])
  }

  /**
   * `get_stats`: one file per entry, the declared sizes summed, and per kind
   * name the number of files of that kind, with an entry only for kinds
   * that occur, so the counts add up to the number of files.
   */
  function GetStats(lib: Library): (r: MediaStats)
    ensures r.totalFiles == |lib|
    ensures r.totalSize == Sum(Sizes(Values(lib)))
    ensures Unique(r.typeCounts)
    ensures Sum(Values(r.typeCounts)) == r.totalFiles
    ensures forall n :: CountOf(r.typeCounts, n) == Count(Names(Values(lib)), n)
    ensures forall n :: n in Keys(r.typeCounts) <==> n in Names(Values(lib))
  {
    var ms := Values(lib);
    var counts := Tally([], ms);
    TallySum([], ms);
    TallyUnique([], ms);
    forall n ensures CountOf(counts, n) == Count(Names(ms), n) {
      TallyCount([], ms, n);
    }
    forall n ensures n in Keys(counts) <==> n in Names(ms) {
      TallyKeys([], ms, n);
    }
    MediaStats(|lib|, Sum(Sizes(ms)), counts)
  }

  /** `Put` changes the sum of a count table by the new value less the one it replaces. */
  lemma {:induction false} SumPut(a: seq<(string, nat)>, k: string, v: nat)
    ensures Sum(Values(Put(a, k, v))) + CountOf(a, k) == Sum(Values(a)) + v
    decreases |a|
  {
    if a != [] {
      var r := Put(a, k, v);
      assert Values(a) == [a[0].1] + Values(a[1..]);
      if a[0].0 == k {
        assert r == [(k, v)] + a[1..];
        assert Values(r) == [v] + Values(a[1..]);
      } else {
        SumPut(a[1..], k, v);
        assert r == [a[0]] + Put(a[1..], k, v);
        assert Values(r) == [a[0].1] + Values(Put(a[1..], k, v));
        assert CountOf(a, k) == CountOf(a[1..], k);
      }
    }
  }

  lemma {:induction false} TallySum(c: seq<(string, nat)>, ms: seq<StoredMedia>)
    ensures Sum(Values(Tally(c, ms))) == Sum(Values(c)) + |ms|
    decreases |ms|
  {
    if ms != [] {
      var n := KindName(ms[0].kind);
      SumPut(c, n, CountOf(c, n) + 1);
      assert Tally(c, ms) == Tally(Bump(c, n), ms[1..]);
      TallySum(Bump(c, n), ms[1..]);
    }
  }

  lemma {:induction false} TallyCount(c: seq<(string, nat)>, ms: seq<StoredMedia>, n: string)
    ensures CountOf(Tally(c, ms), n) == CountOf(c, n) + Count(Names(ms), n)
    decreases |ms|
  {
    if ms != [] {
      var m := KindName(ms[0].kind);
      var b := Bump(c, m);
      assert Tally(c, ms) == Tally(b, ms[1..]);
      PutIsInsert<string, nat>(c, m, CountOf(c, m) + 1);
      assert CountOf(b, n) == CountOf(c, n) + (if n == m then 1 else 0);
      TallyCount(b, ms[1..], n);
      assert Names(ms) == [m] + Names(ms[1..]);
      assert Count(Names(ms), n) == (if m == n then 1 else 0) + Count(Names(ms[1..]), n);
    }
  }

  lemma {:induction false} TallyKeys(c: seq<(string, nat)>, ms: seq<StoredMedia>, n: string)
    ensures n in Keys(Tally(c, ms)) <==> n in Keys(c) || n in Names(ms)
    decreases |ms|
  {
    if ms != [] {
      var m := KindName(ms[0].kind);
      PutKeys<string, nat>(c, m, CountOf(c, m) + 1, n);
      TallyKeys(Bump(c, m), ms[1..], n);
      assert Names(ms) == [m] + Names(ms[1..]);
    }
  }

  lemma {:induction false} TallyUnique(c: seq<(string, nat)>, ms: seq<StoredMedia>)
    requires Unique(c)
    ensures Unique(Tally(c, ms))
    decreases |ms|
  {
    if ms != [] {
      var m := KindName(ms[0].kind);
      UpdatesKeepUnique<string, nat>(c, m, CountOf(c, m) + 1);
      TallyUnique(Bump(c, m), ms[1..]);
    }
  }

  /**
   * Adding a file under a new id adds one file, its declared size, and one
   * to the count of its kind, and leaves the other kinds' counts alone.
   */
  lemma StatsAfterAdd(lib: Library, m: StoredMedia, n: string)
    requires m.id !in ToMap(lib)
    ensures var before := GetStats(lib);
      var after := GetStats(AddMedia(lib, m));
      && after.totalFiles == before.totalFiles + 1
      && after.totalSize == before.totalSize + m.size
      && CountOf(after.typeCounts, n) == CountOf(before.typeCounts, n) + (if n == KindName(m.kind) then 1 else 0)
  {
    GetIsLookup(lib, m.id);
    assert AddMedia(lib, m) == lib + [(m.id, m)];
    assert Values(lib + [(m.id, m)]) == Values(lib) + [m];
    AppendOne(Values(lib), m, n);
  }

  lemma AppendOne(ms: seq<StoredMedia>, m: StoredMedia, n: string)
    ensures Sum(Sizes(ms + [m])) == Sum(Sizes(ms)) + m.size
    ensures Count(Names(ms + [m]), n) == Count(Names(ms), n) + (if n == KindName(m.kind) then 1 else 0)
  {
    assert Sizes(ms + [m]) == Sizes(ms) + [m.size];
    SumAppend(Sizes(ms), [m.size]);
    assert Names(ms + [m]) == Names(ms) + [KindName(m.kind)];
    CountAppend(Names(ms), [KindName(m.kind)], n);
  }

  // ------------------------------------------------------------- mock media

  /** A literal's bytes; the generators' literals are all ASCII. */
  function Ascii(s: string): (r: seq<Byte>)
    ensures |r| == |s|
    ensures forall i :: 0 <= i < |s| && (s[i] as int) < 128 ==> r[i] == s[i] as int
  {
    seq(|s|, i requires 0 <= i < |s| => (s[i] as int) % 256)
  }

  /** Byte `n` of the padding repeated without end. */
  function PadByte(pad: seq<Byte>, n: nat): Byte
    requires |pad| > 0
    decreases n
  {
    if n < |pad| then pad[n] else PadByte(pad, n - |pad|)
  }

  /** Byte `i` of a generator's output: the header, then the padding over and over. */
  function MockByte(header: seq<Byte>, pad: seq<Byte>, i: nat): Byte
    requires |pad| > 0
  {
    if i < |header| then header[i] else PadByte(pad, i - |header|)
  }

  /** A copy of the padding starts at offset `m` of the repetition. */
  predicate Aligned(pad: seq<Byte>, m: nat)
    requires |pad| > 0
  {
    forall j :: 0 <= j < |pad| ==> PadByte(pad, m + j) == pad[j]
  }

  /**
   * The loop every generator runs: start from the header, append the
   * padding while the data is shorter than `size`, then cut to `size`.
   * The result has exactly `size` bytes, the header first and the padding
   * repeated after it.
   */
  method MockData(header: seq<Byte>, pad: seq<Byte>, size: nat) returns (data: seq<Byte>)
    requires |pad| > 0
    ensures |data| == size
    ensures forall i :: 0 <= i < size ==> data[i] == MockByte(header, pad, i)
    ensures var k := if size < |header| then size else |header|; data[..k] == header[..k]
  {
    data := header;
    while |data| < size
      invariant |data| >= |header|
      invariant Aligned(pad, |data| - |header|)
      invariant forall i :: 0 <= i < |data| ==> data[i] == MockByte(header, pad, i)
      decreases size - |data|
    {
      var m := |data| - |header|;
      forall j | 0 <= j < |pad| ensures PadByte(pad, m + |pad| + j) == pad[j] {
        assert PadByte(pad, m + |pad| + j) == PadByte(pad, m + j);
      }
      var next := data + pad;
      forall i | |data| <= i < |next| ensures next[i] == MockByte(header, pad, i) {
        assert next[i] == pad[i - |data|];
        assert i - |header| == m + (i - |data|);
      }
      data := next;
    }
    if |data| > size {
      data := data[..size];
    }
    var k := if size < |header| then size else |header|;
    assert forall i :: 0 <= i < k ==> data[i] == header[i];
  }

  const ImageHeader: string := "PNG_IMAGE_DATA:"
  const ImagePad: string := "PIXEL_DATA_CHUNK_"
  const VideoHeader: string := "MP4_VIDEO_DATA:"
  const VideoPad: string := "VIDEO_FRAME_DATA_"
  const SvgOpening: string := "<svg xmlns=\"http://www.w3.org/2000/svg\" viewBox=\"0 0 800 600\"><title>"
  const SvgClosing: string :=
    "</title><rect width=\"800\" height=\"600\" fill=\"#f0f0f0\"/>"
    + "<circle cx=\"400\" cy=\"300\" r=\"100\" fill=\"#007bff\"/>"
    + "<text x=\"400\" y=\"310\" text-anchor=\"middle\" font-size=\"16\" font-family=\"Arial\">"
    + "Content Server Architecture</text></svg>"
  const SvgPad: string := "  <rect width=\"10\" height=\"10\" fill=\"#ccc\"/>\n"

  /** `create_mock_image_data`: `size` bytes, opening with the PNG header and the title. */
  method MockImage(title: seq<Byte>, size: nat) returns (data: seq<Byte>)
    ensures |data| == size
    ensures forall i :: 0 <= i < size ==> data[i] == MockByte(Ascii(ImageHeader) + title, Ascii(ImagePad), i)
  {
    data := MockData(Ascii(ImageHeader) + title, Ascii(ImagePad), size);
  }

  /** `create_mock_video_data`: `size` bytes, opening with the MP4 header and the title. */
  method MockVideo(title: seq<Byte>, size: nat) returns (data: seq<Byte>)
    ensures |data| == size
    ensures forall i :: 0 <= i < size ==> data[i] == MockByte(Ascii(VideoHeader) + title, Ascii(VideoPad), i)
  {
    data := MockData(Ascii(VideoHeader) + title, Ascii(VideoPad), size);
  }

  /** `create_mock_svg_data`: `size` bytes of an SVG document with the title in it, padded with rectangles. */
  method MockSvg(title: seq<Byte>, size: nat) returns (data: seq<Byte>)
    ensures |data| == size
    ensures forall i :: 0 <= i < size ==>
      data[i] == MockByte(Ascii(SvgOpening) + title + Ascii(SvgClosing), Ascii(SvgPad), i)
  {
    data := MockData(Ascii(SvgOpening) + title + Ascii(SvgClosing), Ascii(SvgPad), size);
  }

  /** With room for more than the header, the padding starts right after it. */
  lemma PaddingFollowsHeader(header: seq<Byte>, pad: seq<Byte>, j: nat)
    requires 0 < |pad| && j < |pad|
    ensures MockByte(header, pad, |header| + j) == pad[j]
  {
  }

  /** The padding repeats with its own length as period. */
  lemma {:induction false} PaddingPeriodic(pad: seq<Byte>, n: nat, k: nat)
    requires |pad| > 0
    ensures PadByte(pad, n + k * |pad|) == PadByte(pad, n)
    decreases k
  {
    if k > 0 {
      PaddingPeriodic(pad, n, k - 1);
      assert n + k * |pad| - |pad| == n + (k - 1) * |pad|;
    }
  }
}

=== FILE: content_server.dfy ===
/**
 * The content server of content-server-main/src/content_server.rs: a text
 * handler, a media handler, or both, chosen by the server mode, and the
 * dispatch of each client message to them.
 *
 * The text handler of content-server-main/src/text_handler.rs keeps the
 * same store as the text server (text_store.dfy); the media handler is
 * content_media.dfy. bincode's encoding of a text file, or its error text,
 * is the `encode` argument.
 */
module ContentServer {

  import opened Wrappers
  import opened Packets
  import opened Assoc
  import opened ServerMessages
  import opened TextStore
  import ContentMedia
  import ServerAssembler
  import TextServerApp

  /** `ServerError` of content-server-main/src/errors.rs. */
  datatype ContentError =
    | NetworkError(msg: string)
    | SerializationError(msg: string)
    | ConfigurationError(msg: string)
    | FragmentationError(msg: string)
    | TimeoutError
    | ProtocolError(msg: string)
    | FileNotFound(msg: string)
    | UnknownServerType

  type Encoder = StoredText -> Result<seq<Byte>, string>

  // ----------------------------------------------------------- text handler

  /**
   * `TextHandler::handle_message`: the server type is `TextServer`; the file
   * list holds exactly the stored ids; a stored file is sent encoded with its
   * byte count, an encoding failure is a `SerializationError`, and an id not
   * stored is `ErrorRequestedNotFound`; any other message is left to another
   * handler.
   */
  function TextHandlerMessage(files: Files, encode: Encoder, msg: ClientMessage)
    : (r: Result<Option<ServerResponse>, ContentError>)
    ensures r.Err? <==> msg.FileRequest? && msg.fileId in ToMap(files) && encode(ToMap(files)[msg.fileId]).Err?
    ensures r.Err? ==> r.error == SerializationError(encode(ToMap(files)[msg.fileId]).error)
    ensures r == Ok(None) <==> !(msg.ServerTypeRequest? || msg.FilesListRequest? || msg.FileRequest?)
    ensures msg.ServerTypeRequest? ==> r == Ok(Some(ServerType(TextServer)))
    ensures msg.FilesListRequest? ==>
      r.Ok? && r.value.Some? && r.value.value.FilesList?
      && forall id :: id in r.value.value.ids <==> id in ToMap(files)
    ensures msg.FileRequest? && msg.fileId !in ToMap(files) ==> r == Ok(Some(ErrorRequestedNotFound))
    ensures msg.FileRequest? && msg.fileId in ToMap(files) && encode(ToMap(files)[msg.fileId]).Ok? ==>
      var bytes := encode(ToMap(files)[msg.fileId]).value;
      r == Ok(Some(File(|bytes|, bytes)))
  {
    match msg
      case ServerTypeRequest => Ok(Some(ServerType(TextServer)))
      case FilesListRequest => Ok(Some(FilesList(GetFileIds(files))))
      case FileRequest(id) => (
        match GetFile(files, id)
          case None => Ok(Some(ErrorRequestedNotFound))
          case Some(f) =>
            match encode(f)
              case Ok(bytes) => Ok(Some(File(|bytes|, bytes)))
              case Err(e) => Err(SerializationError(e)))
      case _ => Ok(None)
  }

  /**
   * The content server's text handler answers every message it handles as
   * the stand-alone text server of text-server-main does, apart from the
   * crate each one's error type belongs to.
   */
  lemma TextHandlersAgree(files: Files, encode: Encoder, msg: ClientMessage)
    requires msg.ServerTypeRequest? || msg.FilesListRequest? || msg.FileRequest?
    ensures match TextHandlerMessage(files, encode, msg)
      case Ok(answer) => answer.Some? && TextServerApp.HandleClientMessage(files, encode, msg) == Ok(answer.value)
      case Err(e) => TextServerApp.HandleClientMessage(files, encode, msg) == Err(ServerAssembler.SerializationError(e.msg))
  {
  }

  // ------------------------------------------------------------------ server

  datatype ServerMode = TextOnly | MediaOnly | Combined

  datatype ContentServer = ContentServer(
    id: NodeId,
    textHandler: Option<Files>,
    mediaHandler: Option<ContentMedia.Library>,
    mode: ServerMode)

  /** `ContentServer::new`: a text handler unless media-only, a media handler unless text-only. */
  function NewContentServer(id: NodeId, mode: ServerMode): (s: ContentServer)
    ensures s.id == id && s.mode == mode
    ensures s.textHandler.Some? <==> mode.TextOnly? || mode.Combined?
    ensures s.mediaHandler.Some? <==> mode.MediaOnly? || mode.Combined?
    ensures s.textHandler.Some? ==> s.textHandler.value == []
    ensures s.mediaHandler.Some? ==> s.mediaHandler.value == []
  {
    ContentServer(
      id,
      if mode.MediaOnly? then None else Some([]),
      if mode.TextOnly? then None else Some([]),
      mode)
  }

  /** The dispatch asks the text handler: the mode allows it and it exists. */
  predicate AsksText(s: ContentServer) {
    !s.mode.MediaOnly? && s.textHandler.Some?
  }

  /** The dispatch asks the media handler: the mode allows it and it exists. */
  predicate AsksMedia(s: ContentServer) {
    !s.mode.TextOnly? && s.mediaHandler.Some?
  }

  /**
   * `handle_client_message`. The server type is answered without the
   * handlers, as `MediaServer` in media-only mode and `TextServer`
   * otherwise (combined mode included). Any other message goes to the text
   * handler, then to the media handler, as the mode allows; the first
   * answer wins, a text-handler error is passed on, and a message neither
   * answers is `ErrorUnsupportedRequest`.
   */
  function HandleClientMessage(s: ContentServer, encode: Encoder, msg: ClientMessage)
    : (r: Result<ServerResponse, ContentError>)
    ensures msg.ServerTypeRequest? ==> r == Ok(ServerType(if s.mode.MediaOnly? then MediaServer else TextServer))
    ensures r.Err? <==>
      AsksText(s) && msg.FileRequest? && msg.fileId in ToMap(s.textHandler.value)
      && encode(ToMap(s.textHandler.value)[msg.fileId]).Err?
    ensures msg.FilesListRequest? && !AsksText(s) ==> r == Ok(ErrorUnsupportedRequest)
    ensures msg.FilesListRequest? && AsksText(s) ==>
      r.Ok? && r.value.FilesList? && forall id :: id in r.value.ids <==> id in ToMap(s.textHandler.value)
    ensures msg.FileRequest? && !AsksText(s) ==> r == Ok(ErrorUnsupportedRequest)
    ensures msg.FileRequest? && AsksText(s) && msg.fileId !in ToMap(s.textHandler.value) ==>
      r == Ok(ErrorRequestedNotFound)
    ensures (msg.FileRequest? && AsksText(s) && msg.fileId in ToMap(s.textHandler.value)
             && encode(ToMap(s.textHandler.value)[msg.fileId]).Ok?) ==>
      var bytes := encode(ToMap(s.textHandler.value)[msg.fileId]).value;
      r == Ok(File(|bytes|, bytes))
    ensures msg.MediaRequest? && !AsksMedia(s) ==> r == Ok(ErrorUnsupportedRequest)
    ensures msg.MediaRequest? && AsksMedia(s) ==>
      r == Ok(if msg.mediaId in ToMap(s.mediaHandler.value)
              then Media(ToMap(s.mediaHandler.value)[msg.mediaId].content)
              else ErrorRequestedNotFound)
    ensures msg.RegistrationToChat? || msg.ClientListRequest? || msg.MessageFor? ==> r == Ok(ErrorUnsupportedRequest)
  {
    if msg.ServerTypeRequest? then
      Ok(ServerType(if s.mode.MediaOnly? then MediaServer else TextServer))
    else
      var text := if AsksText(s) then TextHandlerMessage(s.textHandler.value, encode, msg) else Ok(None);
      match text
        case Err(e) => Err(e)
        case Ok(Some(answer)) => Ok(answer)
        case Ok(None) =>
          var media := if AsksMedia(s) then ContentMedia.HandleMessage(s.mediaHandler.value, msg) else None;
          match media
            case Some(answer) => Ok(answer)
            case None => Ok(ErrorUnsupportedRequest)
  }

  /**
   * The order the combined mode asks its handlers in decides nothing: apart
   * from the server-type request, which the dispatch answers itself, no
   * message is answered by both.
   */
  lemma HandlersDisjoint(files: Files, lib: ContentMedia.Library, encode: Encoder, msg: ClientMessage)
    requires !msg.ServerTypeRequest?
    ensures TextHandlerMessage(files, encode, msg) == Ok(None) || ContentMedia.HandleMessage(lib, msg).None?
  {
  }

  /** A freshly built server asks exactly the handlers its mode names. */
  lemma NewAsksByMode(id: NodeId, mode: ServerMode)
    ensures AsksText(NewContentServer(id, mode)) <==> !mode.MediaOnly?
    ensures AsksMedia(NewContentServer(id, mode)) <==> !mode.TextOnly?
  {
  }

  // --------------------------------------------------------------- accessors

  /** `get_file_ids`: the text handler's ids, or nothing without a text handler. */
  function GetServerFileIds(s: ContentServer): (r: Option<seq<string>>)
    ensures r.Some? <==> s.textHandler.Some?
    ensures r.Some? ==> forall id :: id in r.value <==> id in ToMap(s.textHandler.value)
  {
    match s.textHandler
      case None => None
      case Some(files) => Some(GetFileIds(files))
  }

  /** `get_file`: the stored text file, or nothing without it or its handler. */
  function GetServerFile(s: ContentServer, id: string): (r: Option<StoredText>)
    ensures r.Some? <==> s.textHandler.Some? && id in ToMap(s.textHandler.value)
    ensures r.Some? ==> r.value == ToMap(s.textHandler.value)[id]
  {
    match s.textHandler
      case None => None
      case Some(files) => GetFile(files, id)
  }

  /** `get_media_ids`: the media handler's ids, or nothing without a media handler. */
  function GetServerMediaIds(s: ContentServer): (r: Option<seq<string>>)
    ensures r.Some? <==> s.mediaHandler.Some?
    ensures r.Some? ==> forall id :: id in r.value <==> id in ToMap(s.mediaHandler.value)
  {
    match s.mediaHandler
      case None => None
      case Some(lib) => Some(ContentMedia.GetMediaIds(lib))
  }

  /** `get_media`: the stored media file, or nothing without it or its handler. */
  function GetServerMedia(s: ContentServer, id: string): (r: Option<ContentMedia.StoredMedia>)
    ensures r.Some? <==> s.mediaHandler.Some? && id in ToMap(s.mediaHandler.value)
    ensures r.Some? ==> r.value == ToMap(s.mediaHandler.value)[id]
  {
    match s.mediaHandler
      case None => None
      case Some(lib) => ContentMedia.GetMedia(lib, id)
  }

  /** `get_media_stats`: the media handler's statistics, or nothing without a media handler. */
  function GetMediaStats(s: ContentServer): (r: Option<ContentMedia.MediaStats>)
    ensures r.Some? <==> s.mediaHandler.Some?
    ensures r.Some? ==>
      r.value.totalFiles == |s.mediaHandler.value| && r.value.totalFiles == Seqs.Sum(Values(r.value.typeCounts))
  {
    match s.mediaHandler
      case None => None
      case Some(lib) => Some(ContentMedia.GetStats(lib))
  }

  const NoTextHandler: string := "Text handler not available in current mode"
  const NoMediaHandler: string := "Media handler not available in current mode"

  /**
   * `add_text_file`: the file is stored under its id, replacing any file
   * with that id; without a text handler it is a `ConfigurationError`.
   */
  function AddTextFile(s: ContentServer, f: StoredText): (r: Result<ContentServer, ContentError>)
    ensures r.Err? <==> s.textHandler.None?
    ensures r.Err? ==> r.error == ConfigurationError(NoTextHandler)
    ensures r.Ok? ==>
      && r.value == s.(textHandler := r.value.textHandler)
      && r.value.textHandler.Some?
      && ToMap(r.value.textHandler.value) == ToMap(s.textHandler.value)[f.id := f]
  {
    match s.textHandler
      case None => Err(ConfigurationError(NoTextHandler))
      case Some(files) => Ok(s.(textHandler := Some(AddFile(files, f))))
  }

  /**
   * `add_media_file`: the file is stored under its id, replacing any file
   * with that id; without a media handler it is a `ConfigurationError`.
   */
  function AddMediaFile(s: ContentServer, m: ContentMedia.StoredMedia): (r: Result<ContentServer, ContentError>)
    ensures r.Err? <==> s.mediaHandler.None?
    ensures r.Err? ==> r.error == ConfigurationError(NoMediaHandler)
    ensures r.Ok? ==>
      && r.value == s.(mediaHandler := r.value.mediaHandler)
      && r.value.mediaHandler.Some?
      && ToMap(r.value.mediaHandler.value) == ToMap(s.mediaHandler.value)[m.id := m]
  {
    match s.mediaHandler
      case None => Err(ConfigurationError(NoMediaHandler))
      case Some(lib) => Ok(s.(mediaHandler := Some(ContentMedia.AddMedia(lib, m))))
  }

  /**
   * A text file added to a server that serves text is served on request, and
   * `get_file` returns it; a server without a text handler refuses it.
   */
  lemma AddedTextServed(s: ContentServer, encode: Encoder, f: StoredText)
    requires AsksText(s) && encode(f).Ok?
    ensures AddTextFile(s, f).Ok?
    ensures GetServerFile(AddTextFile(s, f).value, f.id) == Some(f)
    ensures HandleClientMessage(AddTextFile(s, f).value, encode, FileRequest(f.id)) ==
      Ok(File(|encode(f).value|, encode(f).value))
  {
  }

  /**
   * A media file added to a server that serves media is sent back as its
   * stored bytes, in combined mode as well as in media-only mode.
   */
  lemma AddedMediaServed(s: ContentServer, encode: Encoder, m: ContentMedia.StoredMedia)
    requires AsksMedia(s)
    ensures AddMediaFile(s, m).Ok?
    ensures GetServerMedia(AddMediaFile(s, m).value, m.id) == Some(m)
    ensures HandleClientMessage(AddMediaFile(s, m).value, encode, MediaRequest(m.id)) == Ok(Media(m.content))
  {
  }

  /**
   * A text-only server never serves media, even with a media handler
   * present, and a media-only server never serves text files.
   */
  lemma ModeLimitsService(s: ContentServer, encode: Encoder, id: string)
    ensures s.mode.TextOnly? ==> HandleClientMessage(s, encode, MediaRequest(id)) == Ok(ErrorUnsupportedRequest)
    ensures s.mode.MediaOnly? ==>
      && HandleClientMessage(s, encode, FileRequest(id)) == Ok(ErrorUnsupportedRequest)
      && HandleClientMessage(s, encode, FilesListRequest) == Ok(ErrorUnsupportedRequest)
  {
  }
}

=== FILE: decimal.dfy ===
/**
 * Decimal text of small integers, as Rust's `Display` for integers writes
 * it (no sign, no leading zeros) and as `u8::from_str` reads it back (an
 * optional `+`, then one or more ASCII digits, at most 255).
 */
module Decimal {

  import opened Wrappers

  predicate IsDigit(c: char) {
    '0' <= c <= '9'
  }

  predicate AllDigits(s: string) {
    forall i :: 0 <= i < |s| ==> IsDigit(s[i])
  }

  function DigitChar(d: nat): (c: char)
    requires d < 10
    ensures IsDigit(c) && DigitValue(c) == d
  {
    ['0', '1', '2', '3', '4', '5', '6', '7', '8', '9'][d]
  }

  function DigitValue(c: char): nat
    requires IsDigit(c)
  {
    (c as int - '0' as int) as nat
  }

  /** `n.to_string()`: the shortest decimal digit string of `n`. */
  function NatToString(n: nat): (r: string)
    ensures |r| > 0 && AllDigits(r)
    ensures |r| > 1 ==> r[0] != '0'
    ensures n < 10 <==> |r| == 1
    decreases n
  {
    if n < 10 then [DigitChar(n)] else NatToString(n / 10) + [DigitChar(n % 10)]
  }

  /** The number a digit string denotes, most significant digit first. */
  function DigitsValue(s: string): nat
    requires AllDigits(s)
    decreases |s|
  {
    if s == [] then 0 else DigitsValue(s[..|s| - 1]) * 10 + DigitValue(s[|s| - 1])
  }

  /** `u8::from_str`: an optional leading `+`, then at least one digit, the value at most 255. */
  function ParseU8(s: string): (r: Option<nat>)
    ensures r.Some? ==> r.value < 256
    ensures s == [] || s == "+" ==> r.None?
    ensures (exists i :: 0 <= i < |s| && !IsDigit(s[i]) && s[i] != '+') ==> r.None?
  {
    var body := if |s| > 0 && s[0] == '+' then s[1..] else s;
    if body == [] || !AllDigits(body) then None
    else
      var v := DigitsValue(body);
      if v < 256 then Some(v) else None
  }

  /** Reading back the decimal text of a number gives the number. */
  lemma {:induction false} DigitsOfNat(n: nat)
    ensures DigitsValue(NatToString(n)) == n
    decreases n
  {
    if n >= 10 {
      DigitsOfNat(n / 10);
      var s := NatToString(n);
      assert s[..|s| - 1] == NatToString(n / 10);
    }
  }

  /** `u8::from_str` inverts `Display` on every byte value. */
  lemma ParseU8OfDisplay(n: nat)
    requires n < 256
    ensures ParseU8(NatToString(n)) == Some(n)
  {
    DigitsOfNat(n);
  }

  /** Different numbers have different decimal texts. */
  lemma NatToStringInjective(m: nat, n: nat)
    requires NatToString(m) == NatToString(n)
    ensures m == n
  {
    DigitsOfNat(m);
    DigitsOfNat(n);
  }
}

=== FILE: media_server_app.dfy ===
/**
 * The media server of server/src/media_server.rs: a store of media files
 * keyed by uuid, the replies to web requests, and the controller's
 * commands.
 *
 * The store `HashMap` is an association list. Uuid text, JSON encoding and
 * the conversion of a file on disk are arguments. Every event carries the
 * server's own id as `notification_from`; that field is left implicit.
 */
module MediaServerApp {

  import opened Wrappers
  import opened Seqs
  import opened Packets
  import opened Routing
  import opened Assoc
  import opened AppCommon
  import opened ValueTypes

  /** The `NodeEvent` and `WebEvent` notifications the media server sends its controller. */
  datatype MediaEvent =
    | MessageReceived(from: NodeId)
    | ServerTypeQueried(from: NodeId)
    | MessageSent(to: NodeId)
    | FileRequested(from: NodeId, requested: string)
    | FileServed(served: string)
    | BadUuidSeen(from: NodeId, badText: string)
    | MediaFiles(files: seq<MediaFile>)
    | MediaFileFound(file: MediaFile)
    | MediaFileAdded(added: Uuid)
    | MediaFileRemoved(removed: Uuid)
    | FileOperationError(msg: string)

  datatype MediaServer = MediaServerState(
    id: NodeId,
    router: Handler,
    stored: seq<(Uuid, MediaFile)>,
    // a clone of the controller channel the router holds: the same flag as router.controllerUp
    controllerUp: bool,
    outbox: seq<Outgoing<WebResponse>>,
    events: seq<MediaEvent>)

  /** Each uuid is stored once, under the id of the media file it holds. */
  predicate Valid(s: MediaServer) {
    Unique(s.stored) && KeysMatch(s.stored)
  }

  predicate KeysMatch(a: seq<(Uuid, MediaFile)>) {
    forall i :: 0 <= i < |a| ==> a[i].1.id == a[i].0
  }

  /** `MediaServer::new`: nothing stored. */
  function NewMediaServer(id: NodeId, router: Handler): (s: MediaServer)
    ensures Valid(s) && s.stored == [] && s.outbox == [] && s.events == []
    ensures s.controllerUp == s.router.controllerUp
  {
    MediaServerState(id, router, [], router.controllerUp, [], [])
  }

  function Notify(s: MediaServer, e: MediaEvent): MediaServer {
    if s.controllerUp then s.(events := s.events + [e]) else s
  }

  // ------------------------------------------------------------------ store

  /** `add_media_file`: the file is stored under its own id, replacing any file with that id. */
  function AddMedia(s: MediaServer, m: MediaFile): (r: MediaServer)
    ensures r == s.(stored := r.stored)
    ensures ToMap(r.stored) == ToMap(s.stored)[m.id := m]
  {
    PutIsInsert(s.stored, m.id, m);
    s.(stored := Put(s.stored, m.id, m))
  }

  /** `remove_media_file`: the file stored under `u` is dropped and returned, or none when there is none. */
  function RemoveMedia(s: MediaServer, u: Uuid): (r: (MediaServer, Option<MediaFile>))
    ensures r.0 == s.(stored := r.0.stored)
    ensures ToMap(r.0.stored) == ToMap(s.stored) - {u}
    ensures r.1 == if u in ToMap(s.stored) then Some(ToMap(s.stored)[u]) else None
  {
    GetIsLookup(s.stored, u);
    RemoveIsDelete(s.stored, u);
    (s.(stored := Remove(s.stored, u)), Get(s.stored, u))
  }

  /** Adding and removing keep the store valid. */
  lemma StoreUpdatesKeepValid(s: MediaServer, m: MediaFile, u: Uuid)
    requires Valid(s)
    ensures Valid(AddMedia(s, m)) && Valid(RemoveMedia(s, u).0)
  {
    AddKeepsValid(s, m);
    RemoveKeepsValid(s, u);
  }

  lemma AddKeepsValid(s: MediaServer, m: MediaFile)
    requires Valid(s)
    ensures Valid(AddMedia(s, m))
  {
    UpdatesKeepUnique(s.stored, m.id, m);
    PutMatches(s.stored, m);
  }

  lemma RemoveKeepsValid(s: MediaServer, u: Uuid)
    requires Valid(s)
    ensures Valid(RemoveMedia(s, u).0)
  {
    UpdatesKeepUnique(s.stored, u, MediaFile(u, "", []));
    RemoveMatches(s.stored, u);
  }

  lemma {:induction false} PutMatches(a: seq<(Uuid, MediaFile)>, m: MediaFile)
    requires KeysMatch(a)
    ensures KeysMatch(Put(a, m.id, m))
    decreases |a|
  {
    if a != [] && a[0].0 != m.id {
      PutMatches(a[1..], m);
      var r := Put(a, m.id, m);
      var rest := Put(a[1..], m.id, m);
      assert r == [a[0]] + rest;
      forall i | 0 <= i < |r| ensures r[i].1.id == r[i].0 {
        if i > 0 {
          assert r[i] == rest[i - 1];
        }
      }
    }
  }

  lemma {:induction false} RemoveMatches(a: seq<(Uuid, MediaFile)>, u: Uuid)
    requires KeysMatch(a)
    ensures KeysMatch(Remove(a, u))
    decreases |a|
  {
    if a != [] {
      RemoveMatches(a[1..], u);
      var r := Remove(a, u);
      var rest := Remove(a[1..], u);
      if a[0].0 != u {
        assert r == [a[0]] + rest;
        forall i | 0 <= i < |r| ensures r[i].1.id == r[i].0 {
          if i > 0 {
            assert r[i] == rest[i - 1];
          }
        }
      }
    }
  }

  /** A stored file is found by its id and is the file stored; once removed it is gone. */
  lemma AddThenGetThenRemove(s: MediaServer, m: MediaFile)
    ensures Get(AddMedia(s, m).stored, m.id) == Some(m)
    ensures RemoveMedia(AddMedia(s, m), m.id).1 == Some(m)
    ensures Get(RemoveMedia(AddMedia(s, m), m.id).0.stored, m.id).None?
  {
    var added := AddMedia(s, m);
    GetIsLookup(added.stored, m.id);
    GetIsLookup(RemoveMedia(added, m.id).0.stored, m.id);
  }

  /**
   * In a valid store, a removed file carries the id it was removed by, so
   * the `MediaFileRemoved` notification names the requested id.
   */
  lemma RemovedCarriesItsId(s: MediaServer, u: Uuid)
    requires Valid(s)
    ensures RemoveMedia(s, u).1.Some? ==> RemoveMedia(s, u).1.value.id == u
  {
    GetIsLookup(s.stored, u);
    if u in ToMap(s.stored) {
      MapEntryIsFirst(s.stored, u);
    }
  }

  /** `get_media_list`: one `"<id>:<title>"` line per stored file, in store order. */
  function MediaList(t: UuidText, stored: seq<(Uuid, MediaFile)>): (r: seq<string>)
    ensures |r| == |stored|
    ensures forall i :: 0 <= i < |r| ==> r[i] == t.show(stored[i].1.id) + ":" + stored[i].1.title
  {
    if stored == [] then [] else [t.show(stored[0].1.id) + ":" + stored[0].1.title] + MediaList(t, stored[1..])
  }

  /** After an addition the list is not empty and describes the added file. */
  lemma ListAfterAdd(s: MediaServer, t: UuidText, m: MediaFile)
    ensures var list := MediaList(t, AddMedia(s, m).stored);
      list != [] && t.show(m.id) + ":" + m.title in list
  {
    var added := AddMedia(s, m);
    GetIsLookup(added.stored, m.id);
    MapEntryIsFirst(added.stored, m.id);
    var i :| 0 <= i < |added.stored| && added.stored[i] == (m.id, m);
    assert MediaList(t, added.stored)[i] == t.show(m.id) + ":" + m.title;
  }

  // --------------------------------------------------------------- requests

  function Reply(s: MediaServer, to: NodeId, resp: WebResponse, session: nat): MediaServer {
    Notify(s.(outbox := s.outbox + [Outgoing(to, resp, Some(session))]), MessageSent(to))
  }

  /**
   * `handle_msg`: every message is reported as received. A server-type
   * query is answered `MediaServer`. A media query is reported, then
   * answered with the stored file's JSON, with `ErrorFileNotFound` for a
   * uuid not stored, or with `BadUuid` for text that is not a uuid; every
   * reply goes to the sender with the request's session. Other requests,
   * and payloads that do not decode, get no reply.
   */
  function HandleMsg(s: MediaServer, t: UuidText, j: Json, msg: Option<WebRequest>, from: NodeId, session: nat)
    : (r: MediaServer)
    ensures r.id == s.id && r.router == s.router && r.stored == s.stored && r.controllerUp == s.controllerUp
    ensures s.controllerUp ==> |r.events| > |s.events| && r.events[|s.events|] == MessageReceived(from)
    ensures (msg == Some(ServerTypeQuery) || (msg.Some? && msg.value.MediaQuery?)) <==>
      |r.outbox| == |s.outbox| + 1
    ensures msg == Some(ServerTypeQuery) ==>
      r.outbox == s.outbox + [Outgoing(from, ServerTypeReply(ServerType.MediaServer), Some(session))]
    ensures msg.Some? && msg.value.MediaQuery? ==>
      var text := msg.value.mediaId;
      r.outbox == s.outbox + [Outgoing(from,
        match t.parse(text)
          case None => BadUuid(text)
          case Some(u) => if u in ToMap(s.stored) then MediaFileData(j.encodeMedia(ToMap(s.stored)[u])) else ErrorFileNotFound(u),
        Some(session))]
    ensures !(msg == Some(ServerTypeQuery) || (msg.Some? && msg.value.MediaQuery?)) ==>
      r == Notify(s, MessageReceived(from))
  {
    var s1 := Notify(s, MessageReceived(from));
    match msg
      case Some(ServerTypeQuery) =>
        Reply(Notify(s1, ServerTypeQueried(from)), from, ServerTypeReply(ServerType.MediaServer), session)
      case Some(MediaQuery(text)) => (
        var s2 := Notify(s1, FileRequested(from, text));
        match t.parse(text)
          case None => Notify(Reply(s2, from, BadUuid(text), session), BadUuidSeen(from, text))
          case Some(u) =>
            GetIsLookup(s.stored, u);
            match Get(s.stored, u)
              case Some(m) => Notify(Reply(s2, from, MediaFileData(j.encodeMedia(m)), session), FileServed(text))
              case None => Reply(s2, from, ErrorFileNotFound(u), session))
      case _ => s1
  }

  /**
   * A media query for a stored file's own id text is answered with that
   * file, in a valid store and with a parser that reads back uuid text.
   */
  lemma StoredMediaServed(s: MediaServer, t: UuidText, j: Json, m: MediaFile, from: NodeId, session: nat)
    requires ParsesOwnText(t)
    requires Get(s.stored, m.id) == Some(m)
    ensures HandleMsg(s, t, j, Some(MediaQuery(t.show(m.id))), from, session).outbox ==
      s.outbox + [Outgoing(from, MediaFileData(j.encodeMedia(m)), Some(session))]
  {
    assert t.parse(t.show(m.id)) == Some(m.id);
    GetIsLookup(s.stored, m.id);
  }

  // --------------------------------------------------------------- commands

  datatype Command = NodeCmd(node: NodeCommand) | WebCmd(web: WebCommand) | OtherCmd

  /**
   * `handle_command`: `Shutdown` stops the server and the sender commands
   * update the routing handler. The media listing, lookup, addition and
   * removal commands report to the controller and stop the server only if
   * that report cannot be sent; a lookup of an id not stored reports
   * nothing. Adding from a path stores the converted file or reports the
   * conversion error. Other commands are ignored.
   */
  function HandleCommand(s: MediaServer, t: UuidText, convert: string -> Result<MediaFile, string>, cmd: Command)
    : (r: (MediaServer, bool))
    ensures r.0.outbox == s.outbox && r.0.id == s.id
    ensures cmd.NodeCmd? ==> r == (s.(router := ApplyNodeCommand(s.router, cmd.node).0), cmd.node.Shutdown?)
    ensures cmd == WebCmd(GetMediaFiles) ==>
      r == (Notify(s, MediaFiles(Values(s.stored))), !s.controllerUp)
    ensures cmd.WebCmd? && cmd.web.GetMediaFile? ==>
      r.0.stored == s.stored &&
      (r.1 <==> cmd.web.mediaId in ToMap(s.stored) && !s.controllerUp)
    ensures cmd.WebCmd? && cmd.web.AddMediaFile? ==>
      && ToMap(r.0.stored) == ToMap(s.stored)[cmd.web.media.id := cmd.web.media]
      && r.0.events == Notify(s, MediaFileAdded(cmd.web.media.id)).events
      && (r.1 <==> !s.controllerUp)
    ensures cmd.WebCmd? && cmd.web.AddMediaFileFromPath? ==>
      var path := cmd.web.mediaPath;
      && (r.1 <==> !s.controllerUp)
      && (convert(path).Ok? ==>
            var m := convert(path).value;
            ToMap(r.0.stored) == ToMap(s.stored)[m.id := m] && r.0.events == Notify(s, MediaFileAdded(m.id)).events)
      && (convert(path).Err? ==>
            var e := convert(path).error;
            r.0.stored == s.stored
            && r.0.events == Notify(s, FileOperationError("Failed to convert file " + path + ": " + e)).events)
    ensures cmd.WebCmd? && cmd.web.RemoveMediaFile? ==>
      var u := cmd.web.removedMedia;
      && ToMap(r.0.stored) == ToMap(s.stored) - {u}
      && (r.1 <==> !s.controllerUp)
      && r.0.events == Notify(s,
          if u in ToMap(s.stored) then MediaFileRemoved(ToMap(s.stored)[u].id)
          else FileOperationError("Media file with ID " + t.show(u) + " not found")).events
    ensures (cmd.WebCmd? && !(cmd.web.GetMediaFiles? || cmd.web.GetMediaFile? || cmd.web.AddMediaFile? ||
      cmd.web.AddMediaFileFromPath? || cmd.web.RemoveMediaFile?)) ==> r == (s, false)
    ensures cmd == OtherCmd ==> r == (s, false)
  {
    match cmd
      case NodeCmd(n) =>
        var (h, stop) := ApplyNodeCommand(s.router, n);
        (s.(router := h), stop)
      case OtherCmd => (s, false)
      case WebCmd(w) =>
        match w
          case GetMediaFiles => (Notify(s, MediaFiles(Values(s.stored))), !s.controllerUp)
          case GetMediaFile(u, _) =>
            GetIsLookup(s.stored, u);
            (match Get(s.stored, u)
              case Some(m) => (Notify(s, MediaFileFound(m)), !s.controllerUp)
              case None => (s, false))
          case AddMediaFile(m) => (Notify(AddMedia(s, m), MediaFileAdded(m.id)), !s.controllerUp)
          case AddMediaFileFromPath(path) =>
            (match convert(path)
              case Ok(m) => (Notify(AddMedia(s, m), MediaFileAdded(m.id)), !s.controllerUp)
              case Err(e) => (Notify(s, FileOperationError("Failed to convert file " + path + ": " + e)), !s.controllerUp))
          case RemoveMediaFile(u) =>
            var (removed, old_) := RemoveMedia(s, u);
            (match old_
              case Some(m) => (Notify(removed, MediaFileRemoved(m.id)), !s.controllerUp)
              case None => (Notify(removed, FileOperationError("Media file with ID " + t.show(u) + " not found")), !s.controllerUp))
          case _ => (s, false)
  }

  /** Handling a command keeps the store valid. */
  lemma HandleCommandKeepsValid(s: MediaServer, t: UuidText, convert: string -> Result<MediaFile, string>, cmd: Command)
    requires Valid(s)
    ensures Valid(HandleCommand(s, t, convert, cmd).0)
  {
    if cmd.WebCmd? {
      match cmd.web
        case AddMediaFile(m) => StoreUpdatesKeepValid(s, m, m.id);
        case AddMediaFileFromPath(path) =>
          if convert(path).Ok? {
            StoreUpdatesKeepValid(s, convert(path).value, convert(path).value.id);
          }
        case RemoveMediaFile(u) => StoreUpdatesKeepValid(s, MediaFile(u, "", []), u);
        case _ =>
    }
  }

  /** The file added from the test's bytes is found again with its title. */
  lemma AddAndRetrieve(router: Handler, id: Uuid)
    ensures var s := AddMedia(NewMediaServer(1, router.(controllerUp := true)), MediaFile(id, "test_image.png", [[0x89, 0x50, 0x4E, 0x47]]));
      Get(s.stored, id).Some? && Get(s.stored, id).value.title == "test_image.png"
  {
    AddThenGetThenRemove(NewMediaServer(1, router.(controllerUp := true)), MediaFile(id, "test_image.png", [[0x89, 0x50, 0x4E, 0x47]]));
  }
}

=== FILE: network_variant.dfy ===
/**
 * The second copy of the topology (common-main/src/network.rs): the same
 * node list and search, but every operation reports failure through a
 * `Result`, `add_node` refuses links to non-drone nodes, and `remove_node`
 * refuses an absent id.
 */
module NetworkVariant {

  import opened Wrappers
  import opened Seqs
  import opened Packets
  import opened Topology
  import opened PathSearch

  /** The variant's error enum carries no node ids. */
  datatype VariantError = TopologyError | PathNotFound | NodeNotFound

  /** An adjacent `a` is accepted when no node has id `a` or the first such node is a drone. */
  predicate Admits(nodes: seq<Node>, a: NodeId) {
    match FindNode(nodes, a)
      case None => true
      case Some(i) => nodes[i].kind == Drone
  }

  /** Length of the longest prefix of `adjs` whose ids are all accepted. */
  function Accepted(nodes: seq<Node>, adjs: seq<NodeId>): (p: nat)
    ensures p <= |adjs|
    ensures forall k :: 0 <= k < p ==> Admits(nodes, adjs[k])
    ensures p < |adjs| ==> !Admits(nodes, adjs[p])
  {
    if adjs == [] || !Admits(nodes, adjs[0]) then 0 else 1 + Accepted(nodes, adjs[1..])
  }

  /** How many copies of its own id node `i` gains from the accepted ids. */
  function DroneGain(nodes: seq<Node>, adjs: seq<NodeId>, i: nat): nat
    requires i < |nodes|
  {
    if IsFirst(nodes, i) && nodes[i].kind == Drone then Count(adjs, nodes[i].id) else 0
  }

  /**
   * The loop of the variant `add_node`: the first node named by each adjacent
   * gets that id appended if it is a drone; the first non-drone stops the loop
   * with the links made so far kept. The flag says whether the loop finished.
   */
  function LinkDrones(nodes: seq<Node>, adjs: seq<NodeId>): (r: (seq<Node>, bool))
    ensures |r.0| == |nodes|
    ensures forall i :: 0 <= i < |nodes| ==> r.0[i].id == nodes[i].id && r.0[i].kind == nodes[i].kind
    decreases |adjs|
  {
    if adjs == [] then (nodes, true)
    else match FindNode(nodes, adjs[0])
      case None => LinkDrones(nodes, adjs[1..])
      case Some(i) =>
        if nodes[i].kind == Drone
        then LinkDrones(nodes[i := nodes[i].(adjacents := nodes[i].adjacents + [adjs[0]])], adjs[1..])
        else (nodes, false)
  }

  /**
   * The loop finishes exactly when every adjacent is accepted, and each node
   * has gained one copy of its id per accepted occurrence before the stop.
   */
  lemma {:induction false} LinkDronesEffect(nodes: seq<Node>, adjs: seq<NodeId>)
    ensures var r := LinkDrones(nodes, adjs);
      && (r.1 <==> Accepted(nodes, adjs) == |adjs|)
      && forall i :: 0 <= i < |nodes| ==>
           r.0[i].adjacents == nodes[i].adjacents + Repeat(nodes[i].id, DroneGain(nodes, adjs[..Accepted(nodes, adjs)], i))
    decreases |adjs|, 1
  {
    if adjs != [] {
      match FindNode(nodes, adjs[0]) {
        case None => LinkDronesSkip(nodes, adjs);
        case Some(j) =>
          if nodes[j].kind == Drone {
            LinkDronesLink(nodes, adjs, j);
          }
      }
    }
  }

  /** An id naming no node is skipped. */
  lemma LinkDronesSkip(nodes: seq<Node>, adjs: seq<NodeId>)
    requires adjs != [] && FindNode(nodes, adjs[0]).None?
    ensures var r := LinkDrones(nodes, adjs);
      && (r.1 <==> Accepted(nodes, adjs) == |adjs|)
      && forall i :: 0 <= i < |nodes| ==>
           r.0[i].adjacents == nodes[i].adjacents + Repeat(nodes[i].id, DroneGain(nodes, adjs[..Accepted(nodes, adjs)], i))
    decreases |adjs|, 0
  {
    var a := adjs[0];
    var p := Accepted(nodes, adjs);
    LinkDronesEffect(nodes, adjs[1..]);
    assert adjs[..p] == [a] + adjs[1..][..p - 1];
    forall i | 0 <= i < |nodes|
      ensures DroneGain(nodes, adjs[..p], i) == DroneGain(nodes, adjs[1..][..p - 1], i)
    {
      GainSplit(nodes, a, adjs[1..][..p - 1], i);
    }
  }

  /** A drone named by the id records it. */
  lemma LinkDronesLink(nodes: seq<Node>, adjs: seq<NodeId>, j: nat)
    requires adjs != [] && FindNode(nodes, adjs[0]) == Some(j) && nodes[j].kind == Drone
    ensures var r := LinkDrones(nodes, adjs);
      && (r.1 <==> Accepted(nodes, adjs) == |adjs|)
      && forall i :: 0 <= i < |nodes| ==>
           r.0[i].adjacents == nodes[i].adjacents + Repeat(nodes[i].id, DroneGain(nodes, adjs[..Accepted(nodes, adjs)], i))
    decreases |adjs|, 0
  {
    var step := nodes[j := nodes[j].(adjacents := nodes[j].adjacents + [adjs[0]])];
    SameLookups(nodes, step, adjs[1..]);
    LinkDronesEffect(step, adjs[1..]);
    LinkDronesFirst(nodes, adjs, j);
    var p := Accepted(nodes, adjs);
    var r := LinkDrones(nodes, adjs);
    forall i | 0 <= i < |nodes|
      ensures r.0[i].adjacents == nodes[i].adjacents + Repeat(nodes[i].id, DroneGain(nodes, adjs[..p], i))
    {
      assert step[i].id == nodes[i].id;
      LinkedAt(nodes, adjs, j, i, r.0[i].adjacents);
    }
  }

  /** A drone named by the first id records it, and the loop goes on with the rest. */
  lemma LinkDronesFirst(nodes: seq<Node>, adjs: seq<NodeId>, j: nat)
    requires adjs != [] && FindNode(nodes, adjs[0]) == Some(j) && nodes[j].kind == Drone
    ensures var step := nodes[j := nodes[j].(adjacents := nodes[j].adjacents + [adjs[0]])];
      && LinkDrones(nodes, adjs) == LinkDrones(step, adjs[1..])
      && Accepted(nodes, adjs) == 1 + Accepted(step, adjs[1..])
  {
    var step := nodes[j := nodes[j].(adjacents := nodes[j].adjacents + [adjs[0]])];
    SameLookups(nodes, step, adjs[1..]);
  }

  /** Node `i` after the drone `j` has recorded the first adjacent and the rest is linked. */
  lemma LinkedAt(nodes: seq<Node>, adjs: seq<NodeId>, j: nat, i: nat, got: seq<NodeId>)
    requires adjs != [] && j < |nodes| && i < |nodes|
    requires FindNode(nodes, adjs[0]) == Some(j) && nodes[j].kind == Drone
    requires var step := nodes[j := nodes[j].(adjacents := nodes[j].adjacents + [adjs[0]])];
      got == step[i].adjacents + Repeat(nodes[i].id, DroneGain(step, adjs[1..][..Accepted(nodes, adjs) - 1], i))
    ensures got == nodes[i].adjacents + Repeat(nodes[i].id, DroneGain(nodes, adjs[..Accepted(nodes, adjs)], i))
  {
    var step := nodes[j := nodes[j].(adjacents := nodes[j].adjacents + [adjs[0]])];
    SameLookups(nodes, step, adjs[1..]);
    DroneStep(nodes, step, adjs, j, i);
  }

  /** Appending to adjacents changes neither lookups nor acceptance. */
  lemma {:induction false} SameLookups(nodes: seq<Node>, step: seq<Node>, adjs: seq<NodeId>)
    requires |step| == |nodes|
    requires forall i :: 0 <= i < |nodes| ==> step[i].id == nodes[i].id && step[i].kind == nodes[i].kind
    ensures Accepted(step, adjs) == Accepted(nodes, adjs)
    ensures forall i :: 0 <= i < |nodes| ==> (IsFirst(step, i) <==> IsFirst(nodes, i))
    decreases |adjs|
  {
    if adjs != [] {
      FindNodeSameIds(step, nodes, adjs[0]);
      SameLookups(nodes, step, adjs[1..]);
    }
  }

  /** The gain from one more leading id `a`. */
  lemma GainSplit(nodes: seq<Node>, a: NodeId, rest: seq<NodeId>, i: nat)
    requires i < |nodes|
    ensures DroneGain(nodes, [a] + rest, i) ==
      (if a == nodes[i].id && IsFirst(nodes, i) && nodes[i].kind == Drone then 1 else 0) + DroneGain(nodes, rest, i)
  {
    assert ([a] + rest)[1..] == rest;
  }

  /** The gain over an accepted prefix starting with a drone's id `adjs[0]`. */
  lemma GainFromDrone(nodes: seq<Node>, adjs: seq<NodeId>, j: nat, i: nat)
    requires adjs != [] && j < |nodes| && i < |nodes|
    requires FindNode(nodes, adjs[0]) == Some(j) && nodes[j].kind == Drone
    ensures Accepted(nodes, adjs) >= 1
    ensures var p := Accepted(nodes, adjs);
      DroneGain(nodes, adjs[..p], i) == (if i == j then 1 else 0) + DroneGain(nodes, adjs[1..][..p - 1], i)
  {
    var p := Accepted(nodes, adjs);
    assert adjs[..p] == [adjs[0]] + adjs[1..][..p - 1];
    FindNodeIsFirst(nodes, i);
    GainSplit(nodes, adjs[0], adjs[1..][..p - 1], i);
  }

  lemma DroneStep(nodes: seq<Node>, step: seq<Node>, adjs: seq<NodeId>, j: nat, i: nat)
    requires adjs != [] && j < |nodes| && i < |nodes|
    requires FindNode(nodes, adjs[0]) == Some(j) && nodes[j].kind == Drone
    requires step == nodes[j := nodes[j].(adjacents := nodes[j].adjacents + [adjs[0]])]
    requires forall k :: 0 <= k < |nodes| ==> (IsFirst(step, k) <==> IsFirst(nodes, k))
    ensures Accepted(nodes, adjs) >= 1
    ensures var p := Accepted(nodes, adjs);
      step[i].adjacents + Repeat(nodes[i].id, DroneGain(step, adjs[1..][..p - 1], i))
      == nodes[i].adjacents + Repeat(nodes[i].id, DroneGain(nodes, adjs[..p], i))
  {
    GainFromDrone(nodes, adjs, j, i);
    var p := Accepted(nodes, adjs);
    var rest := adjs[1..][..p - 1];
    var here := if i == j then 1 else 0;
    var later := DroneGain(nodes, rest, i);
    assert DroneGain(step, rest, i) == later by {
      assert IsFirst(step, i) <==> IsFirst(nodes, i);
    }
    assert step[i].adjacents == nodes[i].adjacents + Repeat(nodes[i].id, here);
    RepeatAdd(nodes[i].id, here, later);
  }

  /**
   * Variant `add_node`: the returned network is the state after the call,
   * which on `TopologyError` keeps the links already made and lacks the new node.
   */
  function AddNode(net: Network, newNode: Node): (r: (Network, Result<(), VariantError>))
    ensures r.1.Err? ==> r.1.error == VariantError.TopologyError && |r.0.nodes| == |net.nodes|
    ensures r.1.Ok? ==> |r.0.nodes| == |net.nodes| + 1 && r.0.nodes[|net.nodes|] == newNode
    ensures forall i :: 0 <= i < |net.nodes| ==>
      r.0.nodes[i].id == net.nodes[i].id && r.0.nodes[i].kind == net.nodes[i].kind
  {
    var (linked, done) := LinkDrones(net.nodes, newNode.adjacents);
    if done then (Network(linked + [newNode]), Ok(())) else (Network(linked), Err(VariantError.TopologyError))
  }

  /**
   * `add_node` succeeds exactly when every listed node that exists is a drone;
   * either way each drone reached before the first refusal holds one more copy
   * of its own id per mention.
   */
  lemma AddNodeOutcome(net: Network, newNode: Node)
    ensures var r := AddNode(net, newNode);
      var p := Accepted(net.nodes, newNode.adjacents);
      && (r.1.Ok? <==> forall k :: 0 <= k < |newNode.adjacents| ==> Admits(net.nodes, newNode.adjacents[k]))
      && forall i :: 0 <= i < |net.nodes| ==>
           r.0.nodes[i].adjacents == net.nodes[i].adjacents + Repeat(net.nodes[i].id, DroneGain(net.nodes, newNode.adjacents[..p], i))
  {
    LinkDronesEffect(net.nodes, newNode.adjacents);
  }

  /** Variant `remove_node`: `NodeNotFound` and no change for an absent id, else the shared removal. */
  function RemoveNode(net: Network, x: NodeId): (r: (Network, Result<(), VariantError>))
    ensures !HasNode(net.nodes, x) ==> r == (net, Err(VariantError.NodeNotFound))
    ensures HasNode(net.nodes, x) ==> r.1.Ok? && |r.0.nodes| == |net.nodes| - 1
    ensures HasNode(net.nodes, x) && UniqueIds(net.nodes) ==> !HasNode(r.0.nodes, x)
  {
    if HasNode(net.nodes, x) then
      var r := Topology.RemoveNode(net, x);
      assert UniqueIds(net.nodes) ==> !HasNode(r.nodes, x) by {
        if UniqueIds(net.nodes) {
          var k := FindNode(net.nodes, x).value;
          forall j | 0 <= j < |r.nodes| ensures r.nodes[j].id != x {
            if j >= k {
              assert r.nodes[j].id == net.nodes[j + 1].id;
            } else {
              assert r.nodes[j].id == net.nodes[j].id;
            }
          }
        }
      }
      (r, Ok(()))
    else (net, Err(VariantError.NodeNotFound))
  }

  /** Variant `update_node`: the shared update with the payload-free error. */
  function UpdateNode(net: Network, id: NodeId, adjs: seq<NodeId>): (r: Result<Network, VariantError>)
    ensures r.Err? <==> !HasNode(net.nodes, id)
    ensures r.Err? ==> r.error == VariantError.NodeNotFound
    ensures r.Ok? ==> |r.value.nodes| == |net.nodes|
    ensures r.Ok? ==> forall i :: 0 <= i < |net.nodes| && Some(i) != FindNode(net.nodes, id) ==>
      r.value.nodes[i] == net.nodes[i]
    ensures r.Ok? ==>
      var i := FindNode(net.nodes, id).value;
      Elems(r.value.nodes[i].adjacents) == Elems(net.nodes[i].adjacents) + Elems(adjs) &&
      |net.nodes[i].adjacents| <= |r.value.nodes[i].adjacents| &&
      r.value.nodes[i].adjacents[..|net.nodes[i].adjacents|] == net.nodes[i].adjacents &&
      (NoDup(net.nodes[i].adjacents) ==> NoDup(r.value.nodes[i].adjacents))
  {
    match Topology.UpdateNode(net, id, adjs)
      case Err(_) => Err(VariantError.NodeNotFound)
      case Ok(n) =>
        var i := FindNode(net.nodes, id).value;
        AddMissingFresh(net.nodes[i].adjacents, adjs);
        Ok(n)
  }

  /** Variant `find_path`: `PathNotFound` exactly when the destination is unreachable. */
  function FindPath(net: Network, dest: NodeId): (r: Result<seq<NodeId>, VariantError>)
    requires |net.nodes| > 0
    ensures r.Err? <==> !Reaches(net, net.nodes[0].id, dest)
    ensures r.Err? ==> r.error == VariantError.PathNotFound
    ensures r.Ok? ==> IsShortestPath(net, r.value, net.nodes[0].id, dest)
  {
    match PathSearch.FindPath(net, dest)
      case None => Err(VariantError.PathNotFound)
      case Some(p) => Ok(p)
  }
}

=== FILE: packets.dfy ===
/**
 * The packet vocabulary the whole system exchanges: node ids, node kinds, the
 * source-routing header and the five packet bodies (fragment, ack, nack, flood
 * request, flood response). The Rust types come from an external crate; these
 * are minimal stand-ins whose meaning the drone tests pin down.
 */
module Packets {

  import opened Wrappers

  /** `NodeId` is a `u8`. */
  type NodeId = x: int | 0 <= x < 256

  type Byte = x: int | 0 <= x < 256

  /** Payload bytes carried by one fragment. */
  const FragmentSize: nat := 128

  datatype NodeType = Client | Drone | Server

  /**
   * Source-routing header: `hops` is the whole route and `hops[hopIndex]` is
   * the node currently holding the packet.
   */
  datatype Header = Header(hopIndex: nat, hops: seq<NodeId>)
  {
    function CurrentHop(): (r: Option<NodeId>)
      ensures r.Some? <==> hopIndex < |hops|
      ensures r.Some? ==> r.value == hops[hopIndex]
    {
      if hopIndex < |hops| then Some(hops[hopIndex]) else None
    }

    function NextHop(): (r: Option<NodeId>)
      ensures r.Some? <==> hopIndex + 1 < |hops|
      ensures r.Some? ==> r.value == hops[hopIndex + 1]
    {
      if hopIndex + 1 < |hops| then Some(hops[hopIndex + 1]) else None
    }

    /** The last hop of the route, if any. */
    function Destination(): (r: Option<NodeId>)
      ensures r.Some? <==> |hops| > 0
      ensures r.Some? ==> r.value == hops[|hops| - 1]
    {
      if |hops| == 0 then None else Some(hops[|hops| - 1])
    }

    function Increased(): (h: Header)
      ensures h.hops == hops && h.hopIndex == hopIndex + 1
    {
      Header(hopIndex + 1, hops)
    }
  }

  /** `SourceRoutingHeader::empty_route()`. */
  const EmptyRoute: Header := Header(0, [])

  datatype Fragment = Fragment(index: nat, total: nat, length: nat, data: seq<Byte>)

  datatype NackType =
    | ErrorInRouting(node: NodeId)
    | DestinationIsDrone
    | Dropped
    | UnexpectedRecipient(node: NodeId)

  /** A flood request accumulates the `(id, kind)` of every node it crosses. */
  datatype FloodRequest = FloodRequest(floodId: nat, initiator: NodeId, trace: seq<(NodeId, NodeType)>)

  datatype FloodResponse = FloodResponse(floodId: nat, trace: seq<(NodeId, NodeType)>)

  datatype Body =
    | MsgFragment(fragment: Fragment)
    | Ack(ackIndex: nat)
    | Nack(nackIndex: nat, nackType: NackType)
    | FloodReq(request: FloodRequest)
    | FloodResp(response: FloodResponse)

  datatype Packet = Packet(header: Header, session: nat, body: Body)
  {
    /** The fragment index a packet reports: its own for a fragment, 0 otherwise. */
    function FragmentIndex(): nat {
      if body.MsgFragment? then body.fragment.index else 0
    }
  }

  /** `FloodRequest::new`: a request whose trace is still empty. */
  function NewFloodRequest(floodId: nat, initiator: NodeId): (r: FloodRequest)
    ensures r.trace == [] && r.floodId == floodId && r.initiator == initiator
  {
    FloodRequest(floodId, initiator, [])
  }

  /** Strictly increasing ids. */
  predicate Increasing(r: seq<NodeId>) {
    forall i, j :: 0 <= i < j < |r| ==> r[i] < r[j]
  }

  function IdsFrom(s: set<NodeId>, lo: nat): (r: seq<NodeId>)
    ensures forall i :: 0 <= i < |r| ==> lo <= r[i]
    ensures Increasing(r)
    ensures forall x :: x in r <==> x in s && lo <= x
    decreases 256 - lo
  {
    if lo >= 256 then []
    else
      var rest := IdsFrom(s, lo + 1);
      if lo in s then [lo] + rest else rest
  }

  /**
   * The ids of a set in ascending order: the order in which the model walks a
   * map keyed by node id (the source's `HashMap` order is unspecified).
   */
  function SortedIds(s: set<NodeId>): (r: seq<NodeId>)
    ensures Increasing(r)
    ensures forall x :: x in r <==> x in s
  {
    IdsFrom(s, 0)
  }
}

=== FILE: path_search.dfy ===
/**
 * `Network::find_path` (common/src/network.rs): breadth-first search from the
 * local node `nodes[0]` over the adjacency lists, returning the discovered
 * route to the destination or nothing. The search itself is modelled as a
 * terminating function with the source's queue, visited set and parent map;
 * the lemmas prove it returns exactly when the destination is reachable and
 * that what it returns is a repetition-free walk with the fewest hops.
 */
module PathSearch {

  import opened Wrappers
  import opened Seqs
  import opened Packets
  import opened Topology

  /** Adjacents of the first node with id `u`; an id without a node entry has none. */
  function Adj(net: Network, u: NodeId): seq<NodeId> {
    match FindNode(net.nodes, u)
      case None => []
      case Some(i) => net.nodes[i].adjacents
  }

  /** A walk: every next id is an adjacent of the previous one. */
  predicate IsWalk(net: Network, w: seq<NodeId>) {
    |w| > 0 && forall i :: 0 <= i < |w| - 1 ==> w[i + 1] in Adj(net, w[i])
  }

  ghost predicate Reaches(net: Network, src: NodeId, dst: NodeId) {
    exists w :: IsWalk(net, w) && w[0] == src && w[|w| - 1] == dst
  }

  /** A repetition-free walk from `src` to `dst` no walk between them undercuts. */
  ghost predicate IsShortestPath(net: Network, p: seq<NodeId>, src: NodeId, dst: NodeId) {
    && IsWalk(net, p) && p[0] == src && p[|p| - 1] == dst && NoDup(p)
    && forall w :: IsWalk(net, w) && w[0] == src && w[|w| - 1] == dst ==> |p| <= |w|
  }

  const AllIds: set<NodeId> := set x: int | 0 <= x < 256

  /**
   * The path-rebuilding loop: follow parents back from `v`, then reverse.
   * The parent chain of a search is acyclic; `fuel` (the number of parent
   * entries) is proved to be enough.
   */
  function Chain(parent: map<NodeId, NodeId>, v: NodeId, fuel: nat): seq<NodeId>
    decreases fuel
  {
    if fuel == 0 || v !in parent then [v] else Chain(parent, parent[v], fuel - 1) + [v]
  }

  /**
   * Visiting the adjacents of `cur` in list order: each not yet visited id is
   * marked visited, gets `cur` as parent and joins the back of the queue.
   */
  function Expand(adj: seq<NodeId>, cur: NodeId, queue: seq<NodeId>, visited: set<NodeId>,
                  parent: map<NodeId, NodeId>): (r: (seq<NodeId>, set<NodeId>, map<NodeId, NodeId>))
    ensures r.1 == visited + Elems(adj)
    ensures r.1 == visited ==> r.0 == queue
    decreases |adj|
  {
    if adj == [] then (queue, visited, parent)
    else
      assert Elems(adj) == {adj[0]} + Elems(adj[1..]);
      if adj[0] in visited then Expand(adj[1..], cur, queue, visited, parent)
      else
        var r := Expand(adj[1..], cur, queue + [adj[0]], visited + {adj[0]}, parent[adj[0] := cur]);
        assert adj[0] in r.1;
        r
  }

  /** What one expansion appends to the queue: the unvisited adjacents, once each. */
  lemma {:induction false} ExpandQueue(adj: seq<NodeId>, cur: NodeId, queue: seq<NodeId>, visited: set<NodeId>,
                                       parent: map<NodeId, NodeId>)
    ensures var r := Expand(adj, cur, queue, visited, parent);
      && |queue| <= |r.0| && r.0[..|queue|] == queue
      && Elems(r.0[|queue|..]) == Elems(adj) - visited
      && NoDup(r.0[|queue|..])
    decreases |adj|
  {
    if adj != [] {
      assert Elems(adj) == {adj[0]} + Elems(adj[1..]);
      if adj[0] in visited {
        ExpandQueue(adj[1..], cur, queue, visited, parent);
        assert Elems(adj[1..]) - visited == Elems(adj) - visited;
      } else {
        ExpandQueue(adj[1..], cur, queue + [adj[0]], visited + {adj[0]}, parent[adj[0] := cur]);
        var r := Expand(adj[1..], cur, queue + [adj[0]], visited + {adj[0]}, parent[adj[0] := cur]);
        QueueAfterOne(queue, adj[0], r.0);
        assert {adj[0]} + (Elems(adj[1..]) - (visited + {adj[0]})) == Elems(adj) - visited;
      }
    }
  }

  /** A queue extended by `x` and then by `x`-free distinct nodes was extended by `x` and those nodes. */
  lemma QueueAfterOne(queue: seq<NodeId>, x: NodeId, q: seq<NodeId>)
    requires |queue| + 1 <= |q| && q[..|queue| + 1] == queue + [x]
    requires x !in Elems(q[|queue| + 1..]) && NoDup(q[|queue| + 1..])
    ensures |queue| <= |q| && q[..|queue|] == queue
    ensures Elems(q[|queue|..]) == {x} + Elems(q[|queue| + 1..])
    ensures NoDup(q[|queue|..])
  {
    assert q[|queue|..] == [x] + q[|queue| + 1..];
    assert q[..|queue|] == q[..|queue| + 1][..|queue|];
  }

  /** What one expansion records as parents: `cur` for each newly visited adjacent. */
  lemma {:induction false} ExpandParents(adj: seq<NodeId>, cur: NodeId, queue: seq<NodeId>, visited: set<NodeId>,
                                         parent: map<NodeId, NodeId>)
    ensures var r := Expand(adj, cur, queue, visited, parent);
      && r.2.Keys == parent.Keys + (Elems(adj) - visited)
      && (forall n :: n in Elems(adj) - visited ==> r.2[n] == cur)
      && (forall n :: n in parent && n !in Elems(adj) - visited ==> r.2[n] == parent[n])
    decreases |adj|
  {
    if adj != [] {
      assert Elems(adj) == {adj[0]} + Elems(adj[1..]);
      if adj[0] in visited {
        ExpandParents(adj[1..], cur, queue, visited, parent);
      } else {
        ExpandParents(adj[1..], cur, queue + [adj[0]], visited + {adj[0]}, parent[adj[0] := cur]);
      }
    }
  }

  /** The search loop of `find_path`. */
  function Bfs(net: Network, dest: NodeId, queue: seq<NodeId>, visited: set<NodeId>,
               parent: map<NodeId, NodeId>): Option<seq<NodeId>>
    decreases AllIds - visited, |queue|
  {
    if queue == [] then None
    else if queue[0] == dest then Some(Chain(parent, dest, |parent|))
    else
      var r := Expand(Adj(net, queue[0]), queue[0], queue[1..], visited, parent);
      if r.1 == visited then
        Bfs(net, dest, r.0, r.1, r.2)
      else
        assert AllIds - r.1 < AllIds - visited by {
          var n :| n in r.1 && n !in visited;
          assert n in AllIds - visited && n !in AllIds - r.1;
        }
        Bfs(net, dest, r.0, r.1, r.2)
  }

  /**
   * `find_path`: `Some` exactly when the destination is reachable from
   * `nodes[0]`, and then a repetition-free fewest-hop walk to it. The source
   * indexes `nodes[0]`, so the network must not be empty.
   */
  function FindPath(net: Network, dest: NodeId): (r: Option<seq<NodeId>>)
    requires |net.nodes| > 0
    ensures r.Some? <==> Reaches(net, net.nodes[0].id, dest)
    ensures r.Some? ==> IsShortestPath(net, r.value, net.nodes[0].id, dest)
    ensures dest == net.nodes[0].id ==> r == Some([dest])
  {
    var root := net.nodes[0].id;
    BfsCorrect(net, root, dest, [root], {root}, map[], map[root := 0], {}, 1);
    Bfs(net, dest, [root], {root}, map[])
  }

  /** The route starts at the local node and its first hop is one of the local node's adjacents. */
  lemma FindPathFirstHop(net: Network, dest: NodeId)
    requires |net.nodes| > 0 && FindPath(net, dest).Some? && |FindPath(net, dest).value| >= 2
    ensures FindPath(net, dest).value[0] == net.nodes[0].id
    ensures FindPath(net, dest).value[1] in net.nodes[0].adjacents
  {
    var p := FindPath(net, dest).value;
    assert p[1] in Adj(net, p[0]);
  }

  /**
   * With unique ids, `remove_node(x)` leaves `x` without adjacents and every
   * other id with its adjacents minus the first `x`.
   */
  lemma AdjAfterRemove(net: Network, x: NodeId, u: NodeId)
    requires UniqueIds(net.nodes)
    ensures Adj(RemoveNode(net, x), u) == if u == x && HasNode(net.nodes, x) then [] else RemoveFirst(Adj(net, u), x)
  {
    if !HasNode(net.nodes, x) {
      FindNodeSameIds(RemoveNode(net, x).nodes, net.nodes, u);
    } else if u != x {
      AdjAfterRemoveOther(net, x, u);
    } else {
      AdjAfterRemoveSelf(net, x);
    }
  }

  lemma AdjAfterRemoveOther(net: Network, x: NodeId, u: NodeId)
    requires UniqueIds(net.nodes) && HasNode(net.nodes, x) && u != x
    ensures Adj(RemoveNode(net, x), u) == RemoveFirst(Adj(net, u), x)
  {
    if HasNode(RemoveNode(net, x).nodes, u) {
      AdjAfterRemoveKept(net, x, u);
    } else {
      AdjAfterRemoveAbsent(net, x, u);
    }
  }

  lemma AdjAfterRemoveKept(net: Network, x: NodeId, u: NodeId)
    requires UniqueIds(net.nodes) && HasNode(net.nodes, x) && HasNode(RemoveNode(net, x).nodes, u)
    ensures Adj(RemoveNode(net, x), u) == RemoveFirst(Adj(net, u), x)
  {
    var net' := RemoveNode(net, x);
    var k := FindNode(net.nodes, x).value;
    var i' := FindNode(net'.nodes, u).value;
    var j := if i' < k then i' else i' + 1;
    assert net'.nodes[i'] == Strip(net.nodes[j], x);
    FindNodeUnique(net.nodes, j);
  }

  lemma AdjAfterRemoveAbsent(net: Network, x: NodeId, u: NodeId)
    requires HasNode(net.nodes, x) && u != x && !HasNode(RemoveNode(net, x).nodes, u)
    ensures !HasNode(net.nodes, u)
  {
    var net' := RemoveNode(net, x);
    var k := FindNode(net.nodes, x).value;
    forall j | 0 <= j < |net.nodes| ensures net.nodes[j].id != u {
      if j < k {
        assert net'.nodes[j].id == net.nodes[j].id;
      } else if j > k {
        assert net'.nodes[j - 1].id == net.nodes[j].id;
      }
    }
  }

  lemma AdjAfterRemoveSelf(net: Network, x: NodeId)
    requires UniqueIds(net.nodes) && HasNode(net.nodes, x)
    ensures Adj(RemoveNode(net, x), x) == []
  {
    var net' := RemoveNode(net, x);
    var k := FindNode(net.nodes, x).value;
    forall j | 0 <= j < |net'.nodes| ensures net'.nodes[j].id != x {
      if j >= k {
        assert net'.nodes[j].id == net.nodes[j + 1].id;
      } else {
        assert net'.nodes[j].id == net.nodes[j].id;
      }
    }
  }

  /**
   * After `remove_node(x)` a walk that does not start at `x` never meets `x`
   * and was already a walk before the removal.
   */
  lemma RemoveNodeWalks(net: Network, x: NodeId, w: seq<NodeId>)
    requires UniqueIds(net.nodes) && HasNode(net.nodes, x)
    requires forall i :: 0 <= i < |net.nodes| ==> Count(net.nodes[i].adjacents, x) <= 1
    requires IsWalk(RemoveNode(net, x), w) && w[0] != x
    ensures x !in w && IsWalk(net, w)
  {
    forall u | u != x ensures EdgesBack(RemoveNode(net, x), net, x, u) {
      forall v | v in Adj(RemoveNode(net, x), u) ensures v != x && v in Adj(net, u) {
        EdgeAfterRemove(net, x, u, v);
      }
    }
    WalkBack(RemoveNode(net, x), net, x, w);
  }

  /** Every edge of `a` out of `u` is an edge of `b` that avoids `x`. */
  predicate EdgesBack(a: Network, b: Network, x: NodeId, u: NodeId) {
    forall v :: v in Adj(a, u) ==> v != x && v in Adj(b, u)
  }

  lemma {:induction false} WalkBack(a: Network, b: Network, x: NodeId, w: seq<NodeId>)
    requires IsWalk(a, w) && w[0] != x
    requires forall u :: u != x ==> EdgesBack(a, b, x, u)
    ensures x !in w && IsWalk(b, w)
    decreases |w|
  {
    if |w| > 1 {
      var w' := w[..|w| - 1];
      assert IsWalk(a, w');
      WalkBack(a, b, x, w');
      assert EdgesBack(a, b, x, w'[|w'| - 1]);
      assert w == w' + [w[|w| - 1]];
    }
  }

  /** An edge out of a surviving node after `remove_node(x)` is an old edge not leading to `x`. */
  lemma EdgeAfterRemove(net: Network, x: NodeId, u: NodeId, v: NodeId)
    requires UniqueIds(net.nodes) && HasNode(net.nodes, x) && u != x
    requires forall i :: 0 <= i < |net.nodes| ==> Count(net.nodes[i].adjacents, x) <= 1
    requires v in Adj(RemoveNode(net, x), u)
    ensures v != x && v in Adj(net, u)
  {
    AdjAfterRemove(net, x, u);
    RemoveFirstDropsOnly(net, u, x);
    RemoveFirstSubset(Adj(net, u), x, v);
  }

  /** A single copy of `x` is gone once its first occurrence is removed. */
  lemma RemoveFirstDropsOnly(net: Network, u: NodeId, x: NodeId)
    requires forall i :: 0 <= i < |net.nodes| ==> Count(net.nodes[i].adjacents, x) <= 1
    ensures x !in RemoveFirst(Adj(net, u), x)
  {
    var a := Adj(net, u);
    if x in a {
      var j := IndexOf(a, x).value;
      assert a == a[..j] + [x] + a[j + 1..];
      CountAppend(a[..j] + [x], a[j + 1..], x);
      CountAppend(a[..j], [x], x);
      assert Count(a[j + 1..], x) == 0;
      assert x !in a[..j];
      assert RemoveFirst(a, x) == a[..j] + a[j + 1..];
    }
  }

  /**
   * The dynamic-update scenario of the source's tests: when every walk from
   * the local node to `dest` passes through `x`, `find_path(dest)` fails
   * after `remove_node(x)`.
   */
  lemma RemoveNodeCutsPaths(net: Network, x: NodeId, dest: NodeId)
    requires |net.nodes| > 0 && net.nodes[0].id != x && HasNode(net.nodes, x)
    requires UniqueIds(net.nodes)
    requires forall i :: 0 <= i < |net.nodes| ==> Count(net.nodes[i].adjacents, x) <= 1
    requires forall w :: IsWalk(net, w) && w[0] == net.nodes[0].id && w[|w| - 1] == dest ==> x in w
    ensures |RemoveNode(net, x).nodes| > 0 && RemoveNode(net, x).nodes[0].id == net.nodes[0].id
    ensures FindPath(RemoveNode(net, x), dest).None?
  {
    var net' := RemoveNode(net, x);
    var root := net.nodes[0].id;
    assert FindNode(net.nodes, x).value > 0;
    forall w | IsWalk(net', w) && w[0] == root && w[|w| - 1] == dest
      ensures false
    {
      RemoveNodeWalks(net, x, w);
    }
  }

  // ------------------------------------------------------------------ proofs

  /** Levels after an expansion: old ids keep theirs, new ids get `k`. */
  function Relevel(V': set<NodeId>, lv: map<NodeId, nat>, k: nat): (r: map<NodeId, nat>)
    ensures r.Keys == V'
  {
    map v | v in V' :: if v in lv then lv[v] else k
  }

  /** Parent links: every visited id but the root has a parent one level up that lists it. */
  ghost predicate ParentOk(net: Network, root: NodeId, V: set<NodeId>, P: map<NodeId, NodeId>, lv: map<NodeId, nat>) {
    && root in V && root !in P && P.Keys == V - {root}
    && lv.Keys == V && lv[root] == 0
    && forall v {:trigger P[v]} :: v in P ==> P[v] in V && lv[v] == lv[P[v]] + 1 && v in Adj(net, P[v])
  }

  /**
   * The queue holds the visited ids not yet expanded: its first `m` entries
   * share the head's level and the rest are one level further; no visited id
   * is further than that.
   */
  ghost predicate QueueOk(q: seq<NodeId>, V: set<NodeId>, lv: map<NodeId, nat>, E: set<NodeId>, m: nat) {
    && lv.Keys == V && Elems(q) + E == V
    && (q != [] ==> 1 <= m <= |q|)
    && (forall i :: 0 <= i < |q| ==> lv[q[i]] == if i < m then lv[q[0]] else lv[q[0]] + 1)
    && (q != [] ==> forall v :: v in V ==> lv[v] <= lv[q[0]] + 1)
  }

  /**
   * Where the next level starts in the queue `q'` left after popping the head:
   * one place earlier, or, once the head's level is used up, nowhere.
   */
  function NextSplit(m: nat, q': seq<NodeId>): nat {
    if m >= 2 then m - 1 else |q'|
  }

  /** The adjacents of `u` are all visited, at most one level further than `u`. */
  ghost predicate Settled(net: Network, V: set<NodeId>, lv: map<NodeId, nat>, u: NodeId) {
    u in lv && forall w {:trigger w in Adj(net, u)} :: w in Adj(net, u) ==> w in V && w in lv && lv[w] <= lv[u] + 1
  }

  /** Expanded ids are settled. */
  ghost predicate ExpandedOk(net: Network, V: set<NodeId>, lv: map<NodeId, nat>, E: set<NodeId>) {
    lv.Keys == V && E <= V && forall u :: u in E ==> Settled(net, V, lv, u)
  }

  ghost predicate Inv(net: Network, root: NodeId, dest: NodeId, q: seq<NodeId>, V: set<NodeId>,
                      P: map<NodeId, NodeId>, lv: map<NodeId, nat>, E: set<NodeId>, m: nat) {
    && ParentOk(net, root, V, P, lv)
    && QueueOk(q, V, lv, E, m)
    && ExpandedOk(net, V, lv, E)
    && dest !in E
  }

  /** The search from any state satisfying `Inv` answers like the graph says. */
  lemma {:induction false} BfsCorrect(net: Network, root: NodeId, dest: NodeId, q: seq<NodeId>, V: set<NodeId>,
                                      P: map<NodeId, NodeId>, lv: map<NodeId, nat>, E: set<NodeId>, m: nat)
    requires Inv(net, root, dest, q, V, P, lv, E, m)
    ensures BfsAnswers(net, root, dest, Bfs(net, dest, q, V, P))
    decreases AllIds - V, |q|, 2
  {
    if q == [] {
      BfsExhausted(net, root, dest, V, P, lv, E, m);
    } else if q[0] == dest {
      BfsFound(net, root, dest, q, V, P, lv, E, m);
    } else {
      BfsStep(net, root, dest, q, V, P, lv, E, m);
    }
  }

  /** What the search promises: an answer exactly when reachable, and then a shortest path. */
  ghost predicate BfsAnswers(net: Network, root: NodeId, dest: NodeId, r: Option<seq<NodeId>>) {
    && (r.Some? <==> Reaches(net, root, dest))
    && (r.Some? ==> IsShortestPath(net, r.value, root, dest))
  }

  lemma BfsStep(net: Network, root: NodeId, dest: NodeId, q: seq<NodeId>, V: set<NodeId>,
                P: map<NodeId, NodeId>, lv: map<NodeId, nat>, E: set<NodeId>, m: nat)
    requires Inv(net, root, dest, q, V, P, lv, E, m) && q != [] && q[0] != dest
    ensures BfsAnswers(net, root, dest, Bfs(net, dest, q, V, P))
    decreases AllIds - V, |q|, 1
  {
    var q', V', P', lv', E', m' := NextState(net, root, dest, q, V, P, lv, E, m);
    ExpandProgress(q, V, P, Adj(net, q[0]));
    BfsNext(net, root, dest, q, V, q', V', P', lv', E', m');
    BfsUnfold(net, dest, q, V, P);
  }

  /** The search resumed from a state closer to the end answers correctly. */
  lemma {:induction false} BfsNext(net: Network, root: NodeId, dest: NodeId, q: seq<NodeId>, V: set<NodeId>,
                                   q': seq<NodeId>, V': set<NodeId>, P': map<NodeId, NodeId>,
                                   lv': map<NodeId, nat>, E': set<NodeId>, m': nat)
    requires Inv(net, root, dest, q', V', P', lv', E', m')
    requires AllIds - V' < AllIds - V || (V' == V && |q'| < |q|)
    ensures BfsAnswers(net, root, dest, Bfs(net, dest, q', V', P'))
    decreases AllIds - V, |q|, 0
  {
    BfsCorrect(net, root, dest, q', V', P', lv', E', m');
  }

  /** One round of the search is the expansion of the head. */
  lemma BfsUnfold(net: Network, dest: NodeId, q: seq<NodeId>, V: set<NodeId>, P: map<NodeId, NodeId>)
    requires q != [] && q[0] != dest
    ensures var u := q[0];
      var r := Expand(Adj(net, u), u, q[1..], V, P);
      Bfs(net, dest, q, V, P) == Bfs(net, dest, r.0, r.1, r.2)
  {
  }

  /** Expanding the head either visits a new id or shortens the queue. */
  lemma ExpandProgress(q: seq<NodeId>, V: set<NodeId>, P: map<NodeId, NodeId>, A: seq<NodeId>)
    requires q != []
    ensures var r := Expand(A, q[0], q[1..], V, P);
      AllIds - r.1 < AllIds - V || (r.1 == V && |r.0| < |q|)
  {
    var r := Expand(A, q[0], q[1..], V, P);
    if r.1 != V {
      var n :| n in r.1 && n !in V;
      assert n in AllIds - V && n !in AllIds - r.1;
    }
  }

  /** An empty queue means every id reachable from the root was expanded, and the destination was not. */
  lemma BfsExhausted(net: Network, root: NodeId, dest: NodeId, V: set<NodeId>,
                     P: map<NodeId, NodeId>, lv: map<NodeId, nat>, E: set<NodeId>, m: nat)
    requires Inv(net, root, dest, [], V, P, lv, E, m)
    ensures !Reaches(net, root, dest)
  {
    assert E == V;
    forall w | IsWalk(net, w) && w[0] == root
      ensures w[|w| - 1] != dest
    {
      ClosedWalk(net, V, lv, E, w);
    }
  }

  /** Popping the destination: its parent chain is a fewest-hop repetition-free walk. */
  lemma BfsFound(net: Network, root: NodeId, dest: NodeId, q: seq<NodeId>, V: set<NodeId>,
                 P: map<NodeId, NodeId>, lv: map<NodeId, nat>, E: set<NodeId>, m: nat)
    requires Inv(net, root, dest, q, V, P, lv, E, m) && q != [] && q[0] == dest
    ensures IsShortestPath(net, Chain(P, dest, |P|), root, dest)
    ensures dest == root ==> Chain(P, dest, |P|) == [dest]
  {
    var c := Chain(P, dest, |P|);
    LevelBound(net, root, V, P, lv, dest);
    var c' := ChainPath(net, root, V, P, lv, dest, |P|);
    assert NoDup(c);
    forall w | IsWalk(net, w) && w[0] == root && w[|w| - 1] == dest
      ensures |c| <= |w|
    {
      if |w| - 1 < lv[dest] {
        NearWalks(net, root, dest, q, V, P, lv, E, m, w);
      }
    }
  }

  /** One expansion step keeps the invariant, with the new ids one level below `q[0]`. */
  lemma ExpandKeepsInv(net: Network, root: NodeId, dest: NodeId, q: seq<NodeId>, V: set<NodeId>,
                       P: map<NodeId, NodeId>, lv: map<NodeId, nat>, E: set<NodeId>, m: nat)
    requires Inv(net, root, dest, q, V, P, lv, E, m) && q != [] && q[0] != dest
    ensures var r := Expand(Adj(net, q[0]), q[0], q[1..], V, P);
      Inv(net, root, dest, r.0, r.1, r.2, Relevel(r.1, lv, lv[q[0]] + 1), E + {q[0]}, NextSplit(m, r.0))
  {
    assert q[0] in Elems(q);
    var r := Expand(Adj(net, q[0]), q[0], q[1..], V, P);
    ParentsAfterExpand(net, root, q, V, P, lv, r.0, r.1, r.2);
    QueueAfterExpand(net, q, V, P, lv, E, m, r.0, r.1, r.2);
    ExpandedAfterExpand(net, q, V, P, lv, E, m, r.0, r.1, r.2);
  }

  /** The state after expanding the head, named, with the invariant holding of it. */
  lemma NextState(net: Network, root: NodeId, dest: NodeId, q: seq<NodeId>, V: set<NodeId>,
                  P: map<NodeId, NodeId>, lv: map<NodeId, nat>, E: set<NodeId>, m: nat)
    returns (q': seq<NodeId>, V': set<NodeId>, P': map<NodeId, NodeId>, lv': map<NodeId, nat>, E': set<NodeId>, m': nat)
    requires Inv(net, root, dest, q, V, P, lv, E, m) && q != [] && q[0] != dest
    ensures (q', V', P') == Expand(Adj(net, q[0]), q[0], q[1..], V, P)
    ensures Inv(net, root, dest, q', V', P', lv', E', m')
  {
    assert q[0] in Elems(q);
    var r := Expand(Adj(net, q[0]), q[0], q[1..], V, P);
    q', V', P' := r.0, r.1, r.2;
    lv', E', m' := Relevel(V', lv, lv[q[0]] + 1), E + {q[0]}, NextSplit(m, q');
    ParentsAfterExpand(net, root, q, V, P, lv, q', V', P');
    QueueAfterExpand(net, q, V, P, lv, E, m, q', V', P');
    ExpandedAfterExpand(net, q, V, P, lv, E, m, q', V', P');
  }

  /** The state after expanding the head of `q`. */
  predicate Expanded(net: Network, q: seq<NodeId>, V: set<NodeId>, P: map<NodeId, NodeId>,
                     q': seq<NodeId>, V': set<NodeId>, P': map<NodeId, NodeId>)
    requires q != []
  {
    (q', V', P') == Expand(Adj(net, q[0]), q[0], q[1..], V, P)
  }

  lemma ParentsAfterExpand(net: Network, root: NodeId, q: seq<NodeId>, V: set<NodeId>, P: map<NodeId, NodeId>,
                           lv: map<NodeId, nat>, q': seq<NodeId>, V': set<NodeId>, P': map<NodeId, NodeId>)
    requires ParentOk(net, root, V, P, lv) && q != [] && q[0] in V
    requires Expanded(net, q, V, P, q', V', P')
    ensures ParentOk(net, root, V', P', Relevel(V', lv, lv[q[0]] + 1))
  {
    ExpandParents(Adj(net, q[0]), q[0], q[1..], V, P);
    ParentStep(net, root, V, P, lv, q[0], Adj(net, q[0]), V', P');
  }

  lemma QueueAfterExpand(net: Network, q: seq<NodeId>, V: set<NodeId>, P: map<NodeId, NodeId>,
                         lv: map<NodeId, nat>, E: set<NodeId>, m: nat, q': seq<NodeId>, V': set<NodeId>,
                         P': map<NodeId, NodeId>)
    requires QueueOk(q, V, lv, E, m) && q != []
    requires Expanded(net, q, V, P, q', V', P')
    ensures QueueOk(q', V', Relevel(V', lv, lv[q[0]] + 1), E + {q[0]}, NextSplit(m, q'))
  {
    ExpandQueue(Adj(net, q[0]), q[0], q[1..], V, P);
    var added := q'[|q[1..]|..];
    assert q' == q[1..] + added;
    assert Elems(added) == Elems(Adj(net, q[0])) - V;
    QueueStep(q, V, lv, E, m, added, q', V');
  }

  lemma ExpandedAfterExpand(net: Network, q: seq<NodeId>, V: set<NodeId>, P: map<NodeId, NodeId>,
                            lv: map<NodeId, nat>, E: set<NodeId>, m: nat, q': seq<NodeId>, V': set<NodeId>,
                            P': map<NodeId, NodeId>)
    requires QueueOk(q, V, lv, E, m) && ExpandedOk(net, V, lv, E) && q != []
    requires Expanded(net, q, V, P, q', V', P')
    ensures ExpandedOk(net, V', Relevel(V', lv, lv[q[0]] + 1), E + {q[0]})
  {
    assert q[0] in Elems(q);
    ExpandedStep(net, V, lv, E, q[0], Adj(net, q[0]), V');
  }

  lemma ParentStep(net: Network, root: NodeId, V: set<NodeId>, P: map<NodeId, NodeId>, lv: map<NodeId, nat>,
                   u: NodeId, A: seq<NodeId>, V': set<NodeId>, P': map<NodeId, NodeId>)
    requires ParentOk(net, root, V, P, lv) && u in V && A == Adj(net, u)
    requires V' == V + Elems(A) && P'.Keys == P.Keys + (Elems(A) - V)
    requires forall n :: n in Elems(A) - V ==> P'[n] == u
    requires forall n :: n in P && n !in Elems(A) - V ==> P'[n] == P[n]
    ensures ParentOk(net, root, V', P', Relevel(V', lv, lv[u] + 1))
  {
    var lv' := Relevel(V', lv, lv[u] + 1);
    forall v | v in P'
      ensures P'[v] in V' && lv'[v] == lv'[P'[v]] + 1 && v in Adj(net, P'[v])
    {
      if v in Elems(A) - V {
        assert P'[v] == u;
      }
    }
  }

  lemma QueueStep(q: seq<NodeId>, V: set<NodeId>, lv: map<NodeId, nat>, E: set<NodeId>, m: nat,
                  added: seq<NodeId>, q': seq<NodeId>, V': set<NodeId>)
    requires QueueOk(q, V, lv, E, m) && q != [] && Elems(added) * V == {}
    requires q' == q[1..] + added && V' == V + Elems(added)
    ensures QueueOk(q', V', Relevel(V', lv, lv[q[0]] + 1), E + {q[0]}, NextSplit(m, q'))
  {
    var L := lv[q[0]];
    var lv' := Relevel(V', lv, L + 1);
    QueueStepElems(q, V, E, added);
    QueueStepLevels(q, V, lv, E, m, added);
    if q' != [] {
      assert lv'[q'[0]] == if 0 < m - 1 then L else L + 1;
    }
  }

  /** After the step the queue and the expanded ids, the head now among them, still make up the visited ids. */
  lemma QueueStepElems(q: seq<NodeId>, V: set<NodeId>, E: set<NodeId>, added: seq<NodeId>)
    requires Elems(q) + E == V && q != []
    ensures Elems(q[1..] + added) + (E + {q[0]}) == V + Elems(added)
  {
    assert Elems(q) == {q[0]} + Elems(q[1..]);
    assert Elems(q[1..] + added) == Elems(q[1..]) + Elems(added);
  }

  /** Levels after the step: old ids keep theirs, new ids are one past the head's, and the queue stays split in two levels. */
  lemma QueueStepLevels(q: seq<NodeId>, V: set<NodeId>, lv: map<NodeId, nat>, E: set<NodeId>, m: nat,
                        added: seq<NodeId>)
    requires QueueOk(q, V, lv, E, m) && q != [] && Elems(added) * V == {}
    ensures var lv' := Relevel(V + Elems(added), lv, lv[q[0]] + 1);
      && (forall x :: x in V ==> lv'[x] == lv[x])
      && (forall x :: x in Elems(added) ==> lv'[x] == lv[q[0]] + 1)
      && (forall i :: 0 <= i < |q[1..] + added| ==>
            lv'[(q[1..] + added)[i]] == if i < m - 1 then lv[q[0]] else lv[q[0]] + 1)
  {
    var L := lv[q[0]];
    var rest := q[1..];
    var q' := rest + added;
    var V' := V + Elems(added);
    var lv' := Relevel(V', lv, L + 1);
    assert Elems(q) == {q[0]} + Elems(rest);
    forall x | x in Elems(added) ensures x !in V && lv'[x] == L + 1 {
      assert x !in Elems(added) * V;
    }
    assert forall x :: x in V ==> lv'[x] == lv[x];
    forall i | 0 <= i < |q'| ensures lv'[q'[i]] == if i < m - 1 then L else L + 1 {
      if i < |rest| {
        assert q'[i] == q[i + 1] && q[i + 1] in Elems(q);
      } else {
        assert q'[i] == added[i - |rest|] && q'[i] in Elems(added);
      }
    }
  }

  lemma ExpandedStep(net: Network, V: set<NodeId>, lv: map<NodeId, nat>, E: set<NodeId>, u: NodeId,
                     A: seq<NodeId>, V': set<NodeId>)
    requires lv.Keys == V && ExpandedOk(net, V, lv, E) && u in V && A == Adj(net, u)
    requires forall v :: v in V ==> lv[v] <= lv[u] + 1
    requires V' == V + Elems(A)
    ensures ExpandedOk(net, V', Relevel(V', lv, lv[u] + 1), E + {u})
  {
    var lv' := Relevel(V', lv, lv[u] + 1);
    forall e, w | e in E + {u} && w in Adj(net, e) ensures w in V' && lv'[w] <= lv'[e] + 1 {
      if e == u {
        assert w in Elems(A);
      }
    }
  }

  /** A walk that starts in a set closed under adjacency stays in it. */
  lemma {:induction false} ClosedWalk(net: Network, V: set<NodeId>, lv: map<NodeId, nat>, E: set<NodeId>, w: seq<NodeId>)
    requires lv.Keys == V && ExpandedOk(net, V, lv, E) && E == V
    requires IsWalk(net, w) && w[0] in V
    ensures w[|w| - 1] in V
    decreases |w|
  {
    if |w| > 1 {
      var w' := w[..|w| - 1];
      assert IsWalk(net, w');
      ClosedWalk(net, V, lv, E, w');
      assert w[|w| - 1] in Adj(net, w'[|w'| - 1]);
    }
  }

  /** Every walk from the root no longer than the head's level ends at a visited id of at most that length. */
  lemma {:induction false} NearWalks(net: Network, root: NodeId, dest: NodeId, q: seq<NodeId>, V: set<NodeId>,
                                     P: map<NodeId, NodeId>, lv: map<NodeId, nat>, E: set<NodeId>, m: nat,
                                     w: seq<NodeId>)
    requires Inv(net, root, dest, q, V, P, lv, E, m) && q != []
    requires IsWalk(net, w) && w[0] == root && |w| - 1 <= lv[q[0]]
    ensures w[|w| - 1] in V && lv[w[|w| - 1]] <= |w| - 1
    decreases |w|
  {
    if |w| > 1 {
      var w' := w[..|w| - 1];
      assert IsWalk(net, w');
      NearWalks(net, root, dest, q, V, P, lv, E, m, w');
      var u := w'[|w'| - 1];
      forall j | 0 <= j < |q| ensures q[j] != u {
        assert lv[q[0]] <= lv[q[j]];
      }
      assert u in E;
      assert w[|w| - 1] in Adj(net, u);
    }
  }

  /** The parent chain of a visited id is a walk from the root whose `i`-th id has level `i`. */
  lemma {:induction false} ChainPath(net: Network, root: NodeId, V: set<NodeId>, P: map<NodeId, NodeId>,
                                     lv: map<NodeId, nat>, v: NodeId, fuel: nat)
      returns (c: seq<NodeId>)
    requires ParentOk(net, root, V, P, lv) && v in V && lv[v] <= fuel
    ensures c == Chain(P, v, fuel)
    ensures |c| == lv[v] + 1 && c[0] == root && c[|c| - 1] == v && IsWalk(net, c)
    ensures forall i :: 0 <= i < |c| ==> c[i] in V && lv[c[i]] == i
    decreases lv[v]
  {
    if v in P {
      assert P[v] in V && lv[v] == lv[P[v]] + 1 && v in Adj(net, P[v]);
      var c' := ChainPath(net, root, V, P, lv, P[v], fuel - 1);
      assert fuel != 0 && Chain(P, v, fuel) == Chain(P, P[v], fuel - 1) + [v];
      c := c' + [v];
      ChainStep(net, V, lv, c', v);
    } else {
      assert v == root;
      c := [v];
    }
  }

  /** A chain extended by a child of its last id keeps the properties `ChainPath` states. */
  lemma ChainStep(net: Network, V: set<NodeId>, lv: map<NodeId, nat>, c: seq<NodeId>, v: NodeId)
    requires |c| > 0 && IsWalk(net, c) && v in Adj(net, c[|c| - 1]) && v in V && lv.Keys == V
    requires forall i :: 0 <= i < |c| ==> c[i] in V && lv[c[i]] == i
    requires lv[v] == |c|
    ensures IsWalk(net, c + [v])
    ensures forall i :: 0 <= i < |c| + 1 ==> (c + [v])[i] in V && lv[(c + [v])[i]] == i
  {
    var w := c + [v];
    forall i | 0 <= i < |w| - 1 ensures w[i + 1] in Adj(net, w[i]) {
      if i + 1 < |c| {
        assert w[i] == c[i] && w[i + 1] == c[i + 1];
      }
    }
  }

  /** A level never exceeds the number of parent entries, so `|parent|` is enough fuel. */
  lemma LevelBound(net: Network, root: NodeId, V: set<NodeId>, P: map<NodeId, NodeId>, lv: map<NodeId, nat>, v: NodeId)
    requires ParentOk(net, root, V, P, lv) && v in V
    ensures lv[v] <= |P|
  {
    var c := ChainPath(net, root, V, P, lv, v, lv[v]);
    var tail := c[1..];
    assert NoDup(tail);
    forall x | x in tail ensures x in P.Keys {
      var i :| 0 <= i < |tail| && tail[i] == x;
      assert lv[c[i + 1]] == i + 1;
    }
    NoDupCard(tail);
    assert Elems(tail) <= P.Keys;
    SubsetCard(Elems(tail), P.Keys);
  }

  lemma {:induction false} NoDupCard<T>(s: seq<T>)
    requires NoDup(s)
    ensures |Elems(s)| == |s|
  {
    if s != [] {
      NoDupCard(s[1..]);
      assert Elems(s) == {s[0]} + Elems(s[1..]);
      assert s[0] !in Elems(s[1..]);
    }
  }

  lemma SubsetCard<T>(a: set<T>, b: set<T>)
    requires a <= b
    ensures |a| <= |b|
  {
    assert b == a + (b - a);
  }
}

=== FILE: processor.dfy ===
/**
 * The packet dispatch every endpoint shares (`Processor::handle_packet` in
 * common/src/packet_processor.rs): a fragment is acknowledged and offered to
 * the reassembler, and acknowledgements, NACKs and flood packets go to the
 * matching operation of the routing handler.
 *
 * The fragment reassembler (common/src/assembler.rs) is not part of this
 * model: what it returns for a fragment is an input, `assembled`.
 */
module Processor {

  import opened Wrappers
  import opened Seqs
  import opened Packets
  import opened Topology
  import opened SentBuffer
  import opened Routing
  import opened RoutingMessages

  /** A reassembled message handed to the application's `handle_msg`. */
  datatype Delivery = Delivery(msg: seq<Byte>, from: NodeId, session: nat)

  /** The handler after the call, the message handed up (if any), and the result. */
  datatype Handled = Handled(h: Handler, delivered: Option<Delivery>, result: Result<(), Fault>)

  /** `SourceRoutingHeader::reverse`: the hops backwards, the index reset to 1. */
  function ReverseRoute(hdr: Header): (r: Header)
    ensures r.hopIndex == 1 && |r.hops| == |hdr.hops|
    ensures forall i :: 0 <= i < |hdr.hops| ==> r.hops[i] == hdr.hops[|hdr.hops| - 1 - i]
  {
    Header(1, Reverse(hdr.hops))
  }

  /** Reversing twice gives the original hops back. */
  lemma ReverseRouteTwice(hdr: Header)
    ensures ReverseRoute(ReverseRoute(hdr)).hops == hdr.hops
  {
  }

  /** The acknowledgement a fragment triggers: same session and index, reversed route. */
  function AckFor(pkt: Packet): Packet
    requires pkt.body.MsgFragment?
  {
    Packet(ReverseRoute(pkt.header), pkt.session, Ack(pkt.body.fragment.index))
  }

  /** A panic becomes the result; any other outcome of the step is discarded as `Ok`. */
  function Discarded(s: Step): (r: Result<(), Fault>)
    ensures r.Ok? <==> s.result != Err(Panics)
  {
    if s.result == Err(Panics) then Err(Panics) else Ok(())
  }

  /**
   * `handle_packet`. A fragment is first acknowledged along the reversed
   * route (a failure there ends the call), then a completed message is handed
   * up with the route's first hop as sender. ACK and NACK read the sender from
   * `hops[0]`, which panics on an empty route. Flood request errors propagate,
   * a flood response's result is dropped.
   */
  function HandlePacket(h: Handler, pkt: Packet, assembled: Option<seq<Byte>>): (r: Handled)
    ensures r.delivered.Some? ==>
      && pkt.body.MsgFragment? && assembled.Some? && pkt.header.hops != [] && r.result.Ok?
      && r.delivered.value == Delivery(assembled.value, pkt.header.hops[0], pkt.session)
    ensures pkt.body.MsgFragment? ==>
      var a := TrySend(h, AckFor(pkt));
      && r.h == a.h
      && (a.result.Err? ==> r.result == a.result && r.delivered.None?)
      && (a.result.Ok? ==> r.result.Ok? && (r.delivered.Some? <==> assembled.Some?))
    ensures (pkt.body.Ack? || pkt.body.Nack?) && pkt.header.hops == [] ==> r == Handled(h, None, Err(Panics))
    ensures pkt.body.Ack? && pkt.header.hops != [] ==>
      var s := HandleAck(h, pkt.session, pkt.body.ackIndex, pkt.header.hops[0]);
      r == Handled(s.h, None, s.result)
    ensures pkt.body.Nack? && pkt.header.hops != [] ==>
      var s := HandleNack(h, pkt.body.nackIndex, pkt.body.nackType, pkt.session, pkt.header.hops[0]);
      r == Handled(s.h, None, s.result)
    ensures pkt.body.FloodReq? ==>
      var s := HandleFloodRequest(h, pkt.body.request, pkt.session);
      r == Handled(s.h, None, s.result)
    ensures pkt.body.FloodResp? ==>
      var s := HandleFloodResponse(h, pkt.body.response);
      r.h == s.h && r.delivered.None? && (r.result.Ok? <==> s.result != Err(Panics))
  {
    match pkt.body
      case MsgFragment(f) =>
        var a := SendAck(h, ReverseRoute(pkt.header), pkt.session, f.index);
        if a.result.Err? then Handled(a.h, None, a.result)
        else
          assert pkt.header.hops != [];
          if assembled.None? then Handled(a.h, None, Ok(()))
          else Handled(a.h, Some(Delivery(assembled.value, pkt.header.hops[0], pkt.session)), Ok(()))
      case Ack(i) =>
        if pkt.header.hops == [] then Handled(h, None, Err(Panics))
        else
          var s := HandleAck(h, pkt.session, i, pkt.header.hops[0]);
          Handled(s.h, None, s.result)
      case Nack(i, kind) =>
        if pkt.header.hops == [] then Handled(h, None, Err(Panics))
        else
          var s := HandleNack(h, i, kind, pkt.session, pkt.header.hops[0]);
          Handled(s.h, None, s.result)
      case FloodReq(req) =>
        var s := HandleFloodRequest(h, req, pkt.session);
        Handled(s.h, None, s.result)
      case FloodResp(resp) =>
        var s := HandleFloodResponse(h, resp);
        Handled(s.h, None, Discarded(s))
  }

  /**
   * A fragment that came over two or more hops is acknowledged to the hop it
   * came from, before anything else happens, with the same session and index.
   * The sent acknowledgement is also recorded in the sent buffer.
   */
  lemma FragmentAckedFirst(h: Handler, pkt: Packet, assembled: Option<seq<Byte>>)
    requires pkt.body.MsgFragment? && |pkt.header.hops| >= 2 && h.controllerUp
    requires var prev := pkt.header.hops[|pkt.header.hops| - 2]; prev in h.neighbors && h.neighbors[prev]
    ensures var r := HandlePacket(h, pkt, assembled);
      var ack := Packet(ReverseRoute(pkt.header), pkt.session, Ack(pkt.body.fragment.index));
      && r.result.Ok?
      && r.h.outbox == h.outbox + [(pkt.header.hops[|pkt.header.hops| - 2], ack)]
      && r.h.buffer == Insert(h.buffer, ack, pkt.session, h.id)
      && (assembled.Some? ==> r.delivered == Some(Delivery(assembled.value, pkt.header.hops[0], pkt.session)))
  {
    var ack := AckFor(pkt);
    assert ack.header.hops[1] == pkt.header.hops[|pkt.header.hops| - 2];
    TrySendDirect(h, ack);
  }

  /** A fragment with an empty route cannot be acknowledged: `NoDestination`, nothing handed up. */
  lemma UnroutedFragmentRefused(h: Handler, pkt: Packet, assembled: Option<seq<Byte>>)
    requires pkt.body.MsgFragment? && pkt.header.hops == []
    ensures HandlePacket(h, pkt, assembled) == Handled(h, None, Err(Fails(NoDestination)))
  {
  }

  /**
   * An acknowledgement from a peer is looked up under that peer's id, while
   * sent fragments are buffered under the handler's own id: the fragment it
   * acknowledges stays available for a retry.
   */
  lemma AckLooksUpPeer(h: Handler, pkt: Packet)
    requires pkt.body.Ack? && pkt.header.hops != [] && pkt.header.hops[0] != h.id
    requires CanMark(h.buffer, pkt.session, pkt.body.ackIndex, pkt.header.hops[0])
    ensures var r := HandlePacket(h, pkt, None);
      r.result.Ok? &&
      GetFragmentById(r.h.buffer, pkt.session, pkt.body.ackIndex, h.id) ==
      GetFragmentById(h.buffer, pkt.session, pkt.body.ackIndex, h.id)
  {
    AckFromPeerKeepsFragment(h, pkt.session, pkt.body.ackIndex, pkt.header.hops[0]);
  }
}

=== FILE: relay.dfy ===
/**
 * The relay drone (Drone/src/drone/rust_do_it.rs): it forwards a packet
 * along its source route, answers misrouted or undeliverable packets with a
 * NACK sent back along the part of the route already travelled, takes part
 * in flood discovery, and obeys the controller's commands.
 *
 * As in module `Routing`, each neighbour channel is a flag saying whether a
 * send succeeds, sends are appended to `outbox` and controller events to
 * `events`. A failed send to the controller is only logged by the source,
 * so it is not modelled. The random drop decision is an input, `dropped`;
 * a panic of the source (an `unwrap` on a missing value) is `Panicked`.
 */
module Relay {

  import opened Wrappers
  import opened Seqs
  import opened Packets
  import opened Assoc
  import Routing
  import opened RoutingMessages

  datatype DroneEvent = PacketSent(packet: Packet) | PacketDropped(packet: Packet) | ControllerShortcut(packet: Packet)

  datatype RelayNode = RelayNode(
    id: NodeId,
    neighbors: map<NodeId, bool>,
    pdr: real,
    floodSessions: set<(nat, NodeId)>,
    outbox: seq<(NodeId, Packet)>,
    events: seq<DroneEvent>)

  /** The drone after handling something, or the panic that ended it. */
  datatype Outcome = Running(d: RelayNode) | Panicked

  datatype Command = AddSender(node: NodeId, live: bool) | SetPacketDropRate(rate: real) | Crash | RemoveSender(node: NodeId)

  /**
   * `after` is `before` with messages and controller events only added:
   * identity, channels, drop rate and flood memory are untouched.
   */
  predicate Extends(before: RelayNode, after: RelayNode) {
    && after == before.(outbox := after.outbox, events := after.events)
    && before.outbox <= after.outbox
    && before.events <= after.events
  }

  function Shortcut(d: RelayNode, p: Packet): (r: RelayNode)
    ensures r == d.(events := d.events + [ControllerShortcut(p)])
  {
    d.(events := d.events + [ControllerShortcut(p)])
  }

  /**
   * `forward_packet`: a working channel takes the packet and the controller
   * hears `PacketSent`; otherwise a fragment is reported dropped and any
   * other packet is handed to the controller.
   */
  function Forward(d: RelayNode, p: Packet, n: NodeId): (r: RelayNode)
    requires n in d.neighbors
    ensures d.neighbors[n] ==> r.outbox == d.outbox + [(n, p)] && r.events == d.events + [PacketSent(p)]
    ensures !d.neighbors[n] ==>
      r.outbox == d.outbox && r.events == d.events + [if p.body.MsgFragment? then PacketDropped(p) else ControllerShortcut(p)]
    ensures r == d.(outbox := r.outbox, events := r.events)
  {
    if d.neighbors[n] then d.(outbox := d.outbox + [(n, p)], events := d.events + [PacketSent(p)])
    else if p.body.MsgFragment? then d.(events := d.events + [PacketDropped(p)])
    else Shortcut(d, p)
  }

  // ------------------------------------------------------------ generate_nack

  /**
   * The part of the route a NACK of this kind retraces, before reversal:
   * the hops before the index for `ErrorInRouting` and `Dropped`, the hops
   * up to the index with the last replaced by the drone itself for
   * `UnexpectedRecipient`, the hops up to and including the index for
   * `DestinationIsDrone`. `None` when `sub_route` finds the range out of
   * bounds (its `unwrap` then panics).
   */
  function Retraced(kind: NackType, hdr: Header, self: NodeId): (r: Option<seq<NodeId>>)
    ensures (kind.ErrorInRouting? || kind.Dropped?) ==>
      (r.Some? <==> hdr.hopIndex <= |hdr.hops|) && (r.Some? ==> r.value == hdr.hops[..hdr.hopIndex])
    ensures kind.UnexpectedRecipient? ==>
      (r.Some? <==> hdr.hopIndex < |hdr.hops|) && (r.Some? ==> r.value == hdr.hops[..hdr.hopIndex] + [self])
    ensures kind.DestinationIsDrone? ==>
      (r.Some? <==> hdr.hopIndex < |hdr.hops|) && (r.Some? ==> r.value == hdr.hops[..hdr.hopIndex + 1])
  {
    match kind
      case ErrorInRouting(_) => if hdr.hopIndex <= |hdr.hops| then Some(hdr.hops[..hdr.hopIndex]) else None
      case Dropped => if hdr.hopIndex <= |hdr.hops| then Some(hdr.hops[..hdr.hopIndex]) else None
      case UnexpectedRecipient(_) =>
        if hdr.hopIndex < |hdr.hops| then Some(hdr.hops[..hdr.hopIndex + 1][..hdr.hopIndex] + [self]) else None
      case DestinationIsDrone => if hdr.hopIndex < |hdr.hops| then Some(hdr.hops[..hdr.hopIndex + 1]) else None
  }

  /** The NACK packet on a route. */
  function NackPacket(route: Header, session: nat, index: nat, kind: NackType): Packet {
    Packet(route, session, Nack(index, kind))
  }

  /**
   * `generate_nack`: a one-hop route goes straight to the controller;
   * otherwise the retraced hops, reversed, with hop index 1, are the NACK's
   * route, and it goes to the hop at index 1 when that is a neighbour, else
   * to the controller. A reversed route shorter than two hops has no hop at
   * index 1, and the source's `unwrap` panics.
   */
  function GenerateNack(d: RelayNode, kind: NackType, index: nat, hdr: Header, session: nat): (r: Outcome)
    ensures |hdr.hops| == 1 ==> r == Running(Shortcut(d, NackPacket(hdr, session, index, kind)))
    ensures |hdr.hops| != 1 ==>
      var back := Retraced(kind, hdr, d.id);
      && (back.None? || |back.value| < 2 ==> r == Panicked)
      && (back.Some? && |back.value| >= 2 ==>
            var nack := NackPacket(Header(1, Reverse(back.value)), session, index, kind);
            var next := back.value[|back.value| - 2];
            && (next in d.neighbors ==> r == Running(Forward(d, nack, next)))
            && (next !in d.neighbors ==> r == Running(Shortcut(d, nack))))
    ensures r.Running? ==> Extends(d, r.d) && |r.d.events| > |d.events|
  {
    if |hdr.hops| == 1 then Running(Shortcut(d, NackPacket(hdr, session, index, kind)))
    else match Retraced(kind, hdr, d.id)
      case None => Panicked
      case Some(back) =>
        var route := Reverse(back);
        if |route| < 2 then Panicked
        else
          var nack := NackPacket(Header(1, route), session, index, kind);
          if route[1] in d.neighbors then Running(Forward(d, nack, route[1]))
          else Running(Shortcut(d, nack))
  }

  // ------------------------------------------------------------- check_packet

  /** The packet as forwarded: the same packet with the hop index advanced by one. */
  function Advanced(p: Packet): (r: Packet)
    ensures r.header.hops == p.header.hops && r.header.hopIndex == p.header.hopIndex + 1
    ensures r.session == p.session && r.body == p.body
  {
    p.(header := p.header.Increased())
  }

  /**
   * `check_packet`: a packet whose current hop is not this drone is refused
   * with `UnexpectedRecipient`; one with no next hop with
   * `DestinationIsDrone`. A next hop that is not a neighbour gets
   * `ErrorInRouting` for fragments and flood requests, while ACK, NACK and
   * flood response go to the controller. A fragment may be dropped, which
   * the controller hears of and which is answered with `Dropped`. Otherwise
   * the packet is forwarded with its hop index advanced.
   */
  function CheckPacket(d: RelayNode, p: Packet, dropped: bool): (r: Outcome)
    ensures r.Running? ==> Extends(d, r.d) && |r.d.events| > |d.events|
  {
    var index := p.FragmentIndex();
    if p.header.CurrentHop() != Some(d.id) then
      GenerateNack(d, UnexpectedRecipient(d.id), index, p.header, p.session)
    else match p.header.NextHop()
      case None => GenerateNack(d, DestinationIsDrone, index, p.header, p.session)
      case Some(next) =>
        var fwd := Advanced(p);
        if next !in d.neighbors then
          if p.body.Ack? || p.body.Nack? || p.body.FloodResp? then Running(Shortcut(d, fwd))
          else GenerateNack(d, ErrorInRouting(next), index, fwd.header, p.session)
        else if p.body.MsgFragment? && dropped then
          GenerateNack(d.(events := d.events + [PacketDropped(p)]), Dropped, index, fwd.header, p.session)
        else Running(Forward(d, fwd, next))
  }

  /**
   * A packet addressed to this drone whose next hop is a working neighbour is
   * forwarded unchanged except for the hop index, unless it is a dropped
   * fragment; nothing else changes.
   */
  lemma ForwardsToNextHop(d: RelayNode, p: Packet, dropped: bool)
    requires p.header.CurrentHop() == Some(d.id) && p.header.NextHop().Some?
    requires p.header.hops[p.header.hopIndex + 1] in d.neighbors && d.neighbors[p.header.hops[p.header.hopIndex + 1]]
    requires !(p.body.MsgFragment? && dropped)
    ensures CheckPacket(d, p, dropped) == Running(d.(
      outbox := d.outbox + [(p.header.hops[p.header.hopIndex + 1], Advanced(p))],
      events := d.events + [PacketSent(Advanced(p))]))
  {
  }

  /** The kind of NACK `check_packet` answers an undeliverable fragment or flood request with. */
  function RefusalKind(d: RelayNode, p: Packet, dropped: bool): NackType {
    match p.header.NextHop()
      case None => DestinationIsDrone
      case Some(next) => if next !in d.neighbors then ErrorInRouting(next) else Dropped
  }

  /**
   * Every NACK a drone sends back for a fragment or flood request it holds
   * retraces the route: it goes to the previous hop, on the travelled part
   * of the packet's route read backwards, which starts at this drone and
   * ends at the packet's source.
   */
  lemma NackRetracesRoute(d: RelayNode, p: Packet, dropped: bool)
    requires p.header.CurrentHop() == Some(d.id) && p.header.hopIndex >= 1
    requires var prev := p.header.hops[p.header.hopIndex - 1]; prev in d.neighbors && d.neighbors[prev]
    requires p.body.MsgFragment? || p.body.FloodReq?
    requires p.header.NextHop().None? || p.header.hops[p.header.hopIndex + 1] !in d.neighbors || (dropped && p.body.MsgFragment?)
    ensures var i := p.header.hopIndex;
      var back := Reverse(p.header.hops[..i + 1]);
      var nack := NackPacket(Header(1, back), p.session, p.FragmentIndex(), RefusalKind(d, p, dropped));
      var r := CheckPacket(d, p, dropped);
      && r.Running? && r.d.outbox == d.outbox + [(p.header.hops[i - 1], nack)]
      && back[0] == d.id && back[|back| - 1] == p.header.hops[0]
  {
    var i := p.header.hopIndex;
    var back := p.header.hops[..i + 1];
    assert back[|back| - 2] == p.header.hops[i - 1];
    var index := p.FragmentIndex();
    if p.header.NextHop().None? {
      NackToPrevious(d, DestinationIsDrone, index, p.header, p.session, back);
    } else if p.header.hops[i + 1] !in d.neighbors {
      assert Advanced(p).header.hops[..i + 1] == back;
      NackToPrevious(d, ErrorInRouting(p.header.hops[i + 1]), index, Advanced(p).header, p.session, back);
    } else {
      assert Advanced(p).header.hops[..i + 1] == back;
      var d1 := d.(events := d.events + [PacketDropped(p)]);
      NackToPrevious(d1, Dropped, index, Advanced(p).header, p.session, back);
    }
  }

  /**
   * When the retraced hops reach back at least one hop and the hop before
   * this drone is a working neighbour, the NACK goes there on the retraced
   * hops reversed, and nothing else happens.
   */
  lemma NackToPrevious(d: RelayNode, kind: NackType, index: nat, hdr: Header, session: nat, back: seq<NodeId>)
    requires |hdr.hops| != 1 && Retraced(kind, hdr, d.id) == Some(back) && |back| >= 2
    requires back[|back| - 2] in d.neighbors && d.neighbors[back[|back| - 2]]
    ensures var nack := NackPacket(Header(1, Reverse(back)), session, index, kind);
      GenerateNack(d, kind, index, hdr, session) ==
        Running(d.(outbox := d.outbox + [(back[|back| - 2], nack)], events := d.events + [PacketSent(nack)]))
  {
  }

  lemma ReverseTwice<T>(s: seq<T>)
    ensures Reverse(Reverse(s)) == s
  {
  }

  /**
   * A packet whose current hop is another node is answered with
   * `UnexpectedRecipient(self)`: the route is this drone followed by the
   * hops before the index, backwards, so it goes to the previous hop.
   */
  lemma MisroutedAnswered(d: RelayNode, p: Packet)
    requires 1 <= p.header.hopIndex < |p.header.hops| && p.header.hops[p.header.hopIndex] != d.id
    requires var prev := p.header.hops[p.header.hopIndex - 1]; prev in d.neighbors && d.neighbors[prev]
    ensures var i := p.header.hopIndex;
      var nack := NackPacket(Header(1, [d.id] + Reverse(p.header.hops[..i])), p.session, p.FragmentIndex(), UnexpectedRecipient(d.id));
      CheckPacket(d, p, false) == Running(Forward(d, nack, p.header.hops[i - 1]))
  {
    var i := p.header.hopIndex;
    var back := p.header.hops[..i] + [d.id];
    assert Reverse(back) == [d.id] + Reverse(p.header.hops[..i]);
  }

  /** A NACK whose route is a single hop goes to the controller, whatever its kind. */
  lemma OneHopNackShortcut(d: RelayNode, kind: NackType, index: nat, hdr: Header, session: nat)
    requires |hdr.hops| == 1
    ensures GenerateNack(d, kind, index, hdr, session) == Running(Shortcut(d, NackPacket(hdr, session, index, kind)))
  {
  }

  /**
   * ACK, NACK and flood response packets are never answered with a NACK when
   * the next hop is missing: they reach the controller, advanced.
   */
  lemma UnroutableControlShortcut(d: RelayNode, p: Packet, dropped: bool)
    requires p.body.Ack? || p.body.Nack? || p.body.FloodResp?
    requires p.header.CurrentHop() == Some(d.id) && p.header.NextHop().Some?
    requires p.header.hops[p.header.hopIndex + 1] !in d.neighbors
    ensures CheckPacket(d, p, dropped) == Running(Shortcut(d, Advanced(p)))
  {
  }

  // ------------------------------------------------------- flood handling

  /**
   * `generate_flood_response`: the route is the trace read backwards, ending
   * at the initiator; it goes to the hop at index 1 when there is one (to
   * the controller if that is not a neighbour). A single-hop route becomes a
   * `DestinationIsDrone` NACK, which goes to the controller.
   */
  function GenerateFloodResponse(d: RelayNode, req: FloodRequest, session: nat): (r: Outcome)
    ensures var route := TraceReturn(Keys(req.trace), req.initiator);
      var resp := Packet(Header(1, route), session, FloodResp(FloodResponse(req.floodId, req.trace)));
      && (|route| < 2 ==> r == Running(Shortcut(d, NackPacket(Header(0, route), session, 0, DestinationIsDrone))))
      && (|route| >= 2 && route[1] in d.neighbors ==> r == Running(Forward(d, resp, route[1])))
      && (|route| >= 2 && route[1] !in d.neighbors ==> r == Running(Shortcut(d, resp)))
  {
    var route := TraceReturn(Keys(req.trace), req.initiator);
    var srh := Header(0, route);
    match srh.NextHop()
      case None => GenerateNack(d, DestinationIsDrone, 0, srh, session)
      case Some(next) =>
        var resp := Packet(srh.Increased(), session, FloodResp(FloodResponse(req.floodId, req.trace)));
        if next in d.neighbors then Running(Forward(d, resp, next)) else Running(Shortcut(d, resp))
  }

  /**
   * The forwarding loop of the drone's `handle_flood_request`: every
   * neighbour but the previous hop, in id order, is sent the request; a
   * broken channel hands it to the controller instead.
   */
  function FloodOut(d: RelayNode, ids: seq<NodeId>, prev: NodeId, pkt: Packet): (r: RelayNode)
    requires forall i :: 0 <= i < |ids| ==> ids[i] in d.neighbors
    ensures r == d.(outbox := r.outbox, events := r.events)
    ensures |r.events| == |d.events| + |Except(ids, prev)|
    decreases |ids|
  {
    if ids == [] then d
    else if ids[0] == prev then FloodOut(d, ids[1..], prev, pkt)
    else FloodOut(Forward(d, pkt, ids[0]), ids[1..], prev, pkt)
  }

  /** The forwarding loop sends the request to exactly the working channels among the others, in order. */
  lemma {:induction false} FloodOutSends(d: RelayNode, ids: seq<NodeId>, prev: NodeId, pkt: Packet)
    requires forall i :: 0 <= i < |ids| ==> ids[i] in d.neighbors
    ensures FloodOut(d, ids, prev, pkt).outbox == d.outbox + Routing.Fanout(Live(d, Except(ids, prev)), pkt)
    decreases |ids|
  {
    if ids == [] {
      assert d.outbox + [] == d.outbox;
    } else {
      var rest := ids[1..];
      if ids[0] == prev {
        FloodOutSends(d, rest, prev, pkt);
      } else {
        var d1 := Forward(d, pkt, ids[0]);
        FloodOutSends(d1, rest, prev, pkt);
        assert Except(ids, prev) == [ids[0]] + Except(rest, prev);
        LiveCons(d, ids[0], Except(rest, prev));
        LiveSameNeighbors(d, d1, Except(rest, prev));
        if d.neighbors[ids[0]] {
          AppendAssoc(d.outbox, [(ids[0], pkt)], Routing.Fanout(Live(d, Except(rest, prev)), pkt));
          FanoutCons(ids[0], Live(d, Except(rest, prev)), pkt);
        }
      }
    }
  }

  /** The ids of `ids` whose channel works, in order. */
  function Live(d: RelayNode, ids: seq<NodeId>): (r: seq<NodeId>)
    ensures forall x :: x in r <==> x in ids && x in d.neighbors && d.neighbors[x]
    decreases |ids|
  {
    if ids == [] then []
    else if ids[0] in d.neighbors && d.neighbors[ids[0]] then [ids[0]] + Live(d, ids[1..])
    else Live(d, ids[1..])
  }

  lemma LiveCons(d: RelayNode, x: NodeId, rest: seq<NodeId>)
    ensures Live(d, [x] + rest) == (if x in d.neighbors && d.neighbors[x] then [x] + Live(d, rest) else Live(d, rest))
  {
    assert ([x] + rest)[1..] == rest;
  }

  lemma {:induction false} LiveSameNeighbors(a: RelayNode, b: RelayNode, ids: seq<NodeId>)
    requires a.neighbors == b.neighbors
    ensures Live(a, ids) == Live(b, ids)
    decreases |ids|
  {
    if ids != [] {
      LiveSameNeighbors(a, b, ids[1..]);
    }
  }

  lemma FanoutCons(x: NodeId, rest: seq<NodeId>, pkt: Packet)
    ensures Routing.Fanout([x] + rest, pkt) == [(x, pkt)] + Routing.Fanout(rest, pkt)
  {
  }

  /**
   * The drone's `handle_flood_request`: the drone appends itself to the
   * trace and records the flood; it answers when the flood was seen before
   * or it has exactly one neighbour, and otherwise passes the request on to
   * every neighbour but the one it came from, with an empty route.
   */
  function HandleFloodRequest(d: RelayNode, req: FloodRequest, session: nat): (r: Outcome)
    ensures var key := (req.floodId, req.initiator);
      var req1 := req.(trace := req.trace + [(d.id, Drone)]);
      var d1 := d.(floodSessions := d.floodSessions + {key});
      && (key in d.floodSessions || |d.neighbors| == 1 ==> r == GenerateFloodResponse(d1, req1, session))
      && (key !in d.floodSessions && |d.neighbors| != 1 ==>
            && r.Running?
            && r.d.floodSessions == d.floodSessions + {key}
            && r.d.outbox == d.outbox +
                 Routing.Fanout(Live(d, Except(SortedIds(d.neighbors.Keys), PreviousHop(req))),
                        Packet(Header(0, []), session, FloodReq(req1))))
  {
    var key := (req.floodId, req.initiator);
    var prev := PreviousHop(req);
    var req1 := req.(trace := req.trace + [(d.id, Drone)]);
    var d1 := d.(floodSessions := d.floodSessions + {key});
    if key in d.floodSessions || |d.neighbors| == 1 then GenerateFloodResponse(d1, req1, session)
    else
      var ids := SortedIds(d.neighbors.Keys);
      assert forall i :: 0 <= i < |ids| ==> ids[i] in ids;
      var pkt := Packet(Header(0, []), session, FloodReq(req1));
      FloodOutSends(d1, ids, prev, pkt);
      LiveSameNeighbors(d, d1, Except(ids, prev));
      Running(FloodOut(d1, ids, prev, pkt))
  }

  /** `handle_packet`: flood requests have their own path, everything else is checked and routed. */
  function HandlePacket(d: RelayNode, p: Packet, dropped: bool): (r: Outcome)
    ensures p.body.FloodReq? ==> r == HandleFloodRequest(d, p.body.request, p.session)
    ensures !p.body.FloodReq? ==> r == CheckPacket(d, p, dropped)
  {
    if p.body.FloodReq? then HandleFloodRequest(d, p.body.request, p.session) else CheckPacket(d, p, dropped)
  }

  /**
   * Every working neighbour except the previous hop receives the request,
   * extended by this drone, when the flood is new and the drone has several
   * neighbours; the previous hop never receives it back.
   */
  lemma FloodReachesOthers(d: RelayNode, req: FloodRequest, session: nat, n: NodeId)
    requires (req.floodId, req.initiator) !in d.floodSessions && |d.neighbors| != 1
    ensures var r := HandleFloodRequest(d, req, session);
      var pkt := Packet(Header(0, []), session, FloodReq(req.(trace := req.trace + [(d.id, Drone)])));
      && r.Running?
      && ((n, pkt) in r.d.outbox[|d.outbox|..] <==> n in d.neighbors && d.neighbors[n] && n != PreviousHop(req))
  {
    var r := HandleFloodRequest(d, req, session);
    var pkt := Packet(Header(0, []), session, FloodReq(req.(trace := req.trace + [(d.id, Drone)])));
    var live := Live(d, Except(SortedIds(d.neighbors.Keys), PreviousHop(req)));
    assert r.d.outbox[|d.outbox|..] == Routing.Fanout(live, pkt);
    if (n, pkt) in Routing.Fanout(live, pkt) {
      var k :| 0 <= k < |live| && Routing.Fanout(live, pkt)[k] == (n, pkt);
      assert live[k] == n;
    }
    if n in d.neighbors && d.neighbors[n] && n != PreviousHop(req) {
      assert n in live;
      var k :| 0 <= k < |live| && live[k] == n;
      assert Routing.Fanout(live, pkt)[k] == (n, pkt);
    }
  }

  /**
   * A repeated flood is answered, not forwarded: the response goes back
   * along the trace towards the initiator, and the set of seen floods is
   * unchanged.
   */
  lemma RepeatedFloodAnswered(d: RelayNode, req: FloodRequest, session: nat)
    requires (req.floodId, req.initiator) in d.floodSessions
    ensures var req1 := req.(trace := req.trace + [(d.id, Drone)]);
      HandleFloodRequest(d, req, session) == GenerateFloodResponse(d, req1, session)
  {
    assert d.(floodSessions := d.floodSessions + {(req.floodId, req.initiator)}) == d;
  }

  // ------------------------------------------------------------- commands

  /**
   * `handle_command`: `AddSender` inserts or replaces a channel,
   * `RemoveSender` removes one if present, `SetPacketDropRate` accepts a rate
   * in [0, 1] and ignores any other, `Crash` handles every packet still
   * waiting (`pending`) in crash mode: as the source does when `asWritten`,
   * else with the corrected crash handling of `HandleCrashPacket`.
   */
  function HandleCommand(d: RelayNode, cmd: Command, pending: seq<Packet>, asWritten: bool): (r: Outcome)
    ensures cmd.AddSender? ==> r == Running(d.(neighbors := d.neighbors[cmd.node := cmd.live]))
    ensures cmd.RemoveSender? ==>
      r.Running? && r.d == d.(neighbors := r.d.neighbors) &&
      cmd.node !in r.d.neighbors && (forall n :: n != cmd.node ==> (n in r.d.neighbors <==> n in d.neighbors))
    ensures cmd.RemoveSender? && cmd.node !in d.neighbors ==> r == Running(d)
    ensures cmd.SetPacketDropRate? ==>
      r.Running? && r.d == d.(pdr := r.d.pdr) &&
      (0.0 <= cmd.rate <= 1.0 ==> r.d.pdr == cmd.rate) && (!(0.0 <= cmd.rate <= 1.0) ==> r.d.pdr == d.pdr)
    ensures cmd.Crash? ==> r == CrashAll(d, pending, asWritten)
  {
    match cmd
      case AddSender(n, live) => Running(d.(neighbors := d.neighbors[n := live]))
      case SetPacketDropRate(rate) => if 0.0 <= rate <= 1.0 then Running(d.(pdr := rate)) else Running(d)
      case Crash => CrashAll(d, pending, asWritten)
      case RemoveSender(n) =>
        assert n !in d.neighbors ==> d.neighbors - {n} == d.neighbors;
        Running(d.(neighbors := d.neighbors - {n}))
  }

  /**
   * `handle_packet_crash` as written: a fragment or flood request is answered
   * with `ErrorInRouting(self)` on its route as received, with the index
   * still on this drone, so the retraced hops stop before the drone itself;
   * it is reported dropped. Every other packet is checked and routed as usual.
   */
  function HandleCrashPacketAsWritten(d: RelayNode, p: Packet): (r: Outcome)
    ensures (p.body.MsgFragment? || p.body.FloodReq?) && |p.header.hops| != 1 && p.header.hopIndex <= |p.header.hops| ==>
      var back := p.header.hops[..p.header.hopIndex];
      (|back| < 2 ==> r == Panicked)
    ensures !(p.body.MsgFragment? || p.body.FloodReq?) ==> r == CheckPacket(d, p, false)
  {
    if p.body.MsgFragment? || p.body.FloodReq? then
      match GenerateNack(d, ErrorInRouting(d.id), p.FragmentIndex(), p.header, p.session)
        case Panicked => Panicked
        case Running(d1) => Running(d1.(events := d1.events + [PacketDropped(p)]))
    else CheckPacket(d, p, false)
  }

  /**
   * A fragment that reached the drone straight from its source (hop index 1)
   * and is still queued when the drone crashes makes the drone panic: the
   * retraced route is the source alone, and there is no hop at index 1.
   */
  lemma CrashOnDirectFragmentPanics(d: RelayNode, p: Packet)
    requires p.body.MsgFragment? && p.header.hopIndex == 1 && |p.header.hops| >= 2 && p.header.hops[1] == d.id
    ensures HandleCrashPacketAsWritten(d, p) == Panicked
  {
  }

  /** Drone 11 crashing with fragment `[1, 11, 12]` from client 1 queued panics. */
  lemma CrashPanicExample()
    ensures HandleCrashPacketAsWritten(Drone11(map[1 := true, 12 := true]), SampleFragment()) == Panicked
  {
  }

  /**
   * `handle_packet_crash` with the NACK retracing the route as every other
   * `ErrorInRouting` NACK does, through this drone: a fragment or flood
   * request is refused with `ErrorInRouting(self)` on the route with the
   * index advanced past this drone, and reported dropped; every other
   * packet is checked and routed as usual.
   */
  function HandleCrashPacket(d: RelayNode, p: Packet): (r: Outcome)
    ensures !(p.body.MsgFragment? || p.body.FloodReq?) ==> r == CheckPacket(d, p, false)
  {
    if p.body.MsgFragment? || p.body.FloodReq? then
      match GenerateNack(d, ErrorInRouting(d.id), p.FragmentIndex(), Advanced(p).header, p.session)
        case Panicked => Panicked
        case Running(d1) => Running(d1.(events := d1.events + [PacketDropped(p)]))
    else CheckPacket(d, p, false)
  }

  /**
   * At a crash, a queued fragment that came over at least one hop is refused
   * to the hop it came from, on the travelled route read backwards, and the
   * controller hears it was dropped; the drone does not panic.
   */
  lemma CrashRefusesToPrevious(d: RelayNode, p: Packet)
    requires p.body.MsgFragment? && p.header.CurrentHop() == Some(d.id) && p.header.hopIndex >= 1
    requires var prev := p.header.hops[p.header.hopIndex - 1]; prev in d.neighbors && d.neighbors[prev]
    ensures var i := p.header.hopIndex;
      var nack := NackPacket(Header(1, Reverse(p.header.hops[..i + 1])), p.session, p.FragmentIndex(), ErrorInRouting(d.id));
      HandleCrashPacket(d, p) == Running(d.(
        outbox := d.outbox + [(p.header.hops[i - 1], nack)],
        events := d.events + [PacketSent(nack), PacketDropped(p)]))
  {
    var i := p.header.hopIndex;
    var back := p.header.hops[..i + 1];
    assert back[|back| - 2] == p.header.hops[i - 1];
    assert Advanced(p).header.hops[..i + 1] == back;
    NackToPrevious(d, ErrorInRouting(d.id), p.FragmentIndex(), Advanced(p).header, p.session, back);
  }

  /** One queued packet at a crash: the source's handling, or the corrected one. */
  function CrashPacket(d: RelayNode, p: Packet, asWritten: bool): (r: Outcome)
    ensures r.Running? ==> Extends(d, r.d) && |r.d.events| > |d.events|
  {
    if asWritten then HandleCrashPacketAsWritten(d, p) else HandleCrashPacket(d, p)
  }

  /**
   * The crash loop over the packets still queued, in order: a panic on one
   * ends it; otherwise every packet has been answered or passed on, each
   * with at least one controller event, and nothing but messages and
   * events has changed.
   */
  function CrashAll(d: RelayNode, pending: seq<Packet>, asWritten: bool): (r: Outcome)
    ensures pending == [] ==> r == Running(d)
    ensures pending != [] && CrashPacket(d, pending[0], asWritten).Panicked? ==> r == Panicked
    ensures r.Running? ==> Extends(d, r.d) && |r.d.events| >= |d.events| + |pending|
    decreases |pending|
  {
    if pending == [] then Running(d)
    else match CrashPacket(d, pending[0], asWritten)
      case Panicked => Panicked
      case Running(d1) => CrashAll(d1, pending[1..], asWritten)
  }

  /**
   * A flood request still queued at a crash has the empty route flood
   * requests travel with; the `ErrorInRouting` NACK for it has no hop to go
   * to, and the drone panics.
   */
  lemma CrashOnFloodRequestPanics(d: RelayNode, req: FloodRequest, session: nat, rest: seq<Packet>, asWritten: bool)
    ensures CrashAll(d, [Packet(Header(0, []), session, FloodReq(req))] + rest, asWritten) == Panicked
  {
    assert CrashPacket(d, Packet(Header(0, []), session, FloodReq(req)), asWritten) == Panicked;
  }

  /**
   * Drone 11, with live neighbours 1 and 12, told to crash while the
   * sample fragment from client 1 is queued: the source panics, while the
   * corrected handling refuses the fragment back to client 1.
   */
  lemma CrashCommandExample()
    ensures HandleCommand(Drone11(map[1 := true, 12 := true]), Crash, [SampleFragment()], true) == Panicked
    ensures HandleCommand(Drone11(map[1 := true, 12 := true]), Crash, [SampleFragment()], false).Running?
  {
    var d := Drone11(map[1 := true, 12 := true]);
    CrashPanicExample();
    CrashRefusesToPrevious(d, SampleFragment());
    assert CrashAll(d, [SampleFragment()], false) == CrashAll(HandleCrashPacket(d, SampleFragment()).d, [], false);
  }

  /** A neighbour added by `AddSender` is then used as a next hop. */
  lemma AddSenderThenForward(d: RelayNode, n: NodeId, p: Packet)
    requires p.header.CurrentHop() == Some(d.id) && p.header.NextHop() == Some(n)
    ensures var a := HandleCommand(d, AddSender(n, true), [], false);
      a.Running? && CheckPacket(a.d, p, false) ==
        Running(a.d.(outbox := d.outbox + [(n, Advanced(p))], events := d.events + [PacketSent(Advanced(p))]))
  {
  }

  // ------------------------------------------------------------- test cases

  /** The sample fragment of the drone tests: route 1, 11, 12, 21 at index 1, session 1, index 1. */
  function SampleFragment(): Packet {
    Packet(Header(1, [1, 11, 12, 21]), 1, MsgFragment(Fragment(1, 1, 128, Repeat(1, 128))))
  }

  function Drone11(neighbors: map<NodeId, bool>): RelayNode {
    RelayNode(11, neighbors, 0.0, {}, [], [])
  }

  /** Drone 11 with neighbour 12 forwards the sample fragment to 12 at index 2. */
  lemma ForwardExample()
    ensures CheckPacket(Drone11(map[12 := true]), SampleFragment(), false) ==
      Running(Drone11(map[12 := true]).(
        outbox := [(12, SampleFragment().(header := Header(2, [1, 11, 12, 21])))],
        events := [PacketSent(SampleFragment().(header := Header(2, [1, 11, 12, 21])))]))
  {
  }

  /** A dropped sample fragment: the controller hears `PacketDropped`, client 1 gets `Dropped` on `[11, 1]`. */
  lemma DropExample()
    ensures var d := Drone11(map[12 := true, 1 := true]);
      var nack := NackPacket(Header(1, [11, 1]), 1, 1, Dropped);
      CheckPacket(d, SampleFragment(), true) ==
        Running(d.(outbox := [(1, nack)], events := [PacketDropped(SampleFragment()), PacketSent(nack)]))
  {
    var h := Header(2, [1, 11, 12, 21]);
    assert h.hops[..2] == [1, 11];
    assert Reverse([1, 11]) == [11, 1];
  }

  /** Route 1, 11, 13 at drone 11 without neighbour 13: `ErrorInRouting(13)` to 1 on `[11, 1]`. */
  lemma ErrorInRoutingExample()
    ensures var d := Drone11(map[12 := true, 1 := true]);
      var p := Packet(Header(1, [1, 11, 13]), 1, MsgFragment(Fragment(1, 1, 128, Repeat(1, 128))));
      var nack := NackPacket(Header(1, [11, 1]), 1, 1, ErrorInRouting(13));
      CheckPacket(d, p, false) == Running(d.(outbox := [(1, nack)], events := [PacketSent(nack)]))
  {
    assert [1, 11, 13][..2] == [1, 11];
    assert Reverse([1, 11]) == [11, 1];
  }

  /** Route 1, 12, 11 at index 1 reaching drone 11: `UnexpectedRecipient(11)` to 1 on `[11, 1]`. */
  lemma UnexpectedRecipientExample()
    ensures var d := Drone11(map[12 := true, 1 := true]);
      var p := Packet(Header(1, [1, 12, 11]), 1, MsgFragment(Fragment(1, 1, 128, Repeat(1, 128))));
      var nack := NackPacket(Header(1, [11, 1]), 1, 1, UnexpectedRecipient(11));
      CheckPacket(d, p, false) == Running(d.(outbox := [(1, nack)], events := [PacketSent(nack)]))
  {
    assert [1, 12, 11][..2][..1] + [11] == [1, 11];
    assert Reverse([1, 11]) == [11, 1];
  }

  /** Route 1, 11, 12 at index 2 ending at drone 12: `DestinationIsDrone` to 11 on `[12, 11, 1]`. */
  lemma DestinationIsDroneExample()
    ensures var d := RelayNode(12, map[11 := true, 21 := true], 0.0, {}, [], []);
      var p := Packet(Header(2, [1, 11, 12]), 1, MsgFragment(Fragment(1, 1, 128, Repeat(1, 128))));
      var nack := NackPacket(Header(1, [12, 11, 1]), 1, 1, DestinationIsDrone);
      CheckPacket(d, p, false) == Running(d.(outbox := [(11, nack)], events := [PacketSent(nack)]))
  {
    assert [1, 11, 12][..3] == [1, 11, 12];
    assert Reverse([1, 11, 12]) == [12, 11, 1];
  }

  /**
   * Drone 12 whose only neighbour is 11 answers the flood of client 1 at
   * once: the response with trace 1, 11, 12 goes to 11 on `[12, 11, 1]`.
   */
  lemma IsolatedFloodExample()
    ensures var d := RelayNode(12, map[11 := true], 0.0, {}, [], []);
      var req := FloodRequest(0, 1, [(1, Client), (11, Drone)]);
      var resp := Packet(Header(1, [12, 11, 1]), 0, FloodResp(FloodResponse(0, [(1, Client), (11, Drone), (12, Drone)])));
      var r := HandleFloodRequest(d, req, 0);
      r.Running? && r.d.outbox == [(11, resp)] && r.d.floodSessions == {(0, 1)}
  {
    var d := RelayNode(12, map[11 := true], 0.0, {}, [], []);
    assert d.neighbors.Keys == {11};
    assert |d.neighbors| == 1;
    var trace := [(1, Client), (11, Drone), (12, Drone)];
    assert Keys(trace) == [1, 11, 12];
    assert Reverse([1, 11, 12]) == [12, 11, 1];
    assert TraceReturn([1, 11, 12], 1) == [12, 11, 1];
    var req := FloodRequest(0, 1, [(1, Client), (11, Drone)]);
    assert req.trace + [(12, Drone)] == trace;
    var req1 := req.(trace := trace);
    var d1 := d.(floodSessions := {(0, 1)});
    assert HandleFloodRequest(d, req, 0) == GenerateFloodResponse(d1, req1, 0);
    var resp := Packet(Header(1, [12, 11, 1]), 0, FloodResp(FloodResponse(0, trace)));
    assert GenerateFloodResponse(d1, req1, 0) == Running(Forward(d1, resp, 11));
  }
}

=== FILE: routing.dfy ===
/**
 * The endpoint routing handler of clients and servers
 * (common/src/routing_handler.rs): neighbour channels, the local topology
 * view, flood discovery, the sent-fragment buffer and NACK recovery.
 *
 * Channels are modelled by their effect: `neighbors` maps each neighbour id
 * to whether a send to it succeeds, every successful send is appended to
 * `outbox`, and every controller event to `events` (sent only while
 * `controllerUp`). Each operation returns the state after the call together
 * with its result; a panic of the source is the result `Panics`.
 */
module Routing {

  import opened Wrappers
  import opened Seqs
  import opened Packets
  import opened Topology
  import opened PathSearch
  import opened SentBuffer

  /** The controller events the handler emits (`NodeEvent`). */
  datatype NodeEvent = PacketSent(packet: Packet) | FloodStarted(floodId: nat, initiator: NodeId)

  /** How a call can fail: an error value, or a panic of the source. */
  datatype Fault = Fails(error: NetworkError) | Panics

  datatype Handler = Handler(
    id: NodeId,
    view: Network,
    neighbors: map<NodeId, bool>,
    floodSeen: set<(nat, NodeId)>,
    sessionCounter: nat,
    floodCounter: nat,
    controllerUp: bool,
    buffer: Buffer,
    outbox: seq<(NodeId, Packet)>,
    events: seq<NodeEvent>)

  datatype Step = Step(h: Handler, result: Result<(), Fault>)

  /** `RoutingHandler::new`: the view holds only the local node, with no adjacents. */
  function NewHandler(id: NodeId, kind: NodeType, neighbors: map<NodeId, bool>, controllerUp: bool): (h: Handler)
    ensures |h.view.nodes| == 1 && h.view.nodes[0] == Node(id, kind, [])
    ensures h.neighbors == neighbors && h.sessionCounter == 0 && h.floodCounter == 0
    ensures h.floodSeen == {} && h.buffer == EmptyBuffer && h.outbox == [] && h.events == []
  {
    Handler(id, NewNetwork(Node(id, kind, [])), neighbors, {}, 0, 0, controllerUp, EmptyBuffer, [], [])
  }

  /** Messages addressed to one neighbour, in order. */
  function Addressed(n: NodeId, pkts: seq<Packet>): (r: seq<(NodeId, Packet)>)
    ensures |r| == |pkts| && forall i :: 0 <= i < |pkts| ==> r[i] == (n, pkts[i])
  {
    seq(|pkts|, i requires 0 <= i < |pkts| => (n, pkts[i]))
  }

  // ------------------------------------------------------------- neighbours

  /** `remove_neighbor`: the channel goes and the view forgets the node. */
  function RemoveNeighbor(h: Handler, n: NodeId): (r: Handler)
    ensures n !in r.neighbors && forall m :: m != n ==> (m in r.neighbors <==> m in h.neighbors)
    ensures forall m :: m != n && m in h.neighbors ==> r.neighbors[m] == h.neighbors[m]
    ensures r.view == RemoveNode(h.view, n)
    ensures r == h.(neighbors := r.neighbors, view := r.view)
  {
    h.(neighbors := h.neighbors - {n}, view := RemoveNode(h.view, n))
  }

  /** `add_neighbor`: the channel is stored and the local node's entry lists the neighbour. */
  function AddNeighbor(h: Handler, n: NodeId, live: bool): (r: Handler)
    ensures r.neighbors == h.neighbors[n := live]
    ensures r == h.(neighbors := r.neighbors, view := r.view)
    ensures !HasNode(h.view.nodes, h.id) ==> r.view == h.view
  {
    var view := match UpdateNode(h.view, h.id, [n])
      case Ok(v) => v
      case Err(_) => h.view;
    h.(neighbors := h.neighbors[n := live], view := view)
  }

  /** While the local node heads the view, adding a neighbour lists it there. */
  lemma AddNeighborAgrees(h: Handler, n: NodeId, live: bool)
    requires |h.view.nodes| > 0 && h.view.nodes[0].id == h.id
    ensures var r := AddNeighbor(h, n, live);
      n in r.neighbors && |r.view.nodes| == |h.view.nodes| && r.view.nodes[0].id == h.id && n in r.view.nodes[0].adjacents
  {
    assert FindNode(h.view.nodes, h.id) == Some(0);
    var r := UpdateNode(h.view, h.id, [n]);
    assert Elems(r.value.nodes[0].adjacents) == Elems(h.view.nodes[0].adjacents) + Elems([n]);
    assert n in Elems([n]);
  }

  /**
   * Adding a fresh neighbour and removing it again leaves neither a channel
   * nor an adjacent of the local node behind.
   */
  lemma AddThenRemoveNeighbor(h: Handler, n: NodeId, live: bool)
    requires |h.view.nodes| > 0 && h.view.nodes[0].id == h.id && h.id != n
    requires n !in h.view.nodes[0].adjacents
    ensures var r := RemoveNeighbor(AddNeighbor(h, n, live), n);
      n !in r.neighbors && |r.view.nodes| > 0 && r.view.nodes[0].id == h.id && n !in r.view.nodes[0].adjacents
  {
    var a := AddNeighbor(h, n, live);
    AddNeighborAgrees(h, n, live);
    assert FindNode(h.view.nodes, h.id) == Some(0);
    var adj := a.view.nodes[0].adjacents;
    AddMissingFresh(h.view.nodes[0].adjacents, [n]);
    assert adj == AddMissing(h.view.nodes[0].adjacents, [n]);
    assert adj == h.view.nodes[0].adjacents + [n] by {
      assert AddMissing(h.view.nodes[0].adjacents, [n]) == AddMissing(h.view.nodes[0].adjacents + [n], []);
    }
    var k := |h.view.nodes[0].adjacents|;
    assert IndexOf(adj, n) == Some(k) by {
      assert adj[..k] == h.view.nodes[0].adjacents;
    }
    assert RemoveFirst(adj, n) == h.view.nodes[0].adjacents by {
      assert adj[..k] + adj[k + 1..] == h.view.nodes[0].adjacents;
    }
    assert FindNode(a.view.nodes, n) != Some(0);
  }

  // ------------------------------------------------------------------ send

  /** `send`: the packet goes to the neighbour, then the controller hears of it. */
  function Send(h: Handler, n: NodeId, p: Packet): (r: Step)
    requires n in h.neighbors
    ensures !h.neighbors[n] ==> r == Step(h, Err(Fails(SendError)))
    ensures h.neighbors[n] ==> r.h.outbox == h.outbox + [(n, p)] && r.h.buffer == h.buffer
    ensures h.neighbors[n] ==> (r.result.Ok? <==> h.controllerUp)
    ensures r.h == h.(outbox := r.h.outbox, events := r.h.events)
  {
    if !h.neighbors[n] then Step(h, Err(Fails(SendError)))
    else
      var h1 := h.(outbox := h.outbox + [(n, p)]);
      if h.controllerUp then Step(h1.(events := h1.events + [PacketSent(p)]), Ok(()))
      else Step(h1, Err(Fails(ControllerDisconnected)))
  }

  /**
   * `send_packet_to_first_hop`: a route of two or more hops goes to its
   * second entry, which must be a neighbour; after a successful send the
   * packet is buffered under `(session, own id)`. A shorter route sends nothing.
   */
  function SendToFirstHop(h: Handler, p: Packet): (r: Step)
    ensures |p.header.hops| <= 1 ==> r == Step(h, Ok(()))
    ensures |p.header.hops| > 1 && p.header.hops[1] !in h.neighbors ==>
      r == Step(h, Err(Fails(NodeIsNotANeighbor(p.header.hops[1]))))
    ensures |p.header.hops| > 1 && p.header.hops[1] in h.neighbors && h.neighbors[p.header.hops[1]] && h.controllerUp ==>
      r.result.Ok? && r.h.outbox == h.outbox + [(p.header.hops[1], p)] &&
      r.h.buffer == Insert(h.buffer, p, p.session, h.id)
    ensures r.result == Err(Fails(SendError)) ==> r.h == h
    ensures r.h.neighbors == h.neighbors && r.h.view == h.view && r.h.controllerUp == h.controllerUp
    ensures r.h.id == h.id && r.h.sessionCounter == h.sessionCounter && r.h.floodCounter == h.floodCounter
    ensures r.h.floodSeen == h.floodSeen
  {
    if |p.header.hops| > 1 then
      var first := p.header.hops[1];
      if first in h.neighbors then
        var s := Send(h, first, p);
        if s.result.Ok? then Step(s.h.(buffer := Insert(s.h.buffer, p, p.session, h.id)), Ok(()))
        else s
      else Step(h, Err(Fails(NodeIsNotANeighbor(first))))
    else Step(h, Ok(()))
  }

  /**
   * `try_find_path`: the empty route for the own id, else a fewest-hop route
   * from the local node with hop index 1 (`without_loops` leaves it unchanged,
   * a search result never repeats a node). An empty view makes the search panic.
   */
  function TryFindPath(h: Handler, dest: NodeId): (r: Result<Header, Fault>)
    ensures dest == h.id ==> r == Ok(EmptyRoute)
    ensures dest != h.id && |h.view.nodes| == 0 ==> r == Err(Panics)
    ensures dest != h.id && |h.view.nodes| > 0 ==>
      && (r.Ok? <==> Reaches(h.view, h.view.nodes[0].id, dest))
      && (r.Err? ==> r.error == Fails(PathNotFound(dest)))
      && (r.Ok? ==> r.value.hopIndex == 1 && IsShortestPath(h.view, r.value.hops, h.view.nodes[0].id, dest))
  {
    if dest == h.id then Ok(EmptyRoute)
    else if |h.view.nodes| == 0 then Err(Panics)
    else match FindPath(h.view, dest)
      case None => Err(Fails(PathNotFound(dest)))
      case Some(p) => Ok(Header(1, p))
  }

  /** A route is anchored in the view when its first hop is an adjacent of the local node. */
  predicate Anchored(v: Network, hdr: Header) {
    |hdr.hops| <= 1 || (|v.nodes| > 0 && hdr.hops[1] in v.nodes[0].adjacents)
  }

  lemma TryFindPathAnchored(h: Handler, dest: NodeId)
    requires TryFindPath(h, dest).Ok?
    ensures Anchored(h.view, TryFindPath(h, dest).value)
  {
    if dest != h.id && |TryFindPath(h, dest).value.hops| >= 2 {
      FindPathFirstHop(h.view, dest);
    }
  }

  // ------------------------------------------------------------ start_flood

  /** The flood request a flood sends: empty route, empty trace. */
  function FloodPacket(session: nat, flood: nat, initiator: NodeId): Packet {
    Packet(EmptyRoute, session, FloodReq(NewFloodRequest(flood, initiator)))
  }

  /** One message per id, all carrying the same packet. */
  function Fanout(ids: seq<NodeId>, pkt: Packet): (r: seq<(NodeId, Packet)>)
    ensures |r| == |ids| && forall i :: 0 <= i < |ids| ==> r[i] == (ids[i], pkt)
  {
    seq(|ids|, i requires 0 <= i < |ids| => (ids[i], pkt))
  }

  /** The ids of `ids` whose channel status is `status`, in order. */
  function WithStatus(ids: seq<NodeId>, live: map<NodeId, bool>, status: bool): (r: seq<NodeId>)
    requires forall i :: 0 <= i < |ids| ==> ids[i] in live
    ensures forall x :: x in r <==> x in ids && live[x] == status
    ensures Increasing(ids) ==> Increasing(r)
    decreases |ids|
  {
    if ids == [] then []
    else
      var rest := WithStatus(ids[1..], live, status);
      assert Increasing(ids) ==> forall j :: 0 <= j < |rest| ==> ids[0] < rest[j] by {
        if Increasing(ids) {
          forall j | 0 <= j < |rest| ensures ids[0] < rest[j] {
            assert rest[j] in ids[1..];
            var k :| 0 <= k < |ids[1..]| && ids[1..][k] == rest[j];
            assert ids[k + 1] == rest[j];
          }
        }
      }
      if live[ids[0]] == status then [ids[0]] + rest else rest
  }

  /** The neighbours whose channel has status `status`, in ascending id order. */
  function NeighborsWith(h: Handler, status: bool): (r: seq<NodeId>)
    ensures Increasing(r)
    ensures forall n :: n in r <==> n in h.neighbors && h.neighbors[n] == status
  {
    var ids := SortedIds(h.neighbors.Keys);
    assert forall i :: 0 <= i < |ids| ==> ids[i] in ids;
    WithStatus(ids, h.neighbors, status)
  }

  lemma NoDeadNeighbors(h: Handler)
    requires forall m :: m in h.neighbors ==> h.neighbors[m]
    ensures NeighborsWith(h, false) == []
  {
    var ids := SortedIds(h.neighbors.Keys);
    assert forall i :: 0 <= i < |ids| ==> ids[i] in ids;
    WithStatusNone(ids, h.neighbors, false);
  }

  lemma {:induction false} WithStatusNone(ids: seq<NodeId>, live: map<NodeId, bool>, status: bool)
    requires forall i :: 0 <= i < |ids| ==> ids[i] in live && live[ids[i]] != status
    ensures WithStatus(ids, live, status) == []
    decreases |ids|
  {
    if ids != [] {
      WithStatusNone(ids[1..], live, status);
    }
  }

  /** Removing neighbours one after the other. */
  function DropNeighbors(h: Handler, ids: seq<NodeId>): (r: Handler)
    ensures forall m :: m in r.neighbors <==> m in h.neighbors && m !in ids
    ensures forall m :: m in r.neighbors ==> r.neighbors[m] == h.neighbors[m]
    ensures ids == [] ==> r == h
    ensures r == h.(neighbors := r.neighbors, view := r.view)
    decreases |ids|
  {
    if ids == [] then h else DropNeighbors(RemoveNeighbor(h, ids[0]), ids[1..])
  }

  /**
   * The loop of `start_flood` over a snapshot of the neighbours: a working
   * channel gets the packet, a broken one is removed as a neighbour. The
   * sends do not depend on the removals, so they are taken first.
   */
  function FloodAll(h: Handler, pkt: Packet): (r: Handler)
    ensures r.outbox == h.outbox + Fanout(NeighborsWith(h, true), pkt)
    ensures forall m :: m in r.neighbors <==> m in h.neighbors && h.neighbors[m]
    ensures (forall m :: m in h.neighbors ==> h.neighbors[m]) ==> r.view == h.view && r.neighbors == h.neighbors
    ensures r == h.(outbox := r.outbox, neighbors := r.neighbors, view := r.view)
  {
    var sent := h.(outbox := h.outbox + Fanout(NeighborsWith(h, true), pkt));
    var dead := NeighborsWith(h, false);
    assert (forall m :: m in h.neighbors ==> h.neighbors[m]) ==> dead == [] by {
      if forall m :: m in h.neighbors ==> h.neighbors[m] {
        NoDeadNeighbors(h);
      }
    }
    DropNeighbors(sent, dead)
  }

  /**
   * `start_flood`: both counters advance, the controller hears of the flood,
   * and every neighbour (in a snapshot taken before the loop) is sent a fresh
   * flood request; a neighbour whose channel fails is dropped. Without the
   * controller the call fails after advancing the counters.
   */
  function StartFlood(h: Handler): (r: Step)
    ensures r.h.sessionCounter == h.sessionCounter + 1 && r.h.floodCounter == h.floodCounter + 1
    ensures r.result.Ok? <==> h.controllerUp
    ensures r.result.Err? ==>
      r.result.error == Fails(ControllerDisconnected) &&
      r.h == h.(sessionCounter := h.sessionCounter + 1, floodCounter := h.floodCounter + 1)
    ensures r.result.Ok? ==>
      && r.h.events == h.events + [FloodStarted(h.floodCounter + 1, h.id)]
      && r.h.outbox == h.outbox + Fanout(NeighborsWith(h, true), FloodPacket(h.sessionCounter + 1, h.floodCounter + 1, h.id))
      && (forall n :: n in r.h.neighbors <==> n in h.neighbors && h.neighbors[n])
    ensures r.h.buffer == h.buffer && r.h.id == h.id && r.h.floodSeen == h.floodSeen && r.h.controllerUp == h.controllerUp
    ensures (forall n :: n in h.neighbors ==> h.neighbors[n]) ==> r.h.view == h.view && r.h.neighbors == h.neighbors
  {
    var session := h.sessionCounter + 1;
    var flood := h.floodCounter + 1;
    var h1 := h.(sessionCounter := session, floodCounter := flood);
    if !h.controllerUp then Step(h1, Err(Fails(ControllerDisconnected)))
    else
      var h2 := h1.(events := h1.events + [FloodStarted(flood, h.id)]);
      assert NeighborsWith(h2, true) == NeighborsWith(h, true);
      Step(FloodAll(h2, FloodPacket(session, flood, h.id)), Ok(()))
  }

  /** The addressees of a run of messages. */
  function Dests(out: seq<(NodeId, Packet)>): (r: seq<NodeId>)
    ensures |r| == |out| && forall i :: 0 <= i < |out| ==> r[i] == out[i].0
  {
    seq(|out|, i requires 0 <= i < |out| => out[i].0)
  }

  // -------------------------------------------------------------- try_send

  /** The errors on which `try_send` drops the first hop and looks for another route. */
  predicate Reroutable(f: Fault) {
    f.Fails? && (f.error.SendError? || f.error.NodeIsNotANeighbor?)
  }

  /**
   * `after` is `before` with one more message: the packet `p`, possibly
   * under another route, sent to that route's first hop.
   */
  predicate SentOnce(before: seq<(NodeId, Packet)>, after: seq<(NodeId, Packet)>, p: Packet) {
    && |after| == |before| + 1
    && after[..|before|] == before
    && after[|before|].1 == p.(header := after[|before|].1.header)
    && |after[|before|].1.header.hops| > 1
    && after[|before|].0 == after[|before|].1.header.hops[1]
  }

  /**
   * The packet, possibly under another route, went once to a working first
   * hop: the controller heard of it and it is buffered under `(session, own id)`.
   */
  predicate Delivered(h: Handler, r: Handler, p: Packet) {
    && SentOnce(h.outbox, r.outbox, p)
    && var q := r.outbox[|h.outbox|].1;
       && q.header.hops[1] in r.neighbors && r.neighbors[q.header.hops[1]]
       && r.events == h.events + [PacketSent(q)]
       && r.buffer == Insert(h.buffer, q, q.session, h.id)
  }

  /**
   * The packet, possibly under another route, waits in the send queue for
   * the answer of the flood the call started.
   */
  predicate Queued(h: Handler, r: Handler, p: Packet) {
    && |r.buffer.toSend| == |h.buffer.toSend| + 1
    && r.buffer.toSend[|h.buffer.toSend|] == p.(header := r.buffer.toSend[|h.buffer.toSend|].header)
    && r.buffer == AddPending(h.buffer, r.buffer.toSend[|h.buffer.toSend|])
    && r.events == h.events + [FloodStarted(h.floodCounter + 1, h.id)]
  }

  /** Nothing was sent, buffered or reported. */
  predicate Unsent(h: Handler, r: Handler) {
    r.outbox == h.outbox && r.buffer == h.buffer && r.events == h.events
  }

  /**
   * How `try_send` ends, relative to the handler `h` it started from:
   * success means the packet was delivered to a live first hop, queued for
   * a flood's answer, or had no first hop to go to, with a neighbour left;
   * `NoNeighborAssigned` means none is left; `ControllerDisconnected` comes
   * only from a lost controller; with the controller up the only other
   * outcome is the panic of a search on an empty view.
   */
  predicate SendOutcome(h: Handler, s: Step, p: Packet) {
    && (s.result == Err(Fails(NoNeighborAssigned)) ==> |s.h.neighbors| == 0)
    && (s.result.Ok? ==> |s.h.neighbors| > 0 && (Delivered(h, s.h, p) || Queued(h, s.h, p) || Unsent(h, s.h)))
    && (s.result == Err(Fails(ControllerDisconnected)) ==> !h.controllerUp)
    && (h.controllerUp ==> s.result.Ok? || s.result == Err(Fails(NoNeighborAssigned)) || s.result == Err(Panics))
  }

  /** The check after the loop of `try_send`: no neighbours left is `NoNeighborAssigned`. */
  function AfterLoop(h: Handler): (r: Step)
    ensures r.h == h && (r.result.Ok? <==> |h.neighbors| > 0)
    ensures r.result.Err? ==> r.result.error == Fails(NoNeighborAssigned)
  {
    if |h.neighbors| == 0 then Step(h, Err(Fails(NoNeighborAssigned))) else Step(h, Ok(()))
  }

  /** How one round of the loop of `try_send` ends: another round, or the call's outcome. */
  datatype Next = Again(h: Handler, p: Packet) | Done(s: Step)

  /**
   * The retry part of a round, after the first hop failed: the hop is
   * removed and the route recomputed. Without a route a flood starts and the
   * packet is queued; the source then goes round again with the old route
   * (`leave` false), the corrected loop leaves (`leave` true).
   */
  function Reroute(h: Handler, p: Packet, dest: NodeId, leave: bool): (r: Next)
    requires |p.header.hops| > 1
    ensures r.Again? && leave ==>
      && TotalAdj(r.h.view.nodes) <= TotalAdj(h.view.nodes)
      && Anchored(r.h.view, r.p.header)
      && (Anchored(h.view, p.header) ==> TotalAdj(r.h.view.nodes) < TotalAdj(h.view.nodes))
    ensures r.Again? ==> r.h.id == h.id && r.h.controllerUp == h.controllerUp && r.h.floodSeen == h.floodSeen
    ensures r.Again? ==> forall m :: m in r.h.neighbors ==> m in h.neighbors && r.h.neighbors[m] == h.neighbors[m]
    ensures r.Done? ==> r.s.h.id == h.id && r.s.h.controllerUp == h.controllerUp && r.s.h.floodSeen == h.floodSeen
    ensures r.Done? ==> forall m :: m in r.s.h.neighbors ==> m in h.neighbors && r.s.h.neighbors[m] == h.neighbors[m]
  {
    var first := p.header.hops[1];
    var h1 := RemoveNeighbor(h, first);
    match TryFindPath(h1, dest)
      case Ok(hdr) =>
        RemoveNodeShrinks(h.view, first);
        TryFindPathAnchored(h1, dest);
        Again(h1, p.(header := hdr))
      case Err(Fails(PathNotFound(_))) =>
        var f := StartFlood(h1);
        if f.result.Err? then Done(f)
        else
          var queued := f.h.(buffer := AddPending(f.h.buffer, p));
          if leave then Done(AfterLoop(queued)) else Again(queued, p)
      case Err(e) => Done(Step(h1, Err(e)))
  }

  /** No neighbour left is the documented `NoNeighborAssigned`. */
  lemma NoNeighborOutcome(h: Handler, s: Step, p: Packet)
    requires s.result == Err(Fails(NoNeighborAssigned)) && |s.h.neighbors| == 0
    ensures SendOutcome(h, s, p)
  {
  }

  /** Queuing the packet itself after a reported flood is the `Queued` outcome. */
  lemma QueuedPacket(h: Handler, r: Handler, p: Packet)
    requires r.buffer == AddPending(h.buffer, p)
    requires r.events == h.events + [FloodStarted(h.floodCounter + 1, h.id)]
    ensures Queued(h, r, p)
  {
    assert r.buffer.toSend[|h.buffer.toSend|] == p;
  }

  /** Success with the packet queued and a neighbour left is a documented outcome. */
  lemma OkOutcome(h: Handler, s: Step, p: Packet)
    requires s.result.Ok? && |s.h.neighbors| > 0 && h.controllerUp && Queued(h, s.h, p)
    ensures SendOutcome(h, s, p)
  {
  }

  /**
   * A corrected round that goes on has only dropped neighbours and changed
   * the route; a round that ends gives the outcome `try_send` documents.
   */
  predicate RoundEnds(h: Handler, p: Packet, r: Next, leave: bool) {
    && (r.Again? && leave ==> r.h == h.(neighbors := r.h.neighbors, view := r.h.view) && r.p == p.(header := r.p.header))
    && (r.Done? ==> SendOutcome(h, r.s, p))
  }

  /**
   * A flood started from `h1`, a handler that differs from `h` only in its
   * links, with the packet then queued, is the `Queued` outcome.
   */
  lemma FloodQueues(h: Handler, h1: Handler, f: Handler, p: Packet)
    requires h1.buffer == h.buffer && h1.events == h.events
    requires h1.floodCounter == h.floodCounter && h1.id == h.id && h.controllerUp
    requires f.buffer == h1.buffer && f.events == h1.events + [FloodStarted(h1.floodCounter + 1, h1.id)]
    ensures Queued(h, f.(buffer := AddPending(f.buffer, p)), p)
    ensures SendOutcome(h, AfterLoop(f.(buffer := AddPending(f.buffer, p))), p)
  {
    var queued := f.(buffer := AddPending(f.buffer, p));
    QueuedPacket(h, queued, p);
    if |queued.neighbors| > 0 {
      OkOutcome(h, AfterLoop(queued), p);
    } else {
      NoNeighborOutcome(h, AfterLoop(queued), p);
    }
  }

  /** The retry from a route search that finds a route goes round again on it. */
  lemma RerouteFound(h: Handler, p: Packet, dest: NodeId, leave: bool)
    requires |p.header.hops| > 1
    requires TryFindPath(RemoveNeighbor(h, p.header.hops[1]), dest).Ok?
    ensures Reroute(h, p, dest, leave) ==
      Again(RemoveNeighbor(h, p.header.hops[1]), p.(header := TryFindPath(RemoveNeighbor(h, p.header.hops[1]), dest).value))
  {
  }

  /** The retry from a route search that finds no route starts a flood. */
  lemma RerouteFloods(h: Handler, p: Packet, dest: NodeId, leave: bool)
    requires |p.header.hops| > 1
    requires TryFindPath(RemoveNeighbor(h, p.header.hops[1]), dest).Err?
    requires TryFindPath(RemoveNeighbor(h, p.header.hops[1]), dest).error.Fails?
    ensures var f := StartFlood(RemoveNeighbor(h, p.header.hops[1]));
      var queued := f.h.(buffer := AddPending(f.h.buffer, p));
      Reroute(h, p, dest, leave) ==
        if f.result.Err? then Done(f) else if leave then Done(AfterLoop(queued)) else Again(queued, p)
  {
  }

  /** The retry from a route search that panics ends with the panic. */
  lemma ReroutePanics(h: Handler, p: Packet, dest: NodeId, leave: bool)
    requires |p.header.hops| > 1
    requires TryFindPath(RemoveNeighbor(h, p.header.hops[1]), dest).Err?
    requires !TryFindPath(RemoveNeighbor(h, p.header.hops[1]), dest).error.Fails?
    ensures Reroute(h, p, dest, leave) == Done(Step(RemoveNeighbor(h, p.header.hops[1]), Err(Panics)))
  {
  }

  /** A retry that finds a route goes round again with the same packet under the new route. */
  lemma RerouteFoundEnds(h: Handler, p: Packet, dest: NodeId, leave: bool)
    requires |p.header.hops| > 1
    requires TryFindPath(RemoveNeighbor(h, p.header.hops[1]), dest).Ok?
    ensures RoundEnds(h, p, Reroute(h, p, dest, leave), leave)
  {
    RerouteFound(h, p, dest, leave);
  }

  /** A retry that finds no route ends as `RoundEnds` says, whether the flood starts or not. */
  lemma RerouteFloodEnds(h: Handler, p: Packet, dest: NodeId, leave: bool)
    requires |p.header.hops| > 1
    requires TryFindPath(RemoveNeighbor(h, p.header.hops[1]), dest).Err?
    requires TryFindPath(RemoveNeighbor(h, p.header.hops[1]), dest).error.Fails?
    ensures RoundEnds(h, p, Reroute(h, p, dest, leave), leave)
  {
    if StartFlood(RemoveNeighbor(h, p.header.hops[1])).result.Err? {
      RerouteFloodFails(h, p, dest, leave);
    } else {
      RerouteQueues(h, p, dest, leave);
    }
  }

  /** A flood that cannot start ends the call with its error. */
  lemma RerouteFloodFails(h: Handler, p: Packet, dest: NodeId, leave: bool)
    requires |p.header.hops| > 1
    requires TryFindPath(RemoveNeighbor(h, p.header.hops[1]), dest).Err?
    requires TryFindPath(RemoveNeighbor(h, p.header.hops[1]), dest).error.Fails?
    requires StartFlood(RemoveNeighbor(h, p.header.hops[1])).result.Err?
    ensures RoundEnds(h, p, Reroute(h, p, dest, leave), leave)
  {
    RerouteFloods(h, p, dest, leave);
    FailedOutcome(h, StartFlood(RemoveNeighbor(h, p.header.hops[1])), p);
  }

  /** A flood that starts queues the packet, and the corrected loop then leaves. */
  lemma RerouteQueues(h: Handler, p: Packet, dest: NodeId, leave: bool)
    requires |p.header.hops| > 1
    requires TryFindPath(RemoveNeighbor(h, p.header.hops[1]), dest).Err?
    requires TryFindPath(RemoveNeighbor(h, p.header.hops[1]), dest).error.Fails?
    requires StartFlood(RemoveNeighbor(h, p.header.hops[1])).result.Ok?
    ensures RoundEnds(h, p, Reroute(h, p, dest, leave), leave)
  {
    var h1 := RemoveNeighbor(h, p.header.hops[1]);
    RerouteFloods(h, p, dest, leave);
    if leave {
      RemoveNeighborKeeps(h, p.header.hops[1]);
      FloodReports(h1);
      FloodQueues(h, h1, StartFlood(h1).h, p);
    }
  }

  /** Dropping a neighbour leaves the buffer, the events, the counters and the controller alone. */
  lemma RemoveNeighborKeeps(h: Handler, n: NodeId)
    ensures var h1 := RemoveNeighbor(h, n);
      && h1.buffer == h.buffer && h1.events == h.events
      && h1.floodCounter == h.floodCounter && h1.id == h.id && h1.controllerUp == h.controllerUp
  {
  }

  /** A flood that starts reports itself and leaves the buffer alone. */
  lemma FloodReports(h: Handler)
    requires StartFlood(h).result.Ok?
    ensures StartFlood(h).h.buffer == h.buffer
    ensures StartFlood(h).h.events == h.events + [FloodStarted(h.floodCounter + 1, h.id)]
  {
  }

  /** A search that panics ends the call with the panic. */
  lemma ReroutePanicEnds(h: Handler, p: Packet, dest: NodeId, leave: bool)
    requires |p.header.hops| > 1
    requires TryFindPath(RemoveNeighbor(h, p.header.hops[1]), dest).Err?
    requires !TryFindPath(RemoveNeighbor(h, p.header.hops[1]), dest).error.Fails?
    ensures RoundEnds(h, p, Reroute(h, p, dest, leave), leave)
  {
    ReroutePanics(h, p, dest, leave);
    FailedOutcome(h, Step(RemoveNeighbor(h, p.header.hops[1]), Err(Panics)), p);
  }

  /** Every retry ends as `RoundEnds` says. */
  lemma RerouteOutcome(h: Handler, p: Packet, dest: NodeId, leave: bool)
    requires |p.header.hops| > 1
    ensures RoundEnds(h, p, Reroute(h, p, dest, leave), leave)
  {
    var found := TryFindPath(RemoveNeighbor(h, p.header.hops[1]), dest);
    if found.Ok? {
      RerouteFoundEnds(h, p, dest, leave);
    } else if found.error.Fails? {
      RerouteFloodEnds(h, p, dest, leave);
    } else {
      ReroutePanicEnds(h, p, dest, leave);
    }
  }

  /** A lost controller, or a panic, is an outcome `try_send` documents. */
  lemma FailedOutcome(h: Handler, s: Step, p: Packet)
    requires s.result == Err(Panics) || (s.result == Err(Fails(ControllerDisconnected)) && !h.controllerUp)
    ensures SendOutcome(h, s, p)
  {
  }

  /** One round of the loop of `try_send`. */
  function Round(h: Handler, p: Packet, dest: NodeId, leave: bool): (r: Next)
    ensures r.Again? && leave ==>
      && TotalAdj(r.h.view.nodes) <= TotalAdj(h.view.nodes)
      && Anchored(r.h.view, r.p.header)
      && (Anchored(h.view, p.header) ==> TotalAdj(r.h.view.nodes) < TotalAdj(h.view.nodes))
    ensures r.Again? ==> r.h.id == h.id && r.h.controllerUp == h.controllerUp && r.h.floodSeen == h.floodSeen
    ensures r.Again? ==> forall m :: m in r.h.neighbors ==> m in h.neighbors && r.h.neighbors[m] == h.neighbors[m]
    ensures r.Done? ==> r.s.h.id == h.id && r.s.h.controllerUp == h.controllerUp && r.s.h.floodSeen == h.floodSeen
    ensures r.Done? ==> forall m :: m in r.s.h.neighbors ==> m in h.neighbors && r.s.h.neighbors[m] == h.neighbors[m]
  {
    if |h.neighbors| == 0 then Done(AfterLoop(h))
    else
      var s := SendToFirstHop(h, p);
      if s.result.Ok? then Done(AfterLoop(s.h))
      else if !Reroutable(s.result.error) then Done(s)
      else Reroute(h, p, dest, leave)
  }

  /** A send to the first hop that succeeds delivered the packet, or had no first hop to send to. */
  lemma FirstHopSent(h: Handler, p: Packet)
    requires |h.neighbors| > 0 && SendToFirstHop(h, p).result.Ok?
    ensures SendOutcome(h, AfterLoop(SendToFirstHop(h, p).h), p)
  {
    var s := SendToFirstHop(h, p);
    if |p.header.hops| > 1 {
      var first := p.header.hops[1];
      assert first in h.neighbors && h.neighbors[first] && h.controllerUp;
      assert s.h.events == h.events + [PacketSent(p)];
      assert s.h.outbox[..|h.outbox|] == h.outbox;
      assert Delivered(h, s.h, p);
    } else {
      assert Unsent(h, s.h);
    }
  }

  /** A send to the first hop that fails for a reason other than a bad hop is a documented outcome. */
  lemma FirstHopFails(h: Handler, p: Packet)
    requires SendToFirstHop(h, p).result.Err? && !Reroutable(SendToFirstHop(h, p).result.error)
    ensures SendOutcome(h, SendToFirstHop(h, p), p)
  {
    var s := SendToFirstHop(h, p);
    assert s.result == Err(Fails(ControllerDisconnected)) && !h.controllerUp;
  }

  /** A round without neighbours ends with `NoNeighborAssigned`. */
  lemma RoundWithoutNeighbors(h: Handler, p: Packet, dest: NodeId, leave: bool)
    requires |h.neighbors| == 0
    ensures Round(h, p, dest, leave) == Done(Step(h, Err(Fails(NoNeighborAssigned))))
    ensures RoundEnds(h, p, Round(h, p, dest, leave), leave)
  {
    NoNeighborOutcome(h, AfterLoop(h), p);
  }

  /** A round whose send to the first hop succeeds ends there. */
  lemma RoundSent(h: Handler, p: Packet, dest: NodeId, leave: bool)
    requires |h.neighbors| > 0 && SendToFirstHop(h, p).result.Ok?
    ensures RoundEnds(h, p, Round(h, p, dest, leave), leave)
  {
    assert Round(h, p, dest, leave) == Done(AfterLoop(SendToFirstHop(h, p).h));
    FirstHopSent(h, p);
  }

  /** A round whose send to the first hop fails for good ends there. */
  lemma RoundFailed(h: Handler, p: Packet, dest: NodeId, leave: bool)
    requires |h.neighbors| > 0 && SendToFirstHop(h, p).result.Err?
    requires !Reroutable(SendToFirstHop(h, p).result.error)
    ensures RoundEnds(h, p, Round(h, p, dest, leave), leave)
  {
    assert Round(h, p, dest, leave) == Done(SendToFirstHop(h, p));
    FirstHopFails(h, p);
  }

  /** A round whose first hop is gone retries as `Reroute` says. */
  lemma RoundRerouted(h: Handler, p: Packet, dest: NodeId, leave: bool)
    requires |h.neighbors| > 0 && SendToFirstHop(h, p).result.Err?
    requires Reroutable(SendToFirstHop(h, p).result.error)
    ensures RoundEnds(h, p, Round(h, p, dest, leave), leave)
  {
    assert |p.header.hops| > 1;
    assert Round(h, p, dest, leave) == Reroute(h, p, dest, leave);
    RerouteOutcome(h, p, dest, leave);
  }

  /** Every round ends as `RoundEnds` says. */
  lemma RoundOutcome(h: Handler, p: Packet, dest: NodeId, leave: bool)
    ensures RoundEnds(h, p, Round(h, p, dest, leave), leave)
  {
    if |h.neighbors| == 0 {
      RoundWithoutNeighbors(h, p, dest, leave);
    } else if SendToFirstHop(h, p).result.Ok? {
      RoundSent(h, p, dest, leave);
    } else if !Reroutable(SendToFirstHop(h, p).result.error) {
      RoundFailed(h, p, dest, leave);
    } else {
      RoundRerouted(h, p, dest, leave);
    }
  }

  /** The outcome of a later round, started after neighbours were dropped and the route changed, is one of the first. */
  lemma OutcomeCarries(h: Handler, h': Handler, p: Packet, p': Packet, s: Step)
    requires h' == h.(neighbors := h'.neighbors, view := h'.view) && p' == p.(header := p'.header)
    requires SendOutcome(h', s, p')
    ensures SendOutcome(h, s, p)
  {
  }

  /**
   * The loop of `try_send`, corrected to leave once the packet has been
   * queued for the flood's answer. Each further round either removed an
   * adjacent of the local node or replaced an unanchored route by an
   * anchored one, which is the termination measure.
   */
  function SendLoop(h: Handler, p: Packet, dest: NodeId): (r: Step)
    ensures r.h.id == h.id && r.h.controllerUp == h.controllerUp && r.h.floodSeen == h.floodSeen
    ensures forall m :: m in r.h.neighbors ==> m in h.neighbors && r.h.neighbors[m] == h.neighbors[m]
    ensures SendOutcome(h, r, p)
    ensures |h.neighbors| == 0 ==> r == Step(h, Err(Fails(NoNeighborAssigned)))
    decreases TotalAdj(h.view.nodes), if Anchored(h.view, p.header) then 0 else 1
  {
    RoundOutcome(h, p, dest, true);
    match Round(h, p, dest, true)
      case Done(s) => s
      case Again(h', p') =>
        var s := SendLoop(h', p', dest);
        OutcomeCarries(h, h', p, p', s);
        s
  }

  /**
   * `try_send`, with the corrected loop of `SendLoop`: a packet without hops
   * has no destination; otherwise the call ends as `SendOutcome` describes,
   * and a handler without neighbours refuses at once.
   */
  function TrySend(h: Handler, p: Packet): (r: Step)
    ensures p.header.hops == [] ==> r == Step(h, Err(Fails(NoDestination)))
    ensures p.header.hops != [] ==> SendOutcome(h, r, p)
    ensures p.header.hops != [] && |h.neighbors| == 0 ==> r == Step(h, Err(Fails(NoNeighborAssigned)))
    ensures r.h.id == h.id && r.h.controllerUp == h.controllerUp && r.h.floodSeen == h.floodSeen
    ensures forall m :: m in r.h.neighbors ==> m in h.neighbors && r.h.neighbors[m] == h.neighbors[m]
  {
    match p.header.Destination()
      case None => Step(h, Err(Fails(NoDestination)))
      case Some(dest) => SendLoop(h, p, dest)
  }

  /** The route's first hop is a neighbour whose channel works. */
  predicate FirstHopLive(h: Handler, p: Packet) {
    |p.header.hops| > 1 && p.header.hops[1] in h.neighbors && h.neighbors[p.header.hops[1]]
  }

  /**
   * With a working first hop and a listening controller, `try_send` sends
   * the packet once, reports it, and buffers it under `(session, own id)`.
   */
  lemma TrySendDirect(h: Handler, p: Packet)
    requires h.controllerUp && FirstHopLive(h, p)
    ensures TrySend(h, p) == Step(h.(outbox := h.outbox + [(p.header.hops[1], p)],
                                     events := h.events + [PacketSent(p)],
                                     buffer := Insert(h.buffer, p, p.session, h.id)), Ok(()))
  {
    assert Round(h, p, p.header.hops[|p.header.hops| - 1], true).Done?;
  }

  /** A packet whose route is just the local node is accepted without a send. */
  lemma TrySendToSelf(h: Handler, p: Packet)
    requires |p.header.hops| == 1 && |h.neighbors| > 0
    ensures TrySend(h, p) == Step(h, Ok(()))
  {
    assert Round(h, p, p.header.hops[0], true).Done?;
  }

  /** Every packet has a route with a first hop. */
  predicate AllRouted(pkts: seq<Packet>) {
    forall i :: 0 <= i < |pkts| ==> |pkts[i].header.hops| > 1
  }

  /** The messages a run of packets produces, each to its route's first hop. */
  function Deliveries(pkts: seq<Packet>): (r: seq<(NodeId, Packet)>)
    requires AllRouted(pkts)
    ensures |r| == |pkts| && forall i :: 0 <= i < |pkts| ==> r[i] == (pkts[i].header.hops[1], pkts[i])
  {
    seq(|pkts|, i requires 0 <= i < |pkts| => (pkts[i].header.hops[1], pkts[i]))
  }

  /** `try_send` of each packet in turn, stopping at the first error (the `?` in a `for` loop). */
  function TrySendEach(h: Handler, pkts: seq<Packet>): (r: Step)
    ensures pkts == [] ==> r == Step(h, Ok(()))
    ensures r.h.id == h.id && r.h.controllerUp == h.controllerUp && r.h.floodSeen == h.floodSeen
    decreases |pkts|
  {
    if pkts == [] then Step(h, Ok(()))
    else
      var s := TrySend(h, pkts[0]);
      if s.result.Err? then s else TrySendEach(s.h, pkts[1..])
  }

  /** When every first hop works, all packets go out, in order, and the neighbours and the view stay. */
  lemma {:induction false} TrySendEachDirect(h: Handler, pkts: seq<Packet>)
    requires h.controllerUp && AllRouted(pkts)
    requires forall i :: 0 <= i < |pkts| ==> FirstHopLive(h, pkts[i])
    ensures TrySendEach(h, pkts).result.Ok?
    ensures TrySendEach(h, pkts).h.outbox == h.outbox + Deliveries(pkts)
    ensures TrySendEach(h, pkts).h.neighbors == h.neighbors && TrySendEach(h, pkts).h.view == h.view
    ensures TrySendEach(h, pkts).h.buffer.toSend == h.buffer.toSend
    decreases |pkts|
  {
    if pkts == [] {
      assert TrySendEach(h, pkts) == Step(h, Ok(()));
      assert Deliveries(pkts) == [];
      assert h.outbox + [] == h.outbox;
    } else {
      var p := pkts[0];
      var h1 := h.(outbox := h.outbox + [(p.header.hops[1], p)],
                   events := h.events + [PacketSent(p)],
                   buffer := Insert(h.buffer, p, p.session, h.id));
      TrySendDirect(h, p);
      var rest := pkts[1..];
      assert forall i :: 0 <= i < |rest| ==> rest[i] == pkts[i + 1];
      TrySendEachDirect(h1, rest);
      TrySendEachOk(h, pkts, h1);
      DeliveriesCons(pkts);
      AppendAssoc(h.outbox, [(p.header.hops[1], p)], Deliveries(rest));
    }
  }

  /** The deliveries of a run are its first packet's delivery followed by the rest's. */
  lemma DeliveriesCons(pkts: seq<Packet>)
    requires AllRouted(pkts) && pkts != []
    ensures AllRouted(pkts[1..])
    ensures Deliveries(pkts) == [(pkts[0].header.hops[1], pkts[0])] + Deliveries(pkts[1..])
  {
    var rest := pkts[1..];
    assert forall i :: 0 <= i < |rest| ==> rest[i] == pkts[i + 1];
    var a := Deliveries(pkts);
    var b := [(pkts[0].header.hops[1], pkts[0])] + Deliveries(rest);
    assert |a| == |b|;
    forall i | 0 <= i < |a| ensures a[i] == b[i] {
      if i > 0 {
        assert b[i] == Deliveries(rest)[i - 1];
      }
    }
  }

  /** A first packet sent without error hands the rest of the run to the handler it leaves. */
  lemma TrySendEachOk(h: Handler, pkts: seq<Packet>, h1: Handler)
    requires pkts != [] && TrySend(h, pkts[0]) == Step(h1, Ok(()))
    ensures TrySendEach(h, pkts) == TrySendEach(h1, pkts[1..])
  {
  }

  // ------------------------------------------------- try_send as written

  /**
   * The loop of `try_send` as written: after queueing the packet for the
   * flood's answer it goes round again with the same route. `fuel` bounds
   * the rounds; `None` means the loop had not ended when the fuel ran out.
   */
  function SendLoopAsWritten(h: Handler, p: Packet, dest: NodeId, fuel: nat): (r: Option<Step>)
    ensures fuel == 0 ==> r.None?
    ensures r.Some? ==> r.value.h.id == h.id
    decreases fuel
  {
    if fuel == 0 then None
    else match Round(h, p, dest, false)
      case Done(s) => Some(s)
      case Again(h', p') => SendLoopAsWritten(h', p', dest, fuel - 1)
  }

  function TrySendAsWritten(h: Handler, p: Packet, fuel: nat): (r: Option<Step>)
    ensures p.header.hops == [] ==> r == Some(Step(h, Err(Fails(NoDestination))))
    ensures p.header.hops != [] ==> r == SendLoopAsWritten(h, p, p.header.hops[|p.header.hops| - 1], fuel)
  {
    match p.header.Destination()
      case None => Some(Step(h, Err(Fails(NoDestination))))
      case Some(dest) => SendLoopAsWritten(h, p, dest, fuel)
  }

  /**
   * A state the as-written loop cannot leave: the view holds only the local
   * node, with no adjacents; the route's first hop is not a neighbour; every
   * neighbour works; the controller listens.
   */
  predicate Stuck(h: Handler, p: Packet, dest: NodeId) {
    && |h.view.nodes| == 1 && h.view.nodes[0].id == h.id && h.view.nodes[0].adjacents == []
    && h.controllerUp && |h.neighbors| > 0 && false !in h.neighbors.Values
    && |p.header.hops| > 1 && p.header.hops[1] !in h.neighbors && p.header.hops[1] != h.id
    && dest != h.id
  }

  /** A local node without adjacents reaches nothing but itself. */
  lemma NoAdjacentsReachesOnlyItself(net: Network, dest: NodeId)
    requires |net.nodes| > 0 && net.nodes[0].adjacents == [] && dest != net.nodes[0].id
    ensures !Reaches(net, net.nodes[0].id, dest)
  {
    assert Adj(net, net.nodes[0].id) == [];
    assert forall w :: IsWalk(net, w) && |w| > 1 ==> w[1] in Adj(net, w[0]);
  }

  /** The state a stuck round ends in: one more flood started, the packet queued once more. */
  function Requeued(h: Handler, p: Packet): Handler
    requires h.controllerUp
  {
    var f := StartFlood(h);
    f.h.(buffer := AddPending(f.h.buffer, p))
  }

  /** In a stuck state, removing the route's first hop changes nothing. */
  lemma StuckRemoveIsNoop(h: Handler, p: Packet, dest: NodeId)
    requires Stuck(h, p, dest)
    ensures RemoveNeighbor(h, p.header.hops[1]) == h
  {
    var first := p.header.hops[1];
    assert h.neighbors - {first} == h.neighbors;
    assert !HasNode(h.view.nodes, first);
    assert RemoveNode(h.view, first).nodes == h.view.nodes;
  }

  /** In a stuck state the view has no route to the destination. */
  lemma StuckNoRoute(h: Handler, p: Packet, dest: NodeId)
    requires Stuck(h, p, dest)
    ensures TryFindPath(h, dest) == Err(Fails(PathNotFound(dest)))
  {
    NoAdjacentsReachesOnlyItself(h.view, dest);
  }

  /** A flood from a stuck state reaches every neighbour and leaves the state stuck, the packet queued once more. */
  lemma StuckRequeued(h: Handler, p: Packet, dest: NodeId)
    requires Stuck(h, p, dest)
    ensures StartFlood(h).result.Ok?
    ensures Stuck(Requeued(h, p), p, dest)
    ensures Requeued(h, p).buffer.toSend == h.buffer.toSend + [p]
    ensures Requeued(h, p).floodCounter == h.floodCounter + 1 && Requeued(h, p).neighbors == h.neighbors
  {
    assert forall m :: m in h.neighbors ==> h.neighbors[m] by {
      forall m | m in h.neighbors ensures h.neighbors[m] {
        assert h.neighbors[m] in h.neighbors.Values;
      }
    }
  }

  /**
   * One round from a stuck state: removing the first hop changes nothing, no
   * route is found, a flood starts and the packet is queued. The source then
   * goes round again from a stuck state; the correction returns.
   */
  lemma StuckRound(h: Handler, p: Packet, dest: NodeId)
    requires Stuck(h, p, dest)
    ensures Round(h, p, dest, false) == Again(Requeued(h, p), p)
    ensures Round(h, p, dest, true) == Done(Step(Requeued(h, p), Ok(())))
    ensures Stuck(Requeued(h, p), p, dest)
    ensures Requeued(h, p).buffer.toSend == h.buffer.toSend + [p]
    ensures Requeued(h, p).floodCounter == h.floodCounter + 1 && Requeued(h, p).neighbors == h.neighbors
  {
    StuckRequeued(h, p, dest);
    StuckRoundReroutes(h, p, dest, false);
    StuckRoundReroutes(h, p, dest, true);
    StuckRerouteQueues(h, p, dest, false);
    StuckRerouteQueues(h, p, dest, true);
  }

  /** From a stuck state the first hop is no neighbour, so the round goes on to the retry part. */
  lemma StuckRoundReroutes(h: Handler, p: Packet, dest: NodeId, leave: bool)
    requires Stuck(h, p, dest)
    ensures Round(h, p, dest, leave) == Reroute(h, p, dest, leave)
  {
    assert SendToFirstHop(h, p) == Step(h, Err(Fails(NodeIsNotANeighbor(p.header.hops[1]))));
  }

  /** The retry part from a stuck state floods and queues the packet. */
  lemma StuckRerouteQueues(h: Handler, p: Packet, dest: NodeId, leave: bool)
    requires Stuck(h, p, dest)
    ensures Reroute(h, p, dest, leave) == if leave then Done(Step(Requeued(h, p), Ok(()))) else Again(Requeued(h, p), p)
  {
    StuckRemoveIsNoop(h, p, dest);
    StuckNoRoute(h, p, dest);
    StuckRequeued(h, p, dest);
    RerouteWithoutPath(h, p, dest, leave);
    assert |Requeued(h, p).neighbors| > 0;
  }

  /** Without a route after the removal, a listening handler floods and queues the packet. */
  lemma RerouteWithoutPath(h: Handler, p: Packet, dest: NodeId, leave: bool)
    requires |p.header.hops| > 1 && h.controllerUp
    requires RemoveNeighbor(h, p.header.hops[1]) == h
    requires TryFindPath(h, dest) == Err(Fails(PathNotFound(dest)))
    ensures Reroute(h, p, dest, leave) == if leave then Done(AfterLoop(Requeued(h, p))) else Again(Requeued(h, p), p)
  {
  }

  /** A round of the as-written loop from a stuck state leads to another one. */
  lemma StuckAgain(h: Handler, p: Packet, dest: NodeId, k: nat)
    requires Stuck(h, p, dest)
    ensures exists h2 :: Stuck(h2, p, dest) && SendLoopAsWritten(h, p, dest, k + 1) == SendLoopAsWritten(h2, p, dest, k)
  {
    StuckRound(h, p, dest);
    var h2 := Requeued(h, p);
    assert Stuck(h2, p, dest) && SendLoopAsWritten(h, p, dest, k + 1) == SendLoopAsWritten(h2, p, dest, k);
  }

  /** From a stuck state the as-written loop never ends, however many rounds it is given. */
  lemma {:induction false} StuckForever(h: Handler, p: Packet, dest: NodeId, fuel: nat)
    requires Stuck(h, p, dest)
    ensures SendLoopAsWritten(h, p, dest, fuel).None?
    decreases fuel
  {
    if fuel > 0 {
      var k: nat :| k + 1 == fuel;
      StuckAgain(h, p, dest, k);
      var h2 :| Stuck(h2, p, dest) && SendLoopAsWritten(h, p, dest, k + 1) == SendLoopAsWritten(h2, p, dest, k);
      StuckForever(h2, p, dest, k);
    }
  }

  /** From a stuck state the corrected loop returns at once, the packet queued for the flood's answer. */
  lemma StuckQueues(h: Handler, p: Packet, dest: NodeId)
    requires Stuck(h, p, dest)
    ensures SendLoop(h, p, dest) == Step(Requeued(h, p), Ok(()))
    ensures Requeued(h, p).buffer.toSend == h.buffer.toSend + [p]
  {
    StuckRound(h, p, dest);
  }

  /**
   * Client 1 has added neighbour 3, whose channel then closed, and has a
   * working neighbour 2; its view knows no other route to 3.
   */
  function DeadHopHandler(): Handler {
    Handler(1, Network([Node(1, Client, [3])]), map[2 := true, 3 := false], {}, 0, 0, true, EmptyBuffer, [], [])
  }

  function DeadHopPacket(): Packet {
    Packet(Header(1, [1, 3]), 1, Ack(0))
  }

  /** Handler 1 after dropping neighbour 3. */
  function DeadHopDropped(): Handler {
    Handler(1, Network([Node(1, Client, [])]), map[2 := true], {}, 0, 0, true, EmptyBuffer, [], [])
  }

  lemma DeadHopRemoval()
    ensures RemoveNeighbor(DeadHopHandler(), 3) == DeadHopDropped()
    ensures RemoveNeighbor(DeadHopDropped(), 3) == DeadHopDropped()
    ensures Stuck(DeadHopDropped(), DeadHopPacket(), 3)
  {
    var h := DeadHopHandler();
    assert h.neighbors - {3} == map[2 := true];
    assert !HasNode(h.view.nodes, 3);
    assert IndexOf([3 as NodeId], 3) == Some(0);
    assert RemoveNode(h.view, 3).nodes == [Node(1, Client, [])];
    StuckRemoveIsNoop(DeadHopDropped(), DeadHopPacket(), 3);
  }

  /** The first round on that packet: the send to 3 fails and 3 is removed, which leads to a stuck state. */
  lemma DeadHopFirstRound(leave: bool)
    ensures Round(DeadHopHandler(), DeadHopPacket(), 3, leave) == Round(DeadHopDropped(), DeadHopPacket(), 3, leave)
  {
    var h, h1, p := DeadHopHandler(), DeadHopDropped(), DeadHopPacket();
    DeadHopRemoval();
    DeadHopRerouteFirst(leave);
    DeadHopRerouteDropped(leave);
    RerouteAfterSameRemoval(h, h1, p, 3, leave);
  }

  /** The retry part sees the handler only after the failed hop is removed. */
  lemma RerouteAfterSameRemoval(h: Handler, h': Handler, p: Packet, dest: NodeId, leave: bool)
    requires |p.header.hops| > 1
    requires RemoveNeighbor(h, p.header.hops[1]) == RemoveNeighbor(h', p.header.hops[1])
    ensures Reroute(h, p, dest, leave) == Reroute(h', p, dest, leave)
  {
  }

  /** The send to the closed channel of 3 fails, so the round reroutes. */
  lemma DeadHopRerouteFirst(leave: bool)
    ensures Round(DeadHopHandler(), DeadHopPacket(), 3, leave) == Reroute(DeadHopHandler(), DeadHopPacket(), 3, leave)
  {
    var h, p := DeadHopHandler(), DeadHopPacket();
    assert SendToFirstHop(h, p) == Step(h, Err(Fails(SendError)));
  }

  /** Once 3 is dropped it is no neighbour, so the round reroutes as well. */
  lemma DeadHopRerouteDropped(leave: bool)
    ensures Round(DeadHopDropped(), DeadHopPacket(), 3, leave) == Reroute(DeadHopDropped(), DeadHopPacket(), 3, leave)
  {
    var h1, p := DeadHopDropped(), DeadHopPacket();
    assert SendToFirstHop(h1, p) == Step(h1, Err(Fails(NodeIsNotANeighbor(3))));
  }

  /** The as-written `try_send` of that packet never returns. */
  lemma DeadHopNeverReturns(fuel: nat)
    ensures TrySendAsWritten(DeadHopHandler(), DeadHopPacket(), fuel).None?
  {
    if fuel > 0 {
      var k: nat :| k + 1 == fuel;
      var h1, p := DeadHopDropped(), DeadHopPacket();
      DeadHopRemoval();
      DeadHopFirstRound(false);
      StuckRound(h1, p, 3);
      StuckForever(Requeued(h1, p), p, 3, k);
      assert SendLoopAsWritten(DeadHopHandler(), p, 3, k + 1) == SendLoopAsWritten(Requeued(h1, p), p, 3, k);
    }
  }

  /** The corrected `try_send` of that packet returns, the packet queued and neighbour 3 gone. */
  lemma DeadHopQueues()
    ensures var r := TrySend(DeadHopHandler(), DeadHopPacket());
      r.result.Ok? && r.h.buffer.toSend == [DeadHopPacket()] && r.h.neighbors == map[2 := true]
  {
    assert DeadHopPacket().header.Destination() == Some(3);
    TrySendLoops(DeadHopHandler(), DeadHopPacket(), 3);
    DeadHopLoop();
    DeadHopRequeued();
  }

  lemma TrySendLoops(h: Handler, p: Packet, dest: NodeId)
    requires p.header.Destination() == Some(dest)
    ensures TrySend(h, p) == SendLoop(h, p, dest)
  {
  }

  /** Requeueing after the drop leaves the packet alone in the queue and 2 the only neighbour. */
  lemma DeadHopRequeued()
    ensures Requeued(DeadHopDropped(), DeadHopPacket()).buffer.toSend == [DeadHopPacket()]
    ensures Requeued(DeadHopDropped(), DeadHopPacket()).neighbors == map[2 := true]
  {
    DeadHopRemoval();
    StuckRound(DeadHopDropped(), DeadHopPacket(), 3);
  }

  /** The corrected loop on that packet ends after one round with the dropped handler requeueing it. */
  lemma DeadHopLoop()
    ensures SendLoop(DeadHopHandler(), DeadHopPacket(), 3) == Step(Requeued(DeadHopDropped(), DeadHopPacket()), Ok(()))
  {
    var h1, p := DeadHopDropped(), DeadHopPacket();
    DeadHopRemoval();
    DeadHopFirstRound(true);
    StuckRound(h1, p, 3);
  }
}

=== FILE: routing_messages.dfy ===
/**
 * The message-level operations of the endpoint routing handler
 * (common/src/routing_handler.rs): answering and forwarding floods, merging
 * flood responses, NACK recovery, acknowledgements, retries and sending a
 * message as 128-byte fragments. They build on the channel and `try_send`
 * model of module `Routing`.
 */
module RoutingMessages {

  import opened Wrappers
  import opened Seqs
  import opened Packets
  import opened Assoc
  import opened Topology
  import opened PathSearch
  import opened SentBuffer
  import opened Routing
  import opened ViewMerge

  // ---------------------------------------------------- handle_flood_response

  /**
   * `handle_flood_response`: only the answer to the current flood counts; its
   * trace is merged into the view and every queued packet is sent again, in
   * queue order, stopping at the first failure.
   */
  function HandleFloodResponse(h: Handler, resp: FloodResponse): (r: Step)
    ensures resp.floodId != h.floodCounter ==> r == Step(h, Ok(()))
    ensures resp.floodId == h.floodCounter && h.buffer.toSend == [] ==>
      r == Step(h.(view := UpdateNetworkView(h.view, resp.trace)), Ok(()))
    ensures r.h.id == h.id && r.h.controllerUp == h.controllerUp && r.h.floodSeen == h.floodSeen
  {
    if resp.floodId == h.floodCounter then
      var h1 := h.(view := UpdateNetworkView(h.view, resp.trace));
      var (pending, b) := Drain(h1.buffer);
      TrySendEach(h1.(buffer := b), pending)
    else Step(h, Ok(()))
  }

  /**
   * A current flood response resends the queue: when every queued packet has
   * a working first hop, all of them go out in queue order and the queue is
   * left empty.
   */
  lemma FloodResponseResends(h: Handler, resp: FloodResponse)
    requires resp.floodId == h.floodCounter && h.controllerUp && AllRouted(h.buffer.toSend)
    requires forall i :: 0 <= i < |h.buffer.toSend| ==> FirstHopLive(h, h.buffer.toSend[i])
    ensures var r := HandleFloodResponse(h, resp);
      && r.result.Ok?
      && r.h.outbox == h.outbox + Deliveries(h.buffer.toSend)
      && r.h.buffer.toSend == []
      && r.h.view == UpdateNetworkView(h.view, resp.trace)
  {
    var h1 := h.(view := UpdateNetworkView(h.view, resp.trace));
    var h2 := h1.(buffer := Drain(h1.buffer).1);
    assert forall i :: 0 <= i < |h.buffer.toSend| ==> FirstHopLive(h2, h.buffer.toSend[i]);
    TrySendEachDirect(h2, h.buffer.toSend);
  }

  /** A current response with an empty queue adds every node of the trace to the view. */
  lemma FloodResponseAddsTrace(h: Handler, resp: FloodResponse)
    requires resp.floodId == h.floodCounter && h.buffer.toSend == []
    ensures forall j :: 0 <= j < |resp.trace| ==> HasNode(HandleFloodResponse(h, resp).h.view.nodes, resp.trace[j].0)
  {
  }

  // ----------------------------------------------------- handle_flood_request

  /** The hop a flood request came from: the last traced node, or the initiator for an empty trace. */
  function PreviousHop(req: FloodRequest): (r: NodeId)
    ensures req.trace != [] ==> r == req.trace[|req.trace| - 1].0
    ensures req.trace == [] ==> r == req.initiator
  {
    if req.trace == [] then req.initiator else req.trace[|req.trace| - 1].0
  }

  /** The trace read backwards, ending at the initiator (appended unless it is already last). */
  function TraceReturn(ids: seq<NodeId>, initiator: NodeId): (r: seq<NodeId>)
    ensures |r| > 0 && r[|r| - 1] == initiator
    ensures |r| == |ids| || |r| == |ids| + 1
    ensures r[..|ids|] == Reverse(ids)
    ensures |r| == |ids| <==> ids != [] && ids[0] == initiator
  {
    var back := Reverse(ids);
    if |back| > 0 && back[|back| - 1] == initiator then back else back + [initiator]
  }

  /**
   * The route of a flood response: the view's path to the initiator when it
   * has one, else the trace read backwards; hop index 1 either way.
   */
  function ReplyRoute(v: Network, trace: Trace, initiator: NodeId): (r: Header)
    requires |v.nodes| > 0
    ensures r.hopIndex == 1
    ensures Reaches(v, v.nodes[0].id, initiator) ==> IsShortestPath(v, r.hops, v.nodes[0].id, initiator)
    ensures !Reaches(v, v.nodes[0].id, initiator) ==> r.hops == TraceReturn(Keys(trace), initiator)
  {
    match FindPath(v, initiator)
      case Some(p) => Header(1, p)
      case None => Header(1, TraceReturn(Keys(trace), initiator))
  }

  /** The ids of `ids` other than `x`, in order. */
  function Except(ids: seq<NodeId>, x: NodeId): (r: seq<NodeId>)
    ensures forall y :: y in r <==> y in ids && y != x
    ensures |r| <= |ids|
  {
    if ids == [] then []
    else if ids[0] == x then Except(ids[1..], x)
    else [ids[0]] + Except(ids[1..], x)
  }

  /**
   * The forwarding loop of `handle_flood_request`: a raw channel send to
   * every neighbour but the previous hop, in id order; the first broken
   * channel ends the call with `SendError`. No controller event is sent.
   */
  function ForwardFlood(h: Handler, ids: seq<NodeId>, prev: NodeId, pkt: Packet): (r: Step)
    requires forall i :: 0 <= i < |ids| ==> ids[i] in h.neighbors
    ensures r.h == h.(outbox := r.h.outbox)
    ensures r.result.Ok? <==> forall i :: 0 <= i < |ids| && ids[i] != prev ==> h.neighbors[ids[i]]
    ensures r.result.Err? ==> r.result.error == Fails(SendError)
    ensures r.result.Ok? ==> r.h.outbox == h.outbox + Fanout(Except(ids, prev), pkt)
    decreases |ids|
  {
    if ids == [] then
      assert h.outbox + [] == h.outbox;
      Step(h, Ok(()))
    else
      var rest := ids[1..];
      assert forall i :: 0 <= i < |rest| ==> rest[i] == ids[i + 1];
      if ids[0] == prev then ForwardFlood(h, rest, prev, pkt)
      else if !h.neighbors[ids[0]] then Step(h, Err(Fails(SendError)))
      else
        var r := ForwardFlood(h.(outbox := h.outbox + [(ids[0], pkt)]), rest, prev, pkt);
        assert Fanout(Except(ids, prev), pkt) == [(ids[0], pkt)] + Fanout(Except(rest, prev), pkt);
        AppendAssoc(h.outbox, [(ids[0], pkt)], Fanout(Except(rest, prev), pkt));
        r
  }

  /** Whether a flood request is answered rather than forwarded: seen before, or a single neighbour. */
  predicate Answers(h: Handler, req: FloodRequest) {
    (req.floodId, req.initiator) in h.floodSeen || |h.neighbors| == 1
  }

  /** The trace a drone-less endpoint passes on: its own entry appended, recorded as a drone. */
  function Extended(h: Handler, req: FloodRequest): Trace {
    req.trace + [(h.id, Drone)]
  }

  /** The handler once the extended trace is merged and the flood recorded as seen. */
  function Recorded(h: Handler, req: FloodRequest): (r: Handler)
    ensures |r.view.nodes| > 0 && HasNode(r.view.nodes, h.id)
    ensures r == h.(view := r.view, floodSeen := h.floodSeen + {(req.floodId, req.initiator)})
  {
    var trace := Extended(h, req);
    var v := UpdateNetworkView(h.view, trace);
    assert trace[|trace| - 1].0 == h.id;
    h.(view := v, floodSeen := h.floodSeen + {(req.floodId, req.initiator)})
  }

  /** The flood response an endpoint answers with. */
  function ReplyPacket(h: Handler, req: FloodRequest, session: nat): Packet {
    var h1 := Recorded(h, req);
    Packet(ReplyRoute(h1.view, Extended(h, req), req.initiator), session, FloodResp(FloodResponse(req.floodId, Extended(h, req))))
  }

  /** The flood request an endpoint forwards: empty route, extended trace. */
  function ForwardPacket(h: Handler, req: FloodRequest, session: nat): Packet {
    Packet(EmptyRoute, session, FloodReq(req.(trace := Extended(h, req))))
  }

  /**
   * `handle_flood_request`: the extended trace is merged into the view and
   * the flood recorded; an endpoint that saw the flood before, or has a
   * single neighbour, answers with a flood response, else it forwards the
   * request to every other neighbour.
   */
  function HandleFloodRequest(h: Handler, req: FloodRequest, session: nat): (r: Step)
    ensures (req.floodId, req.initiator) in r.h.floodSeen
    ensures r.h.id == h.id && r.h.controllerUp == h.controllerUp
    ensures Answers(h, req) ==> r == TrySend(Recorded(h, req), ReplyPacket(h, req, session))
    ensures !Answers(h, req) ==>
      r == ForwardFlood(Recorded(h, req), SortedIds(h.neighbors.Keys), PreviousHop(req), ForwardPacket(h, req, session))
  {
    var h1 := Recorded(h, req);
    if Answers(h, req) then TrySend(h1, ReplyPacket(h, req, session))
    else
      var ids := SortedIds(h.neighbors.Keys);
      assert forall i :: 0 <= i < |ids| ==> ids[i] in ids;
      ForwardFlood(h1, ids, PreviousHop(req), ForwardPacket(h, req, session))
  }

  /**
   * A new flood at an endpoint with several working neighbours is forwarded
   * to all of them but the previous hop, and nothing else is sent.
   */
  lemma FloodRequestForwards(h: Handler, req: FloodRequest, session: nat)
    requires !Answers(h, req) && forall n :: n in h.neighbors ==> h.neighbors[n]
    ensures var r := HandleFloodRequest(h, req, session);
      && r.result.Ok?
      && r.h.outbox == h.outbox + Fanout(Except(SortedIds(h.neighbors.Keys), PreviousHop(req)), ForwardPacket(h, req, session))
  {
    var h1 := Recorded(h, req);
    var ids := SortedIds(h.neighbors.Keys);
    assert forall i :: 0 <= i < |ids| ==> ids[i] in ids;
    ForwardToWorking(h1, ids, PreviousHop(req), ForwardPacket(h, req, session));
  }

  /** Forwarding over links that all work cannot fail. */
  lemma ForwardToWorking(h: Handler, ids: seq<NodeId>, prev: NodeId, pkt: Packet)
    requires forall i :: 0 <= i < |ids| ==> ids[i] in h.neighbors && h.neighbors[ids[i]]
    ensures ForwardFlood(h, ids, prev, pkt).result.Ok?
  {
  }

  /** The forwarded copies reach exactly the neighbours other than the previous hop. */
  lemma ForwardReachesAllButPrevious(ns: set<NodeId>, prev: NodeId, pkt: Packet)
    ensures forall n :: n in Dests(Fanout(Except(SortedIds(ns), prev), pkt)) <==> n in ns && n != prev
  {
    var e := Except(SortedIds(ns), prev);
    var d := Dests(Fanout(e, pkt));
    forall n ensures n in d <==> n in ns && n != prev {
      if n in d {
        var k :| 0 <= k < |d| && d[k] == n;
        assert e[k] == n;
      }
      if n in ns && n != prev {
        var k :| 0 <= k < |e| && e[k] == n;
        assert d[k] == n;
      }
    }
  }

  lemma TraceReturnStart(ids: seq<NodeId>, initiator: NodeId)
    requires |ids| > 0
    ensures TraceReturn(ids, initiator)[0] == ids[|ids| - 1]
  {
    var r := TraceReturn(ids, initiator);
    assert r[..|ids|][0] == Reverse(ids)[0];
  }

  /**
   * The reply route of an endpoint whose view starts at itself runs from
   * the endpoint to the flood's initiator.
   */
  lemma ReplyRouteEnds(h: Handler, req: FloodRequest, session: nat)
    requires |h.view.nodes| > 0 && h.view.nodes[0].id == h.id
    ensures var hops := ReplyPacket(h, req, session).header.hops;
      |hops| > 0 && hops[0] == h.id && hops[|hops| - 1] == req.initiator
  {
    var v := Recorded(h, req).view;
    var ids := Keys(Extended(h, req));
    assert v.nodes[0].id == h.id;
    assert ids[|ids| - 1] == h.id;
    if !Reaches(v, h.id, req.initiator) {
      TraceReturnStart(ids, req.initiator);
    }
  }

  // --------------------------------------------------------------- handle_ack

  /**
   * `handle_ack`: the fragment is marked acknowledged under
   * `(session, from)`; an index past the end of a known list panics.
   */
  function HandleAck(h: Handler, session: nat, index: nat, from: NodeId): (r: Step)
    ensures CanMark(h.buffer, session, index, from) ==>
      r == Step(h.(buffer := MarkAsReceived(h.buffer, session, index, from)), Ok(()))
    ensures !CanMark(h.buffer, session, index, from) ==> r == Step(h, Err(Panics))
  {
    if CanMark(h.buffer, session, index, from) then Step(h.(buffer := MarkAsReceived(h.buffer, session, index, from)), Ok(()))
    else Step(h, Err(Panics))
  }

  /**
   * Fragments are buffered under the sender's own id, but acknowledged under
   * the acknowledging node's id: an ACK from another node never clears the
   * fragment, which stays ready for a retry.
   */
  lemma AckFromPeerKeepsFragment(h: Handler, session: nat, index: nat, from: NodeId)
    requires from != h.id && CanMark(h.buffer, session, index, from)
    ensures var r := HandleAck(h, session, index, from);
      GetFragmentById(r.h.buffer, session, index, h.id) == GetFragmentById(h.buffer, session, index, h.id)
  {
    MarkKeepsOthers(h.buffer, session, index, from, session, index, h.id);
  }

  // --------------------------------------------------------------- retry_send

  /** `retry_send`: a stored, unacknowledged fragment is sent again; otherwise nothing happens. */
  function RetrySend(h: Handler, session: nat, index: nat, from: NodeId): (r: Step)
    ensures GetFragmentById(h.buffer, session, index, from).None? ==> r == Step(h, Ok(()))
    ensures GetFragmentById(h.buffer, session, index, from).Some? ==>
      r == TrySend(h, h.buffer.received[(session, from)][index].1)
    ensures r.h.id == h.id && r.h.controllerUp == h.controllerUp && r.h.floodSeen == h.floodSeen
    ensures forall m :: m in r.h.neighbors ==> m in h.neighbors && r.h.neighbors[m] == h.neighbors[m]
  {
    match GetFragmentById(h.buffer, session, index, from)
      case None => Step(h, Ok(()))
      case Some(p) => TrySend(h, p)
  }

  /** A retry for a fragment the buffer never held succeeds and changes nothing. */
  lemma RetryUnknownSession(h: Handler, session: nat, index: nat, from: NodeId)
    requires (session, from) !in h.buffer.received
    ensures RetrySend(h, session, index, from) == Step(h, Ok(()))
  {
  }

  // -------------------------------------------------------------- handle_nack

  /** What a NACK does before the retry. */
  function NackRepair(h: Handler, kind: NackType, source: NodeId): (r: Step)
    ensures kind.ErrorInRouting? ==> r == StartFlood(RemoveNeighbor(h, kind.node))
    ensures kind.Dropped? ==> r == Step(h, Ok(()))
    ensures kind.DestinationIsDrone? ==> r == Step(h.(view := ChangeNodeType(h.view, source, Drone)), Ok(()))
    ensures kind.UnexpectedRecipient? ==> r == Step(h, Err(Panics))
  {
    match kind
      case ErrorInRouting(n) => StartFlood(RemoveNeighbor(h, n))
      case Dropped => Step(h, Ok(()))
      case DestinationIsDrone => Step(h.(view := ChangeNodeType(h.view, source, Drone)), Ok(()))
      case UnexpectedRecipient(_) => Step(h, Err(Panics))
  }

  /**
   * `handle_nack`: `ErrorInRouting(n)` drops neighbour `n` and starts a
   * flood, `DestinationIsDrone` retypes the source as a drone, `Dropped`
   * changes no topology, `UnexpectedRecipient` panics; then the fragment is
   * retried. An error before the retry is returned as is.
   */
  function HandleNack(h: Handler, index: nat, kind: NackType, session: nat, source: NodeId): (r: Step)
    ensures NackRepair(h, kind, source).result.Err? ==> r == NackRepair(h, kind, source)
    ensures NackRepair(h, kind, source).result.Ok? ==> r == RetrySend(NackRepair(h, kind, source).h, session, index, source)
    ensures kind.ErrorInRouting? ==> kind.node !in r.h.neighbors
    ensures kind.UnexpectedRecipient? ==> r.result == Err(Panics)
  {
    var pre := NackRepair(h, kind, source);
    if pre.result.Err? then pre else RetrySend(pre.h, session, index, source)
  }

  /**
   * With a broken channel to neighbour 2 and no controller, an
   * `ErrorInRouting(2)` NACK removes the neighbour and then fails on the
   * flood's controller event.
   */
  lemma NackWithoutController()
    ensures var h := NewHandler(1, Client, map[2 := false], false);
      var r := HandleNack(h, 0, ErrorInRouting(2), 100, 1);
      r.result == Err(Fails(ControllerDisconnected)) && |r.h.neighbors| == 0
  {
    var h := NewHandler(1, Client, map[2 := false], false);
    assert RemoveNeighbor(h, 2).neighbors == map[];
  }

  // --------------------------------------------------------------- send_ack

  /**
   * `send_ack`: an ACK for the fragment index on the given route, through
   * `try_send` (corrected loop). With the controller up and a working first
   * hop it goes once to that hop and is buffered under the session.
   */
  function SendAck(h: Handler, route: Header, session: nat, index: nat): (r: Step)
    ensures route.hops == [] ==> r == Step(h, Err(Fails(NoDestination)))
    ensures route.hops != [] ==> SendOutcome(h, r, Packet(route, session, Ack(index)))
    ensures h.controllerUp && |route.hops| > 1 && route.hops[1] in h.neighbors && h.neighbors[route.hops[1]] ==>
      var ack := Packet(route, session, Ack(index));
      r == Step(h.(outbox := h.outbox + [(route.hops[1], ack)],
                   events := h.events + [PacketSent(ack)],
                   buffer := Insert(h.buffer, ack, session, h.id)), Ok(()))
  {
    var ack := Packet(route, session, Ack(index));
    if h.controllerUp && FirstHopLive(h, ack) then
      TrySendDirect(h, ack);
      TrySend(h, ack)
    else TrySend(h, ack)
  }

  // ------------------------------------------------------------ send_message

  /** A chunk zero-filled to a whole fragment. */
  function Pad(chunk: seq<Byte>): (r: seq<Byte>)
    requires |chunk| <= FragmentSize
    ensures |r| == FragmentSize && r[..|chunk|] == chunk
    ensures forall k :: |chunk| <= k < FragmentSize ==> r[k] == 0
  {
    chunk + Repeat(0, FragmentSize - |chunk|)
  }

  /** The fragments of a message: chunk `i` padded, with index `i` and the chunk count as total. */
  function MessagePackets(chunks: seq<seq<Byte>>, route: Header, session: nat): (r: seq<Packet>)
    requires forall i :: 0 <= i < |chunks| ==> |chunks[i]| <= FragmentSize
    ensures |r| == |chunks|
    ensures forall i :: 0 <= i < |r| ==>
      r[i] == Packet(route, session, MsgFragment(Fragment(i, |chunks|, FragmentSize, Pad(chunks[i]))))
  {
    seq(|chunks|, i requires 0 <= i < |chunks| => Packet(route, session, MsgFragment(Fragment(i, |chunks|, FragmentSize, Pad(chunks[i])))))
  }

  /** The session a message goes out under: the given one, else the counter after one increment. */
  function MessageSession(h: Handler, session: Option<nat>): nat {
    if session.Some? then session.value else h.sessionCounter + 1
  }

  /** The packets `send_message` hands to `try_send`, once a route is found. */
  function Fragments(msg: seq<Byte>, route: Header, sid: nat): seq<Packet> {
    MessagePackets(Chunks(msg, FragmentSize), route, sid)
  }

  /**
   * `send_message`: without a session id the counter advances once; the
   * route is found (its error returned), and the padded fragments are sent
   * in order, stopping at the first failure.
   */
  function SendMessage(h: Handler, msg: seq<Byte>, dest: NodeId, session: Option<nat>): (r: Step)
    ensures TryFindPath(h, dest).Err? ==>
      r == Step(h.(sessionCounter := if session.None? then h.sessionCounter + 1 else h.sessionCounter), Err(TryFindPath(h, dest).error))
    ensures TryFindPath(h, dest).Ok? ==>
      r == TrySendEach(h.(sessionCounter := if session.None? then h.sessionCounter + 1 else h.sessionCounter),
                       Fragments(msg, TryFindPath(h, dest).value, MessageSession(h, session)))
  {
    var h1 := if session.None? then h.(sessionCounter := h.sessionCounter + 1) else h;
    assert TryFindPath(h1, dest) == TryFindPath(h, dest);
    match TryFindPath(h1, dest)
      case Err(e) => Step(h1, Err(e))
      case Ok(route) => TrySendEach(h1, Fragments(msg, route, MessageSession(h, session)))
  }

  /**
   * The fragments of a message: one per started block of 128 bytes, indexed
   * in order, each 128 bytes long and counting all of them as the total, all
   * under the same session and route.
   */
  lemma FragmentsShape(msg: seq<Byte>, route: Header, sid: nat)
    ensures var f := Fragments(msg, route, sid);
      && (|f| == 0 <==> msg == [])
      && |msg| <= |f| * FragmentSize
      && (|f| > 0 ==> (|f| - 1) * FragmentSize < |msg|)
      && forall i :: 0 <= i < |f| ==>
           && f[i].header == route && f[i].session == sid && f[i].body.MsgFragment?
           && f[i].body.fragment.index == i && f[i].body.fragment.total == |f|
           && |f[i].body.fragment.data| == FragmentSize
  {
    ChunksCount(msg, FragmentSize);
  }

  /** The payloads of a run of fragments, concatenated in order. */
  function Payload(pkts: seq<Packet>): seq<Byte>
    requires forall i :: 0 <= i < |pkts| ==> pkts[i].body.MsgFragment?
  {
    Flatten(seq(|pkts|, i requires 0 <= i < |pkts| => pkts[i].body.fragment.data))
  }

  /** Every chunk padded. */
  function Padded(chunks: seq<seq<Byte>>): (r: seq<seq<Byte>>)
    requires forall i :: 0 <= i < |chunks| ==> |chunks[i]| <= FragmentSize
    ensures |r| == |chunks| && forall i :: 0 <= i < |chunks| ==> r[i] == Pad(chunks[i])
  {
    seq(|chunks|, i requires 0 <= i < |chunks| => Pad(chunks[i]))
  }

  /** The concatenated payloads, cut at the message length, give the message back. */
  lemma FragmentsRoundTrip(msg: seq<Byte>, route: Header, sid: nat)
    ensures var f := Fragments(msg, route, sid);
      (forall i :: 0 <= i < |f| ==> f[i].body.MsgFragment?) && |msg| <= |Payload(f)| && Payload(f)[..|msg|] == msg
  {
    var chunks := Chunks(msg, FragmentSize);
    var f := Fragments(msg, route, sid);
    assert seq(|f|, i requires 0 <= i < |f| => f[i].body.fragment.data) == Padded(chunks);
    PaddedPrefix(chunks);
  }

  /** Padding all chunks but the last changes nothing, so the message is a prefix of the padded chunks. */
  lemma {:induction false} PaddedPrefix(chunks: seq<seq<Byte>>)
    requires forall i :: 0 <= i < |chunks| ==> 0 < |chunks[i]| <= FragmentSize
    requires forall i :: 0 <= i < |chunks| - 1 ==> |chunks[i]| == FragmentSize
    ensures |Flatten(chunks)| <= |Flatten(Padded(chunks))|
    ensures Flatten(Padded(chunks))[..|Flatten(chunks)|] == Flatten(chunks)
    decreases |chunks|
  {
    if chunks != [] {
      var c0, rest := chunks[0], chunks[1..];
      PaddedPrefix(rest);
      assert Padded(chunks)[1..] == Padded(rest);
      var x := Flatten(Padded(rest));
      var y := Flatten(rest);
      assert Flatten(Padded(chunks)) == Pad(c0) + x;
      assert Flatten(chunks) == c0 + y;
      if rest == [] {
        assert y == [];
      } else {
        assert |c0| == FragmentSize;
        assert Pad(c0) == c0;
        assert (c0 + x)[..|c0| + |y|] == c0 + x[..|y|];
      }
    }
  }

  /**
   * A message to a neighbour the local node lists: the route is the direct
   * hop, and every fragment goes to that neighbour, in order.
   */
  lemma SendMessageToNeighbor(h: Handler, msg: seq<Byte>, dest: NodeId, session: Option<nat>)
    requires |h.view.nodes| > 0 && h.view.nodes[0].id == h.id && dest != h.id
    requires dest in h.view.nodes[0].adjacents && dest in h.neighbors && h.neighbors[dest] && h.controllerUp
    ensures var r := SendMessage(h, msg, dest, session);
      && r.result.Ok?
      && r.h.outbox == h.outbox + Addressed(dest, Fragments(msg, Header(1, [h.id, dest]), MessageSession(h, session)))
  {
    var h1 := h.(sessionCounter := if session.None? then h.sessionCounter + 1 else h.sessionCounter);
    var pkts := Fragments(msg, Header(1, [h.id, dest]), MessageSession(h, session));
    DirectRoute(h, dest);
    SendOnRoute(h, msg, dest, session, Header(1, [h.id, dest]));
    FragmentsFollowRoute(msg, Header(1, [h.id, dest]), MessageSession(h, session));
    SameRouteSends(h1, pkts, dest);
  }

  /** Once a route is found, the message is the fragments on it, after the session counter's step. */
  lemma SendOnRoute(h: Handler, msg: seq<Byte>, dest: NodeId, session: Option<nat>, route: Header)
    requires TryFindPath(h, dest) == Ok(route)
    ensures SendMessage(h, msg, dest, session) ==
      TrySendEach(h.(sessionCounter := if session.None? then h.sessionCounter + 1 else h.sessionCounter),
                  Fragments(msg, route, MessageSession(h, session)))
  {
  }

  lemma FragmentsFollowRoute(msg: seq<Byte>, route: Header, sid: nat)
    ensures forall i :: 0 <= i < |Fragments(msg, route, sid)| ==> Fragments(msg, route, sid)[i].header == route
  {
  }

  /** Packets that all take the direct hop to a working neighbour all go to it, in order. */
  lemma SameRouteSends(h: Handler, pkts: seq<Packet>, dest: NodeId)
    requires h.controllerUp && dest in h.neighbors && h.neighbors[dest]
    requires forall i :: 0 <= i < |pkts| ==> pkts[i].header == Header(1, [h.id, dest])
    ensures TrySendEach(h, pkts).result.Ok?
    ensures TrySendEach(h, pkts).h.outbox == h.outbox + Addressed(dest, pkts)
  {
    assert forall i :: 0 <= i < |pkts| ==> pkts[i].header.hops == [h.id, dest];
    assert AllRouted(pkts);
    assert forall i :: 0 <= i < |pkts| ==> FirstHopLive(h, pkts[i]);
    TrySendEachDirect(h, pkts);
    assert Deliveries(pkts) == Addressed(dest, pkts);
  }

  /** The route to a listed neighbour is the direct hop. */
  lemma DirectRoute(h: Handler, dest: NodeId)
    requires |h.view.nodes| > 0 && h.view.nodes[0].id == h.id && dest != h.id && dest in h.view.nodes[0].adjacents
    ensures TryFindPath(h, dest) == Ok(Header(1, [h.id, dest]))
  {
    assert Adj(h.view, h.id) == h.view.nodes[0].adjacents;
    assert IsWalk(h.view, [h.id, dest]);
    var p := FindPath(h.view, dest).value;
    assert |p| <= 2;
    assert p == [h.id, dest];
  }

  /** The client of the next example: node 1 with neighbour 2 added through `add_neighbor`. */
  function ClientWithNeighbor(): Handler {
    AddNeighbor(NewHandler(1, Client, map[], true), 2, true)
  }

  lemma ClientWithNeighborShape()
    ensures var h := ClientWithNeighbor();
      |h.view.nodes| > 0 && h.view.nodes[0].id == 1 && 2 in h.view.nodes[0].adjacents
      && h.neighbors == map[2 := true] && h.controllerUp && h.sessionCounter == 0 && h.outbox == []
  {
    AddNeighborAgrees(NewHandler(1, Client, map[], true), 2, true);
  }

  lemma SingleFragment(msg: seq<Byte>, route: Header, sid: nat)
    requires 0 < |msg| <= FragmentSize
    ensures Fragments(msg, route, sid) == [Packet(route, sid, MsgFragment(Fragment(0, 1, FragmentSize, Pad(msg))))]
  {
    assert Chunks(msg, FragmentSize) == [msg];
  }

  /** That client sends a short message to 2 as a single padded fragment of session 1. */
  lemma ShortMessageExample(msg: seq<Byte>)
    requires 0 < |msg| <= FragmentSize
    ensures var r := SendMessage(ClientWithNeighbor(), msg, 2, None);
      r.result.Ok? && r.h.outbox == [(2, Packet(Header(1, [1, 2]), 1, MsgFragment(Fragment(0, 1, FragmentSize, Pad(msg)))))]
  {
    var h := ClientWithNeighbor();
    ClientWithNeighborShape();
    SendMessageToNeighbor(h, msg, 2, None);
    SingleFragment(msg, Header(1, [1, 2]), 1);
    assert MessageSession(h, None) == 1;
  }

  /**
   * Server 2 added to the view of client 1 does not link back (neither side
   * is a drone), so a message to 2 fails with `PathNotFound(2)` after the
   * session counter advanced.
   */
  lemma MessageWithoutPath(msg: seq<Byte>)
    ensures var h0 := NewHandler(1, Client, map[2 := false], false);
      var h := h0.(view := AddNode(h0.view, Node(2, Server, [1])));
      SendMessage(h, msg, 2, None) == Step(h.(sessionCounter := 1), Err(Fails(PathNotFound(2))))
  {
    var h0 := NewHandler(1, Client, map[2 := false], false);
    var v := AddNode(h0.view, Node(2, Server, [1]));
    assert Gain(h0.view.nodes, Node(2, Server, [1]), 0) == 0;
    assert v.nodes[0] == Node(1, Client, []);
    NoAdjacentsReachesOnlyItself(v, 2);
  }
}

=== FILE: routing_variant.dfy ===
/**
 * The second copy of the endpoint routing handler
 * (common-main/src/routing_handler.rs). Its state is that of module
 * `Routing` without the queue of packets waiting for a route (the queue of
 * `Buffer` stays empty here), and several operations behave differently:
 * the first-hop send never buffers, `try_send` reroutes only after a failed
 * channel and never floods, `send_message` buffers each fragment itself
 * after sending it, and a flood response only updates the view.
 * `start_flood`, `add_neighbor`, `remove_neighbor`, `handle_ack` and the
 * view merge are the same code as in the first copy and are shared.
 */
module RoutingVariant {

  import opened Wrappers
  import opened Seqs
  import opened Packets
  import opened Topology
  import opened PathSearch
  import opened SentBuffer
  import opened Routing
  import opened ViewMerge
  import opened RoutingMessages

  // -------------------------------------------------- send_packet_to_first_hop

  /**
   * The variant `send_packet_to_first_hop`: a route of two or more hops goes
   * to its second entry, which must be a neighbour. Nothing is buffered.
   */
  function FirstHopSend(h: Handler, p: Packet): (r: Step)
    ensures |p.header.hops| <= 1 ==> r == Step(h, Ok(()))
    ensures |p.header.hops| > 1 && p.header.hops[1] !in h.neighbors ==>
      r == Step(h, Err(Fails(NodeIsNotANeighbor(p.header.hops[1]))))
    ensures r.result == Err(Fails(SendError)) <==>
      |p.header.hops| > 1 && p.header.hops[1] in h.neighbors && !h.neighbors[p.header.hops[1]]
    ensures r.result == Err(Fails(SendError)) ==> r.h == h
    ensures FirstHopLive(h, p) ==>
      && r.h.outbox == h.outbox + [(p.header.hops[1], p)]
      && (r.result.Ok? <==> h.controllerUp)
      && (r.result.Err? ==> r.result.error == Fails(ControllerDisconnected))
    ensures r.h == h.(outbox := r.h.outbox, events := r.h.events)
  {
    if |p.header.hops| > 1 then
      var first := p.header.hops[1];
      if first in h.neighbors then Send(h, first, p)
      else Step(h, Err(Fails(NodeIsNotANeighbor(first))))
    else Step(h, Ok(()))
  }

  // ------------------------------------------------------------------ try_send

  /**
   * The search as the variant calls it: `find_path` reads `nodes[0]`, so an
   * empty view panics, and a missing path becomes `PathNotFound`. The path
   * gets hop index 1 (`without_loops` leaves a search result unchanged).
   */
  function FindRoute(h: Handler, dest: NodeId): (r: Result<Header, Fault>)
    ensures |h.view.nodes| == 0 ==> r == Err(Panics)
    ensures |h.view.nodes| > 0 ==>
      && (r.Ok? <==> Reaches(h.view, h.view.nodes[0].id, dest))
      && (r.Err? ==> r.error == Fails(PathNotFound(dest)))
      && (r.Ok? ==> r.value.hopIndex == 1 && IsShortestPath(h.view, r.value.hops, h.view.nodes[0].id, dest))
  {
    if |h.view.nodes| == 0 then Err(Panics)
    else match FindPath(h.view, dest)
      case None => Err(Fails(PathNotFound(dest)))
      case Some(path) => Ok(Header(1, path))
  }

  lemma RemoveShrinks(m: map<NodeId, bool>, k: NodeId)
    requires k in m
    ensures |m - {k}| == |m| - 1
  {
    assert (m - {k}).Keys + {k} == m.Keys;
  }

  /**
   * The loop of the variant `try_send`. A failed channel removes that first
   * hop and replaces the route by a fresh search, whose failure ends the call;
   * every other error ends the call unchanged. The loop stops once no
   * neighbour is left, which is `NoNeighborAssigned`. Every further round
   * has removed a neighbour, so the loop terminates.
   */
  function VariantLoop(h: Handler, p: Packet, dest: NodeId): (r: Step)
    ensures r.result == Err(Fails(NoNeighborAssigned)) ==> |r.h.neighbors| == 0
    ensures r.result.Ok? ==> |r.h.neighbors| > 0
    ensures forall m :: m in r.h.neighbors ==> m in h.neighbors && r.h.neighbors[m] == h.neighbors[m]
    ensures r.h.buffer == h.buffer && r.h.floodSeen == h.floodSeen && r.h.id == h.id
    ensures r.h.sessionCounter == h.sessionCounter && r.h.floodCounter == h.floodCounter
    ensures r.h.controllerUp == h.controllerUp
    ensures r.result.Ok? ==> r.h.outbox == h.outbox || SentOnce(h.outbox, r.h.outbox, p)
    decreases |h.neighbors|
  {
    if |h.neighbors| == 0 then AfterLoop(h)
    else
      var s := FirstHopSend(h, p);
      if s.result.Ok? then
        assert s.h.outbox == h.outbox || (s.h.outbox == h.outbox + [(p.header.hops[1], p)] && |p.header.hops| > 1);
        assert s.h.outbox != h.outbox ==> SentOnce(h.outbox, s.h.outbox, p);
        AfterLoop(s.h)
      else if s.result != Err(Fails(SendError)) then s
      else
        var first := p.header.hops[1];
        var h1 := RemoveNeighbor(h, first);
        RemoveShrinks(h.neighbors, first);
        match FindRoute(h1, dest)
          case Err(e) => Step(h1, Err(e))
          case Ok(hdr) => VariantLoop(h1, p.(header := hdr), dest)
  }

  /** The variant `try_send`: a packet without hops has no destination. */
  function VariantTrySend(h: Handler, p: Packet): (r: Step)
    ensures p.header.hops == [] ==> r == Step(h, Err(Fails(NoDestination)))
    ensures r.result == Err(Fails(NoNeighborAssigned)) ==> |r.h.neighbors| == 0
    ensures r.result.Ok? ==> |r.h.neighbors| > 0
    ensures forall m :: m in r.h.neighbors ==> m in h.neighbors && r.h.neighbors[m] == h.neighbors[m]
    ensures r.h.buffer == h.buffer && r.h.floodSeen == h.floodSeen && r.h.id == h.id
    ensures r.h.sessionCounter == h.sessionCounter && r.h.floodCounter == h.floodCounter
    ensures r.h.controllerUp == h.controllerUp
    ensures r.result.Ok? ==> r.h.outbox == h.outbox || SentOnce(h.outbox, r.h.outbox, p)
  {
    match p.header.Destination()
      case None => Step(h, Err(Fails(NoDestination)))
      case Some(dest) => VariantLoop(h, p, dest)
  }

  /** A handler without neighbours refuses every routed packet with `NoNeighborAssigned`. */
  lemma NoNeighborsRefused(h: Handler, p: Packet)
    requires |h.neighbors| == 0 && p.header.hops != []
    ensures VariantTrySend(h, p) == Step(h, Err(Fails(NoNeighborAssigned)))
  {
  }

  /**
   * A first hop that is not a neighbour at all is not rerouted: the error is
   * returned and nothing changes. The first copy reroutes in that case.
   */
  lemma NotNeighborReturned(h: Handler, p: Packet)
    requires |h.neighbors| > 0 && |p.header.hops| > 1 && p.header.hops[1] !in h.neighbors
    ensures VariantTrySend(h, p) == Step(h, Err(Fails(NodeIsNotANeighbor(p.header.hops[1]))))
  {
  }

  /**
   * A broken first hop is dropped from the neighbours and the view, and the
   * packet goes round again on the fresh route to its destination; without
   * such a route the call fails with `PathNotFound`.
   */
  lemma BrokenHopRerouted(h: Handler, p: Packet)
    requires |p.header.hops| > 1 && p.header.hops[1] in h.neighbors && !h.neighbors[p.header.hops[1]]
    ensures var dest := p.header.hops[|p.header.hops| - 1];
      var h1 := RemoveNeighbor(h, p.header.hops[1]);
      && (FindRoute(h1, dest).Ok? ==>
            VariantTrySend(h, p) == VariantLoop(h1, p.(header := FindRoute(h1, dest).value), dest))
      && (FindRoute(h1, dest).Err? ==> VariantTrySend(h, p) == Step(h1, Err(FindRoute(h1, dest).error)))
  {
  }

  /** A working first hop and controller: one send, nothing buffered. */
  lemma VariantSendsOnce(h: Handler, p: Packet)
    requires h.controllerUp && FirstHopLive(h, p)
    ensures VariantTrySend(h, p) ==
      Step(h.(outbox := h.outbox + [(p.header.hops[1], p)], events := h.events + [PacketSent(p)]), Ok(()))
  {
  }

  // ------------------------------------------------------ handle_flood_response

  /**
   * The variant `handle_flood_response`: the trace of an answer to the
   * current flood is merged into the view; nothing is sent and nothing else
   * changes.
   */
  function VariantFloodResponse(h: Handler, resp: FloodResponse): (r: Handler)
    ensures resp.floodId != h.floodCounter ==> r == h
    ensures r == h.(view := r.view)
    ensures resp.floodId == h.floodCounter ==>
      && Extends(h.view, r.view)
      && (forall i :: 0 <= i < |resp.trace| ==> HasNode(r.view.nodes, resp.trace[i].0))
      && Chained(r.view, resp.trace)
  {
    if resp.floodId == h.floodCounter then h.(view := UpdateNetworkView(h.view, resp.trace)) else h
  }

  /**
   * A handler whose flood counter is 1 learns both nodes of the trace
   * `[(2, Drone), (3, Client)]` of flood 1.
   */
  lemma FloodResponseExample()
    ensures var h := NewHandler(1, Client, map[], true).(floodCounter := 1);
      var r := VariantFloodResponse(h, FloodResponse(1, [(2, Drone), (3, Client)]));
      HasNode(r.view.nodes, 2) && HasNode(r.view.nodes, 3) && r.outbox == []
  {
    var trace: Trace := [(2, Drone), (3, Client)];
    assert trace[0].0 == 2 && trace[1].0 == 3;
  }

  // ------------------------------------------------------- handle_flood_request

  /**
   * The variant `handle_flood_request`: the same decision as the first copy,
   * with the reply sent by the variant `try_send`.
   */
  function VariantFloodRequest(h: Handler, req: FloodRequest, session: nat): (r: Step)
    ensures (req.floodId, req.initiator) in r.h.floodSeen
    ensures r.h.id == h.id && r.h.controllerUp == h.controllerUp && r.h.buffer == h.buffer
    ensures Answers(h, req) ==> r == VariantTrySend(Recorded(h, req), ReplyPacket(h, req, session))
    ensures !Answers(h, req) ==>
      && r.h == Recorded(h, req).(outbox := r.h.outbox)
      && (r.result.Ok? <==> forall n :: n in h.neighbors && n != PreviousHop(req) ==> h.neighbors[n])
  {
    var h1 := Recorded(h, req);
    if Answers(h, req) then VariantTrySend(h1, ReplyPacket(h, req, session))
    else
      var ids := SortedIds(h.neighbors.Keys);
      assert forall i :: 0 <= i < |ids| ==> ids[i] in ids;
      var r := ForwardFlood(h1, ids, PreviousHop(req), ForwardPacket(h, req, session));
      assert forall n :: n in h.neighbors ==> n in ids;
      r
  }

  // ------------------------------------------------------------ retry and NACK

  /** The variant `retry_send`: an unknown or acknowledged fragment is no error and sends nothing. */
  function VariantRetry(h: Handler, session: nat, index: nat, from: NodeId): (r: Step)
    ensures GetFragmentById(h.buffer, session, index, from).None? ==> r == Step(h, Ok(()))
    ensures GetFragmentById(h.buffer, session, index, from).Some? ==>
      r == VariantTrySend(h, h.buffer.received[(session, from)][index].1)
    ensures r.h.buffer == h.buffer && r.h.floodCounter == h.floodCounter
    ensures forall m :: m in r.h.neighbors ==> m in h.neighbors
  {
    match GetFragmentById(h.buffer, session, index, from)
      case None => Step(h, Ok(()))
      case Some(p) => VariantTrySend(h, p)
  }

  /** The variant `handle_nack`: the shared repair step, then the variant retry. */
  function VariantNack(h: Handler, index: nat, kind: NackType, session: nat, source: NodeId): (r: Step)
    ensures NackRepair(h, kind, source).result.Err? ==> r == NackRepair(h, kind, source)
    ensures NackRepair(h, kind, source).result.Ok? ==>
      r == VariantRetry(NackRepair(h, kind, source).h, session, index, source)
    ensures kind.ErrorInRouting? ==> kind.node !in r.h.neighbors
    ensures kind.Dropped? || kind.DestinationIsDrone? ==> r.h.floodCounter == h.floodCounter
    ensures kind.UnexpectedRecipient? ==> r.result == Err(Panics)
  {
    var pre := NackRepair(h, kind, source);
    assert kind.ErrorInRouting? ==> kind.node !in pre.h.neighbors;
    if pre.result.Err? then pre else VariantRetry(pre.h, session, index, source)
  }

  /**
   * A `Dropped` NACK for a buffered, unacknowledged fragment sends that same
   * fragment again when its first hop still works.
   */
  lemma DroppedResends(h: Handler, index: nat, session: nat, source: NodeId)
    requires GetFragmentById(h.buffer, session, index, source).Some?
    requires var p := GetFragmentById(h.buffer, session, index, source).value; h.controllerUp && FirstHopLive(h, p)
    ensures var p := GetFragmentById(h.buffer, session, index, source).value;
      VariantNack(h, index, Dropped, session, source).h.outbox == h.outbox + [(p.header.hops[1], p)]
  {
    var p := GetFragmentById(h.buffer, session, index, source).value;
    VariantSendsOnce(h, p);
  }

  /** The variant `send_ack`: an ACK packet on the given route. */
  function VariantSendAck(h: Handler, route: Header, session: nat, index: nat): (r: Step)
    ensures route.hops == [] ==> r == Step(h, Err(Fails(NoDestination)))
    ensures r.result.Ok? ==> r.h.outbox == h.outbox || SentOnce(h.outbox, r.h.outbox, Packet(route, session, Ack(index)))
    ensures r.h.buffer == h.buffer
  {
    VariantTrySend(h, Packet(route, session, Ack(index)))
  }

  // -------------------------------------------------------------- send_message

  /** Each packet buffered in turn under `(its session, from)`. */
  function InsertAll(b: Buffer, pkts: seq<Packet>, from: NodeId): (r: Buffer)
    ensures r.toSend == b.toSend
    decreases |pkts|
  {
    if pkts == [] then b else InsertAll(Insert(b, pkts[0], pkts[0].session, from), pkts[1..], from)
  }

  /** Unacknowledged entries for a run of packets. */
  function Unacked(pkts: seq<Packet>): (r: seq<(bool, Packet)>)
    ensures |r| == |pkts| && forall i :: 0 <= i < |pkts| ==> r[i] == (false, pkts[i])
  {
    seq(|pkts|, i requires 0 <= i < |pkts| => (false, pkts[i]))
  }

  /**
   * Buffering packets of one session appends them, in order and
   * unacknowledged, to that session's list; other keys keep their lists.
   */
  lemma {:induction false} InsertAllSession(b: Buffer, pkts: seq<Packet>, sid: nat, from: NodeId)
    requires forall i :: 0 <= i < |pkts| ==> pkts[i].session == sid
    ensures var r := InsertAll(b, pkts, from);
      && (pkts != [] ==> (sid, from) in r.received)
      && ((sid, from) in r.received ==>
            r.received[(sid, from)] ==
              (if (sid, from) in b.received then b.received[(sid, from)] else []) + Unacked(pkts))
      && (forall k :: k != (sid, from) ==> (k in r.received <==> k in b.received))
      && (forall k :: k != (sid, from) && k in b.received ==> r.received[k] == b.received[k])
    decreases |pkts|
  {
    if pkts == [] {
      assert Unacked(pkts) == [];
    } else {
      var b1 := Insert(b, pkts[0], sid, from);
      InsertAllSession(b1, pkts[1..], sid, from);
      var old0 := if (sid, from) in b.received then b.received[(sid, from)] else [];
      assert Unacked(pkts) == [(false, pkts[0])] + Unacked(pkts[1..]);
      AppendAssoc(old0, [(false, pkts[0])], Unacked(pkts[1..]));
    }
  }

  /**
   * The loop of the variant `send_message`: each fragment is sent with the
   * variant `try_send` and, once sent, buffered under `(session, own id)`;
   * the first error ends the loop.
   */
  function SendFragments(h: Handler, pkts: seq<Packet>): (r: Step)
    ensures pkts == [] ==> r == Step(h, Ok(()))
    ensures r.result.Ok? ==> r.h.buffer == InsertAll(h.buffer, pkts, h.id)
    ensures r.h.id == h.id && r.h.controllerUp == h.controllerUp && r.h.floodSeen == h.floodSeen
    ensures r.h.sessionCounter == h.sessionCounter && r.h.floodCounter == h.floodCounter
    decreases |pkts|
  {
    if pkts == [] then Step(h, Ok(()))
    else
      var s := VariantTrySend(h, pkts[0]);
      if s.result.Err? then s
      else SendFragments(s.h.(buffer := Insert(s.h.buffer, pkts[0], pkts[0].session, h.id)), pkts[1..])
  }

  /**
   * The variant `send_message`: the session counter advances when no
   * session is given; the route is a search from the local node, whose
   * failure is `PathNotFound`; then the fragments go out one by one.
   */
  function VariantSendMessage(h: Handler, msg: seq<Byte>, dest: NodeId, session: Option<nat>): (r: Step)
    ensures r.h.sessionCounter == if session.None? then h.sessionCounter + 1 else h.sessionCounter
    ensures |h.view.nodes| > 0 && !Reaches(h.view, h.view.nodes[0].id, dest) ==>
      r.result == Err(Fails(PathNotFound(dest))) && r.h == h.(sessionCounter := r.h.sessionCounter)
    ensures |h.view.nodes| > 0 && Reaches(h.view, h.view.nodes[0].id, dest) && r.result.Ok? ==>
      var route := FindRoute(h, dest).value;
      && route.hopIndex == 1 && IsShortestPath(h.view, route.hops, h.view.nodes[0].id, dest)
      && r.h.buffer == InsertAll(h.buffer, Fragments(msg, route, MessageSession(h, session)), h.id)
  {
    var h1 := if session.None? then h.(sessionCounter := h.sessionCounter + 1) else h;
    match FindRoute(h, dest)
      case Err(e) => Step(h1, Err(e))
      case Ok(route) => SendFragments(h1, Fragments(msg, route, MessageSession(h, session)))
  }

  /**
   * Every fragment of a message sent in full sits in the buffer under
   * `(session, own id)`, in order and unacknowledged.
   */
  lemma SentMessageBuffered(h: Handler, msg: seq<Byte>, dest: NodeId, session: Option<nat>)
    requires |h.view.nodes| > 0 && Reaches(h.view, h.view.nodes[0].id, dest)
    requires VariantSendMessage(h, msg, dest, session).result.Ok?
    requires (MessageSession(h, session), h.id) !in h.buffer.received
    ensures var r := VariantSendMessage(h, msg, dest, session);
      var sid := MessageSession(h, session);
      var pkts := Fragments(msg, FindRoute(h, dest).value, sid);
      && (msg != [] ==> (sid, h.id) in r.h.buffer.received && r.h.buffer.received[(sid, h.id)] == Unacked(pkts))
      && (msg == [] ==> r.h.buffer == h.buffer)
  {
    var sid := MessageSession(h, session);
    var pkts := Fragments(msg, FindRoute(h, dest).value, sid);
    FragmentsShape(msg, FindRoute(h, dest).value, sid);
    InsertAllSession(h.buffer, pkts, sid, h.id);
    assert [] + Unacked(pkts) == Unacked(pkts);
  }

  // ------------------------------------------------------------------- examples

  /**
   * Client 1 with live neighbour 2 sends a short message to 2: one padded
   * fragment of session 1 goes to 2 and is buffered under `(1, 1)`.
   */
  lemma VariantShortMessage(msg: seq<Byte>)
    requires 0 < |msg| <= FragmentSize
    ensures var r := VariantSendMessage(ClientWithNeighbor(), msg, 2, None);
      var f := Packet(Header(1, [1, 2]), 1, MsgFragment(Fragment(0, 1, FragmentSize, Pad(msg))));
      && r.result.Ok? && r.h.outbox == [(2, f)]
      && r.h.buffer == Insert(EmptyBuffer, f, 1, 1)
  {
    var s, f := ShortMessageState(msg);
  }

  /** The state the short message leaves, as fresh names for the lemmas about it. */
  lemma ShortMessageState(msg: seq<Byte>) returns (s: Step, f: Packet)
    requires 0 < |msg| <= FragmentSize
    ensures s == VariantSendMessage(ClientWithNeighbor(), msg, 2, None)
    ensures f == Packet(Header(1, [1, 2]), 1, MsgFragment(Fragment(0, 1, FragmentSize, Pad(msg))))
    ensures s.result.Ok? && s.h.outbox == [(2, f)] && s.h.buffer == Insert(EmptyBuffer, f, 1, 1)
  {
    var h := ClientWithNeighbor();
    ClientWithNeighborShape();
    DirectRoute(h, 2);
    SingleFragment(msg, Header(1, [1, 2]), 1);
    f := Packet(Header(1, [1, 2]), 1, MsgFragment(Fragment(0, 1, FragmentSize, Pad(msg))));
    assert FindRoute(h, 2) == Ok(Header(1, [1, 2]));
    VariantSendOnRoute(h, msg, 2, None, Header(1, [1, 2]));
    SendOneFragment(h.(sessionCounter := 1), f);
    assert h.buffer == EmptyBuffer;
    s := VariantSendMessage(h, msg, 2, None);
  }

  /** Once a route is found, the variant sends the message's fragments on it, after the session counter's step. */
  lemma VariantSendOnRoute(h: Handler, msg: seq<Byte>, dest: NodeId, session: Option<nat>, route: Header)
    requires FindRoute(h, dest) == Ok(route)
    ensures VariantSendMessage(h, msg, dest, session) ==
      SendFragments(if session.None? then h.(sessionCounter := h.sessionCounter + 1) else h,
                    Fragments(msg, route, MessageSession(h, session)))
  {
  }

  /** A single fragment over a live first hop is sent once and buffered under the local id. */
  lemma SendOneFragment(h: Handler, f: Packet)
    requires h.controllerUp && FirstHopLive(h, f)
    ensures SendFragments(h, [f]) ==
      Step(h.(outbox := h.outbox + [(f.header.hops[1], f)], events := h.events + [PacketSent(f)],
              buffer := Insert(h.buffer, f, f.session, h.id)), Ok(()))
  {
    VariantSendsOnce(h, f);
    assert [f][1..] == [];
  }

  /**
   * After that message the ACK from 2 for fragment 0 of session 1 finds no
   * list under `(1, 2)`: the fragment stays unacknowledged under `(1, 1)`.
   */
  lemma VariantAckFromPeer(msg: seq<Byte>)
    requires 0 < |msg| <= FragmentSize
    ensures var s := VariantSendMessage(ClientWithNeighbor(), msg, 2, None);
      var a := HandleAck(s.h, 1, 0, 2);
      a.result.Ok? && a.h == s.h && GetFragmentById(a.h.buffer, 1, 0, 1).Some?
  {
    var s, f := ShortMessageState(msg);
    assert (1, 2) !in s.h.buffer.received;
    AckUnknownKey(s.h, 1, 0, 2);
  }

  /** An ACK under a key with no list changes nothing. */
  lemma AckUnknownKey(h: Handler, session: nat, index: nat, from: NodeId)
    requires (session, from) !in h.buffer.received
    ensures HandleAck(h, session, index, from) == Step(h, Ok(()))
  {
  }
}

=== FILE: seqs.dfy ===
/** Small sequence helpers shared by the modules below (Rust `Vec` and slice operations). */
module Seqs {

  import opened Wrappers

  /** The set of elements of a sequence. */
  function Elems<T>(s: seq<T>): set<T> {
    set x | x in s
  }

  /** No element occurs twice. */
  predicate NoDup<T(==)>(s: seq<T>) {
    forall i, j :: 0 <= i < j < |s| ==> s[i] != s[j]
  }

  /** A sequence has as many distinct elements as entries exactly when no entry repeats. */
  lemma {:induction false} DistinctCard<T>(s: seq<T>)
    ensures |Elems(s)| <= |s|
    ensures |Elems(s)| == |s| <==> NoDup(s)
  {
    if s != [] {
      var t := s[1..];
      DistinctCard(t);
      assert Elems(s) == {s[0]} + Elems(t);
      if s[0] in t {
        assert Elems(s) == Elems(t);
        var k :| 0 <= k < |t| && t[k] == s[0];
        assert s[0] == s[k + 1];
      } else {
        assert |Elems(s)| == 1 + |Elems(t)|;
        if NoDup(t) {
          forall i, j | 0 <= i < j < |s| ensures s[i] != s[j] {
            if i > 0 {
              assert s[i] == t[i - 1] && s[j] == t[j - 1];
            } else {
              assert s[j] == t[j - 1];
            }
          }
        } else {
          var i, j :| 0 <= i < j < |t| && t[i] == t[j];
          assert s[i + 1] == s[j + 1];
        }
      }
    }
  }

  /**
   * The elements of `s`, each once: what collecting into a `HashSet` and
   * back into a `Vec` keeps. The order is that of last occurrence.
   */
  function Distinct<T(==)>(s: seq<T>): (r: seq<T>)
    ensures NoDup(r) && Elems(r) == Elems(s)
  {
    if s == [] then []
    else
      var rest := Distinct(s[1..]);
      assert Elems(s) == {s[0]} + Elems(s[1..]);
      if s[0] in rest then rest
      else
        var r := [s[0]] + rest;
        assert forall i, j :: 0 <= i < j < |r| ==> r[i] != r[j] by {
          forall i, j | 0 <= i < j < |r| ensures r[i] != r[j] {
            assert r[j] == rest[j - 1];
            if i > 0 {
              assert r[i] == rest[i - 1];
            }
          }
        }
        r
  }

  /** Number of occurrences of `x` in `s`. */
  function Count<T(==)>(s: seq<T>, x: T): (n: nat)
    ensures n <= |s|
    ensures n == 0 <==> x !in s
  {
    if s == [] then 0 else (if s[0] == x then 1 else 0) + Count(s[1..], x)
  }

  lemma {:induction false} CountAppend<T>(a: seq<T>, b: seq<T>, x: T)
    ensures Count(a + b, x) == Count(a, x) + Count(b, x)
  {
    if a == [] {
      assert a + b == b;
    } else {
      assert (a + b)[1..] == a[1..] + b;
      CountAppend(a[1..], b, x);
    }
  }

  /** `n` copies of `x`. */
  function Repeat<T>(x: T, n: nat): (r: seq<T>)
    ensures |r| == n
    ensures forall i :: 0 <= i < n ==> r[i] == x
  {
    if n == 0 then [] else [x] + Repeat(x, n - 1)
  }

  /** The reversed sequence (`Vec::reverse`, `iter().rev()`). */
  function Reverse<T>(s: seq<T>): (r: seq<T>)
    ensures |r| == |s|
    ensures forall i :: 0 <= i < |s| ==> r[i] == s[|s| - 1 - i]
  {
    if s == [] then [] else Reverse(s[1..]) + [s[0]]
  }

  /** Index of the first occurrence of `x` (`iter().position`). */
  function IndexOf<T(==)>(s: seq<T>, x: T): (r: Option<nat>)
    ensures r.None? <==> x !in s
    ensures r.Some? ==> r.value < |s| && s[r.value] == x && x !in s[..r.value]
  {
    if s == [] then None
    else if s[0] == x then Some(0)
    else match IndexOf(s[1..], x)
      case None => None
      case Some(i) => assert s[..i + 1] == [s[0]] + s[1..][..i]; Some(i + 1)
  }

  /** `s` without its element at `k` (`Vec::remove(k)`). */
  function RemoveAt<T>(s: seq<T>, k: nat): (r: seq<T>)
    requires k < |s|
    ensures |r| == |s| - 1
    ensures forall i :: 0 <= i < k ==> r[i] == s[i]
    ensures forall i :: k <= i < |r| ==> r[i] == s[i + 1]
  {
    s[..k] + s[k + 1..]
  }

  /** `s` without its first occurrence of `x` (`Vec::remove(position)`); unchanged if absent. */
  function RemoveFirst<T(==)>(s: seq<T>, x: T): (r: seq<T>)
    ensures x !in s ==> r == s
    ensures x in s ==> |r| == |s| - 1
  {
    match IndexOf(s, x)
      case None => s
      case Some(i) => RemoveAt(s, i)
  }

  /** Exactly one `x` goes: the remaining elements, with multiplicity, are the original ones minus one `x`. */
  lemma RemoveFirstMultiset<T>(s: seq<T>, x: T)
    requires x in s
    ensures multiset(RemoveFirst(s, x)) == multiset(s) - multiset{x}
  {
    var i := IndexOf(s, x).value;
    assert s == s[..i] + [x] + s[i + 1..];
  }

  /** Removing never introduces an element. */
  lemma RemoveFirstSubset<T>(s: seq<T>, x: T, y: T)
    requires y in RemoveFirst(s, x)
    ensures y in s
  {
    if x in s {
      RemoveFirstMultiset(s, x);
      assert y in multiset(RemoveFirst(s, x));
    }
  }

  lemma AppendAssoc<T>(a: seq<T>, b: seq<T>, c: seq<T>)
    ensures (a + b) + c == a + (b + c)
  {
  }

  /** The sum of a sequence of naturals. */
  function Sum(s: seq<nat>): nat {
    if s == [] then 0 else s[0] + Sum(s[1..])
  }

  lemma {:induction false} SumAppend(a: seq<nat>, b: seq<nat>)
    ensures Sum(a + b) == Sum(a) + Sum(b)
  {
    if a == [] {
      assert a + b == b;
    } else {
      assert (a + b)[1..] == a[1..] + b;
      SumAppend(a[1..], b);
    }
  }

  /** Concatenation of a sequence of sequences. */
  function Flatten<T>(ss: seq<seq<T>>): seq<T> {
    if ss == [] then [] else ss[0] + Flatten(ss[1..])
  }

  /** An element is in the concatenation exactly when it is in one of the parts. */
  lemma {:induction false} InFlatten<T>(ss: seq<seq<T>>, x: T)
    ensures x in Flatten(ss) <==> exists i :: 0 <= i < |ss| && x in ss[i]
  {
    if ss != [] {
      InFlatten(ss[1..], x);
      assert Flatten(ss) == ss[0] + Flatten(ss[1..]);
      if x in Flatten(ss[1..]) {
        var i :| 0 <= i < |ss[1..]| && x in ss[1..][i];
        assert x in ss[i + 1];
      }
      if exists i :: 0 <= i < |ss| && x in ss[i] {
        var i :| 0 <= i < |ss| && x in ss[i];
        if i > 0 {
          assert x in ss[1..][i - 1];
        }
      }
    }
  }

  lemma {:induction false} FlattenAppend<T>(a: seq<seq<T>>, b: seq<seq<T>>)
    ensures Flatten(a + b) == Flatten(a) + Flatten(b)
  {
    if a == [] {
      assert a + b == b;
    } else {
      assert (a + b)[1..] == a[1..] + b;
      FlattenAppend(a[1..], b);
    }
  }

  /**
   * `slice.chunks(n)`: consecutive pieces of `n` elements, the last one
   * possibly shorter; an empty slice has no chunks.
   */
  function Chunks<T>(s: seq<T>, n: nat): (r: seq<seq<T>>)
    requires n > 0
    ensures forall i :: 0 <= i < |r| ==> 0 < |r[i]| <= n
    ensures forall i :: 0 <= i < |r| - 1 ==> |r[i]| == n
    ensures Flatten(r) == s
    decreases |s|
  {
    if s == [] then []
    else if |s| <= n then
      assert Flatten([s]) == s + [];
      [s]
    else
      var rest := Chunks(s[n..], n);
      assert Flatten([s[..n]] + rest) == s[..n] + Flatten(rest) by {
        assert ([s[..n]] + rest)[1..] == rest;
      }
      assert s == s[..n] + s[n..];
      [s[..n]] + rest
  }

  /** There are just enough chunks to hold `s`: the count is the length divided by `n`, rounded up. */
  lemma {:induction false} ChunksCount<T>(s: seq<T>, n: nat)
    requires n > 0
    ensures var k := |Chunks(s, n)|;
      (k == 0 <==> s == []) && |s| <= k * n && (k > 0 ==> (k - 1) * n < |s|)
    decreases |s|
  {
    if |s| > n {
      ChunksCount(s[n..], n);
      var k := |Chunks(s[n..], n)|;
      assert (k + 1) * n == k * n + n;
      assert k * n == (k - 1) * n + n;
    }
  }

}

=== FILE: server_assembler.dfy ===
/**
 * The text server's fragment helpers (text-server-main/src/assembler.rs):
 * building one fragment packet, cutting a serialized message into packets,
 * and checking a received fragment's bounds.
 *
 * bincode serialization and `MessageFragmenter` are third-party code: the
 * serializer's outcome and the fragmenter's pieces are arguments.
 */
module ServerAssembler {

  import opened Wrappers
  import opened Seqs
  import opened Packets
  import opened Decimal

  /** `ServerError` of the text server. */
  datatype ServerError =
    | NetworkError(msg: string)
    | SerializationError(msg: string)
    | ConfigurationError(msg: string)
    | FileNotFound(msg: string)
    | UnsupportedOperation(msg: string)
    | ValidationError(msg: string)

  /** One `(fragment_index, total_fragments, length, data)` tuple of the fragmenter. */
  datatype Piece = Piece(index: nat, total: nat, length: nat, data: seq<Byte>)

  function Min(a: nat, b: nat): nat {
    if a < b then a else b
  }

  /**
   * `create_fragment_packet`: at most 128 bytes of `data` at the front of a
   * zeroed 128-byte array, their number as the length.
   */
  function CreateFragmentPacket(session: nat, index: nat, total: nat, data: seq<Byte>, hdr: Header): (p: Packet)
    ensures p.header == hdr && p.session == session && p.body.MsgFragment?
    ensures p.body.fragment.index == index && p.body.fragment.total == total
    ensures p.body.fragment.length == Min(|data|, FragmentSize)
    ensures |p.body.fragment.data| == FragmentSize
    ensures p.body.fragment.data[..p.body.fragment.length] == data[..p.body.fragment.length]
    ensures forall i :: p.body.fragment.length <= i < FragmentSize ==> p.body.fragment.data[i] == 0
  {
    var n := Min(|data|, FragmentSize);
    Packet(hdr, session, MsgFragment(Fragment(index, total, n, data[..n] + Repeat(0, FragmentSize - n))))
  }

  /** The payload bytes a fragment packet carries: the first `length` bytes of its array. */
  function Payload(p: Packet): seq<Byte>
    requires p.body.MsgFragment? && p.body.fragment.length <= |p.body.fragment.data|
  {
    p.body.fragment.data[..p.body.fragment.length]
  }

  /** Every piece's length fits its data, so `&data[..length]` does not panic. */
  predicate Sliceable(pieces: seq<Piece>) {
    forall i :: 0 <= i < |pieces| ==> pieces[i].length <= |pieces[i].data|
  }

  /** The bytes the pieces stand for: each piece's first `length` bytes, in order. */
  function Slices(pieces: seq<Piece>): (r: seq<seq<Byte>>)
    requires Sliceable(pieces)
    ensures |r| == |pieces|
    ensures forall i :: 0 <= i < |r| ==> r[i] == pieces[i].data[..pieces[i].length]
  {
    if pieces == [] then [] else [pieces[0].data[..pieces[0].length]] + Slices(pieces[1..])
  }

  datatype Prepared = Prepared(packets: seq<Packet>) | Refused(error: ServerError) | Panicked

  /**
   * `prepare_message_for_transmission`: a serialization error is returned as
   * `SerializationError`; otherwise one packet per piece, in order, each on
   * the route with hop index 1 and the given session. A piece whose length
   * exceeds its data makes the slice panic.
   */
  method PrepareMessage(serialized: Result<seq<Byte>, string>, pieces: seq<Piece>, session: nat, route: seq<NodeId>)
    returns (r: Prepared)
    ensures serialized.Err? ==> r == Refused(SerializationError(serialized.error))
    ensures serialized.Ok? ==> (r.Prepared? <==> Sliceable(pieces)) && !r.Refused?
    ensures r.Prepared? ==>
      && |r.packets| == |pieces|
      && forall i :: 0 <= i < |pieces| ==>
        r.packets[i] == CreateFragmentPacket(session, pieces[i].index, pieces[i].total,
                                             pieces[i].data[..pieces[i].length], Header(1, route))
  {
    if serialized.Err? {
      return Refused(SerializationError(serialized.error));
    }
    var packets: seq<Packet> := [];
    var i := 0;
    while i < |pieces|
      invariant 0 <= i <= |pieces|
      invariant |packets| == i
      invariant forall j :: 0 <= j < i ==> pieces[j].length <= |pieces[j].data|
      invariant forall j :: 0 <= j < i ==>
        packets[j] == CreateFragmentPacket(session, pieces[j].index, pieces[j].total,
                                           pieces[j].data[..pieces[j].length], Header(1, route))
    {
      var p := pieces[i];
      if p.length > |p.data| {
        return Panicked;
      }
      packets := packets + [CreateFragmentPacket(session, p.index, p.total, p.data[..p.length], Header(1, route))];
      i := i + 1;
    }
    return Prepared(packets);
  }

  /**
   * When every piece holds at most 128 bytes, the packets' payloads are the
   * pieces' bytes: concatenated, they give back what the fragmenter cut.
   */
  lemma {:induction false} PayloadsAreSlices(pieces: seq<Piece>, packets: seq<Packet>, session: nat, route: seq<NodeId>)
    requires Sliceable(pieces) && |packets| == |pieces|
    requires forall i :: 0 <= i < |pieces| ==> pieces[i].length <= FragmentSize
    requires forall i :: 0 <= i < |pieces| ==>
      packets[i] == CreateFragmentPacket(session, pieces[i].index, pieces[i].total,
                                         pieces[i].data[..pieces[i].length], Header(1, route))
    ensures forall i :: 0 <= i < |packets| ==>
      && packets[i].body.MsgFragment?
      && packets[i].body.fragment.length <= |packets[i].body.fragment.data|
      && Payload(packets[i]) == Slices(pieces)[i]
  {
    forall i | 0 <= i < |packets|
      ensures packets[i].body.MsgFragment?
      ensures packets[i].body.fragment.length <= |packets[i].body.fragment.data|
      ensures Payload(packets[i]) == Slices(pieces)[i]
    {
      var s := pieces[i].data[..pieces[i].length];
      assert |s| == pieces[i].length;
      assert Min(|s|, FragmentSize) == |s|;
    }
  }

  /**
   * Round trip: if the fragmenter's pieces concatenate to the serialized
   * message and none exceeds 128 bytes, the payloads of the prepared packets
   * concatenate to the serialized message.
   */
  lemma PrepareRoundTrip(msg: seq<Byte>, pieces: seq<Piece>, packets: seq<Packet>, session: nat, route: seq<NodeId>)
    requires Sliceable(pieces) && Flatten(Slices(pieces)) == msg && |packets| == |pieces|
    requires forall i :: 0 <= i < |pieces| ==> pieces[i].length <= FragmentSize
    requires forall i :: 0 <= i < |pieces| ==>
      packets[i] == CreateFragmentPacket(session, pieces[i].index, pieces[i].total,
                                         pieces[i].data[..pieces[i].length], Header(1, route))
    ensures forall i :: 0 <= i < |packets| ==>
      && packets[i].body.MsgFragment?
      && packets[i].body.fragment.length <= |packets[i].body.fragment.data|
    ensures Flatten(Payloads(packets)) == msg
  {
    PayloadsAreSlices(pieces, packets, session, route);
    assert Payloads(packets) == Slices(pieces);
  }

  function Payloads(packets: seq<Packet>): (r: seq<seq<Byte>>)
    requires forall i :: 0 <= i < |packets| ==>
      && packets[i].body.MsgFragment?
      && packets[i].body.fragment.length <= |packets[i].body.fragment.data|
    ensures |r| == |packets|
    ensures forall i :: 0 <= i < |r| ==> r[i] == Payload(packets[i])
  {
    if packets == [] then [] else [Payload(packets[0])] + Payloads(packets[1..])
  }

  /**
   * `validate_fragment`: the index must be below the total and the length
   * at most 128; the index is checked first.
   */
  function ValidateFragment(f: Fragment): (r: Result<(), ServerError>)
    ensures r.Ok? <==> f.index < f.total && f.length <= FragmentSize
    ensures f.index >= f.total ==> r == Err(ValidationError(
      "Fragment index " + NatToString(f.index) + " exceeds total fragments " + NatToString(f.total)))
    ensures f.index < f.total && f.length > FragmentSize ==> r == Err(ValidationError(
      "Fragment length " + NatToString(f.length) + " exceeds maximum of 128 bytes"))
  {
    if f.index >= f.total then
      Err(ValidationError("Fragment index " + NatToString(f.index) + " exceeds total fragments " + NatToString(f.total)))
    else if f.length > FragmentSize then
      Err(ValidationError("Fragment length " + NatToString(f.length) + " exceeds maximum of 128 bytes"))
    else Ok(())
  }

  /** A packet built by `create_fragment_packet` passes validation exactly when its index is below its total. */
  lemma CreatedFragmentValid(session: nat, index: nat, total: nat, data: seq<Byte>, hdr: Header)
    ensures ValidateFragment(CreateFragmentPacket(session, index, total, data, hdr).body.fragment).Ok?
      <==> index < total
  {
  }
}

=== FILE: server_messages.dfy ===
/**
 * The client/server messages of the chat, content and text servers under
 * chat-server-main/, content-server-main/ and text-server-main/. They
 * import `ClientMessage`, `ServerResponse` and `ServerType` from a version
 * of the shared crate whose source is not part of this model; the variants
 * below are the ones those servers construct and match on.
 */
module ServerMessages {

  import opened Packets

  /** The `ServerType` those servers announce. */
  datatype ServerRole = CommunicationServer | TextServer | MediaServer

  datatype ClientMessage =
    | ServerTypeRequest
    | FilesListRequest
    | FileRequest(fileId: string)
    | MediaRequest(mediaId: string)
    | RegistrationToChat(name: string)
    | ClientListRequest
    | MessageFor(target: string, message: string)

  datatype ServerResponse =
    | ServerType(role: ServerRole)
    | FilesList(ids: seq<string>)
    | File(size: nat, data: seq<Byte>)
    | Media(content: seq<Byte>)
    | ErrorRequestedNotFound
    | ErrorUnsupportedRequest
    | ClientList(names: seq<string>)
    | MessageFrom(name: string, message: string)
    | ErrorWrongClientId
}

=== FILE: simple_chat_client.dfy ===
/**
 * The simpler chat client of client-main/src/chat_client.rs: one set of
 * registered ids for all servers, messages sent straight to the recipient,
 * and an unfinished branch for the server's wrong-id error.
 *
 * Its conversation history behaves as the other client's, so it reuses
 * `InsertMessage` from chat_client_app.dfy.
 */
module SimpleChatClient {

  import opened Wrappers
  import opened Seqs
  import opened Packets
  import opened Topology
  import opened Routing
  import opened Assoc
  import opened AppCommon
  import opened ChatTypes
  import ValueTypes
  import ChatClientApp

  datatype SimpleEvent =
    | ChatHistory(history: seq<(NodeId, seq<Message>)>)
    | RegisteredClients(ids: seq<NodeId>)
    | MessageSent
    | MessageReceived(message: Message)

  datatype SimpleClient = SimpleClient(
    id: NodeId,
    router: Handler,
    registered: seq<NodeId>,
    servers: seq<NodeId>,
    history: seq<(NodeId, seq<Message>)>,
    // a clone of the controller channel the router holds: the same flag as router.controllerUp
    controllerUp: bool,
    outbox: seq<Outgoing<ChatRequest>>,
    events: seq<SimpleEvent>)

  /** The registered and server sets list each id once. */
  predicate Valid(c: SimpleClient) {
    NoDup(c.registered) && NoDup(c.servers)
  }

  function Notify(c: SimpleClient, e: SimpleEvent): SimpleClient {
    if c.controllerUp then c.(events := c.events + [e]) else c
  }

  datatype Command = NodeCmd(node: NodeCommand) | ChatCmd(chat: ChatCommand)

  /**
   * `handle_command`: the history and the registered ids go to the
   * controller; `SendMessage` sends `MessageFor` to the recipient itself
   * and, once the controller has heard of it, records the message under the
   * recipient. An unreachable controller stops the client (before the
   * history is written). Node commands act on the routing handler.
   */
  function HandleCommand(c: SimpleClient, cmd: Command): (r: (SimpleClient, bool))
    ensures r.0.registered == c.registered && r.0.servers == c.servers
    ensures cmd.ChatCmd? ==> (r.1 <==> !c.controllerUp)
    ensures cmd == ChatCmd(GetChatsHistory) ==> r.0 == Notify(c, ChatHistory(c.history))
    ensures cmd == ChatCmd(GetRegisteredClients) ==> r.0 == Notify(c, RegisteredClients(c.registered))
    ensures cmd.ChatCmd? && cmd.chat.SendMessage? ==>
      var m := cmd.chat.message;
      && r.0.outbox == c.outbox + [Outgoing(m.to, MessageFor(m.to, m.text), None)]
      && (c.controllerUp ==>
            ToMap(r.0.history) == ToMap(c.history)[m.to := ChatClientApp.ChatOf(c.history, m.to) + [m]])
      && (!c.controllerUp ==> r.0.history == c.history)
    ensures cmd.NodeCmd? ==> r == (c.(router := ApplyNodeCommand(c.router, cmd.node).0), cmd.node.Shutdown?)
  {
    match cmd
      case ChatCmd(GetChatsHistory) => (Notify(c, ChatHistory(c.history)), !c.controllerUp)
      case ChatCmd(GetRegisteredClients) => (Notify(c, RegisteredClients(c.registered)), !c.controllerUp)
      case ChatCmd(SendMessage(m)) =>
        var sent := c.(outbox := c.outbox + [Outgoing(m.to, MessageFor(m.to, m.text), None)]);
        if !c.controllerUp then (sent, true)
        else (Notify(sent, MessageSent).(history := ChatClientApp.InsertMessage(c.history, m.to, m)), false)
      case NodeCmd(n) =>
        var (h, stop) := ApplyNodeCommand(c.router, n);
        (c.(router := h), stop)
  }

  datatype Handled = Running(c: SimpleClient) | Panicked

  /**
   * `handle_msg`: a chat server's server-type reply records the server;
   * a client list adds its ids to the registered set; a message is reported
   * and recorded under its sender; a registration confirmation is ignored;
   * a wrong-id error reaches `todo!()` and panics. Nothing is ever sent.
   */
  function HandleMsg(c: SimpleClient, msg: Option<ChatResponse>, from: NodeId): (r: Handled)
    ensures r.Panicked? <==> msg.Some? && msg.value.ErrorWrongClientId?
    ensures r.Running? ==> r.c.outbox == c.outbox && r.c.router == c.router
    ensures r.Running? ==>
      Elems(r.c.servers) == Elems(c.servers) +
        (if msg == Some(ServerTypeReply(ValueTypes.ChatServer)) then {from} else {})
    ensures r.Running? ==>
      Elems(r.c.registered) == Elems(c.registered) +
        (if msg.Some? && msg.value.ClientList? then Elems(msg.value.ids) else {})
    ensures msg.Some? && msg.value.MessageFrom? ==>
      ToMap(r.c.history) == ToMap(c.history)[msg.value.clientId :=
        ChatClientApp.ChatOf(c.history, msg.value.clientId) + [Message(msg.value.clientId, c.id, msg.value.message)]]
    ensures r.Running? && !(msg.Some? && msg.value.MessageFrom?) ==> r.c.history == c.history
  {
    match msg
      case None => Running(c)
      case Some(ServerTypeReply(t)) =>
        if t == ValueTypes.ChatServer then
          assert Elems([from]) == {from};
          Running(c.(servers := AddMissing(c.servers, [from])))
        else Running(c)
      case Some(ClientList(ids)) => Running(c.(registered := AddMissing(c.registered, ids)))
      case Some(MessageFrom(id, text)) =>
        var m := Message(id, c.id, text);
        Running(Notify(c, MessageReceived(m)).(history := ChatClientApp.InsertMessage(c.history, id, m)))
      case Some(ErrorWrongClientId(_)) => Panicked
      case Some(RegistrationSuccess) => Running(c)
  }

  /** Handling a message keeps both id sets free of repetitions. */
  lemma HandleMsgKeepsValid(c: SimpleClient, msg: Option<ChatResponse>, from: NodeId)
    requires Valid(c)
    ensures HandleMsg(c, msg, from).Running? ==> Valid(HandleMsg(c, msg, from).c)
  {
    if msg.Some? && msg.value.ClientList? {
      AddMissingFresh(c.registered, msg.value.ids);
    }
    if msg.Some? && msg.value.ServerTypeReply? {
      AddMissingFresh(c.servers, [from]);
    }
  }

  /** A second copy of a client list adds nothing. */
  lemma ClientListIdempotent(c: SimpleClient, ids: seq<NodeId>, from: NodeId, from2: NodeId)
    ensures var once := HandleMsg(c, Some(ClientList(ids)), from).c;
      Elems(HandleMsg(once, Some(ClientList(ids)), from2).c.registered) == Elems(once.registered)
  {
  }

  /** A server-type reply from a text or media server records nothing. */
  lemma OnlyChatServersRecorded(c: SimpleClient, t: ValueTypes.ServerType, from: NodeId)
    requires t != ValueTypes.ChatServer
    ensures HandleMsg(c, Some(ServerTypeReply(t)), from) == Running(c)
  {
  }
}

=== FILE: text_server_app.dfy ===
/**
 * The request handler of text-server-main/src/text_server.rs: one reply
 * per client message, computed from the text-file store.
 *
 * bincode is third-party code: its encoding of a text file, or its error
 * text, is the `encode` argument.
 */
module TextServerApp {

  import opened Wrappers
  import opened Packets
  import opened Assoc
  import opened ServerMessages
  import opened TextStore
  import ServerAssembler

  /**
   * `handle_client_message`: the server type is `TextServer`; the file list
   * holds exactly the stored ids; a stored file is sent encoded, with its
   * byte count, and an encoding failure is a `SerializationError`; an id
   * not stored is `ErrorRequestedNotFound`; anything else is
   * `ErrorUnsupportedRequest`.
   */
  function HandleClientMessage(files: Files, encode: StoredText -> Result<seq<Byte>, string>, msg: ClientMessage)
    : (r: Result<ServerResponse, ServerAssembler.ServerError>)
    ensures r.Err? ==> msg.FileRequest? && msg.fileId in ToMap(files) && encode(ToMap(files)[msg.fileId]).Err?
    ensures msg.ServerTypeRequest? ==> r == Ok(ServerType(TextServer))
    ensures msg.FilesListRequest? ==>
      r.Ok? && r.value.FilesList? && forall id :: id in r.value.ids <==> id in ToMap(files)
    ensures msg.FileRequest? ==>
      var id := msg.fileId;
      && (id !in ToMap(files) ==> r == Ok(ErrorRequestedNotFound))
      && (id in ToMap(files) && encode(ToMap(files)[id]).Ok? ==>
            var bytes := encode(ToMap(files)[id]).value;
            r == Ok(File(|bytes|, bytes)))
      && (id in ToMap(files) && encode(ToMap(files)[id]).Err? ==>
            r == Err(ServerAssembler.SerializationError(encode(ToMap(files)[id]).error)))
    ensures !(msg.ServerTypeRequest? || msg.FilesListRequest? || msg.FileRequest?) ==> r == Ok(ErrorUnsupportedRequest)
  {
    match msg
      case ServerTypeRequest => Ok(ServerType(TextServer))
      case FilesListRequest => Ok(FilesList(GetFileIds(files)))
      case FileRequest(id) => (
        match GetFile(files, id)
          case None => Ok(ErrorRequestedNotFound)
          case Some(f) =>
            match encode(f)
              case Ok(bytes) => Ok(File(|bytes|, bytes))
              case Err(e) => Err(ServerAssembler.SerializationError(e)))
      case _ => Ok(ErrorUnsupportedRequest)
  }

  /**
   * A file just added is served, with its encoding and that encoding's
   * length, whenever the encoder accepts it.
   */
  lemma AddedFileServed(files: Files, encode: StoredText -> Result<seq<Byte>, string>, f: StoredText)
    requires Valid(files) && encode(f).Ok?
    ensures HandleClientMessage(AddFile(files, f), encode, FileRequest(f.id)) ==
      Ok(File(|encode(f).value|, encode(f).value))
  {
    AddThenGet(files, f);
  }

  /** Every id the file list announces is served rather than refused as missing. */
  lemma ListedIdsAreFound(files: Files, encode: StoredText -> Result<seq<Byte>, string>, id: string)
    requires id in GetFileIds(files)
    ensures HandleClientMessage(files, encode, FileRequest(id)) != Ok(ErrorRequestedNotFound)
  {
  }
}

=== FILE: text_store.dfy ===
/**
 * The text-file store that text-server-main/src/text_server.rs and
 * content-server-main/src/text_handler.rs both keep: a `HashMap` from
 * file id to text file, written in the same way in both.
 *
 * The sample files each store is seeded with on creation are demonstration
 * data and are not modelled; a store starts from whatever it is given.
 */
module TextStore {

  import opened Wrappers
  import opened Seqs
  import opened Assoc

  /** `TextFile` of both servers: media are referenced by id text. */
  datatype StoredText = StoredText(id: string, title: string, content: string, mediaReferences: seq<string>)

  type Files = seq<(string, StoredText)>

  /** Each id is stored once, under the id of the file it holds. */
  predicate Valid(files: Files) {
    Unique(files) && IdsMatch(files)
  }

  predicate IdsMatch(files: Files) {
    forall i :: 0 <= i < |files| ==> files[i].1.id == files[i].0
  }

  /** `add_file`: the file is stored under its id, replacing any file with that id. */
  function AddFile(files: Files, f: StoredText): (r: Files)
    ensures ToMap(r) == ToMap(files)[f.id := f]
  {
    PutIsInsert(files, f.id, f);
    Put(files, f.id, f)
  }

  /** `get_file`: the file stored under `id`, if any. */
  function GetFile(files: Files, id: string): (r: Option<StoredText>)
    ensures r == if id in ToMap(files) then Some(ToMap(files)[id]) else None
  {
    GetIsLookup(files, id);
    Get(files, id)
  }

  /** `get_file_ids`: the stored ids, each once. */
  function GetFileIds(files: Files): (r: seq<string>)
    ensures Valid(files) ==> NoDup(r)
    ensures forall id :: id in r <==> id in ToMap(files)
  {
    forall id ensures id in Keys(files) <==> id in ToMap(files) {
      GetIsLookup(files, id);
    }
    Keys(files)
  }

  /** Adding keeps the store valid, and the added file is then found by its id. */
  lemma AddThenGet(files: Files, f: StoredText)
    requires Valid(files)
    ensures Valid(AddFile(files, f))
    ensures GetFile(AddFile(files, f), f.id) == Some(f)
    ensures forall id :: id in GetFileIds(AddFile(files, f)) <==> id == f.id || id in GetFileIds(files)
  {
    UpdatesKeepUnique(files, f.id, f);
    PutMatchesIds(files, f);
  }

  lemma {:induction false} PutMatchesIds(files: Files, f: StoredText)
    requires IdsMatch(files)
    ensures IdsMatch(Put(files, f.id, f))
    decreases |files|
  {
    if files != [] && files[0].0 != f.id {
      PutMatchesIds(files[1..], f);
      var r := Put(files, f.id, f);
      var rest := Put(files[1..], f.id, f);
      assert r == [files[0]] + rest;
      forall i | 0 <= i < |r| ensures r[i].1.id == r[i].0 {
        if i > 0 {
          assert r[i] == rest[i - 1];
        }
      }
    }
  }
}

=== FILE: topology.dfy ===
/**
 * The local view of the network topology kept by every client and server
 * (common/src/network.rs): a list of nodes, each with a kind and an ordered
 * adjacency list. `nodes[0]` is the local node. Lookups by id always use the
 * FIRST node carrying that id, as `iter().find` does.
 */
module Topology {

  import opened Wrappers
  import opened Seqs
  import opened Packets

  datatype Node = Node(id: NodeId, kind: NodeType, adjacents: seq<NodeId>)

  datatype Network = Network(nodes: seq<Node>)

  /** The error enum of the routing layer (the `SendError` text is not modelled). */
  datatype NetworkError =
    | TopologyError
    | PathNotFound(missing: NodeId)
    | NodeNotFound(absent: NodeId)
    | NodeIsNotANeighbor(stranger: NodeId)
    | SendError
    | ControllerDisconnected
    | NoDestination
    | NoNeighborAssigned

  /** `Network::new(root)`. */
  function NewNetwork(root: Node): (net: Network)
    ensures |net.nodes| == 1 && net.nodes[0] == root
  {
    Network([root])
  }

  predicate HasNode(nodes: seq<Node>, id: NodeId) {
    exists i :: 0 <= i < |nodes| && nodes[i].id == id
  }

  /** Index of the first node with the given id. */
  function FindNode(nodes: seq<Node>, id: NodeId): (r: Option<nat>)
    ensures r.None? <==> !HasNode(nodes, id)
    ensures r.Some? ==> r.value < |nodes| && nodes[r.value].id == id
    ensures r.Some? ==> forall j :: 0 <= j < r.value ==> nodes[j].id != id
  {
    if nodes == [] then None
    else if nodes[0].id == id then Some(0)
    else match FindNode(nodes[1..], id)
      case None => None
      case Some(i) => Some(i + 1)
  }

  /** Node `i` is the first node carrying its id. */
  predicate IsFirst(nodes: seq<Node>, i: nat)
    requires i < |nodes|
  {
    forall j :: 0 <= j < i ==> nodes[j].id != nodes[i].id
  }

  lemma FindNodeIsFirst(nodes: seq<Node>, i: nat)
    requires i < |nodes|
    ensures FindNode(nodes, nodes[i].id) == Some(i) <==> IsFirst(nodes, i)
  {
  }

  /** No two nodes share an id (what the protocol maintains; the code does not check it). */
  predicate UniqueIds(nodes: seq<Node>) {
    forall i, j :: 0 <= i < j < |nodes| ==> nodes[i].id != nodes[j].id
  }

  /** With unique ids, lookup finds every node at its own index. */
  lemma FindNodeUnique(nodes: seq<Node>, j: nat)
    requires UniqueIds(nodes) && j < |nodes|
    ensures FindNode(nodes, nodes[j].id) == Some(j)
  {
    FindNodeIsFirst(nodes, j);
  }

  /** Lookup depends on the ids alone. */
  lemma {:induction false} FindNodeSameIds(a: seq<Node>, b: seq<Node>, id: NodeId)
    requires |a| == |b| && forall i :: 0 <= i < |a| ==> a[i].id == b[i].id
    ensures FindNode(a, id) == FindNode(b, id)
  {
    if a != [] && a[0].id != id {
      FindNodeSameIds(a[1..], b[1..], id);
    }
  }

  // ---------------------------------------------------------------- add_node

  /** Drone on either side of a link lets the existing node record it. */
  predicate LinksBack(newKind: NodeType, oldKind: NodeType) {
    newKind == Drone || oldKind == Drone
  }

  /** How many entries `add_node(newNode)` appends to the adjacency list of node `i`. */
  function Gain(nodes: seq<Node>, newNode: Node, i: nat): nat
    requires i < |nodes|
  {
    if IsFirst(nodes, i) && LinksBack(newNode.kind, nodes[i].kind)
    then Count(newNode.adjacents, nodes[i].id) else 0
  }

  /**
   * One iteration of the loop in `add_node`: the first node whose id is `adj`
   * gets `adj` (its own id) appended when either side is a drone.
   */
  function LinkBack(nodes: seq<Node>, newKind: NodeType, adj: NodeId): (r: seq<Node>)
    ensures |r| == |nodes|
    ensures forall i :: 0 <= i < |nodes| ==> r[i].id == nodes[i].id && r[i].kind == nodes[i].kind
    ensures forall i :: 0 <= i < |nodes| ==>
      r[i].adjacents == nodes[i].adjacents + (if adj == nodes[i].id && IsFirst(nodes, i) && LinksBack(newKind, nodes[i].kind) then [adj] else [])
  {
    match FindNode(nodes, adj)
      case None => nodes
      case Some(i) =>
        if LinksBack(newKind, nodes[i].kind)
        then nodes[i := nodes[i].(adjacents := nodes[i].adjacents + [adj])]
        else nodes
  }

  /** The whole loop of `add_node`, over the new node's adjacents in order. */
  function LinkBackAll(nodes: seq<Node>, newNode: Node, adjs: seq<NodeId>): (r: seq<Node>)
    ensures |r| == |nodes|
    ensures forall i :: 0 <= i < |nodes| ==> r[i].id == nodes[i].id && r[i].kind == nodes[i].kind
    ensures forall i :: 0 <= i < |nodes| ==>
      r[i].adjacents == nodes[i].adjacents + Repeat(nodes[i].id, Gain(nodes, newNode.(adjacents := adjs), i))
    decreases |adjs|
  {
    if adjs == [] then nodes
    else
      var step := LinkBack(nodes, newNode.kind, adjs[0]);
      var r := LinkBackAll(step, newNode, adjs[1..]);
      forall i | 0 <= i < |nodes|
        ensures r[i].adjacents == nodes[i].adjacents + Repeat(nodes[i].id, Gain(nodes, newNode.(adjacents := adjs), i))
      {
        LinkBackStep(nodes, newNode, adjs, i);
      }
      r
  }

  lemma LinkBackStep(nodes: seq<Node>, newNode: Node, adjs: seq<NodeId>, i: nat)
    requires adjs != [] && i < |nodes|
    ensures var step := LinkBack(nodes, newNode.kind, adjs[0]);
      step[i].adjacents + Repeat(nodes[i].id, Gain(step, newNode.(adjacents := adjs[1..]), i))
      == nodes[i].adjacents + Repeat(nodes[i].id, Gain(nodes, newNode.(adjacents := adjs), i))
  {
    var step := LinkBack(nodes, newNode.kind, adjs[0]);
    var x := nodes[i].id;
    assert IsFirst(step, i) <==> IsFirst(nodes, i);
    var here := if adjs[0] == x && IsFirst(nodes, i) && LinksBack(newNode.kind, nodes[i].kind) then 1 else 0;
    var later := Gain(step, newNode.(adjacents := adjs[1..]), i);
    assert Gain(nodes, newNode.(adjacents := adjs), i) == here + later;
    assert step[i].adjacents == nodes[i].adjacents + Repeat(x, here);
    RepeatAdd(x, here, later);
  }

  lemma {:induction false} RepeatAdd<T>(x: T, a: nat, b: nat)
    ensures Repeat(x, a) + Repeat(x, b) == Repeat(x, a + b)
  {
    if a > 0 {
      RepeatAdd(x, a - 1, b);
      assert Repeat(x, a) + Repeat(x, b) == [x] + (Repeat(x, a - 1) + Repeat(x, b));
    }
  }

  /**
   * `add_node`: the new node is appended after the existing ones. An existing
   * node named in the new node's adjacents records the link (as a copy of its
   * own id, a quirk of the source) only if either side is a drone.
   */
  function AddNode(net: Network, newNode: Node): (r: Network)
    ensures |r.nodes| == |net.nodes| + 1
    ensures r.nodes[|net.nodes|] == newNode
    ensures forall i :: 0 <= i < |net.nodes| ==>
      r.nodes[i].id == net.nodes[i].id && r.nodes[i].kind == net.nodes[i].kind
    ensures forall i :: 0 <= i < |net.nodes| ==>
      r.nodes[i].adjacents == net.nodes[i].adjacents + Repeat(net.nodes[i].id, Gain(net.nodes, newNode, i))
  {
    Network(LinkBackAll(net.nodes, newNode, newNode.adjacents) + [newNode])
  }

  /** The link an existing node records is its own id, never the new node's id. */
  lemma AddNodeRecordsOwnId(net: Network, newNode: Node, i: nat, k: nat)
    requires i < |net.nodes|
    requires |net.nodes[i].adjacents| <= k < |AddNode(net, newNode).nodes[i].adjacents|
    ensures AddNode(net, newNode).nodes[i].adjacents[k] == net.nodes[i].id
    ensures IsFirst(net.nodes, i) && LinksBack(newNode.kind, net.nodes[i].kind)
    ensures net.nodes[i].id in newNode.adjacents
  {
  }

  // ------------------------------------------------------------- remove_node

  /** A node's adjacents without their first occurrence of `x`. */
  function Strip(n: Node, x: NodeId): Node {
    n.(adjacents := RemoveFirst(n.adjacents, x))
  }

  function StripAll(nodes: seq<Node>, x: NodeId): (r: seq<Node>)
    ensures |r| == |nodes|
    ensures forall i :: 0 <= i < |nodes| ==> r[i] == Strip(nodes[i], x)
  {
    if nodes == [] then [] else [Strip(nodes[0], x)] + StripAll(nodes[1..], x)
  }

  /**
   * `remove_node`: one occurrence of `x` leaves every adjacency list that
   * holds it, then the first node with id `x` (if any) is deleted.
   */
  function RemoveNode(net: Network, x: NodeId): (r: Network)
    ensures !HasNode(net.nodes, x) ==> r.nodes == StripAll(net.nodes, x)
    ensures HasNode(net.nodes, x) ==>
      var k := FindNode(net.nodes, x).value;
      |r.nodes| == |net.nodes| - 1 &&
      (forall i :: 0 <= i < k ==> r.nodes[i] == Strip(net.nodes[i], x)) &&
      (forall i :: k <= i < |r.nodes| ==> r.nodes[i] == Strip(net.nodes[i + 1], x))
  {
    var stripped := StripAll(net.nodes, x);
    match FindNode(net.nodes, x)
      case None => Network(stripped)
      case Some(k) => Network(RemoveAt(stripped, k))
  }

  /** After `remove_node(x)`, each adjacency list holds one occurrence of `x` fewer (or still none). */
  lemma RemoveNodeDropsOneOccurrence(net: Network, x: NodeId, i: nat)
    requires i < |net.nodes|
    ensures Count(Strip(net.nodes[i], x).adjacents, x) == if x in net.nodes[i].adjacents then Count(net.nodes[i].adjacents, x) - 1 else 0
  {
    var a := net.nodes[i].adjacents;
    if x in a {
      var j := IndexOf(a, x).value;
      assert a == a[..j] + [x] + a[j + 1..];
      CountAppend(a[..j] + [x], a[j + 1..], x);
      CountAppend(a[..j], [x], x);
      CountAppend(a[..j], a[j + 1..], x);
      assert RemoveFirst(a, x) == a[..j] + a[j + 1..];
    }
  }

  /** Total length of all adjacency lists. */
  function TotalAdj(nodes: seq<Node>): nat {
    if nodes == [] then 0 else |nodes[0].adjacents| + TotalAdj(nodes[1..])
  }

  lemma TotalAdjCons(n: Node, rest: seq<Node>)
    ensures TotalAdj([n] + rest) == |n.adjacents| + TotalAdj(rest)
  {
    assert ([n] + rest)[1..] == rest;
  }

  lemma {:induction false} StripAllShrinks(nodes: seq<Node>, x: NodeId)
    ensures TotalAdj(StripAll(nodes, x)) <= TotalAdj(nodes)
    ensures |nodes| > 0 && x in nodes[0].adjacents ==> TotalAdj(StripAll(nodes, x)) < TotalAdj(nodes)
  {
    if nodes != [] {
      StripAllShrinks(nodes[1..], x);
      TotalAdjCons(Strip(nodes[0], x), StripAll(nodes[1..], x));
    }
  }

  lemma {:induction false} RemoveAtShrinks(nodes: seq<Node>, k: nat)
    requires k < |nodes|
    ensures TotalAdj(RemoveAt(nodes, k)) <= TotalAdj(nodes)
  {
    if k > 0 {
      RemoveAtShrinks(nodes[1..], k - 1);
      assert RemoveAt(nodes, k) == [nodes[0]] + RemoveAt(nodes[1..], k - 1);
      TotalAdjCons(nodes[0], RemoveAt(nodes[1..], k - 1));
    } else {
      assert RemoveAt(nodes, k) == nodes[1..];
    }
  }

  /**
   * `remove_node` never lengthens the adjacency lists, and it shortens them
   * when the removed id is an adjacent of the local node.
   */
  lemma RemoveNodeShrinks(net: Network, x: NodeId)
    ensures TotalAdj(RemoveNode(net, x).nodes) <= TotalAdj(net.nodes)
    ensures |net.nodes| > 0 && x in net.nodes[0].adjacents ==> TotalAdj(RemoveNode(net, x).nodes) < TotalAdj(net.nodes)
  {
    var stripped := StripAll(net.nodes, x);
    StripAllShrinks(net.nodes, x);
    match FindNode(net.nodes, x) {
      case None =>
      case Some(k) =>
        RemoveAtShrinks(stripped, k);
    }
  }

  // ----------------------------------------------------------- growing views

  /**
   * `v'` keeps every node of `v` at its place with its id and kind, and every
   * adjacency list of `v` as a prefix; it may append nodes.
   */
  predicate Extends(v: Network, v': Network) {
    && |v.nodes| <= |v'.nodes|
    && forall i :: 0 <= i < |v.nodes| ==>
         && v'.nodes[i].id == v.nodes[i].id && v'.nodes[i].kind == v.nodes[i].kind
         && |v.nodes[i].adjacents| <= |v'.nodes[i].adjacents|
         && v'.nodes[i].adjacents[..|v.nodes[i].adjacents|] == v.nodes[i].adjacents
  }

  lemma ExtendsTrans(a: Network, b: Network, c: Network)
    requires Extends(a, b) && Extends(b, c)
    ensures Extends(a, c)
  {
    forall i | 0 <= i < |a.nodes|
      ensures c.nodes[i].adjacents[..|a.nodes[i].adjacents|] == a.nodes[i].adjacents
    {
      assert c.nodes[i].adjacents[..|a.nodes[i].adjacents|] == c.nodes[i].adjacents[..|b.nodes[i].adjacents|][..|a.nodes[i].adjacents|];
    }
  }

  /** A lookup that succeeds keeps its answer in an extended list. */
  lemma {:induction false} FindNodeExtends(a: seq<Node>, b: seq<Node>, id: NodeId)
    requires |a| <= |b| && forall i :: 0 <= i < |a| ==> b[i].id == a[i].id
    requires HasNode(a, id)
    ensures FindNode(b, id) == FindNode(a, id)
  {
    if a[0].id != id {
      var j :| 0 <= j < |a| && a[j].id == id;
      assert a[1..][j - 1].id == id;
      FindNodeExtends(a[1..], b[1..], id);
    }
  }

  lemma AddNodeExtends(net: Network, newNode: Node)
    ensures Extends(net, AddNode(net, newNode))
  {
  }

  lemma UpdateNodeExtends(net: Network, id: NodeId, adjs: seq<NodeId>)
    requires UpdateNode(net, id, adjs).Ok?
    ensures Extends(net, UpdateNode(net, id, adjs).value)
  {
  }

  // ------------------------------------------------------------- update_node

  /**
   * The loop of `update_node`: each id of `extra` is pushed unless the list,
   * as grown so far, already holds it.
   */
  function AddMissing(adjs: seq<NodeId>, extra: seq<NodeId>): (r: seq<NodeId>)
    ensures |adjs| <= |r| && r[..|adjs|] == adjs
    ensures Elems(r) == Elems(adjs) + Elems(extra)
    decreases |extra|
  {
    if extra == [] then adjs
    else
      var grown := if extra[0] in adjs then adjs else adjs + [extra[0]];
      var r := AddMissing(grown, extra[1..]);
      assert Elems(extra) == {extra[0]} + Elems(extra[1..]);
      assert r[..|adjs|] == adjs by {
        assert r[..|grown|][..|adjs|] == r[..|adjs|];
      }
      r
  }

  /** `update_node` adds only ids the list lacked, each once, so a repetition-free list stays so. */
  lemma {:induction false} AddMissingFresh(adjs: seq<NodeId>, extra: seq<NodeId>)
    ensures var r := AddMissing(adjs, extra);
      && (forall k :: |adjs| <= k < |r| ==> r[k] !in adjs)
      && NoDup(r[|adjs|..])
      && (NoDup(adjs) ==> NoDup(r))
    decreases |extra|
  {
    if extra != [] {
      if extra[0] in adjs {
        AddMissingFresh(adjs, extra[1..]);
      } else {
        var grown := adjs + [extra[0]];
        AddMissingFresh(grown, extra[1..]);
        FreshAfterOne(adjs, extra[0], AddMissing(grown, extra[1..]));
      }
    }
  }

  /** A list that grew by a fresh `x` and then by ids it lacked grew by ids `adjs` lacked, each once. */
  lemma FreshAfterOne(adjs: seq<NodeId>, x: NodeId, r: seq<NodeId>)
    requires x !in adjs && |adjs| + 1 <= |r| && r[..|adjs| + 1] == adjs + [x]
    requires forall k :: |adjs| + 1 <= k < |r| ==> r[k] !in adjs + [x]
    requires NoDup(r[|adjs| + 1..])
    requires NoDup(adjs + [x]) ==> NoDup(r)
    ensures forall k :: |adjs| <= k < |r| ==> r[k] !in adjs
    ensures NoDup(r[|adjs|..])
    ensures NoDup(adjs) ==> NoDup(r)
  {
    assert r[|adjs|] == x;
    forall k | |adjs| + 1 <= k < |r| ensures r[k] !in adjs && r[k] != x {
      assert x in adjs + [x];
    }
    var t := r[|adjs|..];
    forall i, j | 0 <= i < j < |t| ensures t[i] != t[j] {
      if i == 0 {
        assert t[j] == r[|adjs| + j];
      } else {
        assert t[i] == r[|adjs| + 1..][i - 1] && t[j] == r[|adjs| + 1..][j - 1];
      }
    }
    if NoDup(adjs) {
      var g := adjs + [x];
      forall i, j | 0 <= i < j < |g| ensures g[i] != g[j] {
        if j == |adjs| {
          assert g[i] == adjs[i];
        }
      }
    }
  }

  /**
   * `update_node`: the first node with the id gains every listed adjacent it
   * lacks, nothing else changes; an absent id is `NodeNotFound(id)`.
   */
  function UpdateNode(net: Network, id: NodeId, adjs: seq<NodeId>): (r: Result<Network, NetworkError>)
    ensures r.Err? <==> !HasNode(net.nodes, id)
    ensures r.Err? ==> r.error == NodeNotFound(id)
    ensures r.Ok? ==> |r.value.nodes| == |net.nodes|
    ensures r.Ok? ==> forall i :: 0 <= i < |net.nodes| && Some(i) != FindNode(net.nodes, id) ==>
      r.value.nodes[i] == net.nodes[i]
    ensures r.Ok? ==>
      var i := FindNode(net.nodes, id).value;
      r.value.nodes[i].id == id && r.value.nodes[i].kind == net.nodes[i].kind &&
      r.value.nodes[i].adjacents == AddMissing(net.nodes[i].adjacents, adjs)
  {
    match FindNode(net.nodes, id)
      case None => Err(NodeNotFound(id))
      case Some(i) =>
        Ok(Network(net.nodes[i := net.nodes[i].(adjacents := AddMissing(net.nodes[i].adjacents, adjs))]))
  }

  // -------------------------------------------------------- change_node_type

  /** `change_node_type`: retypes the first node with the id; a no-op for an absent id. */
  function ChangeNodeType(net: Network, id: NodeId, kind: NodeType): (r: Network)
    ensures |r.nodes| == |net.nodes|
    ensures !HasNode(net.nodes, id) ==> r == net
    ensures forall i :: 0 <= i < |net.nodes| ==>
      r.nodes[i].id == net.nodes[i].id && r.nodes[i].adjacents == net.nodes[i].adjacents
    ensures forall i :: 0 <= i < |net.nodes| ==>
      r.nodes[i].kind == if FindNode(net.nodes, id) == Some(i) then kind else net.nodes[i].kind
  {
    match FindNode(net.nodes, id)
      case None => net
      case Some(i) => Network(net.nodes[i := net.nodes[i].(kind := kind)])
  }

  // ----------------------------------------------------- get_servers/clients

  /** Ids of the nodes of one kind, in node order. */
  function IdsOfKind(nodes: seq<Node>, kind: NodeType): (r: seq<NodeId>)
    ensures |r| <= |nodes|
    ensures forall i :: 0 <= i < |nodes| && nodes[i].kind == kind ==> nodes[i].id in r
    ensures forall x :: x in r ==> exists i :: 0 <= i < |nodes| && nodes[i].kind == kind && nodes[i].id == x
  {
    if nodes == [] then []
    else
      var rest := IdsOfKind(nodes[1..], kind);
      assert forall i :: 1 <= i < |nodes| ==> nodes[i] == nodes[1..][i - 1];
      if nodes[0].kind == kind then [nodes[0].id] + rest else rest
  }

  /** Wraps a filtered id list as `get_servers`/`get_clients` do: empty becomes `None`. */
  function NonEmpty(ids: seq<NodeId>): (r: Option<seq<NodeId>>)
    ensures r.None? <==> ids == []
    ensures r.Some? ==> r.value == ids
  {
    if ids == [] then None else Some(ids)
  }

  /** `get_servers`: `None` iff no node is a server, else exactly the server ids. */
  function GetServers(net: Network): (r: Option<seq<NodeId>>)
    ensures r.None? <==> forall i :: 0 <= i < |net.nodes| ==> net.nodes[i].kind != Server
    ensures r.Some? ==> forall x :: x in r.value <==>
      exists i :: 0 <= i < |net.nodes| && net.nodes[i].kind == Server && net.nodes[i].id == x
  {
    var ids := IdsOfKind(net.nodes, Server);
    assert ids != [] ==> net.nodes[0].kind == Server || exists i :: 0 <= i < |net.nodes| && net.nodes[i].kind == Server by {
      if ids != [] {
        assert ids[0] in ids;
      }
    }
    NonEmpty(ids)
  }

  /** `get_clients`: `None` iff no node is a client, else exactly the client ids. */
  function GetClients(net: Network): (r: Option<seq<NodeId>>)
    ensures r.None? <==> forall i :: 0 <= i < |net.nodes| ==> net.nodes[i].kind != Client
    ensures r.Some? ==> forall x :: x in r.value <==>
      exists i :: 0 <= i < |net.nodes| && net.nodes[i].kind == Client && net.nodes[i].id == x
  {
    var ids := IdsOfKind(net.nodes, Client);
    assert ids != [] ==> net.nodes[0].kind == Client || exists i :: 0 <= i < |net.nodes| && net.nodes[i].kind == Client by {
      if ids != [] {
        assert ids[0] in ids;
      }
    }
    NonEmpty(ids)
  }
}

=== FILE: value_types.dfy ===
/**
 * The application-level values the web side exchanges (common/src/types.rs):
 * uuids, media references and their text form, text and media files, and
 * the web request and response enums.
 *
 * Uuid generation and the uuid crate's text conversion, and serde_json, are
 * third-party code: a fresh uuid is an argument, the text conversion is the
 * pair of functions in `UuidText`, and JSON encoding is the `Json` record.
 */
module ValueTypes {

  import opened Wrappers
  import opened Seqs
  import opened Packets
  import opened Decimal

  datatype Uuid = Uuid(bits: nat)

  /** `Uuid::to_string` and `Uuid::from_str` / `Uuid::parse_str`. */
  datatype UuidText = UuidText(show: Uuid -> string, parse: string -> Option<Uuid>)

  /**
   * Every uuid text form the crate accepts starts with a hex digit, `{` or
   * `urn:`, never with `/`.
   */
  ghost predicate RejectsSlash(t: UuidText) {
    forall s :: |s| > 0 && s[0] == '/' ==> t.parse(s).None?
  }

  /** The parser reads back every uuid's own text. */
  ghost predicate ParsesOwnText(t: UuidText) {
    forall u :: t.parse(t.show(u)) == Some(u)
  }

  /** JSON encoding and decoding of the file values carried inside web responses. */
  datatype Json = Json(
    encodeMedia: MediaFile -> seq<Byte>,
    decodeText: seq<Byte> -> Option<TextFile>,
    decodeMedia: seq<Byte> -> Option<MediaFile>)

  /** Decoding reads back every media file's own JSON encoding. */
  ghost predicate MediaJsonRoundTrips(j: Json) {
    forall m :: j.decodeMedia(j.encodeMedia(m)) == Some(m)
  }

  datatype MediaReference = MediaReference(location: NodeId, id: Uuid)

  /** `Display for MediaReference`: `"<location>/<id>"`. */
  function ShowReference(t: UuidText, r: MediaReference): (s: string)
    ensures IndexOf(s, '/') == Some(|NatToString(r.location)|)
    ensures ParseU8(s[..|NatToString(r.location)|]) == Some(r.location)
  {
    var loc := NatToString(r.location);
    var rest := "/" + t.show(r.id);
    var s := loc + rest;
    assert s[..|loc|] == loc;
    assert '/' !in loc by {
      forall i | 0 <= i < |loc| ensures loc[i] != '/' {
        assert IsDigit(loc[i]);
      }
    }
    IndexAfterPrefix(loc, rest, '/');
    ParseU8OfDisplay(r.location);
    s
  }

  lemma IndexAfterPrefix(p: string, q: string, c: char)
    requires c !in p && |q| > 0 && q[0] == c
    ensures IndexOf(p + q, c) == Some(|p|)
    decreases |p|
  {
    if p != [] {
      assert (p + q)[1..] == p[1..] + q;
      IndexAfterPrefix(p[1..], q, c);
    }
  }

  /**
   * `FromStr for MediaReference`: split at the first `/`. The left part is
   * read as a `u8`; the right part, which still begins with the `/`, is
   * handed to the uuid parser.
   */
  function ParseReference(t: UuidText, s: string): (r: Option<MediaReference>)
    ensures '/' !in s ==> r.None?
    ensures r.Some? ==> '/' in s && exists k :: 0 <= k < |s| && s[k] == '/' && t.parse(s[k..]) == Some(r.value.id)
  {
    match IndexOf(s, '/')
      case None => None
      case Some(k) =>
        match ParseU8(s[..k])
          case None => None
          case Some(loc) =>
            match t.parse(s[k..])
              case None => None
              case Some(id) => Some(MediaReference(loc, id))
  }

  /**
   * Reading back the text of a reference gives its location, but the uuid
   * parser is handed `"/" + id`, not the id's own text.
   */
  lemma ReferenceTextKeepsSlash(t: UuidText, r: MediaReference)
    ensures ParseReference(t, ShowReference(t, r)) ==
      match t.parse("/" + t.show(r.id))
        case None => None
        case Some(u) => Some(MediaReference(r.location, u))
  {
    var loc := NatToString(r.location);
    var s := ShowReference(t, r);
    assert s[|loc|..] == "/" + t.show(r.id);
  }

  /** With a parser that refuses a leading `/`, no reference survives its own text. */
  lemma ReferenceNeverRoundTrips(t: UuidText, r: MediaReference)
    requires RejectsSlash(t)
    ensures ParseReference(t, ShowReference(t, r)).None?
  {
    ReferenceTextKeepsSlash(t, r);
    assert ("/" + t.show(r.id))[0] == '/';
  }

  /**
   * `FromStr for MediaReference` as evidently intended: the `/` separates
   * the two parts and belongs to neither.
   */
  function ParseReferenceCorrected(t: UuidText, s: string): (r: Option<MediaReference>)
    ensures '/' !in s ==> r.None?
    ensures r.Some? ==>
      exists k :: 0 <= k < |s| && s[k] == '/' && '/' !in s[..k] &&
        ParseU8(s[..k]) == Some(r.value.location) && t.parse(s[k + 1..]) == Some(r.value.id)
  {
    match IndexOf(s, '/')
      case None => None
      case Some(k) =>
        match ParseU8(s[..k])
          case None => None
          case Some(loc) =>
            match t.parse(s[k + 1..])
              case None => None
              case Some(id) =>
                assert 0 <= k < |s| && s[k] == '/' && '/' !in s[..k] &&
                  ParseU8(s[..k]) == Some(loc) && t.parse(s[k + 1..]) == Some(id);
                Some(MediaReference(loc, id))
  }

  /** With a uuid parser that reads back its own text, every reference survives its text. */
  lemma ReferenceRoundTrip(t: UuidText, r: MediaReference)
    requires ParsesOwnText(t)
    ensures ParseReferenceCorrected(t, ShowReference(t, r)) == Some(r)
  {
    var k := |NatToString(r.location)|;
    var s := ShowReference(t, r);
    assert IndexOf(s, '/') == Some(k) && ParseU8(s[..k]) == Some(r.location);
    assert s[k + 1..] == t.show(r.id);
    CorrectedParse(t, s, k, r.location, r.id);
  }

  /** The corrected parse reads the location before the first `/` and the uuid after it. */
  lemma CorrectedParse(t: UuidText, s: string, k: nat, loc: NodeId, id: Uuid)
    requires IndexOf(s, '/') == Some(k) && ParseU8(s[..k]) == Some(loc as nat) && t.parse(s[k + 1..]) == Some(id)
    ensures ParseReferenceCorrected(t, s) == Some(MediaReference(loc, id))
  {
  }

  datatype TextFile = TextFile(id: Uuid, title: string, content: string, mediaRefs: seq<MediaReference>)

  /** `TextFile::get_media_ids`: the referenced ids, in reference order. */
  function GetMediaIds(f: TextFile): (r: seq<Uuid>)
    ensures |r| == |f.mediaRefs|
    ensures forall i :: 0 <= i < |r| ==> r[i] == f.mediaRefs[i].id
  {
    RefIds(f.mediaRefs)
  }

  function RefIds(refs: seq<MediaReference>): (r: seq<Uuid>)
    ensures |r| == |refs|
    ensures forall i :: 0 <= i < |r| ==> r[i] == refs[i].id
  {
    if refs == [] then [] else [refs[0].id] + RefIds(refs[1..])
  }

  datatype MediaFile = MediaFile(id: Uuid, title: string, content: seq<seq<Byte>>)

  /** Bytes per chunk of a media file. */
  const MediaChunkSize: nat := 1024

  /**
   * `MediaFile::from_u8`: the data cut into chunks of 1024 bytes, the last
   * possibly shorter. `id` is the freshly generated uuid.
   */
  function FromU8(id: Uuid, title: string, data: seq<Byte>): (m: MediaFile)
    ensures m.id == id && m.title == title
    ensures Flatten(m.content) == data
    ensures forall i :: 0 <= i < |m.content| ==> 0 < |m.content[i]| <= MediaChunkSize
    ensures forall i :: 0 <= i < |m.content| - 1 ==> |m.content[i]| == MediaChunkSize
  {
    MediaFile(id, title, Chunks(data, MediaChunkSize))
  }

  function Lengths(ss: seq<seq<Byte>>): (r: seq<nat>)
    ensures |r| == |ss|
    ensures forall i :: 0 <= i < |r| ==> r[i] == |ss[i]|
  {
    if ss == [] then [] else [|ss[0]|] + Lengths(ss[1..])
  }

  /** `MediaFile::get_size`: the sum of the chunk lengths, which is the number of bytes the file holds. */
  function GetSize(m: MediaFile): (r: nat)
    ensures r == |Flatten(m.content)|
  {
    SizeIsFlatLength(m.content);
    Sum(Lengths(m.content))
  }

  /** The sum of the chunk lengths is the length of the data they hold. */
  lemma {:induction false} SizeIsFlatLength(ss: seq<seq<Byte>>)
    ensures Sum(Lengths(ss)) == |Flatten(ss)|
  {
    if ss != [] {
      SizeIsFlatLength(ss[1..]);
      assert Lengths(ss)[1..] == Lengths(ss[1..]);
    }
  }

  /**
   * A media file built from bytes reports their number as its size, and
   * holds the number of chunks the length divided by 1024 rounded up gives:
   * none for empty data.
   */
  lemma FromU8Size(id: Uuid, title: string, data: seq<Byte>)
    ensures GetSize(FromU8(id, title, data)) == |data|
    ensures var k := |FromU8(id, title, data).content|;
      (k == 0 <==> data == []) && |data| <= k * MediaChunkSize && (k > 0 ==> (k - 1) * MediaChunkSize < |data|)
  {
    SizeIsFlatLength(FromU8(id, title, data).content);
    ChunksCount(data, MediaChunkSize);
  }

  /** 5000 bytes make five chunks. */
  lemma FiveThousandBytes(id: Uuid, data: seq<Byte>)
    requires |data| == 5000
    ensures |FromU8(id, "large_file.bin", data).content| == 5
    ensures GetSize(FromU8(id, "large_file.bin", data)) == 5000
  {
    FromU8Size(id, "large_file.bin", data);
  }

  /** Two chunks of three bytes: size six. */
  lemma SixByteMedia(id: Uuid)
    ensures GetSize(MediaFile(id, "test.bin", [[0, 1, 2], [3, 4, 5]])) == 6
  {
    SizeIsFlatLength([[0, 1, 2], [3, 4, 5]]);
    assert Flatten<Byte>([[0, 1, 2], [3, 4, 5]]) == [0, 1, 2, 3, 4, 5] by {
      assert [[0, 1, 2], [3, 4, 5]][1..] == [[3, 4, 5]];
      assert Flatten<Byte>([[3, 4, 5]]) == [3, 4, 5] + Flatten<Byte>([]);
    }
  }

  datatype File = File(id: Uuid, textFile: TextFile, mediaFiles: seq<MediaFile>)

  /** `File::new`: a file is known by its text file's id. */
  function NewFile(tf: TextFile, media: seq<MediaFile>): (f: File)
    ensures f.id == f.textFile.id && f.textFile == tf && f.mediaFiles == media
  {
    File(tf.id, tf, media)
  }

  datatype ServerType = ChatServer | TextServer | MediaServer

  datatype WebRequest =
    | ServerTypeQuery
    | TextFilesListQuery
    | FileQuery(fileId: string)
    | MediaQuery(mediaId: string)

  /** `WebCommand`: what the controller asks of a web browser or a web server. */
  datatype WebCommand =
    | GetCachedFiles
    | GetFile(fileId: Uuid)
    | GetTextFiles
    | GetTextFile(textId: Uuid)
    | GetMediaFiles
    | GetMediaFile(mediaId: Uuid, location: NodeId)
    | AddTextFile(textFile: TextFile)
    | AddTextFileFromPath(textPath: string)
    | AddMediaFile(media: MediaFile)
    | AddMediaFileFromPath(mediaPath: string)
    | RemoveTextFile(removedText: Uuid)
    | RemoveMediaFile(removedMedia: Uuid)

  /** `WebRequest::get_file_id`: the id text carried by a file or media query. */
  function GetFileId(q: WebRequest): (r: Option<string>)
    ensures r.Some? <==> q.FileQuery? || q.MediaQuery?
    ensures q.FileQuery? ==> r == Some(q.fileId)
    ensures q.MediaQuery? ==> r == Some(q.mediaId)
  {
    match q
      case FileQuery(f) => Some(f)
      case MediaQuery(m) => Some(m)
      case _ => None
  }

  /**
   * `WebResponse`. `BadUuid` is the reply server/src/media_server.rs sends
   * for an unparsable id; the enum in common/src/types.rs lacks it.
   */
  datatype WebResponse =
    | ServerTypeReply(serverType: ServerType)
    | TextFilesList(files: seq<string>)
    | TextFileData(fileData: seq<Byte>)
    | MediaFileData(mediaData: seq<Byte>)
    | ErrorFileNotFound(missing: Uuid)
    | BadUuid(text: string)
}

=== FILE: view_merge.dfy ===
/**
 * `RoutingHandler::update_network_view` (common/src/routing_handler.rs):
 * folding a flood's path trace into the local topology view. Every trace
 * entry is given its previous and next trace ids as adjacents; a node the
 * view lacks is added with exactly those adjacents.
 */
module ViewMerge {

  import opened Wrappers
  import opened Seqs
  import opened Packets
  import opened Assoc
  import opened Topology
  import opened PathSearch

  type Trace = seq<(NodeId, NodeType)>

  /** The adjacents trace entry `i` contributes: the previous id, then the next id, where they exist. */
  function TraceNeighbors(trace: Trace, i: nat): (r: seq<NodeId>)
    requires i < |trace|
    ensures forall x :: x in r <==> (0 < i && x == trace[i - 1].0) || (i + 1 < |trace| && x == trace[i + 1].0)
  {
    (if i > 0 then [trace[i - 1].0] else []) + (if i + 1 < |trace| then [trace[i + 1].0] else [])
  }

  /** An extension keeps a known node's adjacents as a prefix of its new adjacents. */
  lemma AdjExtends(v: Network, v': Network, id: NodeId)
    requires Extends(v, v') && HasNode(v.nodes, id)
    ensures |Adj(v, id)| <= |Adj(v', id)| && Adj(v', id)[..|Adj(v, id)|] == Adj(v, id)
    ensures forall x :: x in Adj(v, id) ==> x in Adj(v', id)
  {
    FindNodeExtends(v.nodes, v'.nodes, id);
    var a, b := Adj(v, id), Adj(v', id);
    forall x | x in a ensures x in b {
      var k :| 0 <= k < |a| && a[k] == x;
      assert b[..|a|][k] == x;
    }
  }

  lemma HasNodeExtends(v: Network, v': Network, id: NodeId)
    requires Extends(v, v') && HasNode(v.nodes, id)
    ensures HasNode(v'.nodes, id)
  {
    var i :| 0 <= i < |v.nodes| && v.nodes[i].id == id;
    assert v'.nodes[i].id == id;
  }

  /**
   * One iteration of the loop: `update_node(id, nb)`, and when the view has
   * no such node, `add_node(Node(id, kind, nb))`.
   */
  function MergeEntry(v: Network, id: NodeId, kind: NodeType, nb: seq<NodeId>): (r: Network)
    ensures Extends(v, r) && HasNode(r.nodes, id)
    ensures forall x :: x in nb ==> x in Adj(r, id)
    ensures HasNode(v.nodes, id) ==> |r.nodes| == |v.nodes|
    ensures !HasNode(v.nodes, id) ==> r == AddNode(v, Node(id, kind, nb))
    ensures |r.nodes| <= |v.nodes| + 1 && (|r.nodes| > |v.nodes| ==> r.nodes[|v.nodes|] == Node(id, kind, nb))
  {
    match UpdateNode(v, id, nb)
      case Ok(v1) =>
        MergeUpdated(v, id, nb);
        v1
      case Err(_) =>
        MergeAdded(v, Node(id, kind, nb));
        AddNode(v, Node(id, kind, nb))
  }

  lemma MergeUpdated(v: Network, id: NodeId, nb: seq<NodeId>)
    requires UpdateNode(v, id, nb).Ok?
    ensures var r := UpdateNode(v, id, nb).value;
      Extends(v, r) && HasNode(r.nodes, id) && forall x :: x in nb ==> x in Adj(r, id)
  {
    var r := UpdateNode(v, id, nb).value;
    UpdateNodeExtends(v, id, nb);
    FindNodeExtends(v.nodes, r.nodes, id);
    assert forall x :: x in nb ==> x in Elems(nb);
  }

  lemma MergeAdded(v: Network, n: Node)
    requires !HasNode(v.nodes, n.id)
    ensures var r := AddNode(v, n);
      Extends(v, r) && HasNode(r.nodes, n.id) && Adj(r, n.id) == n.adjacents
  {
    var r := AddNode(v, n);
    var k := |v.nodes|;
    AddNodeExtends(v, n);
    assert r.nodes[k] == n;
    forall j | 0 <= j < k ensures r.nodes[j].id != r.nodes[k].id {
      assert r.nodes[j].id == v.nodes[j].id;
    }
    FindNodeIsFirst(r.nodes, k);
    assert HasNode(r.nodes, n.id) && Adj(r, n.id) == n.adjacents;
  }

  /** The view holds every trace id from `i` on, each with its trace neighbours among its adjacents. */
  predicate Merged(r: Network, trace: Trace, i: nat) {
    && (forall j :: i <= j < |trace| ==> HasNode(r.nodes, trace[j].0))
    && (forall j :: i <= j < |trace| - 1 ==> trace[j + 1].0 in Adj(r, trace[j].0))
    && (forall j :: i <= j < |trace| && 0 < j ==> trace[j - 1].0 in Adj(r, trace[j].0))
  }

  /** The nodes past the first `n` all come from the trace entries from `i` on. */
  predicate FromTrace(r: Network, n: nat, trace: Trace, i: nat)
    requires i <= |trace|
  {
    forall k :: n <= k < |r.nodes| ==> (r.nodes[k].id, r.nodes[k].kind) in trace[i..]
  }

  /** The loop of `update_network_view` from entry `i` on. */
  function MergeFrom(v: Network, trace: Trace, i: nat): (r: Network)
    requires i <= |trace|
    ensures Extends(v, r) && Merged(r, trace, i) && FromTrace(r, |v.nodes|, trace, i)
    decreases |trace| - i
  {
    if i == |trace| then v
    else
      var v1 := MergeEntry(v, trace[i].0, trace[i].1, TraceNeighbors(trace, i));
      var r := MergeFrom(v1, trace, i + 1);
      MergeStep(v, v1, r, trace, i);
      r
  }

  lemma MergeStep(v: Network, v1: Network, r: Network, trace: Trace, i: nat)
    requires i < |trace| && v1 == MergeEntry(v, trace[i].0, trace[i].1, TraceNeighbors(trace, i))
    requires Extends(v1, r) && Merged(r, trace, i + 1) && FromTrace(r, |v1.nodes|, trace, i + 1)
    ensures Extends(v, r) && Merged(r, trace, i) && FromTrace(r, |v.nodes|, trace, i)
  {
    ExtendsTrans(v, v1, r);
    MergedStep(v1, r, trace, i);
    FromTraceStep(|v.nodes|, v1, r, trace, i);
  }

  lemma MergedStep(v1: Network, r: Network, trace: Trace, i: nat)
    requires i < |trace| && Extends(v1, r) && Merged(r, trace, i + 1)
    requires HasNode(v1.nodes, trace[i].0)
    requires forall x :: x in TraceNeighbors(trace, i) ==> x in Adj(v1, trace[i].0)
    ensures Merged(r, trace, i)
  {
    HasNodeExtends(v1, r, trace[i].0);
    AdjExtends(v1, r, trace[i].0);
  }

  lemma FromTraceStep(n: nat, v1: Network, r: Network, trace: Trace, i: nat)
    requires i < |trace| && |v1.nodes| <= n + 1 && Extends(v1, r) && FromTrace(r, |v1.nodes|, trace, i + 1)
    requires |v1.nodes| > n ==> v1.nodes[n].id == trace[i].0 && v1.nodes[n].kind == trace[i].1
    ensures FromTrace(r, n, trace, i)
  {
    SliceCons(trace, i);
    forall k | n <= k < |r.nodes| ensures (r.nodes[k].id, r.nodes[k].kind) in trace[i..] {
      if k < |v1.nodes| {
        assert (r.nodes[k].id, r.nodes[k].kind) == trace[i];
      } else {
        assert (r.nodes[k].id, r.nodes[k].kind) in trace[i + 1..];
      }
    }
  }

  lemma SliceCons<T>(s: seq<T>, i: nat)
    requires i < |s|
    ensures s[i..] == [s[i]] + s[i + 1..]
  {
  }

  /** `update_network_view`. */
  function UpdateNetworkView(v: Network, trace: Trace): (r: Network)
    ensures Extends(v, r)
    ensures forall j :: 0 <= j < |trace| ==> HasNode(r.nodes, trace[j].0)
    ensures Chained(r, trace)
    ensures forall k :: |v.nodes| <= k < |r.nodes| ==> (r.nodes[k].id, r.nodes[k].kind) in trace
  {
    var r := MergeFrom(v, trace, 0);
    assert forall j :: 0 <= j < |trace| - 1 ==> trace[(j + 1) - 1] == trace[j];
    assert trace[0..] == trace;
    r
  }

  /** After the merge, the trace is a walk of the view, and so is the trace read backwards. */
  lemma TraceIsWalk(v: Network, trace: Trace)
    requires |trace| > 0
    ensures IsWalk(UpdateNetworkView(v, trace), Keys(trace))
    ensures IsWalk(UpdateNetworkView(v, trace), Reverse(Keys(trace)))
  {
    var r := UpdateNetworkView(v, trace);
    TraceWalkForward(r, trace);
    TraceWalkBackward(r, trace);
  }

  /** Consecutive trace entries are adjacent both ways. */
  predicate Chained(r: Network, trace: Trace) {
    forall j :: 0 <= j < |trace| - 1 ==> trace[j + 1].0 in Adj(r, trace[j].0) && trace[j].0 in Adj(r, trace[j + 1].0)
  }

  lemma TraceWalkForward(r: Network, trace: Trace)
    requires |trace| > 0 && Chained(r, trace)
    ensures IsWalk(r, Keys(trace))
  {
  }

  lemma TraceWalkBackward(r: Network, trace: Trace)
    requires |trace| > 0 && Chained(r, trace)
    ensures IsWalk(r, Reverse(Keys(trace)))
  {
    var w := Keys(trace);
    assert forall j :: 0 <= j < |w| - 1 ==> w[j] in Adj(r, w[j + 1]);
    ReverseWalk(r, w);
  }

  /** A sequence whose every entry is adjacent to the one before it, read backwards, is a walk. */
  lemma ReverseWalk(r: Network, w: seq<NodeId>)
    requires |w| > 0 && forall j :: 0 <= j < |w| - 1 ==> w[j] in Adj(r, w[j + 1])
    ensures IsWalk(r, Reverse(w))
  {
    var back := Reverse(w);
    forall i | 0 <= i < |back| - 1 ensures back[i + 1] in Adj(r, back[i]) {
      var j := |w| - 2 - i;
      assert back[i] == w[j + 1] && back[i + 1] == w[j];
    }
  }

  /**
   * When the trace starts at the local node, every node of the trace is
   * reachable afterwards, by a route no longer than the trace up to it.
   */
  lemma TraceReachable(v: Network, trace: Trace, j: nat)
    requires |v.nodes| > 0 && j < |trace| && trace[0].0 == v.nodes[0].id
    ensures var r := UpdateNetworkView(v, trace);
      |r.nodes| > 0 && FindPath(r, trace[j].0).Some? && |FindPath(r, trace[j].0).value| <= j + 1
  {
    var r := UpdateNetworkView(v, trace);
    var w := Keys(trace[..j + 1]);
    TraceWalkForward(r, trace[..j + 1]);
    assert r.nodes[0].id == v.nodes[0].id;
    assert w[0] == r.nodes[0].id && w[|w| - 1] == trace[j].0;
  }

  /** The trace `1, 3, 4, 2` as node 1 (a client) hears it from server 2 over drones 3 and 4. */
  const ExampleTrace: Trace := [(1, Client), (3, Drone), (4, Drone), (2, Server)]

  /** The view after the merge; each drone link appended by `add_node` repeats the existing node's own id. */
  const ExampleView: Network :=
    Network([Node(1, Client, [3, 1]), Node(3, Drone, [1, 4, 3]), Node(4, Drone, [3, 2, 4]), Node(2, Server, [4])])

  lemma ExampleMerge()
    ensures UpdateNetworkView(Network([Node(1, Client, [])]), ExampleTrace) == ExampleView
  {
    var t := ExampleTrace;
    var v0 := Network([Node(1, Client, [])]);
    var v1 := Network([Node(1, Client, [3])]);
    var v2 := Network([Node(1, Client, [3, 1]), Node(3, Drone, [1, 4])]);
    var v3 := Network([Node(1, Client, [3, 1]), Node(3, Drone, [1, 4, 3]), Node(4, Drone, [3, 2])]);
    ExampleFirstHalf();
    ExampleSecondHalf();
    assert MergeFrom(v3, t, 3) == MergeFrom(ExampleView, t, 4);
  }

  lemma ExampleFirstHalf()
    ensures MergeFrom(Network([Node(1, Client, [])]), ExampleTrace, 0) ==
      MergeFrom(Network([Node(1, Client, [3, 1]), Node(3, Drone, [1, 4])]), ExampleTrace, 2)
  {
    var t := ExampleTrace;
    var v0 := Network([Node(1, Client, [])]);
    var v1 := Network([Node(1, Client, [3])]);
    var v2 := Network([Node(1, Client, [3, 1]), Node(3, Drone, [1, 4])]);
    ExampleFirst();
    ExampleSecond();
    assert MergeFrom(v0, t, 0) == MergeFrom(v1, t, 1);
    assert MergeFrom(v1, t, 1) == MergeFrom(v2, t, 2);
  }

  lemma ExampleSecondHalf()
    ensures MergeFrom(Network([Node(1, Client, [3, 1]), Node(3, Drone, [1, 4])]), ExampleTrace, 2) ==
      MergeFrom(Network([Node(1, Client, [3, 1]), Node(3, Drone, [1, 4, 3]), Node(4, Drone, [3, 2])]), ExampleTrace, 3)
    ensures MergeFrom(Network([Node(1, Client, [3, 1]), Node(3, Drone, [1, 4, 3]), Node(4, Drone, [3, 2])]), ExampleTrace, 3) ==
      MergeFrom(ExampleView, ExampleTrace, 4)
  {
    ExampleThird();
    ExampleFourth();
  }

  lemma ExampleFirst()
    ensures TraceNeighbors(ExampleTrace, 0) == [3]
    ensures MergeEntry(Network([Node(1, Client, [])]), 1, Client, [3]) == Network([Node(1, Client, [3])])
  {
    assert FindNode([Node(1, Client, [])], 1) == Some(0);
    assert AddMissing([], [3]) == AddMissing([3], []);
  }

  lemma ExampleSecond()
    ensures TraceNeighbors(ExampleTrace, 1) == [1, 4]
    ensures MergeEntry(Network([Node(1, Client, [3])]), 3, Drone, [1, 4]) ==
      Network([Node(1, Client, [3, 1]), Node(3, Drone, [1, 4])])
  {
    var v := Network([Node(1, Client, [3])]);
    var n := Node(3, Drone, [1, 4]);
    assert !HasNode(v.nodes, 3);
    var r := AddNode(v, n);
    assert Count([4 as NodeId], 1) == 0;
    assert Count(n.adjacents, 1) == 1;
    assert Gain(v.nodes, n, 0) == 1;
    assert Repeat(1 as NodeId, 1) == [1];
    assert r.nodes[0] == Node(1, Client, [3, 1]);
    assert r.nodes == [Node(1, Client, [3, 1]), n];
  }

  lemma ExampleThird()
    ensures TraceNeighbors(ExampleTrace, 2) == [3, 2]
    ensures MergeEntry(Network([Node(1, Client, [3, 1]), Node(3, Drone, [1, 4])]), 4, Drone, [3, 2]) ==
      Network([Node(1, Client, [3, 1]), Node(3, Drone, [1, 4, 3]), Node(4, Drone, [3, 2])])
  {
    var v := Network([Node(1, Client, [3, 1]), Node(3, Drone, [1, 4])]);
    assert !HasNode(v.nodes, 4);
    ExampleThirdAdd();
  }

  lemma ExampleThirdAdd()
    ensures AddNode(Network([Node(1, Client, [3, 1]), Node(3, Drone, [1, 4])]), Node(4, Drone, [3, 2])) ==
      Network([Node(1, Client, [3, 1]), Node(3, Drone, [1, 4, 3]), Node(4, Drone, [3, 2])])
  {
    var v := Network([Node(1, Client, [3, 1]), Node(3, Drone, [1, 4])]);
    ExampleThirdGains();
    assert Repeat(3 as NodeId, 1) == [3];
    AddNodeIs(v, Node(4, Drone, [3, 2]), [Node(1, Client, [3, 1]), Node(3, Drone, [1, 4, 3]), Node(4, Drone, [3, 2])]);
  }

  lemma ExampleThirdGains()
    ensures var v := [Node(1, Client, [3, 1]), Node(3, Drone, [1, 4])];
      Gain(v, Node(4, Drone, [3, 2]), 0) == 0 && Gain(v, Node(4, Drone, [3, 2]), 1) == 1
  {
    assert Count([2 as NodeId], 1) == 0 && Count([2 as NodeId], 3) == 0;
    assert Count([3 as NodeId, 2], 1) == 0 && Count([3 as NodeId, 2], 3) == 1;
  }

  lemma ExampleFourth()
    ensures TraceNeighbors(ExampleTrace, 3) == [4]
    ensures MergeEntry(Network([Node(1, Client, [3, 1]), Node(3, Drone, [1, 4, 3]), Node(4, Drone, [3, 2])]), 2, Server, [4]) ==
      ExampleView
  {
    var v := Network([Node(1, Client, [3, 1]), Node(3, Drone, [1, 4, 3]), Node(4, Drone, [3, 2])]);
    assert !HasNode(v.nodes, 2);
    ExampleFourthAdd();
  }

  lemma ExampleFourthAdd()
    ensures AddNode(Network([Node(1, Client, [3, 1]), Node(3, Drone, [1, 4, 3]), Node(4, Drone, [3, 2])]), Node(2, Server, [4])) ==
      ExampleView
  {
    var v := Network([Node(1, Client, [3, 1]), Node(3, Drone, [1, 4, 3]), Node(4, Drone, [3, 2])]);
    ExampleFourthGains();
    assert Repeat(4 as NodeId, 1) == [4];
    AddNodeIs(v, Node(2, Server, [4]), ExampleView.nodes);
  }

  /** `add_node` gives the nodes it is expected to when each old node gains what `Gain` says. */
  lemma AddNodeIs(net: Network, n: Node, want: seq<Node>)
    requires |want| == |net.nodes| + 1 && want[|net.nodes|] == n
    requires forall i :: 0 <= i < |net.nodes| ==>
      want[i] == Node(net.nodes[i].id, net.nodes[i].kind, net.nodes[i].adjacents + Repeat(net.nodes[i].id, Gain(net.nodes, n, i)))
    ensures AddNode(net, n) == Network(want)
  {
    assert AddNode(net, n).nodes == want;
  }

  lemma ExampleFourthGains()
    ensures var v := [Node(1, Client, [3, 1]), Node(3, Drone, [1, 4, 3]), Node(4, Drone, [3, 2])];
      Gain(v, Node(2, Server, [4]), 0) == 0 && Gain(v, Node(2, Server, [4]), 1) == 0 && Gain(v, Node(2, Server, [4]), 2) == 1
  {
    assert Count([4 as NodeId], 1) == 0 && Count([4 as NodeId], 3) == 0 && Count([4 as NodeId], 4) == 1;
  }

  lemma ExampleAdj()
    ensures Adj(ExampleView, 1) == [3, 1] && Adj(ExampleView, 3) == [1, 4, 3] && Adj(ExampleView, 4) == [3, 2, 4]
  {
    assert FindNode(ExampleView.nodes, 3) == Some(1);
    assert FindNode(ExampleView.nodes, 4) == Some(2);
  }

  /** Then the fewest-hop route from node 1 to server 2 is exactly the trace. */
  lemma ExampleRoute()
    ensures FindPath(UpdateNetworkView(Network([Node(1, Client, [])]), ExampleTrace), 2) == Some([1, 3, 4, 2])
  {
    ExampleMerge();
    ExampleViewRoute();
  }

  lemma ExampleViewReaches()
    ensures FindPath(ExampleView, 2).Some? && |FindPath(ExampleView, 2).value| <= 4
  {
    ExampleMerge();
    TraceReachable(Network([Node(1, Client, [])]), ExampleTrace, 3);
  }

  lemma ExampleViewRoute()
    ensures FindPath(ExampleView, 2) == Some([1, 3, 4, 2])
  {
    ExampleViewReaches();
    ExampleOnlyRoute(FindPath(ExampleView, 2).value);
  }

  lemma ExampleOnlyRoute(p: seq<NodeId>)
    requires |p| <= 4 && IsWalk(ExampleView, p) && p[0] == 1 && p[|p| - 1] == 2 && NoDup(p)
    ensures p == [1, 3, 4, 2]
  {
    ExampleAdj();
    assert p[1] in Adj(ExampleView, p[0]);
    assert p[1] == 3;
    assert p[2] in Adj(ExampleView, p[1]);
    assert p[2] == 4;
  }
}

=== FILE: web_browser_app.dfy ===
/**
 * The web browser of client/src/web_browser.rs: it learns which text
 * servers exist and what files they list, fetches text files and the media
 * they reference, assembles complete files in its cache, and answers the
 * controller's queries about that cache.
 *
 * `HashMap`s are association lists (module `Assoc`). JSON and uuid text are
 * the `Json` and `UuidText` arguments; JSON encoding of a `WebRequest`
 * cannot fail, so the serialization-error branches are absent. Requests are
 * recorded in `outbox` rather than routed. Events reach the controller only
 * when `controllerUp`; a failed send is what `try_send` reports as "stop".
 */
module WebBrowserApp {

  import opened Wrappers
  import opened Seqs
  import opened Packets
  import opened Topology
  import opened Routing
  import opened Assoc
  import opened AppCommon
  import opened ValueTypes

  /**
   * The `WebEvent` variants the browser emits (common/src/types.rs): `File`,
   * `TextFile` and `MediaFile` are `FileReady`, `TextFileFound` and
   * `MediaFound` here, apart from the value types of the same names.
   */
  datatype WebEvent =
    | CachedFiles(files: seq<File>)
    | FileReady(file: File)
    | TextFiles(textFiles: seq<TextFile>)
    | TextFileFound(textFile: TextFile)
    | MediaFiles(mediaFiles: seq<MediaFile>)
    | MediaFound(media: MediaFile)
    | FileNotFound(missing: Uuid)

  /** The two `ClientError`s `forward_request` can return. */
  datatype ForwardError = NoLocationError | UuidParseError

  datatype WebBrowser = WebBrowser(
    id: NodeId,
    router: Handler,
    textServers: seq<(NodeId, seq<string>)>,
    cache: seq<(TextFile, seq<MediaFile>)>,
    pending: Option<WebRequest>,
    // a clone of the controller channel the router holds: the same flag as router.controllerUp
    controllerUp: bool,
    outbox: seq<Outgoing<WebRequest>>,
    events: seq<WebEvent>)

  /** Both maps hold each key once. */
  predicate Valid(b: WebBrowser) {
    Unique(b.textServers) && Unique(b.cache)
  }

  /** `WebBrowser::new`: no servers known, nothing cached, nothing pending. */
  function NewWebBrowser(id: NodeId, router: Handler): (b: WebBrowser)
    ensures Valid(b) && b.textServers == [] && b.cache == [] && b.pending.None?
    ensures b.outbox == [] && b.events == []
    ensures b.controllerUp == b.router.controllerUp
  {
    WebBrowser(id, router, [], [], None, router.controllerUp, [], [])
  }

  function Notify(b: WebBrowser, e: WebEvent): WebBrowser {
    if b.controllerUp then b.(events := b.events + [e]) else b
  }

  function Send(b: WebBrowser, to: NodeId, req: WebRequest, session: Option<nat>): WebBrowser {
    b.(outbox := b.outbox + [Outgoing(to, req, session)])
  }

  // ------------------------------------------------------------ text servers

  /** `set_files_list`: a server's list is stored only if the server has no entry yet. */
  function SetFilesList(servers: seq<(NodeId, seq<string>)>, from: NodeId, list: seq<string>)
    : (r: seq<(NodeId, seq<string>)>)
    ensures ToMap(r) == if from in ToMap(servers) then ToMap(servers) else ToMap(servers)[from := list]
  {
    GetIsLookup(servers, from);
    if from in Keys(servers) then servers
    else
      PutIsInsert(servers, from, list);
      Put(servers, from, list)
  }

  /** `locate_file`: a server whose file list holds the uuid's text, the first such; none when no list does. */
  function LocateFile(servers: seq<(NodeId, seq<string>)>, t: UuidText, u: Uuid): (r: Option<NodeId>)
    ensures r.None? <==> forall i :: 0 <= i < |servers| ==> t.show(u) !in servers[i].1
    ensures r.Some? ==> exists i :: 0 <= i < |servers| && servers[i].0 == r.value && t.show(u) in servers[i].1
  {
    FirstHolder(servers, t.show(u))
  }

  /**
   * `forward_request`: a request without a file id succeeds without being
   * sent; an id that does not parse is `UuidParseError`; a parsed id that
   * no known server lists is `NoLocationError`; otherwise the request goes,
   * with no session, to a server that lists it.
   */
  function ForwardRequest(b: WebBrowser, t: UuidText, req: WebRequest): (r: (WebBrowser, Result<(), ForwardError>))
    ensures r.0 == b.(outbox := r.0.outbox)
    ensures r.1.Err? ==> r.0 == b
    ensures GetFileId(req).None? ==> r == (b, Ok(()))
    ensures GetFileId(req).Some? && t.parse(GetFileId(req).value).None? ==> r.1 == Err(UuidParseError)
    ensures GetFileId(req).Some? && t.parse(GetFileId(req).value).Some? ==>
      var u := t.parse(GetFileId(req).value).value;
      && (r.1 == Err(NoLocationError) <==> forall i :: 0 <= i < |b.textServers| ==> t.show(u) !in b.textServers[i].1)
      && (r.1.Ok? ==>
        && |r.0.outbox| == |b.outbox| + 1 && r.0.outbox[..|b.outbox|] == b.outbox
        && var sent := r.0.outbox[|b.outbox|];
          sent.payload == req && sent.session.None?
          && exists i :: 0 <= i < |b.textServers| && b.textServers[i].0 == sent.to && t.show(u) in b.textServers[i].1)
  {
    match GetFileId(req)
      case None => (b, Ok(()))
      case Some(text) =>
        match t.parse(text)
          case None => (b, Err(UuidParseError))
          case Some(u) =>
            match LocateFile(b.textServers, t, u)
              case None => (b, Err(NoLocationError))
              case Some(location) => (Send(b, location, req, None), Ok(()))
  }

  /**
   * With unique keys, a forwarded query reaches a server whose recorded
   * list, read as a map, holds the requested id's text.
   */
  lemma ForwardReachesHolder(b: WebBrowser, t: UuidText, u: Uuid)
    requires Valid(b) && ParsesOwnText(t)
    ensures var r := ForwardRequest(b, t, FileQuery(t.show(u)));
      r.1.Ok? ==>
        var to := r.0.outbox[|b.outbox|].to;
        to in ToMap(b.textServers) && t.show(u) in ToMap(b.textServers)[to]
  {
    var r := ForwardRequest(b, t, FileQuery(t.show(u)));
    assert t.parse(t.show(u)) == Some(u);
    if r.1.Ok? {
      var to := r.0.outbox[|b.outbox|].to;
      var i :| 0 <= i < |b.textServers| && b.textServers[i].0 == to && t.show(u) in b.textServers[i].1;
      UniqueEntryIsMapping(b.textServers, i);
    }
  }

  // ------------------------------------------------------------------ cache

  /** The position of the first cached text file with id `u`. */
  function FindTextFile(cache: seq<(TextFile, seq<MediaFile>)>, u: Uuid): (r: Option<nat>)
    ensures r.None? <==> forall i :: 0 <= i < |cache| ==> cache[i].0.id != u
    ensures r.Some? ==>
      && r.value < |cache| && cache[r.value].0.id == u
      && forall j :: 0 <= j < r.value ==> cache[j].0.id != u
    decreases |cache|
  {
    if cache == [] then None
    else if cache[0].0.id == u then Some(0)
    else
      match FindTextFile(cache[1..], u)
        case None => None
        case Some(k) => Some(k + 1)
  }

  /** `get_file`: the cached text file with id `u` together with its media. */
  function CachedFile(cache: seq<(TextFile, seq<MediaFile>)>, u: Uuid): (r: Option<File>)
    ensures r.None? <==> forall i :: 0 <= i < |cache| ==> cache[i].0.id != u
    ensures r.Some? ==> r.value.id == u && exists i :: 0 <= i < |cache| && r.value == NewFile(cache[i].0, cache[i].1)
  {
    match FindTextFile(cache, u)
      case None => None
      case Some(i) => Some(NewFile(cache[i].0, cache[i].1))
  }

  /** `get_files`: every cached text file with its media, in cache order. */
  function AllFiles(cache: seq<(TextFile, seq<MediaFile>)>): (r: seq<File>)
    ensures |r| == |cache|
    ensures forall i :: 0 <= i < |r| ==> r[i] == NewFile(cache[i].0, cache[i].1)
  {
    if cache == [] then [] else [NewFile(cache[0].0, cache[0].1)] + AllFiles(cache[1..])
  }

  /** `get_text_file_by_media_id`: the first cached text file that references `id`. */
  function ReferencingFile(cache: seq<(TextFile, seq<MediaFile>)>, id: Uuid): (r: Option<TextFile>)
    ensures r.None? <==> forall i :: 0 <= i < |cache| ==> id !in GetMediaIds(cache[i].0)
    ensures r.Some? ==> id in GetMediaIds(r.value) && r.value in Keys(cache)
    decreases |cache|
  {
    if cache == [] then None
    else if id in GetMediaIds(cache[0].0) then Some(cache[0].0)
    else
      var r := ReferencingFile(cache[1..], id);
      assert forall i :: 1 <= i < |cache| ==> cache[i] == cache[1..][i - 1];
      assert Keys(cache) == [cache[0].0] + Keys(cache[1..]);
      r
  }

  /** The media file with id `id` in a list, the first such. */
  function FindMedia(v: seq<MediaFile>, id: Uuid): (r: Option<MediaFile>)
    ensures r.None? <==> forall j :: 0 <= j < |v| ==> v[j].id != id
    ensures r.Some? ==> r.value.id == id && r.value in v
    decreases |v|
  {
    if v == [] then None
    else if v[0].id == id then Some(v[0])
    else
      var r := FindMedia(v[1..], id);
      assert forall j :: 1 <= j < |v| ==> v[j] == v[1..][j - 1];
      r
  }

  /** The loop of `handle_get_media_file`: the first cached media file with id `id`, searching the lists in order. */
  function CachedMedia(cache: seq<(TextFile, seq<MediaFile>)>, id: Uuid): (r: Option<MediaFile>)
    ensures r.None? <==> forall i, j :: 0 <= i < |cache| && 0 <= j < |cache[i].1| ==> cache[i].1[j].id != id
    ensures r.Some? ==> r.value.id == id && exists i :: 0 <= i < |cache| && r.value in cache[i].1
    decreases |cache|
  {
    if cache == [] then None
    else
      match FindMedia(cache[0].1, id)
        case Some(m) => Some(m)
        case None =>
          var r := CachedMedia(cache[1..], id);
          assert forall i :: 1 <= i < |cache| ==> cache[i] == cache[1..][i - 1];
          r
  }

  /** One media query per reference, to the reference's location, with the session of the text file's reply. */
  function MediaQueries(t: UuidText, refs: seq<MediaReference>, session: nat): (r: seq<Outgoing<WebRequest>>)
    ensures |r| == |refs|
    ensures forall i :: 0 <= i < |r| ==> r[i] == Outgoing(refs[i].location, MediaQuery(t.show(refs[i].id)), Some(session))
  {
    if refs == [] then []
    else [Outgoing(refs[0].location, MediaQuery(t.show(refs[0].id)), Some(session))] + MediaQueries(t, refs[1..], session)
  }

  /**
   * `manage_text_file`: each reference is fetched from its location; a
   * file without references is complete at once and is reported as such;
   * the file enters the cache with no media, replacing any media an earlier
   * copy had gathered.
   */
  function ManageTextFile(b: WebBrowser, t: UuidText, f: TextFile, session: nat): (r: WebBrowser)
    ensures r == b.(cache := r.cache, outbox := r.outbox, events := r.events)
    ensures ToMap(r.cache) == ToMap(b.cache)[f := []]
    ensures r.outbox == b.outbox + MediaQueries(t, f.mediaRefs, session)
    ensures r.events == b.events + (if f.mediaRefs == [] && b.controllerUp then [FileReady(NewFile(f, []))] else [])
  {
    PutIsInsert(b.cache, f, []);
    var sent := b.(outbox := b.outbox + MediaQueries(t, f.mediaRefs, session));
    var told := if f.mediaRefs == [] then Notify(sent, FileReady(NewFile(f, []))) else sent;
    told.(cache := Put(b.cache, f, []))
  }

  /**
   * `manage_media_file`: a media file that no cached text file references
   * is reported on its own. Otherwise it is appended to the media of the
   * first text file that references it, and when that file now has as many
   * media files as references, the complete file is reported.
   */
  function ManageMediaFile(b: WebBrowser, m: MediaFile): (r: WebBrowser)
    ensures r == b.(cache := r.cache, events := r.events)
    ensures ReferencingFile(b.cache, m.id).None? ==> r == Notify(b, MediaFound(m))
    ensures ReferencingFile(b.cache, m.id).Some? ==>
      var f := ReferencingFile(b.cache, m.id).value;
      && f in ToMap(b.cache)
      && var v := ToMap(b.cache)[f] + [m];
      && ToMap(r.cache) == ToMap(b.cache)[f := v]
      && r.events == b.events +
        (if b.controllerUp && |f.mediaRefs| == |v| then [FileReady(NewFile(f, v))] else [])
  {
    match ReferencingFile(b.cache, m.id)
      case None => Notify(b, MediaFound(m))
      case Some(f) =>
        GetIsLookup(b.cache, f);
        match Get(b.cache, f)
          case None => b
          case Some(v0) =>
            var v := v0 + [m];
            PutIsInsert(b.cache, f, v);
            var stored := b.(cache := Put(b.cache, f, v));
            if |GetMediaIds(f)| == |v| then Notify(stored, FileReady(NewFile(f, v))) else stored
  }

  /** The only cached text file referencing `id` is the one `get_text_file_by_media_id` finds. */
  lemma OnlyReferrerFound(cache: seq<(TextFile, seq<MediaFile>)>, f: TextFile, id: Uuid)
    requires id in GetMediaIds(f) && f in Keys(cache)
    requires forall i :: 0 <= i < |cache| && cache[i].0 != f ==> id !in GetMediaIds(cache[i].0)
    ensures ReferencingFile(cache, id) == Some(f)
  {
    var k :| 0 <= k < |cache| && cache[k].0 == f;
    var g := ReferencingFile(cache, id).value;
    var i :| 0 <= i < |cache| && cache[i].0 == g;
  }

  /**
   * A text file with one reference is completed by the media file it
   * references, provided no other cached text file references it: the
   * controller gets the file with exactly that media.
   */
  lemma TextThenMediaCompletes(b: WebBrowser, t: UuidText, f: TextFile, m: MediaFile, session: nat)
    requires |f.mediaRefs| == 1 && f.mediaRefs[0].id == m.id && b.controllerUp
    requires forall i :: 0 <= i < |b.cache| && b.cache[i].0 != f ==> m.id !in GetMediaIds(b.cache[i].0)
    ensures var b1 := ManageTextFile(b, t, f, session);
      var r := ManageMediaFile(b1, m);
      r.events == b1.events + [FileReady(NewFile(f, [m]))] && f in ToMap(r.cache) && ToMap(r.cache)[f] == [m]
  {
    var b1 := ManageTextFile(b, t, f, session);
    assert m.id in GetMediaIds(f) by {
      assert GetMediaIds(f)[0] == m.id;
    }
    StillOnlyReferrer(b.cache, b1.cache, f, m.id);
    OnlyReferrerFound(b1.cache, f, m.id);
    FirstMediaCompletes(b1, f, m);
  }

  /** Caching `f` afresh keeps it the only cached text file that references `id`. */
  lemma StillOnlyReferrer(cache: seq<(TextFile, seq<MediaFile>)>, c: seq<(TextFile, seq<MediaFile>)>, f: TextFile, id: Uuid)
    requires forall i :: 0 <= i < |cache| && cache[i].0 != f ==> id !in GetMediaIds(cache[i].0)
    requires ToMap(c) == ToMap(cache)[f := []]
    ensures f in Keys(c)
    ensures forall i :: 0 <= i < |c| && c[i].0 != f ==> id !in GetMediaIds(c[i].0)
  {
    GetIsLookup(c, f);
    forall i | 0 <= i < |c| && c[i].0 != f
      ensures id !in GetMediaIds(c[i].0)
    {
      var g := c[i].0;
      assert Keys(c)[i] == g;
      GetIsLookup(c, g);
      GetIsLookup(cache, g);
      var k :| 0 <= k < |cache| && Keys(cache)[k] == g;
    }
  }

  /** The first media file of a one-reference text file that holds none yet completes it. */
  lemma FirstMediaCompletes(b: WebBrowser, f: TextFile, m: MediaFile)
    requires ReferencingFile(b.cache, m.id) == Some(f) && b.controllerUp && |f.mediaRefs| == 1
    requires f in ToMap(b.cache) && ToMap(b.cache)[f] == []
    ensures var r := ManageMediaFile(b, m);
      r.events == b.events + [FileReady(NewFile(f, [m]))] && f in ToMap(r.cache) && ToMap(r.cache)[f] == [m]
  {
    assert ToMap(b.cache)[f] + [m] == [m];
  }

  /** A text file that references nothing is reported complete as soon as it arrives. */
  lemma TextWithoutMediaIsReady(b: WebBrowser, t: UuidText, f: TextFile, session: nat)
    requires f.mediaRefs == [] && b.controllerUp
    ensures var r := ManageTextFile(b, t, f, session);
      r.outbox == b.outbox && r.events == b.events + [FileReady(NewFile(f, []))]
  {
  }

  // ------------------------------------------------------------- commands

  /** `broadcast`: a server-type query to every server the routing handler knows of. */
  function Broadcast(b: WebBrowser): (r: WebBrowser)
    ensures r == b.(outbox := r.outbox)
    ensures GetServers(b.router.view).None? ==> r == b
    ensures GetServers(b.router.view).Some? ==>
      var servers := GetServers(b.router.view).value;
      && |r.outbox| == |b.outbox| + |servers|
      && r.outbox[..|b.outbox|] == b.outbox
      && forall i :: 0 <= i < |servers| ==> r.outbox[|b.outbox| + i] == Outgoing(servers[i], ServerTypeQuery, None)
  {
    match GetServers(b.router.view)
      case None => b
      case Some(servers) => b.(outbox := b.outbox + TypeQueries(servers))
  }

  function TypeQueries(servers: seq<NodeId>): (r: seq<Outgoing<WebRequest>>)
    ensures |r| == |servers|
    ensures forall i :: 0 <= i < |r| ==> r[i] == Outgoing(servers[i], ServerTypeQuery, None)
  {
    if servers == [] then [] else [Outgoing(servers[0], ServerTypeQuery, None)] + TypeQueries(servers[1..])
  }

  /**
   * The fallback of `handle_get_file` and `handle_get_text_file` for an id
   * that is not cached: forward a file query; when no server lists the id,
   * broadcast a server-type query and keep the query pending. A parse
   * failure is only logged. Never stops.
   */
  function FetchUncached(b: WebBrowser, t: UuidText, u: Uuid): (r: WebBrowser)
    ensures var (fwd, res) := ForwardRequest(b, t, FileQuery(t.show(u)));
      r == if res == Err(NoLocationError) then Broadcast(fwd).(pending := Some(FileQuery(t.show(u)))) else fwd
  {
    var req := FileQuery(t.show(u));
    var (fwd, res) := ForwardRequest(b, t, req);
    if res == Err(NoLocationError) then Broadcast(fwd).(pending := Some(req)) else fwd
  }

  /**
   * With a parser that reads back uuid text, a file no server lists is
   * queued and every known server is asked for its type; a file some
   * server lists is requested from such a server and nothing is queued.
   */
  lemma FetchUncachedQueuesOrSends(b: WebBrowser, t: UuidText, u: Uuid)
    requires ParsesOwnText(t)
    ensures var r := FetchUncached(b, t, u);
      && r.cache == b.cache && r.textServers == b.textServers && r.events == b.events
      && (LocateFile(b.textServers, t, u).None? ==>
            r == Broadcast(b).(pending := Some(FileQuery(t.show(u)))))
      && (LocateFile(b.textServers, t, u).Some? ==>
            && r.pending == b.pending
            && r.outbox == b.outbox + [Outgoing(LocateFile(b.textServers, t, u).value, FileQuery(t.show(u)), None)])
  {
    assert t.parse(t.show(u)) == Some(u);
  }

  /**
   * `handle_get_file`: a cached file is reported, and the answer is whether
   * the report failed; otherwise the file is fetched and the browser keeps
   * running.
   */
  function HandleGetFile(b: WebBrowser, t: UuidText, u: Uuid): (r: (WebBrowser, bool))
    ensures CachedFile(b.cache, u).Some? ==>
      r == (Notify(b, FileReady(CachedFile(b.cache, u).value)), !b.controllerUp)
    ensures CachedFile(b.cache, u).None? ==> r == (FetchUncached(b, t, u), false)
  {
    match CachedFile(b.cache, u)
      case Some(file) => (Notify(b, FileReady(file)), !b.controllerUp)
      case None => (FetchUncached(b, t, u), false)
  }

  /** `handle_get_text_file`: as `handle_get_file`, reporting only the text file. */
  function HandleGetTextFile(b: WebBrowser, t: UuidText, u: Uuid): (r: (WebBrowser, bool))
    ensures FindTextFile(b.cache, u).Some? ==>
      var tf := b.cache[FindTextFile(b.cache, u).value].0;
      tf.id == u && r == (Notify(b, TextFileFound(tf)), !b.controllerUp)
    ensures FindTextFile(b.cache, u).None? ==> r == (FetchUncached(b, t, u), false)
  {
    match FindTextFile(b.cache, u)
      case Some(i) => (Notify(b, TextFileFound(b.cache[i].0)), !b.controllerUp)
      case None => (FetchUncached(b, t, u), false)
  }

  /** `handle_get_media_files`: every cached media file once, whichever text file holds it. */
  function HandleGetMediaFiles(b: WebBrowser): (r: (WebBrowser, bool))
    ensures r.1 <==> !b.controllerUp
    ensures b.controllerUp ==>
      && |r.0.events| == |b.events| + 1 && r.0.events[..|b.events|] == b.events
      && var all := r.0.events[|b.events|];
      && all.MediaFiles? && NoDup(all.mediaFiles)
      && forall m :: m in all.mediaFiles <==> exists i :: 0 <= i < |b.cache| && m in b.cache[i].1
    ensures r.0 == b.(events := r.0.events)
  {
    var all := Distinct(Flatten(Values(b.cache)));
    forall m ensures m in all <==> exists i :: 0 <= i < |b.cache| && m in b.cache[i].1 {
      InFlatten(Values(b.cache), m);
      assert m in all <==> m in Elems(Flatten(Values(b.cache)));
    }
    (Notify(b, MediaFiles(all)), !b.controllerUp)
  }

  /**
   * `handle_get_media_file`: a cached media file is reported; otherwise the
   * media is asked of the given location, with no session, and the browser
   * keeps running.
   */
  function HandleGetMediaFile(b: WebBrowser, t: UuidText, id: Uuid, location: NodeId): (r: (WebBrowser, bool))
    ensures CachedMedia(b.cache, id).Some? ==>
      r == (Notify(b, MediaFound(CachedMedia(b.cache, id).value)), !b.controllerUp)
    ensures CachedMedia(b.cache, id).None? ==>
      r == (b.(outbox := b.outbox + [Outgoing(location, MediaQuery(t.show(id)), None)]), false)
  {
    match CachedMedia(b.cache, id)
      case Some(m) => (Notify(b, MediaFound(m)), !b.controllerUp)
      case None => (Send(b, location, MediaQuery(t.show(id)), None), false)
  }

  datatype Command = WebCmd(web: WebCommand) | NodeCmd(node: NodeCommand) | OtherCmd

  datatype Handled = Handled(b: WebBrowser, stop: bool) | Panicked

  /**
   * `handle_command`: the six queries above; the add and remove commands
   * reach `todo!()` and panic; node commands act on the routing handler and
   * only `Shutdown` stops; any other command is ignored.
   */
  function HandleCommand(b: WebBrowser, t: UuidText, cmd: Command): (r: Handled)
    ensures r.Panicked? <==> (cmd.WebCmd? &&
      (cmd.web.AddTextFile? || cmd.web.AddTextFileFromPath? || cmd.web.AddMediaFile? ||
       cmd.web.AddMediaFileFromPath? || cmd.web.RemoveTextFile? || cmd.web.RemoveMediaFile?))
    ensures r.Handled? ==> r.b.cache == b.cache && r.b.textServers == b.textServers
    ensures cmd == WebCmd(GetCachedFiles) ==> r == Handled(Notify(b, CachedFiles(AllFiles(b.cache))), !b.controllerUp)
    ensures cmd == WebCmd(GetTextFiles) ==> r == Handled(Notify(b, TextFiles(Keys(b.cache))), !b.controllerUp)
    ensures cmd.WebCmd? && cmd.web.GetFile? ==> r == Handled(HandleGetFile(b, t, cmd.web.fileId).0, HandleGetFile(b, t, cmd.web.fileId).1)
    ensures cmd.NodeCmd? ==> r == Handled(b.(router := ApplyNodeCommand(b.router, cmd.node).0), cmd.node.Shutdown?)
    ensures cmd == OtherCmd ==> r == Handled(b, false)
  {
    match cmd
      case WebCmd(w) => (
        match w
          case GetCachedFiles => Handled(Notify(b, CachedFiles(AllFiles(b.cache))), !b.controllerUp)
          case GetFile(u) =>
            var (nb, stop) := HandleGetFile(b, t, u);
            Handled(nb, stop)
          case GetTextFiles => Handled(Notify(b, TextFiles(Keys(b.cache))), !b.controllerUp)
          case GetTextFile(u) =>
            var (nb, stop) := HandleGetTextFile(b, t, u);
            Handled(nb, stop)
          case GetMediaFiles =>
            var (nb, stop) := HandleGetMediaFiles(b);
            Handled(nb, stop)
          case GetMediaFile(id, location) =>
            var (nb, stop) := HandleGetMediaFile(b, t, id, location);
            Handled(nb, stop)
          case _ => Panicked)
      case NodeCmd(n) =>
        var (h, stop) := ApplyNodeCommand(b.router, n);
        Handled(b.(router := h), stop)
      case OtherCmd => Handled(b, false)
  }

  /**
   * With the controller gone, each of the five queries on a cached file
   * asks the browser to stop, and none panics.
   */
  lemma QueriesStopWithoutController(b: WebBrowser, t: UuidText, f: TextFile)
    requires !b.controllerUp && b.cache == [(f, [])]
    ensures forall w :: w in [GetCachedFiles, GetFile(f.id), GetTextFiles, GetTextFile(f.id), GetMediaFiles] ==>
      HandleCommand(b, t, WebCmd(w)) == Handled(b, true)
  {
    assert CachedFile(b.cache, f.id).Some?;
    assert FindTextFile(b.cache, f.id).Some?;
  }

  // -------------------------------------------------------------- messages

  /** Retries the request taken out of `pending` after a new file list: kept only if still without a location. */
  function RetryPending(b: WebBrowser, t: UuidText): (r: WebBrowser)
    ensures b.pending.None? ==> r == b
    ensures b.pending.Some? ==>
      var (fwd, res) := ForwardRequest(b.(pending := None), t, b.pending.value);
      r == if res == Err(NoLocationError) then fwd.(pending := b.pending) else fwd
  {
    match b.pending
      case None => b
      case Some(req) =>
        var (fwd, res) := ForwardRequest(b.(pending := None), t, req);
        if res == Err(NoLocationError) then fwd.(pending := Some(req)) else fwd
  }

  /**
   * `handle_msg`: a text server's server-type reply gives it an empty file
   * list (replacing any it had) and sends nothing, since the follow-up
   * list query carries no file id; a file list is stored for a server not
   * yet known and then the pending request is retried; text and media
   * files are decoded and managed; a missing file is reported. Anything
   * that does not decode, including the media server's `BadUuid`, which
   * the browser's enum lacks, is ignored.
   */
  function HandleMsg(b: WebBrowser, t: UuidText, j: Json, msg: Option<WebResponse>, from: NodeId, session: nat)
    : (r: WebBrowser)
    ensures r.id == b.id && r.router == b.router && r.controllerUp == b.controllerUp
    ensures msg == Some(ServerTypeReply(TextServer)) ==>
      r == b.(textServers := r.textServers) && ToMap(r.textServers) == ToMap(b.textServers)[from := []]
    ensures msg.Some? && msg.value.TextFilesList? ==>
      ToMap(r.textServers) ==
        (if from in ToMap(b.textServers) then ToMap(b.textServers) else ToMap(b.textServers)[from := msg.value.files])
      && r.cache == b.cache && r.events == b.events
    ensures msg.Some? && msg.value.TextFileData? && j.decodeText(msg.value.fileData).Some? ==>
      r == ManageTextFile(b, t, j.decodeText(msg.value.fileData).value, session)
    ensures msg.Some? && msg.value.MediaFileData? && j.decodeMedia(msg.value.mediaData).Some? ==>
      r == ManageMediaFile(b, j.decodeMedia(msg.value.mediaData).value)
    ensures msg.Some? && msg.value.ErrorFileNotFound? ==> r == Notify(b, FileNotFound(msg.value.missing))
    ensures msg.None? || (msg.Some? && msg.value.BadUuid?) ==> r == b
    ensures !(msg.Some? && msg.value.TextFilesList?) ==> r.pending == b.pending
  {
    match msg
      case None => b
      case Some(ServerTypeReply(kind)) =>
        if kind == TextServer then
          PutIsInsert(b.textServers, from, []);
          ForwardRequest(b.(textServers := Put(b.textServers, from, [])), t, TextFilesListQuery).0
        else b
      case Some(TextFilesList(files)) =>
        RetryPending(b.(textServers := SetFilesList(b.textServers, from, files)), t)
      case Some(TextFileData(data)) => (
        match j.decodeText(data)
          case Some(f) => ManageTextFile(b, t, f, session)
          case None => b)
      case Some(MediaFileData(data)) => (
        match j.decodeMedia(data)
          case Some(m) => ManageMediaFile(b, m)
          case None => b)
      case Some(ErrorFileNotFound(u)) => Notify(b, FileNotFound(u))
      case Some(BadUuid(_)) => b
  }

  lemma ManageTextKeepsValid(b: WebBrowser, t: UuidText, f: TextFile, session: nat)
    requires Valid(b)
    ensures Valid(ManageTextFile(b, t, f, session))
  {
    assert ManageTextFile(b, t, f, session).cache == Put(b.cache, f, []);
    UpdatesKeepUnique(b.cache, f, []);
  }

  lemma ManageMediaKeepsValid(b: WebBrowser, m: MediaFile)
    requires Valid(b)
    ensures Valid(ManageMediaFile(b, m))
  {
    var f := ReferencingFile(b.cache, m.id);
    if f.Some? {
      var v := Get(b.cache, f.value);
      if v.Some? {
        assert ManageMediaFile(b, m).cache == Put(b.cache, f.value, v.value + [m]);
        UpdatesKeepUnique(b.cache, f.value, v.value + [m]);
      }
    }
  }

  lemma ListKeepsValid(b: WebBrowser, t: UuidText, from: NodeId, files: seq<string>)
    requires Valid(b)
    ensures Valid(RetryPending(b.(textServers := SetFilesList(b.textServers, from, files)), t))
  {
    UpdatesKeepUnique(b.textServers, from, files);
  }

  /** Handling a message keeps both maps' keys unique. */
  lemma HandleMsgKeepsValid(b: WebBrowser, t: UuidText, j: Json, msg: Option<WebResponse>, from: NodeId, session: nat)
    requires Valid(b)
    ensures Valid(HandleMsg(b, t, j, msg, from, session))
  {
    var r := HandleMsg(b, t, j, msg, from, session);
    match msg
      case Some(ServerTypeReply(_)) =>
        UpdatesKeepUnique(b.textServers, from, []);
      case Some(TextFilesList(files)) =>
        ListKeepsValid(b, t, from, files);
      case Some(TextFileData(data)) =>
        if j.decodeText(data).Some? {
          var f := j.decodeText(data).value;
          ManageTextKeepsValid(b, t, f, session);
          assert r == ManageTextFile(b, t, f, session);
        }
      case Some(MediaFileData(data)) =>
        if j.decodeMedia(data).Some? {
          var m := j.decodeMedia(data).value;
          ManageMediaKeepsValid(b, m);
          assert r == ManageMediaFile(b, m);
        }
      case _ =>
  }

  /**
   * A text server that announces itself is never asked for its files, and
   * a list it sends anyway is dropped: the announcement stores an empty
   * list, and a server that already has a list keeps it.
   */
  lemma AnnouncedServerListIgnored(b: WebBrowser, t: UuidText, j: Json, from: NodeId, files: seq<string>, s1: nat, s2: nat)
    ensures var once := HandleMsg(b, t, j, Some(ServerTypeReply(TextServer)), from, s1);
      var r := HandleMsg(once, t, j, Some(TextFilesList(files)), from, s2);
      once.outbox == b.outbox && from in ToMap(r.textServers) && ToMap(r.textServers)[from] == []
  {
  }

  /** A file list from a server not yet known is stored as sent. */
  lemma ListFromUnknownServerStored(b: WebBrowser, t: UuidText, j: Json, from: NodeId, files: seq<string>, session: nat)
    requires from !in Keys(b.textServers)
    ensures Get(HandleMsg(b, t, j, Some(TextFilesList(files)), from, session).textServers, from) == Some(files)
  {
    GetIsLookup(b.textServers, from);
    GetIsLookup(HandleMsg(b, t, j, Some(TextFilesList(files)), from, session).textServers, from);
  }

  /**
   * A pending file query is sent once a new server lists the file, and is
   * then no longer pending; it stays pending while no list holds the file.
   */
  lemma PendingSentWhenListed(b: WebBrowser, t: UuidText, j: Json, u: Uuid, from: NodeId, files: seq<string>, session: nat)
    requires ParsesOwnText(t) && b.pending == Some(FileQuery(t.show(u)))
    requires from !in Keys(b.textServers)
    ensures var r := HandleMsg(b, t, j, Some(TextFilesList(files)), from, session);
      && (t.show(u) in files ==>
            r.pending.None? && |r.outbox| == |b.outbox| + 1 && r.outbox[|b.outbox|].payload == FileQuery(t.show(u)))
      && ((forall i :: 0 <= i < |b.textServers| ==> t.show(u) !in b.textServers[i].1) && t.show(u) !in files ==>
            r.pending == b.pending && r.outbox == b.outbox)
  {
    assert t.parse(t.show(u)) == Some(u);
    var servers := SetFilesList(b.textServers, from, files);
    assert servers == b.textServers + [(from, files)];
    assert servers[|b.textServers|] == (from, files);
  }
  /**
   * `handle_msg` as evidently intended for text servers: the announcement
   * records the server and sends it the file-list query, and the list it
   * sends back replaces the empty placeholder before the pending request is
   * retried. Every other message is handled as written.
   */
  function HandleMsgCorrected(b: WebBrowser, t: UuidText, j: Json, msg: Option<WebResponse>, from: NodeId, session: nat)
    : (r: WebBrowser)
    ensures r.id == b.id && r.router == b.router && r.controllerUp == b.controllerUp
    ensures msg == Some(ServerTypeReply(TextServer)) ==>
      && ToMap(r.textServers) == ToMap(b.textServers)[from := []]
      && r.outbox == b.outbox + [Outgoing(from, TextFilesListQuery, None)]
      && r.cache == b.cache && r.events == b.events && r.pending == b.pending
    ensures msg.Some? && msg.value.TextFilesList? ==>
      ToMap(r.textServers) == ToMap(b.textServers)[from := msg.value.files]
      && r.cache == b.cache && r.events == b.events
    ensures !(msg == Some(ServerTypeReply(TextServer)) || (msg.Some? && msg.value.TextFilesList?)) ==>
      r == HandleMsg(b, t, j, msg, from, session)
  {
    match msg
      case Some(ServerTypeReply(TextServer)) =>
        PutIsInsert(b.textServers, from, []);
        Send(b.(textServers := Put(b.textServers, from, [])), from, TextFilesListQuery, None)
      case Some(TextFilesList(files)) =>
        PutIsInsert(b.textServers, from, files);
        RetryPending(b.(textServers := Put(b.textServers, from, files)), t)
      case _ => HandleMsg(b, t, j, msg, from, session)
  }

  /**
   * With the corrected handling, a text server that announces itself is
   * asked for its files, and the list it answers with is the one the
   * browser keeps.
   */
  lemma AnnouncedServerListKept(b: WebBrowser, t: UuidText, j: Json, from: NodeId, files: seq<string>, s1: nat, s2: nat)
    ensures var once := HandleMsgCorrected(b, t, j, Some(ServerTypeReply(TextServer)), from, s1);
      var r := HandleMsgCorrected(once, t, j, Some(TextFilesList(files)), from, s2);
      && once.outbox[|b.outbox|] == Outgoing(from, TextFilesListQuery, None)
      && from in ToMap(r.textServers) && ToMap(r.textServers)[from] == files
  {
  }
}

=== FILE: web_exchange.dfy ===
/**
 * The browser and the media server together: a text file's media query,
 * the media server's answer, and the browser's handling of that answer.
 */
module WebExchange {

  import opened Wrappers
  import opened Assoc
  import opened AppCommon
  import opened ValueTypes
  import WebBrowserApp
  import MediaServerApp

  /**
   * A text file with one reference arrives at the browser; the browser
   * queries the reference's location; a media server there that stores
   * the media answers with it; the browser then reports the complete file.
   * This needs uuid text and media JSON to read back what they write, and
   * no other cached text file to reference the same media.
   */
  lemma MediaFetchCompletesFile(b: WebBrowserApp.WebBrowser, srv: MediaServerApp.MediaServer, t: UuidText, j: Json,
                                f: TextFile, m: MediaFile, session: nat)
    requires ParsesOwnText(t) && MediaJsonRoundTrips(j)
    requires |f.mediaRefs| == 1 && f.mediaRefs[0].id == m.id && b.controllerUp
    requires forall i :: 0 <= i < |b.cache| && b.cache[i].0 != f ==> m.id !in GetMediaIds(b.cache[i].0)
    requires Get(srv.stored, m.id) == Some(m)
    ensures var b1 := WebBrowserApp.ManageTextFile(b, t, f, session);
      var query := b1.outbox[|b.outbox|];
      var srv1 := MediaServerApp.HandleMsg(srv, t, j, Some(query.payload), b.id, session);
      var reply := srv1.outbox[|srv.outbox|];
      var b2 := WebBrowserApp.HandleMsg(b1, t, j, Some(reply.payload), query.to, session);
      && query.to == f.mediaRefs[0].location
      && reply.to == b.id
      && b2.events == b1.events + [WebBrowserApp.FileReady(NewFile(f, [m]))]
  {
    var b1 := WebBrowserApp.ManageTextFile(b, t, f, session);
    var query := b1.outbox[|b.outbox|];
    assert query == Outgoing(f.mediaRefs[0].location, MediaQuery(t.show(m.id)), Some(session));
    MediaServerApp.StoredMediaServed(srv, t, j, m, b.id, session);
    assert j.decodeMedia(j.encodeMedia(m)) == Some(m);
    WebBrowserApp.TextThenMediaCompletes(b, t, f, m, session);
  }
}

=== FILE: wrappers.dfy ===
/** Optional values and fallible results, in the shape of Rust's `Option` and `Result`. */
module Wrappers {

  datatype Option<T> = None | Some(value: T)

  datatype Result<T, E> = Ok(value: T) | Err(error: E)
  {
    predicate IsFailure() {
      Err?
    }
  }
}
